=== FILE: README.md ===
# Project Optics core, modelled in Dafny

Project Optics is a dashboard over Azure DevOps work items. It fetches
projects, iterations and work items, maps the raw payloads into typed work
items, and presents them on three pages: the Dashboard, Reports and the
Watch List. This project models the logic behind those pages as pure Dafny
functions, and proves what each one promises.

What is modelled:

- **Work-item ingestion** (`Ingest`, `WorkItems`, `Colors`). This covers:
  - state and type decoding;
  - issue and risk link detection;
  - the parent id taken from the last hierarchy link;
  - batching of detail requests;
  - the WIQL iteration clause with its quote escaping.
- **Hierarchy and tables** (`Tree`, `NodeSort`, `Gantt`, `ItemsTable`, `Paging`):
  - the forest built from weak parent links, grouped by area path and flattened under a set of expanded ids;
  - the Gantt chart's ordering, inherited end dates, group ranges and timeline extent;
  - the work-items table's comparator, grouping, paging and sort toggling.
- **Metrics hooks** (`Metrics`, `Velocity`, `Sprints`, `SprintTrends`, `Workload`, `Burndown`):
  - cycle times and the state and type distributions;
  - velocity over the most recent sprints, and the sprint-over-sprint trends;
  - team workload;
  - the sprint burndown series.
- **RAID log** (`Raid`, `RaidMetrics`, `RaidCharts`, `RaidTable`, `Tally`). A RAID item is one of the categories Issue, Risk, Dependency, Decision and Critical Dependency. This covers:
  - categories and tags;
  - the RAID summary metrics;
  - the age, trend, assignee, project and state charts;
  - the RAID table with its impacted-items view.
- **Project report** (`ProjectReport`, `Wiki`):
  - progress, status, end date, milestones and watch list;
  - the wiki page parser that supplies the report's fields and sections.
- **Selection, filters and pages** (`Selection`, `ProjectSelector`, `Filters`, `Pages`):
  - `Project\Area` selection entries;
  - the project selector's toggles and label;
  - the type, RAID-type, sprint and sync-indicator filters;
  - each page's pipeline of area, resource and date filters.
- **UI store and URL hash** (`UIStore`, `HashSync`):
  - the store's reducers and its persisted projection;
  - the `#page=..&projects=..` hash written from the store and read back.

Modelling conventions:

- **Times** are `int` milliseconds since the epoch. A calendar day is `ms / 86 400 000`.
- **Story points** are `real`. `Math.round` is `Floor(x + 1/2)`.
- **`localeCompare`** is a lexicographic order on character codes (`StrCompare`). It is proved to be a total order.
- **Sorting:**
  - Every `Array.prototype.sort` is one stable insertion sort, `SortBy`, over a comparator in the JavaScript convention.
  - Each comparator is proved to be a total preorder.
  - A stable sort is unique for a given comparator, so `SortBy` agrees with the engine's sort.

Behaviour of the source that the proofs make explicit:

- The type filter labels one selected type "1 Types".
- A `parentId` of 0 counts as no parent.
- Two items that are each other's parent form a 2-cycle. Neither becomes a root, so both vanish from the tree.
- RAID priorities outside 1..4 get no bar on the priority chart.
- Sprint de-duplication keeps the last sprint of a given name.

## Model

| member | source | states |
|---|---|---|
| UIStore.PageOf | src/hooks/useHashSync.ts:4 | a name yields a page exactly when it is that page's name, so page names and pages correspond one to one |
| UIStore.DifferEmpty | src/store/uiStore.ts:37-56 | two store states are equal exactly when no field differs, so the field-difference sets used by the reducers below are exact |
| UIStore.Initial | src/store/uiStore.ts:37-45 | the store starts on the dashboard with no project, sprint, resource or date range, archived hidden, no sync recorded, and dark mode taken from the colour-scheme preference |
| UIStore.SetActivePage | src/store/uiStore.ts:47 | the page is the one given and no other field changes |
| UIStore.SetSelectedProjects | src/store/uiStore.ts:48 | the project selection is the one given and no other field changes |
| UIStore.SetSelectedSprint | src/store/uiStore.ts:49 | the sprint is the one given and no other field changes |
| UIStore.SetSelectedResource | src/store/uiStore.ts:50 | the resource is the one given and no other field changes |
| UIStore.SetDateRange | src/hooks/useHashSync.ts:72-75 | the date range is the one given and no other field changes |
| UIStore.ToggleArchived | src/store/uiStore.ts:51-52 | the archived flag flips and it is the only field that changes |
| UIStore.ToggleDarkMode | src/store/uiStore.ts:53-54 | dark mode flips and it is the only field that changes |
| UIStore.SetSyncState | src/store/uiStore.ts:55-56 | the sync time and fetching flag are recorded, a refetch callback is registered, and nothing outside the sync fields changes |
| UIStore.TogglesInvolutive | src/store/uiStore.ts:51-54 | toggling archived or dark mode twice gives back the original state |
| UIStore.PersistExactlySix | src/store/uiStore.ts:60-67 | two states are stored alike exactly when they agree on the six persisted fields: page, projects, sprint, resource, archived flag and dark mode |
| UIStore.Rehydrate | src/store/uiStore.ts:60-67 | a rehydrated state stores back as exactly the stored projection and differs from the fresh state only on persisted fields |
| UIStore.PersistRoundTrip | src/store/uiStore.ts:60-67 | saving and restoring brings back the six persisted fields of the saved state and keeps the fresh state's date range and sync fields |
| UIStore.SyncNotPersisted | src/store/uiStore.ts:55-67 | recording a sync never changes what is stored |
| Colors.WorkItemColor | src/lib/colors.ts:46-50 | the linked-issue colour is chosen exactly for the issue tier (an Issue or an item with a linked issue), the linked-risk colour exactly for the risk tier, and every other item gets its state's colour |
| Colors.WorkItemBgClass | src/lib/colors.ts:69-73 | the same three tiers choose the badge classes: issue classes, risk classes, or the state's classes |
| Colors.ColorAndClassAgree | src/lib/colors.ts:46-73 | chart colour and badge class always come from the same tier, and a linked issue wins over a linked risk |
| Raid.AllCategoriesListed | src/lib/raidHelpers.ts:9-15 | the category list names every category, once each |
| Raid.CategoryNameInjective | src/lib/raidHelpers.ts:7 | distinct categories have distinct display names |
| Raid.ParseTags | src/lib/raidHelpers.ts:17-20 | a missing or empty tag string gives no tags; every tag is non-empty, has no surrounding white space and contains no ';' |
| Raid.ParseTagsJoin | src/lib/raidHelpers.ts:17-20 | clean tags joined with ';' parse back to the same list (the partner of ParseTags) |
| Raid.TagCategory | src/lib/raidHelpers.ts:28-31 | a tag names only Dependency, Decision or Critical Dependency, and only when its lower-case form is that name's |
| Raid.TagCategoryComplete | src/lib/raidHelpers.ts:28-31 | conversely, every tag whose lower-case form matches a tag category's name is recognised as that category |
| Raid.FirstTagCategory | src/lib/raidHelpers.ts:27-34 | the tag loop finds nothing exactly when no tag names a category |
| Raid.FirstTagDecides | src/lib/raidHelpers.ts:27-32 | the first tag, in order, that names a category decides the result |
| Raid.GetRaidCategory | src/lib/raidHelpers.ts:22-35 | Issues and Risks are their own categories regardless of tags; any other item is categorised by its tags |
| Raid.RaidByTag | src/lib/raidHelpers.ts:37-39 | an item that is neither Issue nor Risk is a RAID item exactly when one of its tags names a tag category |
| Sprints.SortNewestFirst | src/hooks/useVelocity.ts:21-25 | sorting by start keeps exactly the given sprints and orders them newest first, with a missing start counting as time 0 |
| Sprints.NewestFirstOrdered | src/hooks/useSprintTrends.ts:30-34 | a list sorted by the comparator has non-increasing start times |
| Sprints.RecentFirst | src/hooks/useSprintTrends.ts:28-34 | the past and current sprints, as a permutation of the filtered list, newest first |
| Sprints.RecentFirstMembers | src/hooks/useSprintTrends.ts:28-29 | a sprint is listed exactly when it is one of the given sprints and past or current |
| Velocity.ChartSprints | src/hooks/useVelocity.ts:19-27 | the chart shows min(lastN, number of past/current sprints) sprints, each past or current, oldest first, and takes no sprint more often than the past/current list holds it (a sub-multiset of it) |
| Velocity.ChartSprintsAreMostRecent | src/hooks/useVelocity.ts:19-27 | a past or current sprint left off the chart started no later than any sprint shown |
| Velocity.SprintItems | src/hooks/useVelocity.ts:29-36 | a sprint's items are exactly the Closed or Resolved items on its iteration path |
| Velocity.PointFor | src/hooks/useVelocity.ts:33-53 | a data point carries the sprint's name and path, counts exactly the sprint's completed items and sums exactly their story points, a missing estimate counting 0 |
| Velocity.BreakdownSums | src/hooks/useVelocity.ts:38-45 | the per-project breakdown has one entry per project and its shares add up to the sprint's completed points |
| Velocity.AverageVelocity | src/hooks/useVelocity.ts:56-63 | with no sprints the average is 0; otherwise it is the mean of the points per sprint rounded to one decimal: within 0.05 of the mean and a whole number of tenths |
| Velocity.AverageVelocityNonNegative | src/hooks/useVelocity.ts:56-63 | the rounded average of non-negative points is non-negative |
| Velocity.ComputeVelocity | src/hooks/useVelocity.ts:12-67 | one data point per chart sprint, in chart order, at most lastN of them, and the average is taken over those points |
| Velocity.PointForNonNegative | src/hooks/useVelocity.ts:41-45 | with non-negative story points a sprint's completed points are non-negative |
| Velocity.VelocityNonNegative | src/hooks/useVelocity.ts:41-63 | with non-negative story points the average velocity is non-negative |
| SprintTrends.PctChange | src/hooks/useSprintTrends.ts:18-21 | against a zero base there is a change exactly when the figure grew, and then it is 100 %; against a non-zero base there always is one, the relative difference in per cent rounded to the nearest whole number |
| SprintTrends.PctChangeSign | src/hooks/useSprintTrends.ts:18-21 | against a positive base the change has the sign of the difference and is 0 % when nothing changed |
| SprintTrends.PctChangeSame | src/hooks/useSprintTrends.ts:18-21 | an unchanged figure shows no change at a zero base and 0 % otherwise |
| SprintTrends.AvgCycle | src/hooks/useSprintTrends.ts:70-78 | the mean cycle time is 0 when nothing is measured and otherwise lies between the smallest and largest measured time |
| SprintTrends.AsTrend | src/hooks/useSprintTrends.ts:85-88 | a trend is shown exactly when its delta is defined, with that delta and the fixed caption |
| SprintTrends.ComputeTrends | src/hooks/useSprintTrends.ts:23-91 | fewer than two past/current sprints give no trends; otherwise each trend is present exactly when its delta is defined, carries the caption, and the cycle-time trend is the negated delta |
| SprintTrends.NoChangeNoTrend | src/hooks/useSprintTrends.ts:40-89 | when the current and previous sprints hold the same items, every trend shown is 0 |
| SprintTrends.TrendInputs | src/hooks/useSprintTrends.ts:36-48 | the previous items are those on the second most recent sprint's path; the current items are those on the path of any sprint whose time frame is current |
| HashSync.EncodeChar | src/hooks/useHashSync.ts:29-44 | a reserved character becomes a three-character '%' escape, any other character stays as it is, and no output contains '&', '=' or ',' |
| HashSync.Encode | src/hooks/useHashSync.ts:29-44 | encoded text never contains '&', '=' or ',', so an encoded value cannot break the hash's separators |
| HashSync.Unescape | src/hooks/useHashSync.ts:13-14 | a valid escape stands only for a character that encoding escapes |
| HashSync.DecodePlain | src/hooks/useHashSync.ts:13-14 | text without '%' decodes to itself |
| HashSync.DecodeOne | src/hooks/useHashSync.ts:13-14 | decoding one encoded character in front of any text gives that character back in front of the decoded rest |
| HashSync.DecodeEncodeAppend | src/hooks/useHashSync.ts:13-14 | decoding consumes an encoded prefix exactly, whatever follows it |
| HashSync.DecodeEncode | src/hooks/useHashSync.ts:13-44 | decoding inverts encoding (the partner of Encode) |
| HashSync.DecodeJoined | src/hooks/useHashSync.ts:31 | decoding the comma-joined encoded names gives the names joined with commas |
| HashSync.SplitPair | src/hooks/useHashSync.ts:11-14 | a piece is skipped exactly when it has no '='; otherwise it is split at its first '=' into a key without '=' and the rest |
| HashSync.SplitPairOf | src/hooks/useHashSync.ts:11-14 | a key without '=' followed by '=' and any value splits back into that key and value |
| HashSync.RawPairsFromPieces | src/hooks/useHashSync.ts:10-16 | every pair read comes from one of the '&'-separated pieces |
| HashSync.RawPairsCoverPieces | src/hooks/useHashSync.ts:10-16 | every piece that holds '=' contributes its pair |
| HashSync.AssignDomain | src/hooks/useHashSync.ts:15 | the parameter keys are exactly the keys of the pairs |
| HashSync.AssignLast | src/hooks/useHashSync.ts:15 | a key takes the value of the last pair that carries it |
| HashSync.DecodePairs | src/hooks/useHashSync.ts:13-14 | each pair's key and value are decoded, pair by pair |
| HashSync.ParseHash | src/hooks/useHashSync.ts:6-18 | an empty hash gives no parameters |
| HashSync.ParseHashKeys | src/hooks/useHashSync.ts:6-18 | every parameter is the decoded key of some `key=value` piece of the hash |
| HashSync.LaterPairWins | src/hooks/useHashSync.ts:10-16 | appending `&key=value` to a non-empty hash overwrites the decoded key with the decoded value and changes no other parameter |
| HashSync.HashFields | src/hooks/useHashSync.ts:28-45 | the page is always written, and written first |
| HashSync.PairTexts | src/hooks/useHashSync.ts:29-44 | each field becomes the text `key=value` |
| HashSync.BuildHash | src/hooks/useHashSync.ts:20-47 | the hash is never empty, because the page is always written |
| HashSync.NullIfEmpty | src/hooks/useHashSync.ts:64-69 | an empty value clears the filter and any other value sets it |
| HashSync.PageParam | src/hooks/useHashSync.ts:58-60 | the page changes only to a page the hash names, and a valid page name in the hash is always taken |
| HashSync.ProjectsParam | src/hooks/useHashSync.ts:61-63 | the project list changes only when the hash holds a non-empty one, and then it is taken |
| HashSync.FilterParam | src/hooks/useHashSync.ts:64-69 | a present key sets the filter, an empty value clearing it, and an absent key leaves it alone |
| HashSync.ApplyNavigation | src/hooks/useHashSync.ts:58-69 | the page changes only to a valid page named in the hash; projects change only for a non-empty list; sprint and resource follow their keys whenever present, an empty value clearing them; nothing else changes |
| HashSync.ApplyExtras | src/hooks/useHashSync.ts:70-75 | archived is switched on by `archived=1` and never switched off; the date range is set only from both ends and always when both are non-empty; nothing else changes |
| HashSync.RestoreOnLoad | src/hooks/useHashSync.ts:52-76 | a hash without parameters changes nothing; otherwise only the navigation fields, the archived flag and the date range can change |
| HashSync.RestoreOnHashChange | src/hooks/useHashSync.ts:88-106 | nothing changes while the store's own write is in flight; otherwise only the four navigation fields can change |
| HashSync.HashChangeAgreesWithLoad | src/hooks/useHashSync.ts:52-106 | on a hash with parameters the two handlers agree on the navigation fields and can differ only in the archived flag and the date range |
| HashSync.RestoreOnLoadCorrected | src/hooks/useHashSync.ts:52-76 | the corrected mount effect keeps the same frame: no parameters change nothing, and only the six hashed fields can change |
| HashSync.HashFieldsShape | src/hooks/useHashSync.ts:28-45 | every field written has a key without '=', '&' or '%' and a value without '&' |
| HashSync.BuiltPairs | src/hooks/useHashSync.ts:6-47 | the built hash splits back into exactly the written field pairs |
| HashSync.ParseBuilt | src/hooks/useHashSync.ts:6-47 | `parseHash` after `buildHash`: every written field reads back under its own key with its original value, the project names comma-joined |
| HashSync.JoinedNonEmpty | src/hooks/useHashSync.ts:61-62 | a non-empty project list is picked up exactly when its joined text is non-empty |
| HashSync.NavigationLookups | src/hooks/useHashSync.ts:29-38 | the page is always read back; projects, sprint and resource are read back exactly when they were written, with their values; no extra key appears |
| HashSync.ExtraLookups | src/hooks/useHashSync.ts:39-45 | archived is read back as "1" exactly when set; both ends of the date range exactly when there is one; no navigation key appears |
| HashSync.ParsedFields | src/hooks/useHashSync.ts:6-47 | the parameters read from a built hash carry every written field under its own key and no key for an unwritten one |
| HashSync.RawProjects | src/hooks/useHashSync.ts:31 | before decoding, the project value of a built hash is the comma-joined encoded names |
| HashSync.CorrectedProjectsRoundTrip | src/hooks/useHashSync.ts:61-63 | with the corrected reading (split first, decode each name once) any project names come back exactly |
| HashSync.ApplyCarried | src/hooks/useHashSync.ts:58-75 | applying parameters that carry a state, with the project list read correctly, restores that state's hashed fields |
| HashSync.RoundTrip | src/hooks/useHashSync.ts:20-76 | the corrected restore of a built hash reproduces every field the hash carries and keeps every other field; archived is only switched on |
| HashSync.RoundTripFromInitial | src/hooks/useHashSync.ts:20-76 | from the initial store, restoring a built hash gives back the saved state exactly, apart from dark mode and the sync fields, when no field holds a value the hash cannot tell from absence |
| HashSync.AsWrittenProjects | src/hooks/useHashSync.ts:61-62 | as written, the project list is the comma-joined names split at every comma, each part decoded a second time |
| HashSync.CommaNameSplits | src/hooks/useHashSync.ts:61-62 | the single name "a,b" is read back as the two names "a" and "b" |
| HashSync.AsWrittenSplitsComma | src/hooks/useHashSync.ts:61-62 | a project named "a,b" is restored as the two selections "a" and "b" |
| HashSync.AsWrittenPlainNames | src/hooks/useHashSync.ts:61-62 | names free of ',' and '%' survive the double decoding unchanged |
| Filters.Toggled | src/components/dashboard/TypeFilter.tsx:61-66 | toggling keeps the selection free of duplicates and flips exactly the one option: it is removed when selected and added otherwise |
| Filters.ToggledTwice | src/components/watchlist/RaidTypeFilter.tsx:37-42 | toggling the same option twice gives back the same set of selected options, of the same size |
| Filters.TypeOptionsDistinct | src/components/dashboard/TypeFilter.tsx:19-28 | the eight menu options are distinct, so `selectAll` selects eight, and none is called "All Types" |
| Filters.TypeLabel | src/components/dashboard/TypeFilter.tsx:47-59 | eight selected read "All Types", none "No Types", Area Path alone reads "Area Path", one work type reads its own name, and anything else reads the number of selected work types other than Area Path followed by " Types" |
| Filters.TypeCountIsTypes | src/components/dashboard/TypeFilter.tsx:50 | the type count is the number of selected options other than Area Path |
| Filters.TypeLabelAll | src/components/dashboard/TypeFilter.tsx:47-59 | over menu options, the label reads "All Types" exactly when every option is selected |
| Filters.TypeLabelNotAll | src/components/dashboard/TypeFilter.tsx:47-59 | with fewer than eight options selected no branch of the label reads "All Types" |
| Filters.TypeSelectionLabels | src/components/dashboard/TypeFilter.tsx:32-74 | after `selectAll` the label reads "All Types", after `clearAll` "No Types", and the default selection reads "3 Types" |
| Filters.TypeLabelAreaPlusOne | src/components/dashboard/TypeFilter.tsx:50-59 | Area Path with one work type reads "1 Types" |
| Filters.TypeToggleTwiceLabel | src/components/dashboard/TypeFilter.tsx:47-66 | toggling an option twice leaves the label as it was |
| Filters.ToggledStaysInMenu | src/components/dashboard/TypeFilter.tsx:61-66 | toggling a menu option keeps the selection within the menu |
| Filters.RaidLabel | src/components/watchlist/RaidTypeFilter.tsx:26-35 | all five categories read "All Types", none "No Types", one category its own name, and two to four the count followed by " Types" |
| Filters.AllCategoriesCounted | src/components/watchlist/RaidTypeFilter.tsx:26 | a selection's size is its number of categories, and it is five exactly when every category is selected |
| Filters.RaidLabelAll | src/components/watchlist/RaidTypeFilter.tsx:26-35 | the RAID label reads "All Types" exactly when every category is selected |
| Filters.RaidCountLabelRange | src/components/watchlist/RaidTypeFilter.tsx:33-35 | a count label names between two and four categories |
| Filters.RaidSelectionLabels | src/components/watchlist/RaidTypeFilter.tsx:44-50 | after `selectAll` the RAID label reads "All Types" and after `clearAll` "No Types" |
| Filters.RaidToggleTwiceLabel | src/components/watchlist/RaidTypeFilter.tsx:26-42 | toggling a category twice leaves the label as it was |
| Filters.UniqueSprints | src/components/filters/SprintSelector.tsx:22-32 | the listed sprints have distinct names and are no more than the given sprints |
| Filters.UniqueSprintsNames | src/components/filters/SprintSelector.tsx:22-32 | every name of the input is listed, and every listed sprint is one of the input's |
| Filters.UniqueSprintsKeepLast | src/components/filters/SprintSelector.tsx:22-32 | for a shared name the listed sprint is the last of that name in newest-first order, so the one with the oldest start |
| Filters.UniqueSprintsOrder | src/components/filters/SprintSelector.tsx:22-32 | names are listed in the order of their newest sprint, newest first |
| Filters.CurrentSprint | src/components/filters/SprintSelector.tsx:25-34 | there is a current sprint exactly when some sprint's time frame is current, and it is the current sprint with the newest start, because the sort before it works in place |
| Filters.SelectValue | src/components/filters/SprintSelector.tsx:38 | no selection shows the "all" entry |
| Filters.OnValueChange | src/components/filters/SprintSelector.tsx:39 | choosing the "all" entry, and only that, clears the selection |
| Filters.SelectValueRoundTrip | src/components/filters/SprintSelector.tsx:38-39 | choosing the value shown changes nothing, and a chosen value is shown as itself |
| Filters.SprintOptions | src/components/filters/SprintSelector.tsx:45-56 | the entries are "All Sprints", then "Current Sprint (name)" exactly when there is a current sprint, then one entry per unique sprint in order |
| Filters.FriendlyTimeSince | src/components/dashboard/SyncIndicator.tsx:12-21 | the label starts with "Synced " and follows the elapsed time: just now under a minute, a few minutes under five, recently under thirty, less than an hour under sixty, about an hour in the second hour, and then the whole hours |
| Filters.FriendlyIsBandText | src/components/dashboard/SyncIndicator.tsx:12-21 | the label depends on the elapsed time only through its band |
| Filters.FriendlyTimeDistinct | src/components/dashboard/SyncIndicator.tsx:12-21 | different bands give different labels, so the label tells the bands apart |
| Filters.SyncLabel | src/components/dashboard/SyncIndicator.tsx:42-44 | no sync reads "Not synced yet" and a sync reads a "Synced ..." label |
| Filters.NotSyncedExactly | src/components/dashboard/SyncIndicator.tsx:42-44 | the label reads "Not synced yet" exactly when there has been no sync |
| Filters.DotOf | src/components/dashboard/SyncIndicator.tsx:50-57 | the dot pulses exactly while fetching, is green exactly when idle after a sync, and grey exactly when idle with no sync |
| Ingest.StateOf | src/services/api/workItems.ts:13 | a raw state name is recognised exactly when it is the wire name of a state, and then it decodes to that state |
| Ingest.ToState | src/services/api/workItems.ts:16-18 | a known state name decodes to itself; any other name decodes to New |
| Ingest.TypeOf | src/services/api/workItems.ts:14 | a raw type name is recognised exactly when it is the wire name of a type |
| Ingest.ToType | src/services/api/workItems.ts:20-22 | a known type name decodes to itself; any other name decodes to Task |
| Ingest.DecodeRoundTrip | src/services/api/workItems.ts:13-22 | decoding the wire name of any state or type gives it back (the partner of ToState and ToType) |
| Ingest.LinkIn | src/services/api/workItems.ts:24-38 | a relation URL shows an issue link only when it contains "/issue/", a risk link only when it contains "/risk/", and no link exactly when it contains neither |
| Ingest.DigitSuffixLen | src/services/api/workItems.ts:62 | the digit suffix is the longest run of digits ending the text |
| Ingest.TrailingIdOfLink | src/services/api/workItems.ts:62-63 | a work-item link URL gives back the id it was built from, whatever the letter case of the `/workItems/` segment |
| Ingest.LastParentLink | src/services/api/workItems.ts:59-64 | the last child-to-parent link is found exactly when there is one, and no parent link follows it |
| Ingest.ParentIdScanIsLast | src/services/api/workItems.ts:59-64 | the parent-id loop keeps the id of the last parent link, or nothing when there is none |
| Ingest.LastParentLinkUnique | src/services/api/workItems.ts:59-64 | a parent link with none after it is the last parent link |
| Ingest.SetByAnyExists | src/services/api/workItems.ts:26-47 | a flag that is only ever set ends up set exactly when it started set or some element sets it |
| Ingest.MapWorkItem | src/services/api/workItems.ts:49-105 | id and project are copied; state and type are decoded or defaulted; an item has a linked issue (risk) exactly when some relation shows one directly or points at an Issue (Risk) of the batch; it has no parent exactly when no relation is a parent link |
| Ingest.LinkFlags | src/services/api/workItems.ts:26-70 | the direct pass followed by the related-item pass sets each flag exactly when some relation gives evidence for it |
| Ingest.MapWorkItemParent | src/services/api/workItems.ts:57-64 | the parent id is the id named by the last parent link |
| Ingest.TypeMap | src/services/api/workItems.ts:162-166 | the type lookup holds an entry for every item of the batch and for nothing else |
| Ingest.TypeMapLastWins | src/services/api/workItems.ts:162-166 | the type recorded for an id is the type of the last item with that id |
| Ingest.Chunk | src/services/api/workItems.ts:108-114 | every chunk is non-empty and at most `size` long, and all but the last are exactly `size` long |
| Ingest.ChunkConcat | src/services/api/workItems.ts:108-114 | the chunks put back together are the input (the partner of Chunk) |
| Ingest.ChunkCount | src/services/api/workItems.ts:108-114 | there are just enough chunks to hold every element and no more |
| Ingest.FetchWorkItemDetails | src/services/api/workItems.ts:137-169 | no ids give no work items without any request |
| Ingest.FetchBatches | src/services/api/workItems.ts:142 | every id is requested exactly once, in order, in batches of at most 200 |
| Ingest.FetchKeepsPayloads | src/services/api/workItems.ts:154-168 | one work item per item of the fulfilled batches, in batch order and keeping its id; failed batches contribute nothing |
| Ingest.EscapeLength | src/lib/constants.ts:43 | escaping doubles each quote, so the path grows by its number of quotes |
| Ingest.EscapeKeepsOthers | src/lib/constants.ts:43 | escaping changes no character other than the quotes |
| Ingest.UnescapeEscape | src/lib/constants.ts:43 | collapsing the doubled quotes recovers the original path (the partner of the escape) |
| Ingest.ReadQuotedEscaped | src/lib/constants.ts:43-48 | an escaped path followed by a closing quote reads back, as a WIQL string literal, as exactly that path |
| Ingest.IterationQuery | src/lib/constants.ts:42-51 | the iteration query starts with the fixed head and an opening quote |
| Ingest.IterationClauseReadsBack | src/lib/constants.ts:42-51 | the iteration clause's literal holds exactly the path, whatever quotes it contains, and the query goes on unchanged after it |
| Ingest.WiqlFor | src/services/api/workItems.ts:174-184 | no or an empty iteration path queries all items; any other path queries that iteration, and its literal reads back as the path |
| WorkItems.StartOfDay | src/components/dashboard/SprintBurndown.tsx:48-49 | the start of the day is a whole-day boundary at or before the time and less than a day before it |
| WorkItems.DifferenceInDays | src/hooks/useMetrics.ts:36-38 | the whole days between two times, truncated toward zero: non-negative and within a day of the exact difference when the later time is later, non-positive otherwise |
| WorkItems.StateNameInjective | src/services/api/workItems.ts:13 | distinct states have distinct wire names |
| WorkItems.TypeNameInjective | src/services/api/workItems.ts:14 | distinct types have distinct wire names |
| WorkItems.FullStateSet | src/components/dashboard/GanttChart.tsx:108-111 | a state selection with as many members as there are states holds every state |
| WorkItems.StateFilter | src/components/dashboard/GanttChart.tsx:108-111 | the shortcut for a full selection never changes the outcome: the result is always the items whose state is selected |
| Gantt.InheritedEnd | src/components/dashboard/GanttChart.tsx:58-70 | an inherited end is the own end of some item of the lookup reached through a parent id not yet visited, and an item without a parent inherits nothing |
| Gantt.AncestorIds | src/components/dashboard/GanttChart.tsx:58-70 | the walk visits a chain of distinct known parent ids, starting at the item's parent and following each item's parent in turn |
| Gantt.FirstOwnEnd | src/components/dashboard/GanttChart.tsx:65-66 | the walk finds no end exactly when no ancestor on the chain has a closed or target date |
| Gantt.InheritedIsNearestAncestor | src/components/dashboard/GanttChart.tsx:58-70 | the inherited end date is the end of the nearest dated ancestor on a chain that never repeats a parent id, so the loop stops even on a cycle |
| Gantt.InheritedIgnoresOwnDates | src/components/dashboard/GanttChart.tsx:58-70 | an item's own closed and target dates play no part in what it inherits |
| Gantt.EndDateSources | src/components/dashboard/GanttChart.tsx:72-80 | the end date is the item's own end when it has one, else the nearest dated ancestor's end, else today; without a lookup it is the own end or today |
| Gantt.GanttOrderIsPreorder | src/components/dashboard/GanttChart.tsx:44-48 | the chart's comparator (hierarchy rank, then start date) is a total preorder, so sorting with it is well defined |
| Gantt.SortGanttOrdered | src/components/dashboard/GanttChart.tsx:43-52 | after `sortNodes` siblings are in (rank, start date) order at every level and no item is lost or duplicated |
| Gantt.SortGanttDeep | src/components/dashboard/GanttChart.tsx:43-52 | the top level and every level below are sorted by the comparator, over the same items |
| Gantt.GanttPairs | src/components/dashboard/GanttChart.tsx:44-48 | two siblings in comparator order have the lower rank first, or equal ranks and the earlier start first |
| Gantt.GroupRange | src/components/dashboard/GanttChart.tsx:136-143 | a group has a range exactly when it has a label and at least one root |
| Gantt.GroupRangeBounds | src/components/dashboard/GanttChart.tsx:127-143 | a group's range is attained and tight: its start and end are the start and end of items in the subtree, and bound all of them |
| Gantt.CollectKeys | src/components/dashboard/GanttChart.tsx:136-144 | the range map has a key exactly for the groups that produced a range |
| Gantt.CollectDistinct | src/components/dashboard/GanttChart.tsx:136-144 | with distinct group ids each group's entry holds its own range |
| Gantt.GroupRangesKeys | src/components/dashboard/GanttChart.tsx:125-146 | only labelled, non-empty groups have a range, and every such group has one |
| Gantt.GroupRangesDistinct | src/components/dashboard/GanttChart.tsx:125-146 | with distinct group ids each labelled non-empty group finds its own range in the map |
| Gantt.Extents | src/components/dashboard/GanttChart.tsx:158-171 | each visible row contributes at most one extent; which one is stated by ExtentOfRow, ExtentOfGroupRow and ExtentsFromRows |
| Gantt.DayShift | src/components/dashboard/GanttChart.tsx:175-176 | moving a time by whole days moves its calendar day by as many days |
| Gantt.TimelineSpan | src/components/dashboard/GanttChart.tsx:155-179 | no extent gives 30 days from today; otherwise the timeline starts exactly seven days before the earliest start and ends at least seven days after every end; it is 14 days long or ends exactly seven days after some extent's end |
| Gantt.VisibleItemsInside | src/components/dashboard/GanttChart.tsx:155-179 | every visible item's bar starts at least seven days after the timeline start and ends at least seven days before its end |
| Gantt.ExtentOfRow | src/components/dashboard/GanttChart.tsx:158-164 | every visible item row contributes the extent from its start date to its end date |
| Gantt.ExtentOfGroupRow | src/components/dashboard/GanttChart.tsx:164-170 | every visible group row whose group has a date range contributes that range |
| Gantt.ExtentsFromRows | src/components/dashboard/GanttChart.tsx:157-171 | every extent the span reads is the one some visible row contributes: an item row's start-to-end range, or the range of a group row's group |
| Gantt.VisibleSpanStart | src/components/dashboard/GanttChart.tsx:157-178 | when some row takes part, the timeline starts exactly seven days before the start of some visible row's extent |
| Gantt.VisibleGroupsInside | src/components/dashboard/GanttChart.tsx:164-178 | every visible group's range lies at least seven days inside the timeline at both ends |
| Tree.RankTable | src/lib/workItemTree.ts:5-17 | Epic to Risk rank 0 to 6 in that order, and a type name ranks 99 exactly when it names no known type |
| Tree.FilterByTopLevel | src/lib/workItemTree.ts:41-45 | the Area Path level keeps every item; a type level keeps exactly the items ranked at or below it in the hierarchy |
| Tree.FilterByTopLevelKeepsOrder | src/lib/workItemTree.ts:41-45 | the kept items are a subsequence of the input, in input order |
| Tree.Attach | src/lib/workItemTree.ts:55-63 | each parent has one children list, and every item lands exactly once, either among the roots or in a children list |
| Tree.AttachCharacterized | src/lib/workItemTree.ts:55-63 | the roots are exactly the items without a usable parent, in input order; the children lists are the attached items grouped by parent id |
| Tree.ChildrenCharacterized | src/lib/workItemTree.ts:56-62 | the children of a parent id are exactly the items whose usable parent is that id, in input order |
| Tree.KidsOfGroupBy | src/lib/workItemTree.ts:58-59 | looking up a parent id in the grouping gives exactly the items with that parent id |
| Tree.TwoCycleHasNoRoot | src/lib/workItemTree.ts:56-63 | two items that are each other's parent both become children, so neither shows as a root |
| Tree.NodeItems | src/lib/workItemTree.ts:50-53 | the node map has one entry per id of the input and each entry's item carries that id |
| Tree.NodeItemsUnique | src/lib/workItemTree.ts:50-53 | with unique ids every item is found under its own id |
| Tree.BuildNodesTop | src/lib/workItemTree.ts:49-66 | the top-level nodes built for a list of items hold those items, in order |
| Tree.BuildTreeRoots | src/lib/workItemTree.ts:49-66 | with unique ids the forest's top level is exactly the root items, in input order |
| Tree.DisplayArea | src/lib/workItemTree.ts:70-78 | a non-empty display area is the rest of an area path that starts with "Project\", and such an area path always yields its rest |
| Tree.AreaOrderIsPreorder | src/lib/workItemTree.ts:88-93 | the group comparator (labelled groups by caption, the unlabelled group last) is a total preorder |
| Tree.GroupByAreaPath | src/lib/workItemTree.ts:95-99 | a group's id is "area:" and its caption, or empty for the unlabelled group |
| Tree.GroupByAreaPathContents | src/lib/workItemTree.ts:80-100 | each group holds exactly the roots with its display area, in input order, and at least one of them |
| Tree.GroupByAreaPathDistinct | src/lib/workItemTree.ts:80-100 | there is one group per display area: captions are distinct |
| Tree.GroupByAreaPathCovers | src/lib/workItemTree.ts:80-100 | every root's display area has a group |
| Tree.GroupByAreaPathSizes | src/lib/workItemTree.ts:80-100 | no root is lost or duplicated: the group sizes add up to the number of roots |
| Tree.GroupByAreaPathOrder | src/lib/workItemTree.ts:88-93 | labelled groups come in ascending caption order and the unlabelled group, if any, comes last |
| Tree.AreaPairOrder | src/lib/workItemTree.ts:88-93 | of two groups in order the first is labelled, and the second is unlabelled or has a caption no smaller |
| Tree.FlattenAllExpanded | src/lib/workItemTree.ts:104-118 | with every parent key expanded, flattening emits every reachable node in pre-order, each one level below its parent |
| Tree.FlattenNoneExpanded | src/lib/workItemTree.ts:104-118 | with nothing expanded, flattening emits only the given level |
| Tree.ExpandAllShowsEverything | src/lib/workItemTree.ts:120-162 | after "expand all" every group header and every reachable node is shown, in pre-order |
| Tree.CollapseAllShowsTopOnly | src/lib/workItemTree.ts:120-142 | with nothing expanded only the group headers and the unlabelled group's roots are shown |
| NodeSort.OnItemsPreorder | src/components/dashboard/GanttChart.tsx:43-48 | a total preorder on items is one on the nodes holding them |
| NodeSort.SortForest | src/components/dashboard/GanttChart.tsx:43-52 | `sortNodes` keeps the level's nodes (with their children sorted) as a permutation and puts them in comparator order |
| NodeSort.SortEach | src/components/dashboard/GanttChart.tsx:49-51 | every node keeps its item, in place, with its children sorted recursively |
| NodeSort.SortForestSortedDeep | src/components/dashboard/GanttChart.tsx:43-52 | after `sortNodes` every level of the forest is in comparator order |
| NodeSort.SortedLevelPairs | src/components/dashboard/GanttChart.tsx:44-48 | on a sorted level every earlier item compares at most equal to every later one |
| NodeSort.SortForestOfSorted | src/components/dashboard/GanttChart.tsx:43-52 | a forest already sorted at every level is left as it is |
| NodeSort.SortForestIdempotent | src/components/dashboard/GanttChart.tsx:43-52 | sorting twice is sorting once |
| NodeSort.SubforestNeedsNoSort | src/components/dashboard/GanttChart.tsx:117-120 | a level taken in order out of a sorted forest, as a group's roots are, needs no sorting |
| NodeSort.ItemsPermutation | src/components/dashboard/GanttChart.tsx:44 | reordering a level keeps every item of the forest |
| NodeSort.SortForestItems | src/components/dashboard/GanttChart.tsx:43-52 | `sortNodes` neither loses nor duplicates an item, at any depth |
| NodeSort.ItemList | src/components/dashboard/GanttChart.tsx:127-135 | the walk over a subtree visits every item of the forest exactly once |
| NodeSort.GroupedForest | src/components/dashboard/GanttChart.tsx:113-123 | without area grouping there is one unlabelled group holding the sorted forest; with it there is one group per display area of the sorted roots |
| NodeSort.GroupResortIsNoop | src/components/dashboard/GanttChart.tsx:117-120 | sorting each area group again changes nothing, because the groups inherit the order of the sorted roots |
| NodeSort.GroupedForestSorted | src/components/dashboard/GanttChart.tsx:113-123 | every level of every group is in comparator order |
| ItemsTable.KeyCompareIsPreorder | src/components/dashboard/WorkItemsTable.tsx:54-78 | every column orders items as a total preorder whose reverse is one too |
| ItemsTable.CompareBySortKeyFacts | src/components/dashboard/WorkItemsTable.tsx:54-80 | 'desc' is 'asc' negated; missing story points compare like 0; an unassigned item sorts first in ascending assignee order |
| ItemsTable.TableOrderIsPreorder | src/components/dashboard/WorkItemsTable.tsx:83-87 | the table comparator (hierarchy rank, then the chosen column and direction) is a total preorder |
| ItemsTable.SortTableOrdered | src/components/dashboard/WorkItemsTable.tsx:82-91 | siblings are ordered by rank, then by the column in the chosen direction; every level is sorted; no item is lost or duplicated |
| ItemsTable.SortTableDeep | src/components/dashboard/WorkItemsTable.tsx:82-91 | the top level and every level below are sorted by the table comparator, over the same items |
| ItemsTable.TablePairs | src/components/dashboard/WorkItemsTable.tsx:83-87 | two siblings in table order have the lower rank first, or equal ranks and the column order |
| ItemsTable.TableGroups | src/components/dashboard/WorkItemsTable.tsx:116-126 | any top level other than Area Path gives one unlabelled group |
| ItemsTable.TableGroupsFiltered | src/components/dashboard/WorkItemsTable.tsx:111-126 | for a top level other than Area Path, the one group's roots hold exactly the items of the forest built from the items kept by the state filter and then the top-level filter |
| ItemsTable.TableGroupsByArea | src/components/dashboard/WorkItemsTable.tsx:108-126 | for Area Path, the table's default top level, the groups split the sorted roots of the kept items between them, every root in a group and group sizes adding up, and those roots hold exactly the items of the forest of the kept items |
| ItemsTable.AreaGroupsSplit | src/components/dashboard/WorkItemsTable.tsx:120-123 | every group root is one of the roots, every root is in a group, and the group sizes add up to the number of roots |
| ItemsTable.TablePage | src/components/dashboard/WorkItemsTable.tsx:133-134 | a page holds at most 20 rows |
| ItemsTable.ToggleExpandAll | src/components/dashboard/WorkItemsTable.tsx:152-156 | anything open closes everything; with nothing open every expandable id opens, and nothing else |
| ItemsTable.ExpandAllRows | src/components/dashboard/WorkItemsTable.tsx:128-156 | "expand all" from nothing shows every reachable row; pressed again it shows only the top level |
| ItemsTable.ToggleExpandTwice | src/components/dashboard/WorkItemsTable.tsx:136-143 | toggling one row's expansion twice restores the expanded set |
| Paging.ToggleSort | src/components/dashboard/WorkItemsTable.tsx:158-166 | the same column flips direction, a new column starts descending, and the page goes back to the first |
| Paging.ToggleSortTwice | src/components/dashboard/WorkItemsTable.tsx:158-166 | clicking the same column twice restores the direction, on the first page |
| Paging.DirectedIsPreorder | src/components/dashboard/WorkItemsTable.tsx:79 | a column order applied in either direction is a total preorder |
| Paging.DescIsReversedAsc | src/components/dashboard/WorkItemsTable.tsx:79 | descending order is ascending order read backwards |
| Paging.TotalPages | src/components/dashboard/WorkItemsTable.tsx:133 | the page count is the least number of pages that holds every row |
| Paging.PageSlice | src/components/dashboard/WorkItemsTable.tsx:134 | a page holds at most one page size of rows, and a page past the last is empty |
| Paging.PageBeyondEnd | src/components/dashboard/WorkItemsTable.tsx:133-134 | a page number at or past the page count starts at or after the last row |
| Paging.ChunkAt | src/components/dashboard/WorkItemsTable.tsx:134 | the p-th chunk is the slice starting at p times the page size, at most one page long |
| Paging.PageIsChunk | src/components/dashboard/WorkItemsTable.tsx:134 | the rows of page p are the p-th chunk of the rows |
| Paging.PageCount | src/components/dashboard/WorkItemsTable.tsx:133 | there are as many pages as chunks |
| Paging.PagesPartition | src/components/dashboard/WorkItemsTable.tsx:133-134 | the pages partition the rows in order, each page non-empty and at most one page size long |
| Metrics.CycleTimes | src/hooks/useMetrics.ts:34-39 | every cycle time kept is non-negative and there is at most one per item |
| Metrics.MeasuredIff | src/hooks/useMetrics.ts:34-39 | an item is measured exactly when it has both dates and was closed less than a whole day before it was activated, or later |
| Metrics.CycleTimesCount | src/hooks/useMetrics.ts:34-39 | there is one cycle time per item with both dates and a non-negative difference; every other item is left out rather than counted as 0 |
| Metrics.ComputeMetrics | src/hooks/useMetrics.ts:13-59 | the total counts every item and each state count the items in that state; total points sum every item's points and completed points those of the Closed or Resolved items; velocity is left at 0; the mean cycle time is 0 when nothing is measured and otherwise the mean of the measured days rounded to the nearest whole day |
| Metrics.StateCountsSum | src/hooks/useMetrics.ts:15-19 | the five state counts add up to the number of items |
| Metrics.CompletedWithinTotal | src/hooks/useMetrics.ts:21-31 | with non-negative points the completed points never exceed the total, and the state counts add up to the total |
| Metrics.Percentage | src/hooks/useMetrics.ts:68-77 | the share of the count in the whole (a whole of 0 counting as 1) in per cent, rounded to the nearest whole number; between 0 and 100 for a count of at most the whole |
| Metrics.DistributionNames | src/hooks/useMetrics.ts:69-79 | one bar per distinct value: no two bars share a name |
| Metrics.DistributionCounts | src/hooks/useMetrics.ts:67-80 | one bar per tallied value, named after it, counting exactly the items with that value and giving that count's share of all items; the counts add up to the number of items, come largest first, and each is at least one with a percentage between 0 and 100 |
| Metrics.DistributionBarCounts | src/hooks/useMetrics.ts:67-80 | each bar counts exactly the items whose value carries the bar's name, and its percentage is that count's share of all items |
| Metrics.DistributionCovers | src/hooks/useMetrics.ts:70-72 | every item's value has a bar |
| Metrics.DistributionFacts | src/hooks/useMetrics.ts:64-103 | a distribution chart has distinct names, counts summing to the input, largest first and percentages in range; each bar counts exactly the items shown under its name, with that count's share of all items; it is empty exactly for no items; every item's value has a bar |
| Metrics.StateDistributionFacts | src/hooks/useMetrics.ts:64-81 | the state chart is a distribution over the items with one bar per state present, each counting exactly the items in that state |
| Metrics.WorkTypeDistributionFacts | src/hooks/useMetrics.ts:86-103 | the work-type chart is a distribution over the items with one bar per type present, each counting exactly the items of that type |
| Workload.Stories | src/hooks/useTeamWorkload.ts:24-26 | the stories are exactly the assigned user stories |
| Workload.TeamWorkload | src/hooks/useTeamWorkload.ts:19-75 | the entries are the per-assignee aggregates of the stories, reordered so that story points never increase |
| Workload.GroupedAggregates | src/hooks/useTeamWorkload.ts:39-58 | each accumulated entry counts exactly its member's stories, completed stories, points and completed points |
| Workload.WorkloadEntries | src/hooks/useTeamWorkload.ts:39-70 | every entry is exactly the aggregate of its member's stories |
| Workload.WorkloadNamesDistinct | src/hooks/useTeamWorkload.ts:28-70 | no assignee has two entries |
| Workload.WorkloadNamesCover | src/hooks/useTeamWorkload.ts:39-70 | every assignee of a story has an entry |
| Workload.WorkloadStoriesSum | src/hooks/useTeamWorkload.ts:39-70 | the entries' story counts add up to the number of stories |
| Workload.WorkloadBounds | src/hooks/useTeamWorkload.ts:49-55 | completed stories never exceed stories, and with non-negative points velocity lies between 0 and the member's load |
| Workload.MemberBounds | src/hooks/useTeamWorkload.ts:49-55 | the same bounds for a single member's aggregate |
| Burndown.CompletionDate | src/components/dashboard/SprintBurndown.tsx:34-38 | only Closed or Resolved items have a completion date: the closed (resolved) date when present, else the last state change, and none when both are missing |
| Burndown.IdealLine | src/components/dashboard/SprintBurndown.tsx:66 | the ideal line starts at the total, reaches 0 on the last day and drops by the same amount every day |
| Burndown.IdealBounds | src/components/dashboard/SprintBurndown.tsx:66 | for a non-negative total the ideal line stays between 0 and the total over the sprint |
| Burndown.RemainingFacts | src/components/dashboard/SprintBurndown.tsx:72-81 | with non-negative points the open points lie between 0 and the total and never grow as the days pass |
| Burndown.PointAt | src/components/dashboard/SprintBurndown.tsx:64-89 | a day's point carries its day number and date, and has an actual value exactly when its date is not after today |
| Burndown.Series | src/components/dashboard/SprintBurndown.tsx:64-90 | the series holds one point per day, in day order |
| Burndown.WholeDays | src/components/dashboard/SprintBurndown.tsx:48-50 | the whole days between two day starts are the difference of their day numbers |
| Burndown.BurndownSeries | src/components/dashboard/SprintBurndown.tsx:45-90 | no sprint, a missing date or a window of no whole day gives no points; otherwise one point per day of the window, finish day included, each with its date, and an actual value exactly up to today |
| Burndown.SeriesIdeal | src/components/dashboard/SprintBurndown.tsx:64-87 | the rounded ideal column runs from the rounded total down to 0 and never leaves that range |
| Burndown.PointActualBounds | src/components/dashboard/SprintBurndown.tsx:68-88 | one day's rounded actual value lies between 0 and the rounded total |
| Burndown.PointActualMono | src/components/dashboard/SprintBurndown.tsx:68-88 | a later day with an actual value follows an earlier day with one, and has no more points open |
| Burndown.SeriesActual | src/components/dashboard/SprintBurndown.tsx:64-90 | the actual column stays between 0 and the rounded total, is present up to today and never rises |
| Burndown.BurndownLines | src/components/dashboard/SprintBurndown.tsx:45-90 | for the sprint's items with non-negative points, the ideal line runs from the rounded total to 0, and the actual line never rises and stays within range |
| RaidMetrics.RaidItems | src/hooks/useRaidMetrics.ts:31 | the RAID items are exactly the items that are RAID items |
| RaidMetrics.OpenRaid | src/hooks/useRaidMetrics.ts:32 | the open RAID items are exactly the RAID items that are New or Active |
| RaidMetrics.Ages | src/hooks/useRaidMetrics.ts:25-27 | one age per item: the whole days since its creation, never negative |
| RaidMetrics.ComputeRaidMetrics | src/hooks/useRaidMetrics.ts:29-43 | the total counts the RAID items; open issues, open risks and high priority count exactly the open RAID items of category Issue, of category Risk and of priority 1 or 2, and the first two together are at most the open RAID items; the mean age is 0 with nothing open and otherwise the mean of the open items' ages rounded to the nearest day, between the youngest and oldest |
| RaidMetrics.RaidMetricsCounts | src/hooks/useRaidMetrics.ts:34-36 | each count of the summary is positive exactly when some open RAID item is an Issue, a Risk, or of priority 1 or 2 respectively |
| RaidMetrics.CountPositiveIff | src/hooks/useRaidMetrics.ts:34-36 | a filtered count is positive exactly when some element passes the filter |
| RaidMetrics.TypeDistribution | src/hooks/useRaidMetrics.ts:45-56 | one entry per category present among the RAID items, each counting its items and at least one, counts adding up to the RAID count, largest first |
| RaidMetrics.PresentPriorities | src/hooks/useRaidMetrics.ts:66-68 | a priority is on the chart exactly when it is in the fixed order and some RAID item carries it |
| RaidMetrics.PriorityDistribution | src/hooks/useRaidMetrics.ts:58-71 | one bar per present priority, labelled `P<n>` or "Unset", counting the RAID items with that priority, at least one |
| RaidMetrics.PriorityOrderKept | src/hooks/useRaidMetrics.ts:66-68 | the bars follow the fixed order P1, P2, P3, P4, Unset |
| RaidMetrics.OutOfScaleDropped | src/hooks/useRaidMetrics.ts:63-68 | a priority outside 1 to 4 gets no bar, however many RAID items carry it |
| RaidMetrics.PriorityLabels | src/hooks/useRaidMetrics.ts:63-66 | the labels of the fixed order are P1, P2, P3, P4 and Unset |
| RaidCharts.FirstBucket | src/components/watchlist/RaidAgeChart.tsx:43-48 | the bucket loop stops at the first bucket whose bound exceeds the age, or at the last bucket |
| RaidCharts.AgeBucket | src/components/watchlist/RaidAgeChart.tsx:41-49 | every age lands in one of the four buckets |
| RaidCharts.AgeBucketRanges | src/components/watchlist/RaidAgeChart.tsx:23-28 | the buckets are the day ranges under 7, 7 to 29, 30 to 89, and 90 or more |
| RaidCharts.AgeChart | src/components/watchlist/RaidAgeChart.tsx:36-52 | always the four buckets, in order and labelled, each counting the New or Active items of its age |
| RaidCharts.AgeChartTotal | src/components/watchlist/RaidAgeChart.tsx:38-51 | every New or Active item lands in exactly one bucket, so the buckets add up to the open count |
| RaidCharts.WeekStartDay | src/components/watchlist/RaidTrendChart.tsx:33 | the week of a day starts on the Monday at most six days before it |
| RaidCharts.WeekIndexIff | src/components/watchlist/RaidTrendChart.tsx:37-51 | a time falls in bucket i exactly when its day lies in the i-th week of the window |
| RaidCharts.TrendChart | src/components/watchlist/RaidTrendChart.tsx:25-59 | twelve weeks, each starting on a Monday seven days after the previous, the last holding today; each week counts the RAID items created in it and those resolved in it |
| RaidCharts.WeekRows | src/components/watchlist/RaidTrendChart.tsx:54-58 | one row per bucket, the i-th week starting 7 i days after the window start, with its counts |
| RaidCharts.WindowMondays | src/components/watchlist/RaidTrendChart.tsx:29-35 | every week of the window starts on a Monday and the last one holds today |
| RaidCharts.TrendChartTotals | src/components/watchlist/RaidTrendChart.tsx:37-52 | each RAID item adds at most one to "created" and at most one to "resolved" |
| RaidCharts.AssigneeChart | src/components/watchlist/RaidAssigneeChart.tsx:24-41 | at most eight bars: the sorted tally when it has at most eight names, otherwise its seven largest and an "Other" bar; the bars add up to the open RAID count |
| RaidCharts.AssigneeTotal | src/components/watchlist/RaidAssigneeChart.tsx:27-34 | the assignee tally adds up to the open RAID count |
| RaidCharts.ProjectChart | src/components/watchlist/RaidProjectChart.tsx:21-31 | one bar per project of a RAID item, counting its RAID items and at least one, counts adding up to the RAID count, largest first |
| RaidCharts.StateChart | src/components/watchlist/RaidStateChart.tsx:22-31 | one bar per state present among all the items, counting its items and at least one, counts adding up to their number, largest first |
| Tally.ByCountDescIsPreorder | src/components/watchlist/RaidProjectChart.tsx:30 | the count order of the charts is a total preorder |
| Tally.TallyDesc | src/components/watchlist/RaidProjectChart.tsx:24-30 | the sorted tally is a permutation of the counting loop's entries, with counts never increasing |
| Tally.TallyFacts | src/components/watchlist/RaidProjectChart.tsx:24-29 | the counting loop has one entry per distinct key in first-occurrence order, each counting the inputs with its key and at least one, adding up to the input length |
| Tally.TallyDescFacts | src/components/watchlist/RaidProjectChart.tsx:24-30 | the sorted tally has one entry per distinct key, covers every input's key, counts each key's inputs, adds up to the input length, and never increases |
| Tally.FoldRest | src/components/watchlist/RaidAssigneeChart.tsx:36-40 | a list of at most eight entries is kept; a longer one keeps its first seven and ends with one "Other" entry holding the rest's total; the total is unchanged either way |
| RaidTable.DaysSince | src/components/watchlist/RaidTable.tsx:41-43 | the whole days elapsed since creation: the largest r with r days fitting in the elapsed time, and 0 for a creation time in the future |
| RaidTable.DaysSinceAntitone | src/components/watchlist/RaidTable.tsx:41-43 | an item created earlier is never younger |
| RaidTable.RaidRows | src/components/watchlist/RaidTable.tsx:80-104 | every row is that of an item shown under the view, built the same way, and every shown item has a row |
| RaidTable.RaidRowsAreShownItems | src/components/watchlist/RaidTable.tsx:80-104 | the rows' items are exactly the shown items in input order, one row each, as filter then map gives them |
| RaidTable.NormalRowFacts | src/components/watchlist/RaidTable.tsx:91-103 | in the RAID view a row carries its item's RAID category, and that category and the item's state are both selected |
| RaidTable.ImpactedRowFacts | src/components/watchlist/RaidTable.tsx:81-89 | in the impacted view no row is a RAID item; a row is an Issue exactly when its item links an issue, and a Risk exactly when it links a risk and no issue |
| RaidTable.InitialViewShowsAllRaid | src/components/watchlist/RaidTable.tsx:70-72 | with every category and every state selected, an item has a row exactly when it is a RAID item |
| RaidTable.ViewsDisjoint | src/components/watchlist/RaidTable.tsx:80-104 | no item has a row in both the RAID view and the impacted view |
| RaidTable.ColumnCompareIsPreorder | src/components/watchlist/RaidTable.tsx:108-135 | the comparison of every column is a total preorder and swapping its arguments flips its sign |
| RaidTable.SortRows | src/components/watchlist/RaidTable.tsx:106-139 | the sorted rows are a permutation of the rows, ordered by the column in the chosen direction |
| RaidTable.SortRowsIdempotent | src/components/watchlist/RaidTable.tsx:106-139 | sorting sorted rows again by the same column and direction changes nothing |
| RaidTable.MissingPrioritySortsLast | src/components/watchlist/RaidTable.tsx:123-124 | sorting by priority ascending lists every row with a priority below 99 before every row without one |
| RaidTable.InitialOrderNewestFirst | src/components/watchlist/RaidTable.tsx:66-67 | in the initial order, by creation date descending, no row is created after a row above it |
| RaidTable.AgeFollowsCreation | src/components/watchlist/RaidTable.tsx:87-102 | rows built at one instant: an item created no earlier is no older |
| RaidTable.ParentOf | src/components/watchlist/RaidTable.tsx:253 | a parent is shown exactly for a nonzero parent id the lookup holds, and it is the looked-up item |
| RaidTable.ParentLookupLastWins | src/components/watchlist/RaidTable.tsx:74-78 | the lookup holds an id exactly when some work item carries it, and maps it to the last such item |
| RaidTable.ToggleParentRow | src/components/watchlist/RaidTable.tsx:144-151 | toggling an item shows its parent row exactly when it was collapsed and has a parent, and leaves every other item's parent row as it was |
| ProjectReport.Lookup | src/hooks/useProjectReport.ts:48-49 | a wiki field is present exactly when its key is, with that key's value |
| ProjectReport.ProjectItems | src/hooks/useProjectReport.ts:54 | the project's items are exactly the items whose project name matches |
| ProjectReport.Progress | src/hooks/useProjectReport.ts:75-82 | 0 when the user stories carry no points; otherwise the completed story points' share of all story points in per cent, rounded to the nearest whole number; between 0 and 100 with non-negative points |
| ProjectReport.ProgressBounds | src/hooks/useProjectReport.ts:81-82 | with non-negative points, the rounded share of completed story points lies between 0 and 100 |
| ProjectReport.RatioPercent | src/hooks/useProjectReport.ts:82 | a part of a positive whole is between 0 and 100 percent of it |
| ProjectReport.WholeIsHundred | src/hooks/useProjectReport.ts:82 | the whole is exactly 100 percent of itself |
| ProjectReport.AllDoneIsComplete | src/hooks/useProjectReport.ts:76-82 | when every user story is Closed or Resolved and there are points, progress is 100 |
| ProjectReport.StatusMonotone | src/hooks/useProjectReport.ts:85-86 | more progress never gives a worse status; green exactly from 75, red exactly below 50 |
| ProjectReport.Targets | src/hooks/useProjectReport.ts:90-92 | the set target dates are exactly the target dates some item carries |
| ProjectReport.LatestTargetIsMax | src/hooks/useProjectReport.ts:89-96 | the last sorted target exists exactly when some item has a target, is an item's target, and no target is later |
| ProjectReport.LatestFinishIsMax | src/hooks/useProjectReport.ts:98-106 | the fallback exists exactly when a sprint of the project has a finish date, is such a date, and no such date is later |
| ProjectReport.LastChanged | src/hooks/useProjectReport.ts:110-113 | there is a last change exactly when there are items; it is an item's change date and none is later |
| ProjectReport.ByTargetDayIsPreorder | src/hooks/useProjectReport.ts:134-139 | the milestone comparator is a total preorder |
| ProjectReport.Milestones | src/hooks/useProjectReport.ts:123-139 | the rows are a permutation of the active features' rows; a dated row is never below an undated one, and dated rows are in date order |
| ProjectReport.MilestoneMembers | src/hooks/useProjectReport.ts:124-133 | a milestone row is listed exactly for each active feature |
| ProjectReport.WatchList | src/hooks/useProjectReport.ts:141-154 | at most one row per item, each an Issue or a Risk |
| ProjectReport.WatchListComplete | src/hooks/useProjectReport.ts:142-148 | every issue or risk that is neither Closed nor Removed has its row |
| ProjectReport.WatchListSound | src/hooks/useProjectReport.ts:142-154 | every row is that of an issue or risk that is neither Closed nor Removed, with "Unassigned" standing for no owner |
| ProjectReport.WatchListAppend | src/hooks/useProjectReport.ts:142-154 | the watch list keeps item order: the list of two runs of items is the first run's rows followed by the second's |
| ProjectReport.WatchListSingle | src/hooks/useProjectReport.ts:142-154 | a single item gives its own row exactly when it is an issue or risk that is neither Closed nor Removed, and nothing otherwise |
| ProjectReport.ComputeReport | src/hooks/useProjectReport.ts:44-172 | no report without a project name; the wiki parts come from the wiki data or are absent; a project with no items gets zero progress, red, no dates and empty lists; otherwise each figure is computed over the project's items |
| ProjectReport.EndDayFallback | src/hooks/useProjectReport.ts:88-107 | with any target date the end date exists and is no earlier than every target's day; the sprint fallback applies only when no item has a target |
| WorkItems.DayMonotone | src/hooks/useProjectReport.ts:96 | formatting a later time never gives an earlier day |
| Selection.ProjectOf | src/lib/selectionHelpers.ts:93-96 | the project part never holds a backslash, and an entry without one is its own project |
| Selection.AreaNameOf | src/lib/selectionHelpers.ts:84-88 | there is an area name exactly when the entry holds a backslash |
| Selection.SelectionRoundTrip | src/lib/selectionHelpers.ts:84-96 | project, backslash and area name put back together give the area entry |
| Selection.SelectionSplitsBack | src/lib/selectionHelpers.ts:84-96 | an entry built from a backslash-free project and any area splits back into those two parts |
| Selection.ParseLoop | src/lib/selectionHelpers.ts:26-37 | the area map built by the loop has each project at most once |
| Selection.ParseLoopProjects | src/lib/selectionHelpers.ts:26-37 | the loop's project set holds each entry's project once, in first-occurrence order |
| Selection.ParseLoopAreas | src/lib/selectionHelpers.ts:31-36 | the loop's area map groups the area entries by project, in input order |
| Selection.ParseLoopWhole | src/lib/selectionHelpers.ts:28-30 | the whole-project set holds exactly the entries without a backslash |
| Selection.GetProjectsToFetch | src/lib/selectionHelpers.ts:53-60 | distinct project names, each that of some entry, covering every entry's project |
| Selection.ProjectsToFetchAgree | src/lib/selectionHelpers.ts:21-60 | `getProjectsToFetch` and the project list of `parseSelections` are the same list |
| Selection.AreaFiltersCharacterized | src/lib/selectionHelpers.ts:39-47 | the area filters are keyed by distinct listed projects with no whole-project entry, each holding all that project's area entries in input order |
| Selection.AreaFiltersComplete | src/lib/selectionHelpers.ts:29-42 | every area entry whose project is not also selected whole is filed under its project's area filter |
| Selection.AreaEntryFiled | src/lib/selectionHelpers.ts:29-42 | an area entry whose project is not selected whole gives that project an area filter |
| Selection.Lookup | src/lib/selectionHelpers.ts:74 | a filter is found exactly for a project that has one, and it is that project's entry list |
| Selection.FilterByAreaSelections | src/lib/selectionHelpers.ts:67-78 | no filters keep everything; otherwise an item is kept exactly when its project has no filter or its area path is one of the filter's entries |
| Selection.FilterByAreaSelectionsKeepsOrder | src/lib/selectionHelpers.ts:73-77 | the kept items are a subsequence of the items, in their order |
| ProjectSelector.FullyImpliesAny | src/components/filters/ProjectSelector.tsx:63-79 | a fully selected project always has some selection |
| ProjectSelector.OwnsIffProject | src/components/filters/ProjectSelector.tsx:102-109 | for a project name without a backslash, an entry is the project or one of its area entries exactly when its project part is that name |
| ProjectSelector.AreaKeyOwned | src/components/filters/ProjectSelector.tsx:103-120 | an area key always belongs to its project |
| ProjectSelector.AreaKeyInjective | src/components/filters/ProjectSelector.tsx:120 | two areas of one project with the same key are the same area |
| ProjectSelector.ToggleProject | src/components/filters/ProjectSelector.tsx:97-116 | a fully selected project loses all its entries; otherwise all its entries are removed and its own name is appended last |
| ProjectSelector.ToggleProjectFlips | src/components/filters/ProjectSelector.tsx:97-116 | toggling a project flips whether it is fully selected |
| ProjectSelector.ToggleProjectKeepsOthers | src/components/filters/ProjectSelector.tsx:101-111 | the entries of every other project survive in their order |
| ProjectSelector.ToggleArea | src/components/filters/ProjectSelector.tsx:118-150 | a selected area is removed and nothing else; under a whole-project entry the project is replaced by the area; an area that completes the project collapses all its areas into the project entry; otherwise the area is appended |
| ProjectSelector.ToggleAreaKeepsOthers | src/components/filters/ProjectSelector.tsx:118-150 | the entries of every other project survive in their order |
| ProjectSelector.KeysNotProject | src/components/filters/ProjectSelector.tsx:120 | no area key equals the bare project name |
| ProjectSelector.KeysMembership | src/components/filters/ProjectSelector.tsx:134-137 | an area's key is among the keys of a list of areas exactly when the area is in the list |
| ProjectSelector.TogglePrefix | src/components/filters/ProjectSelector.tsx:132-146 | toggling the areas one by one, before the last, just appends their keys |
| ProjectSelector.ToggleAppends | src/components/filters/ProjectSelector.tsx:144-146 | an area that does not complete the project is appended |
| ProjectSelector.ToggleCompletes | src/components/filters/ProjectSelector.tsx:138-143 | toggling the last missing area leaves just the project entry |
| ProjectSelector.ToggleEveryAreaConsolidates | src/components/filters/ProjectSelector.tsx:118-150 | from an empty selection, toggling each area of a project once leaves just the project entry |
| ProjectSelector.VisibleProjects | src/components/filters/ProjectSelector.tsx:43-49 | a permutation of the projects, or of the non-archived ones when archived ones are hidden |
| ProjectSelector.VisibleProjectsSorted | src/components/filters/ProjectSelector.tsx:45-47 | the visible projects are in name order |
| ProjectSelector.SelectAll | src/components/filters/ProjectSelector.tsx:89-91 | one entry per visible project |
| ProjectSelector.SelectAllSelectsAll | src/components/filters/ProjectSelector.tsx:81-91 | after select-all, with some visible project, every visible project is fully selected |
| ProjectSelector.SelectionCount | src/components/filters/ProjectSelector.tsx:198-205 | at most one per entry, and 0 exactly for an empty selection |
| ProjectSelector.SelectionCountIsFetchCount | src/components/filters/ProjectSelector.tsx:198-205 | the count is the number of projects the selection fetches |
| ProjectSelector.LabelCases | src/components/filters/ProjectSelector.tsx:172-196 | "No Projects" for nothing, "All Projects" for everything, a count of projects for several, and a label starting with the project's name for one |
| ProjectSelector.LabelOneProject | src/components/filters/ProjectSelector.tsx:177-192 | with one project touched: its name when it is selected whole, "Project > Area" for a single area entry, and "Project (n areas)" for n area entries |
| ProjectSelector.LabelAreas | src/components/filters/ProjectSelector.tsx:187-192 | one project touched only through area entries gives "Project > Area" for one entry and "Project (n areas)" for more, both starting with the project's name |
| ProjectSelector.OneProjectAreaEntries | src/components/filters/ProjectSelector.tsx:184-188 | when all entries belong to one project not selected whole, every entry is one of its area entries |
| ProjectSelector.LabelSingleArea | src/components/filters/ProjectSelector.tsx:186-191 | one area of one project reads "Project > Area" |
| ProjectSelector.ProjectsWithAreas | src/components/filters/ProjectSelector.tsx:51-54 | exactly the visible projects with at least one area |
| ProjectSelector.ToggleAllAreas | src/components/filters/ProjectSelector.tsx:161-169 | collapses everything once as many are open as have areas, otherwise opens exactly the projects with areas, more than before |
| ProjectSelector.ToggleAllAreasTwice | src/components/filters/ProjectSelector.tsx:161-169 | opening everything then toggling again closes everything |
| Pages.Visible | src/pages/Dashboard.tsx:63-65 | the visible projects are exactly the fetched ones that are shown: all of them, or the non-archived ones |
| Pages.VisibleNames | src/pages/Dashboard.tsx:86-91 | one name per visible project |
| Pages.VisibleNamesCharacterized | src/pages/Dashboard.tsx:86-91 | a name is visible exactly when some shown project carries it |
| Pages.InitialSelection | src/pages/Dashboard.tsx:58-68 | on first load with projects and an empty selection, every visible project's name is selected; otherwise the selection is kept |
| Pages.ActiveProjectNames | src/pages/Dashboard.tsx:76-83 | every active name is parsed and visible, and every parsed visible name is active |
| Pages.ActiveProjectNamesKeepOrder | src/pages/Dashboard.tsx:82 | the active names keep the parsed order |
| Pages.ActiveAfterInitialSelection | src/pages/Dashboard.tsx:58-83 | right after the first-load selection the active projects are the visible ones, each name once |
| Pages.ResolveSprint | src/pages/Dashboard.tsx:100-108 | no selection gives no path; "__current__" gives none exactly when no iteration is current; any other value is its own path |
| Pages.ResolveCurrentIsFirst | src/pages/Dashboard.tsx:103-105 | "__current__" resolves to the path of the first current iteration |
| Pages.BurndownSprint | src/pages/Dashboard.tsx:344-348 | the burndown sprint is an iteration: with a path set, the one with that path if any; otherwise a current one if any |
| Pages.BurndownFollowsSelection | src/pages/Dashboard.tsx:100-108 | with distinct paths, no selection or "__current__" shows the first current iteration, and a selected path shows that sprint |
| Pages.CurrentPathFindsCurrent | src/pages/Dashboard.tsx:344-348 | with distinct paths, "__current__" shows the first current iteration |
| Pages.PathFindsSprint | src/pages/Dashboard.tsx:346 | with distinct paths, looking up a sprint's path finds that sprint |
| Pages.Assignments | src/pages/Dashboard.tsx:135-141 | at most one per item, including every assigned item's assignee |
| Pages.AssignmentsFromItems | src/pages/Dashboard.tsx:135-141 | every listed assignee is that of some item |
| Pages.UniqueResources | src/pages/Dashboard.tsx:132-146 | a permutation of the last assignment per unique name, in display-name order |
| Pages.UniqueResourcesDistinct | src/pages/Dashboard.tsx:132-146 | no unique name is listed twice |
| Pages.UniqueResourcesComplete | src/pages/Dashboard.tsx:132-146 | every assignee of an item is listed |
| Pages.UniqueResourcesLatest | src/pages/Dashboard.tsx:137-140 | each entry carries the display name of the last item assigned to its unique name |
| Pages.AreaStageIsFilter | src/pages/Dashboard.tsx:122-126 | the area stage is a filter by one test, also with no area filters |
| Pages.ResourceFilter | src/pages/Dashboard.tsx:148-154 | no selected resource keeps everything; otherwise exactly the items assigned to it |
| Pages.ResourceStageIsFilter | src/pages/Dashboard.tsx:148-154 | the resource stage is a filter by one test |
| Pages.DateFilter | src/pages/Dashboard.tsx:162-171 | no range keeps everything; otherwise exactly the items changed from the start up to a day after the end |
| Pages.DateStageIsFilter | src/pages/Dashboard.tsx:162-171 | the date stage is a filter by one test |
| Pages.DateRangeWholeDays | src/pages/Dashboard.tsx:165-169 | for a range of whole days, an item passes exactly when it changed on a day from the first to the last, both included |
| Pages.FilteredItems | src/pages/Dashboard.tsx:122-171 | the filtered items are never more than the fetched ones |
| Pages.FilteredItemsIsOneFilter | src/pages/Dashboard.tsx:122-171 | the three stages together filter by the conjunction of their tests |
| Pages.FilteredItemsCharacterized | src/pages/Dashboard.tsx:122-171 | the dashboard's items are, in fetched order, exactly the fetched items passing all three filters |
| Pages.StagesKeepOrder | src/pages/Dashboard.tsx:122-171 | each stage keeps a subsequence of what it is given |
| Pages.WatchListItems | src/pages/WatchList.tsx:102-127 | the watch list's items are the dashboard pipeline without the date stage |
| Pages.ReportProject | src/pages/Reports.tsx:182 | a report project exists exactly when one project is active, and it is that one |
| Pages.GateOrReport | src/pages/Reports.tsx:180-182 | the multi-project gate and the report never both apply, and one of them does exactly when some project is active |
| Pages.AreaNames | src/pages/Reports.tsx:188-190 | at most one name per entry; for area entries, exactly their area names in order |
| Pages.ReportAreaNames | src/pages/Reports.tsx:184-191 | no names without a report project or without an area filter for it |
| Pages.ReportAreaNamesRebuild | src/pages/Reports.tsx:184-191 | prefixed with the project and a backslash, the report's area names give back the project's area entries in order |
| Pages.LookupOfParsed | src/pages/Reports.tsx:186 | the filter filed under a project is that project's area entries |
| Pages.AreaNamesRebuild | src/pages/Reports.tsx:188-190 | area entries of one project rebuild from their area names |
| Pages.AreaLabel | src/pages/Reports.tsx:193 | there is a label exactly when there are area names |
| Pages.WikiArea | src/pages/Reports.tsx:195 | the wiki area exists exactly when there are area names, and it is the first |
| Pages.LabelAndWikiAgree | src/pages/Reports.tsx:193-195 | the label and the wiki area are present together, and equal for a single area |
| Pages.ExportFilename | src/pages/Reports.tsx:224-228 | the name starts with the project, then " - " and the area label when there is one, and ends with today's date and ".png" |
| Wiki.HeadingKey | src/lib/wikiParser.ts:22 | the key is shorter than the line, and empty exactly when everything after the '#' is blank |
| Wiki.HeadingKeyOf | src/lib/wikiParser.ts:18-22 | the line "# " + blanks + name, for a name with no surrounding blanks, is a heading whose key is the name lower-cased |
| Wiki.HeadingShape | src/lib/wikiParser.ts:18 | a heading line is exactly one the regex matches on its own line: '#', a run of one or more blanks, then at least one character; so "##" opens no section and "#  " does |
| Wiki.HeadingKeyNormal | src/lib/wikiParser.ts:22 | a section key has no surrounding blanks and no upper-case letter |
| Wiki.BodyLines | src/lib/wikiParser.ts:23-24 | a section's body runs over the lines after its heading up to, and not including, the next heading |
| Wiki.SectionAt | src/lib/wikiParser.ts:22-25 | a section's body carries no surrounding blanks |
| Wiki.SectionAtValue | src/lib/wikiParser.ts:21-25 | the section a heading opens has that heading's key, and its body is the trimmed text of the lines after the heading up to the next heading or the end of the page |
| Wiki.BodyLinesUpTo | src/lib/wikiParser.ts:23-24 | a body runs exactly over the lines before the first following heading, or to the end of the page |
| Wiki.Headings | src/lib/wikiParser.ts:18-19 | the heading positions are exactly the heading lines, in increasing order |
| Wiki.ScanFromHeadings | src/lib/wikiParser.ts:19-26 | every scanned section is the one some heading line opens |
| Wiki.ScanCoversHeadings | src/lib/wikiParser.ts:19-26 | every heading line's section is scanned |
| Wiki.IndexOfKey | src/lib/wikiParser.ts:17 | the position of the first section with the key, none exactly when no section has it |
| Wiki.Get | src/lib/wikiParser.ts:17 | a key is found exactly when some section has it |
| Wiki.GetPut | src/lib/wikiParser.ts:25 | after setting a section, its key reads its body and every other key reads as before |
| Wiki.Collect | src/lib/wikiParser.ts:16-29 | the map never has more sections than were scanned |
| Wiki.LastBody | src/lib/wikiParser.ts:21-26 | present exactly when some section has the key; then it is the body of the last such section |
| Wiki.GetCollect | src/lib/wikiParser.ts:21-26 | a later section with the same heading overwrites the earlier one |
| Wiki.CollectDistinct | src/lib/wikiParser.ts:16-29 | the map holds each key once |
| Wiki.CollectOrder | src/lib/wikiParser.ts:16-29 | the keys stand in the order in which their headings first appear |
| Wiki.CollectKeysFrom | src/lib/wikiParser.ts:16-29 | every key in the map is the key of some scanned section |
| Wiki.LookAhead | src/lib/wikiParser.ts:65-68 | present exactly when some key starts with "look ahead"; then it is the body of the first such section in map order |
| Wiki.NonBlankClean | src/lib/wikiParser.ts:41-42 | every kept piece is non-empty and trimmed |
| Wiki.NonBlankNoPipe | src/lib/wikiParser.ts:39-42 | trimming a pipe-free piece keeps it pipe-free |
| Wiki.Cells | src/lib/wikiParser.ts:39-42 | every cell is non-empty, trimmed and free of pipes |
| Wiki.TableCells | src/lib/wikiParser.ts:36-38 | one cell list per pipe line after the first two, in order |
| Wiki.RowsAfterRule | src/lib/wikiParser.ts:38 | the header and the rule are skipped; each later line gives its cells |
| Wiki.RowCellsOf | src/lib/wikiParser.ts:38-42 | one cell list per row |
| Wiki.Fields | src/lib/wikiParser.ts:43-45 | a field is present exactly when some row of at least two cells names it |
| Wiki.FieldsLastWins | src/lib/wikiParser.ts:43-45 | a later row naming the same field overwrites: the value is the second cell of the last row naming it |
| Wiki.FieldsValues | src/lib/wikiParser.ts:43-45 | every value is the second cell of some row naming the field |
| Wiki.ParseTable | src/lib/wikiParser.ts:34-49 | a field is present exactly when a table row of at least two cells names it; names and values are non-empty, trimmed and free of pipes |
| Wiki.RowSplit | src/lib/wikiParser.ts:40 | a rendered row splits at its pipes into the two padded cells between two empty pieces |
| Wiki.RowCells | src/lib/wikiParser.ts:39-42 | a rendered row reads back as its two cells |
| Wiki.RenderedPipeLines | src/lib/wikiParser.ts:36 | the lines of a rendered table are all pipe lines: header, rule, then one row per field |
| Wiki.RenderedRows | src/lib/wikiParser.ts:36-42 | the rows of a rendered table read back as the fields, in order |
| Wiki.TableRoundTrip | src/lib/wikiParser.ts:34-49 | a rendered table of distinct field names reads back: each field with its value, and nothing else |
| Wiki.ParseWikiPage | src/lib/wikiParser.ts:55-73 | nothing exactly for a blank page; otherwise the fields of the last "project data" section (none without one), the last "accomplishments" and "description" bodies, and the look-ahead body |

## Left out

- Network access, axios, React Query, React rendering and effect scheduling are not modelled: responses, "now" and the `prefers-color-scheme` query are parameters.
- The `persist` middleware's storage I/O is not modelled; only the projection it persists is.
- `history.replaceState`, `queueMicrotask` and the `hashchange` listener registration are browser calls and are left out; the state changes they trigger are modelled.
- The sync state's refetch callback is a function value and is reduced to whether one was registered.
- Time zones, date-fns formatting and ISO date parsing are not modelled: a date is its millisecond count and a `yyyy-MM-dd` day is the day number.
- `localeCompare` is modelled as code-point order, not a locale collation.
- `trim` recognises the ASCII blanks, NBSP and BOM rather than every Unicode space, and `toLowerCase` lowers only A–Z.
- `encodeURIComponent` and `decodeURIComponent` are modelled on '%', '&', '=' and ','; every other character passes through, and a malformed '%' escape passes through undecoded where the browser throws.
- src/store/uiStore.ts has no `dateRange` field or `setDateRange`, yet the pages and the hash sync use both: the model adds the field and its setter outside the persisted projection.
- The Dashboard reads `activeStoryPoints` and `cycleTimeItemCount`, which `useMetrics` never produces; they are not modelled.
- `filterByTypes` and the `StateFilter` component are not part of this model: the Gantt chart takes already filtered items, and `FullStateSet` stands for `ALL_STATES`.
- The Gantt chart's pixel geometry, today marker and zoom levels are rendering only and are left out.
- Tree.BuildNode: materialising nested tree nodes skips an id already on the current path; the guard never fires on the forest built from distinct ids, but that is not proved.
- Wiki.Headings: headings are matched line by line at '\n' only; a `\s+` of the heading regex spanning a line break is not modelled, nor are '\r', U+2028 and U+2029, which the multiline `^` and `$` also treat as line ends.
- Filters.UniqueSprints: SprintSelector sorts its prop array in place; the model returns the sorted copy and does not model the caller-visible mutation.
- ProjectSelector.VisibleProjects: when archived projects are shown, the selector sorts the fetched project array itself in place; the model returns the sorted copy and does not model the caller-visible mutation.
- src/pages/WatchList.tsx is modelled only through its item pipeline (`Pages.WatchListItems`); its layout and loading states are rendering.
- The slide export's PNG rendering is left out; only its file name is modelled.
- HashSync.RoundTripFromInitial: excludes a project list that is one empty name, an empty sprint or resource, and a date range the hash does not write, because the source reads each of those back as unset.

## Findings

| source | as written | input that shows it | evidently intended | confidence | as-written member | corrected member |
|---|---|---|---|---|---|---|
| src/hooks/useHashSync.ts:61-62 | the `projects` value, already decoded by `parseHash`, is split at ',' and each part decoded again | a selected project named "a,b" is written as `projects=a%2Cb` and restored as the two projects "a" and "b" | split the raw value at ',' first, then decode each name once | not executed | HashSync.AsWrittenSplitsComma | HashSync.RestoreOnLoadCorrected |

`HashSync.AsWrittenProjects` states what the code as written restores, and `HashSync.CommaNameSplits` exhibits the input. `HashSync.RestoreOnLoad` and `HashSync.RestoreOnHashChange` keep the as-written reading, because both handlers in the source contain it. The corrected restore splits the raw value before decoding (`HashSync.ProjectsCorrected`). `HashSync.CorrectedProjectsRoundTrip`, `HashSync.RoundTrip` and `HashSync.RoundTripFromInitial` prove that every hashed field comes back from it exactly.

=== FILE: burndown.dfy ===
/**
 * The sprint burndown series (src/components/dashboard/SprintBurndown.tsx):
 * one point per day of the sprint with the ideal straight line from the
 * sprint's total points down to 0 and, for days up to today, the points
 * still open at the end of that day.
 */
module Burndown {
  import opened Common
  import opened WorkItems

  /**
   * `getCompletionDate`: when a Closed or Resolved item was finished, its
   * closed (resp. resolved) date, falling back to the last state change.
   */
  function CompletionDate(w: WorkItem): (r: Option<int>)
    ensures r.Some? ==> IsCompleted(w)
    ensures r.Some? ==> r == w.closedDate || r == w.resolvedDate || r == w.stateChangeDate
    ensures w.state == Closed ==> (r.Some? <==> w.closedDate.Some? || w.stateChangeDate.Some?)
    ensures w.state == Resolved ==> (r.Some? <==> w.resolvedDate.Some? || w.stateChangeDate.Some?)
    ensures w.state == Closed && w.closedDate.Some? ==> r == w.closedDate
    ensures w.state == Resolved && w.resolvedDate.Some? ==> r == w.resolvedDate
  {
    if w.state == Closed then (if w.closedDate.Some? then w.closedDate else w.stateChangeDate)
    else if w.state == Resolved then (if w.resolvedDate.Some? then w.resolvedDate else w.stateChangeDate)
    else None
  }

  /** One day of the chart; `date` is the day's start as a timestamp, `actual` is absent for future days. */
  datatype BurndownPoint = BurndownPoint(day: nat, date: int, ideal: real, actual: Option<real>)

  /** The ideal line before rounding: `total - (total / totalDays) * day`. */
  function Ideal(total: real, totalDays: nat, day: int): real
    requires totalDays > 0
  {
    total - (total / totalDays as real) * day as real
  }

  /** The ideal line starts at the total, ends at 0 and drops by the same amount every day. */
  lemma IdealLine(total: real, totalDays: nat, day: int)
    requires totalDays > 0
    ensures Ideal(total, totalDays, 0) == total
    ensures Ideal(total, totalDays, totalDays) == 0.0
    ensures Ideal(total, totalDays, day + 1) == Ideal(total, totalDays, day) - total / totalDays as real
  {
    assert (total / totalDays as real) * totalDays as real == total;
  }

  /** For a non-negative total the ideal line stays within [0, total] over the sprint. */
  lemma IdealBounds(total: real, totalDays: nat, day: int)
    requires totalDays > 0 && total >= 0.0 && 0 <= day <= totalDays
    ensures 0.0 <= Ideal(total, totalDays, day) <= total
  {
    var rate := total / totalDays as real;
    assert rate >= 0.0;
    assert rate * day as real <= rate * totalDays as real;
    assert rate * totalDays as real == total;
  }

  /** Finished on or before the end of the given day. */
  function DoneBy(date: int): WorkItem -> bool
  {
    (w: WorkItem) => CompletionDate(w).Some? && StartOfDay(CompletionDate(w).value) <= date
  }

  /** Points still open at a date: the total minus the points finished by then. */
  function Remaining(items: seq<WorkItem>, date: int): real
  {
    SumReal(items, Points) - SumReal(Filter(items, DoneBy(date)), Points)
  }

  /** With non-negative points the open points lie in [0, total] and never grow as the days pass. */
  lemma RemainingFacts(items: seq<WorkItem>, d1: int, d2: int)
    requires NonNegativePoints(items)
    ensures 0.0 <= Remaining(items, d1) <= SumReal(items, Points)
    ensures d1 <= d2 ==> Remaining(items, d2) <= Remaining(items, d1)
  {
    SumRealFilterLe(items, DoneBy(d1), Points);
    if d1 <= d2 {
      SumRealFilterMono(items, DoneBy(d1), DoneBy(d2), Points);
    }
  }

  /** The chart point of one day. */
  function PointAt(items: seq<WorkItem>, start: int, totalDays: nat, today: int, day: nat): (p: BurndownPoint)
    requires totalDays > 0
    ensures p.day == day && p.date == start + day * MS_PER_DAY
    ensures p.actual.None? <==> p.date > today
  {
    var date := start + day * MS_PER_DAY;
    BurndownPoint(
      day, date,
      Round1(Ideal(SumReal(items, Points), totalDays, day)),
      if date > today then None else Some(Round1(Remaining(items, date))))
  }

  /** The points of days 0 .. n-1. */
  function Series(items: seq<WorkItem>, start: int, totalDays: nat, today: int, n: nat): (r: seq<BurndownPoint>)
    requires totalDays > 0
    ensures |r| == n
    ensures forall i :: 0 <= i < n ==> r[i] == PointAt(items, start, totalDays, today, i)
  {
    if n == 0 then [] else Series(items, start, totalDays, today, n - 1) + [PointAt(items, start, totalDays, today, n - 1)]
  }

  /** The sprint's items: those on its iteration path. */
  function InSprint(path: string): WorkItem -> bool
  {
    (w: WorkItem) => w.iterationPath == path
  }

  /** Both dates are set and the finish day is after the start day. */
  predicate HasWindow(sprint: Option<Sprint>)
  {
    sprint.Some? && sprint.value.startDate.Some? && sprint.value.finishDate.Some? &&
    Day(sprint.value.finishDate.value) > Day(sprint.value.startDate.value)
  }

  /** `differenceInDays` of two day starts is the difference of their day numbers. */
  lemma WholeDays(a: int, b: int)
    ensures DifferenceInDays(StartOfDay(a), StartOfDay(b)) == Day(a) - Day(b)
  {
    var k := Day(a) - Day(b);
    assert StartOfDay(a) - StartOfDay(b) == k * MS_PER_DAY;
    if k >= 0 {
      assert (k * MS_PER_DAY) / MS_PER_DAY == k;
    } else {
      assert ((-k) * MS_PER_DAY) / MS_PER_DAY == -k;
    }
  }

  /** The `burndownData` memo; `now` is the clock. */
  function BurndownSeries(items: seq<WorkItem>, sprint: Option<Sprint>, now: int): (r: seq<BurndownPoint>)
    ensures !HasWindow(sprint) ==> r == []
    ensures HasWindow(sprint) ==>
      var totalDays := Day(sprint.value.finishDate.value) - Day(sprint.value.startDate.value);
      |r| == totalDays + 1 &&
      forall i :: 0 <= i < |r| ==>
        r[i].day == i && r[i].date == StartOfDay(sprint.value.startDate.value) + i * MS_PER_DAY &&
        (r[i].actual.None? <==> r[i].date > StartOfDay(now))
  {
    if sprint.None? || sprint.value.startDate.None? || sprint.value.finishDate.None? then []
    else
      var start := StartOfDay(sprint.value.startDate.value);
      var finish := StartOfDay(sprint.value.finishDate.value);
      var totalDays := DifferenceInDays(finish, start);
      WholeDays(sprint.value.finishDate.value, sprint.value.startDate.value);
      if totalDays <= 0 then []
      else Series(Filter(items, InSprint(sprint.value.path)), start, totalDays, StartOfDay(now), totalDays + 1)
  }

  /** The ideal column of a series: from the rounded total down to 0, never outside that range. */
  lemma SeriesIdeal(items: seq<WorkItem>, start: int, totalDays: nat, today: int)
    requires totalDays > 0 && NonNegativePoints(items)
    ensures var r := Series(items, start, totalDays, today, totalDays + 1);
      var total := SumReal(items, Points);
      r[0].ideal == Round1(total) && r[totalDays].ideal == 0.0 &&
      forall i :: 0 <= i < |r| ==> 0.0 <= r[i].ideal <= Round1(total)
  {
    var r := Series(items, start, totalDays, today, totalDays + 1);
    var total := SumReal(items, Points);
    RoundInt(0);
    assert Round1(0.0) == 0.0;
    IdealLine(total, totalDays, 0);
    forall i | 0 <= i < |r| ensures 0.0 <= r[i].ideal <= Round1(total) {
      IdealBounds(total, totalDays, i);
      Round1Monotone(0.0, Ideal(total, totalDays, i));
      Round1Monotone(Ideal(total, totalDays, i), total);
    }
  }

  /** One day's actual value lies within [0, rounded total]. */
  lemma PointActualBounds(items: seq<WorkItem>, start: int, totalDays: nat, today: int, day: nat)
    requires totalDays > 0 && NonNegativePoints(items)
    ensures var p := PointAt(items, start, totalDays, today, day);
      p.actual.Some? ==> 0.0 <= p.actual.value <= Round1(SumReal(items, Points))
  {
    var date := start + day * MS_PER_DAY;
    var p := PointAt(items, start, totalDays, today, day);
    if p.actual.Some? {
      var rem := Remaining(items, date);
      assert p.actual.value == Round1(rem);
      RemainingFacts(items, date, date);
      Round1Bounds(rem, SumReal(items, Points));
    }
  }

  /** A later day that has an actual value follows an earlier day that has one, with no more points open. */
  lemma PointActualMono(items: seq<WorkItem>, start: int, totalDays: nat, today: int, i: nat, j: nat)
    requires totalDays > 0 && NonNegativePoints(items) && i <= j
    ensures var p := PointAt(items, start, totalDays, today, i);
      var q := PointAt(items, start, totalDays, today, j);
      q.actual.Some? ==> p.actual.Some? && q.actual.value <= p.actual.value
  {
    var di := start + i * MS_PER_DAY;
    var dj := start + j * MS_PER_DAY;
    var p := PointAt(items, start, totalDays, today, i);
    var q := PointAt(items, start, totalDays, today, j);
    if q.actual.Some? {
      assert di <= dj;
      assert p.actual.value == Round1(Remaining(items, di));
      assert q.actual.value == Round1(Remaining(items, dj));
      RemainingFacts(items, di, dj);
      Round1Monotone(Remaining(items, dj), Remaining(items, di));
    }
  }

  /** Rounding to one decimal keeps a value in [0, hi] within [0, Round1(hi)]. */
  lemma Round1Bounds(x: real, hi: real)
    requires 0.0 <= x <= hi
    ensures 0.0 <= Round1(x) <= Round1(hi)
  {
    RoundInt(0);
    assert Round1(0.0) == 0.0;
    Round1Monotone(0.0, x);
    Round1Monotone(x, hi);
  }

  /** The actual column of a series: within [0, rounded total], present up to today, never rising. */
  lemma SeriesActual(items: seq<WorkItem>, start: int, totalDays: nat, today: int)
    requires totalDays > 0 && NonNegativePoints(items)
    ensures var r := Series(items, start, totalDays, today, totalDays + 1);
      var total := SumReal(items, Points);
      (forall i :: 0 <= i < |r| && r[i].actual.Some? ==> 0.0 <= r[i].actual.value <= Round1(total)) &&
      (forall i, j :: 0 <= i < j < |r| && r[j].actual.Some? ==> r[i].actual.Some? && r[j].actual.value <= r[i].actual.value)
  {
    var r := Series(items, start, totalDays, today, totalDays + 1);
    forall i | 0 <= i < |r| && r[i].actual.Some? ensures 0.0 <= r[i].actual.value <= Round1(SumReal(items, Points)) {
      PointActualBounds(items, start, totalDays, today, i);
    }
    forall i, j | 0 <= i < j < |r| && r[j].actual.Some?
      ensures r[i].actual.Some? && r[j].actual.value <= r[i].actual.value
    {
      PointActualMono(items, start, totalDays, today, i, j);
    }
  }

  /**
   * The rounded ideal line runs from the sprint's total down to 0, and the
   * actual line never rises and stays within [0, total] (rounded), for
   * non-negative points.
   */
  lemma BurndownLines(items: seq<WorkItem>, sprint: Option<Sprint>, now: int)
    requires HasWindow(sprint) && NonNegativePoints(items)
    ensures var r := BurndownSeries(items, sprint, now);
      var total := SumReal(Filter(items, InSprint(sprint.value.path)), Points);
      r[0].ideal == Round1(total) && r[|r| - 1].ideal == 0.0 &&
      (forall i :: 0 <= i < |r| ==> 0.0 <= r[i].ideal <= Round1(total)) &&
      (forall i :: 0 <= i < |r| && r[i].actual.Some? ==> 0.0 <= r[i].actual.value <= Round1(total)) &&
      (forall i, j :: 0 <= i < j < |r| && r[j].actual.Some? ==> r[i].actual.Some? && r[j].actual.value <= r[i].actual.value)
  {
    var s := sprint.value;
    var mine := Filter(items, InSprint(s.path));
    var start := StartOfDay(s.startDate.value);
    var totalDays := DifferenceInDays(StartOfDay(s.finishDate.value), start);
    WholeDays(s.finishDate.value, s.startDate.value);
    assert BurndownSeries(items, sprint, now) == Series(mine, start, totalDays, StartOfDay(now), totalDays + 1);
    assert NonNegativePoints(mine) by {
      forall k | 0 <= k < |mine| ensures Points(mine[k]) >= 0.0 {
        var j :| 0 <= j < |items| && items[j] == mine[k];
      }
    }
    SeriesIdeal(mine, start, totalDays, StartOfDay(now));
    SeriesActual(mine, start, totalDays, StartOfDay(now));
  }
}

=== FILE: colors.dfy ===
/**
 * Chart colours and badge classes of a work item (src/lib/colors.ts):
 * a linked or intrinsic issue beats a risk, which beats the state.
 */
module Colors {
  import opened WorkItems

  const LINKED_ISSUE_COLOR: string := "#fca5a5"
  const LINKED_RISK_COLOR: string := "#fde68a"

  /** `STATE_COLORS`; every decoded state has an entry, so the '#d4d4d8' fallback is never reached. */
  function StateColor(s: State): string
  {
    match s
    case New => "#d4d4d8"
    case Active => "#86efac"
    case Resolved => "#93c5fd"
    case Closed => "#93c5fd"
    case Removed => "#a1a1aa"
  }

  const LINKED_ISSUE_CLASSES: string := "bg-red-300 text-red-900 dark:bg-red-800 dark:text-red-100"
  const LINKED_RISK_CLASSES: string := "bg-amber-200 text-amber-900 dark:bg-amber-800 dark:text-amber-100"

  /** `STATE_BG_CLASSES`; likewise total on decoded states. */
  function StateBgClass(s: State): string
  {
    match s
    case New => "bg-zinc-300 text-zinc-800 dark:bg-zinc-600 dark:text-zinc-100"
    case Active => "bg-green-300 text-green-900 dark:bg-green-800 dark:text-green-100"
    case Resolved => "bg-blue-300 text-blue-900 dark:bg-blue-800 dark:text-blue-100"
    case Closed => "bg-blue-300 text-blue-900 dark:bg-blue-800 dark:text-blue-100"
    case Removed => "bg-zinc-400 text-zinc-800 dark:bg-zinc-700 dark:text-zinc-200"
  }

  /** The three precedence tiers both functions share. */
  datatype Tier = IssueTier | RiskTier | StateTier

  function TierOf(item: WorkItem): Tier
  {
    if item.workItemType == Issue || item.hasLinkedIssue then IssueTier
    else if item.workItemType == Risk || item.hasLinkedRisk then RiskTier
    else StateTier
  }

  /** `getWorkItemColor`. */
  function WorkItemColor(item: WorkItem): (r: string)
    ensures r == LINKED_ISSUE_COLOR <==> TierOf(item) == IssueTier
    ensures r == LINKED_RISK_COLOR <==> TierOf(item) == RiskTier
    ensures TierOf(item) == StateTier ==> r == StateColor(item.state)
  {
    if item.workItemType == Issue || item.hasLinkedIssue then LINKED_ISSUE_COLOR
    else if item.workItemType == Risk || item.hasLinkedRisk then LINKED_RISK_COLOR
    else StateColor(item.state)
  }

  /** `getWorkItemBgClass`. */
  function WorkItemBgClass(item: WorkItem): (r: string)
    ensures r == LINKED_ISSUE_CLASSES <==> TierOf(item) == IssueTier
    ensures r == LINKED_RISK_CLASSES <==> TierOf(item) == RiskTier
    ensures TierOf(item) == StateTier ==> r == StateBgClass(item.state)
  {
    if item.workItemType == Issue || item.hasLinkedIssue then LINKED_ISSUE_CLASSES
    else if item.workItemType == Risk || item.hasLinkedRisk then LINKED_RISK_CLASSES
    else StateBgClass(item.state)
  }

  /** Colour and class always come from the same tier: a linked issue wins even when a risk is also linked. */
  lemma ColorAndClassAgree(item: WorkItem)
    ensures WorkItemColor(item) == LINKED_ISSUE_COLOR <==> WorkItemBgClass(item) == LINKED_ISSUE_CLASSES
    ensures WorkItemColor(item) == LINKED_RISK_COLOR <==> WorkItemBgClass(item) == LINKED_RISK_CLASSES
    ensures item.hasLinkedIssue && item.hasLinkedRisk ==> WorkItemColor(item) == LINKED_ISSUE_COLOR
  {
  }
}

=== FILE: common.dfy ===
/**
 * Shared vocabulary of the dashboard model: optional values, sequence
 * folds (filter, sum, first-occurrence dedup, group-by), the comparator
 * contract of JavaScript's stable `Array.prototype.sort`, string helpers
 * standing in for the JavaScript string methods the dashboard uses, and
 * rounding.
 */
module Common {

  datatype Option<T> = None | Some(value: T) {
    predicate IsSome() { Some? }

    /** `x ?? d` in the source. */
    function GetOr(d: T): (r: T)
      ensures Some? ==> r == value
      ensures None? ==> r == d
    {
      match this
      case Some(v) => v
      case None => d
    }
  }

  /** A `string | null` the source treats as set: present and non-empty (JavaScript truthiness). */
  predicate Truthy(o: Option<string>)
  {
    o.Some? && o.value != ""
  }

  // ---------------------------------------------------------------------
  // Sequences
  // ---------------------------------------------------------------------

  /** Order-preserving sub-sequence (not necessarily contiguous). */
  ghost predicate IsSubseq<T>(a: seq<T>, b: seq<T>)
    decreases |b|
  {
    |a| == 0 ||
    (|b| > 0 &&
     if a[0] == b[0] then IsSubseq(a[1..], b[1..]) else IsSubseq(a, b[1..]))
  }

  lemma {:induction false} SubseqRefl<T>(s: seq<T>)
    ensures IsSubseq(s, s)
    decreases |s|
  {
    if |s| > 0 { SubseqRefl(s[1..]); }
  }

  /** `Array.prototype.filter`: keeps the elements satisfying `p`, in order. */
  function Filter<T(==)>(s: seq<T>, p: T -> bool): (r: seq<T>)
    ensures |r| <= |s|
    ensures forall i :: 0 <= i < |r| ==> p(r[i]) && r[i] in s
    ensures forall i :: 0 <= i < |s| && p(s[i]) ==> s[i] in r
  {
    if |s| == 0 then []
    else Filter(s[..|s| - 1], p) + (if p(s[|s| - 1]) then [s[|s| - 1]] else [])
  }

  lemma {:induction false} FilterIsSubseq<T>(s: seq<T>, p: T -> bool)
    ensures IsSubseq(Filter(s, p), s)
    decreases |s|
  {
    if |s| > 0 {
      FilterIsSubseq(s[..|s| - 1], p);
      SubseqAppend(Filter(s[..|s| - 1], p), s[..|s| - 1], s[|s| - 1], p(s[|s| - 1]));
      assert s == s[..|s| - 1] + [s[|s| - 1]];
    }
  }

  /** Extending both sides by the same last element (or only the larger side) keeps the relation. */
  lemma {:induction false} SubseqAppend<T>(a: seq<T>, b: seq<T>, x: T, both: bool)
    requires IsSubseq(a, b)
    ensures IsSubseq(a + (if both then [x] else []), b + [x])
    decreases |b|
  {
    var a' := a + (if both then [x] else []);
    if |b| == 0 {
      if both { assert a'[1..] == []; }
    } else {
      assert (b + [x])[1..] == b[1..] + [x];
      if |a| > 0 && a[0] == b[0] {
        assert a'[1..] == a[1..] + (if both then [x] else []);
        SubseqAppend(a[1..], b[1..], x, both);
      } else {
        SubseqAppend(a, b[1..], x, both);
        if |a'| > 0 && a'[0] == b[0] {
          assert a'[1..] == [];
        }
      }
    }
  }

  lemma {:induction false} FilterAppend<T>(a: seq<T>, b: seq<T>, p: T -> bool)
    ensures Filter(a + b, p) == Filter(a, p) + Filter(b, p)
    decreases |b|
  {
    if |b| == 0 {
      assert a + b == a;
    } else {
      var b' := b[..|b| - 1];
      assert (a + b)[..|a + b| - 1] == a + b';
      FilterAppend(a, b', p);
    }
  }

  /** Filtering twice is filtering by the conjunction. */
  lemma {:induction false} FilterFilter<T>(s: seq<T>, p: T -> bool, q: T -> bool, pq: T -> bool)
    requires forall x :: pq(x) == (p(x) && q(x))
    ensures Filter(Filter(s, p), q) == Filter(s, pq)
    decreases |s|
  {
    if |s| > 0 {
      var s' := s[..|s| - 1];
      FilterFilter(s', p, q, pq);
      FilterAppend(Filter(s', p), if p(s[|s| - 1]) then [s[|s| - 1]] else [], q);
    }
  }

  /** Filters with pointwise-equal predicates agree. */
  lemma {:induction false} FilterCongruent<T>(s: seq<T>, p: T -> bool, q: T -> bool)
    requires forall i :: 0 <= i < |s| ==> p(s[i]) == q(s[i])
    ensures Filter(s, p) == Filter(s, q)
    decreases |s|
  {
    if |s| > 0 {
      FilterCongruent(s[..|s| - 1], p, q);
    }
  }

  /** `Array.prototype.map`. */
  function Map<T, U>(s: seq<T>, f: T -> U): (r: seq<U>)
    ensures |r| == |s|
    ensures forall i :: 0 <= i < |s| ==> r[i] == f(s[i])
  {
    seq(|s|, i requires 0 <= i < |s| => f(s[i]))
  }

  lemma MapAppend<T, U>(a: seq<T>, b: seq<T>, f: T -> U)
    ensures Map(a + b, f) == Map(a, f) + Map(b, f)
  {
    assert forall i :: 0 <= i < |b| ==> (a + b)[|a| + i] == b[i];
  }

  /** Sum of a real-valued measure (`reduce((a, x) => a + f(x), 0)`). */
  function SumReal<T>(s: seq<T>, f: T -> real): (r: real)
    ensures (forall i :: 0 <= i < |s| ==> f(s[i]) >= 0.0) ==> r >= 0.0
  {
    if |s| == 0 then 0.0 else SumReal(s[..|s| - 1], f) + f(s[|s| - 1])
  }

  lemma {:induction false} SumRealAppend<T>(a: seq<T>, b: seq<T>, f: T -> real)
    ensures SumReal(a + b, f) == SumReal(a, f) + SumReal(b, f)
    decreases |b|
  {
    if |b| == 0 {
      assert a + b == a;
    } else {
      assert (a + b)[..|a + b| - 1] == a + b[..|b| - 1];
      SumRealAppend(a, b[..|b| - 1], f);
    }
  }

  lemma SumRealSingle<T>(a: T, f: T -> real)
    ensures SumReal([a], f) == f(a)
  {
    assert [a][..0] == [];
  }

  lemma SumRealCons<T>(a: T, rest: seq<T>, f: T -> real)
    ensures SumReal([a] + rest, f) == f(a) + SumReal(rest, f)
  {
    SumRealAppend([a], rest, f);
    SumRealSingle(a, f);
  }

  /** Summing the kept elements never exceeds summing all of them, for a non-negative measure. */
  lemma {:induction false} SumRealFilterLe<T>(s: seq<T>, p: T -> bool, f: T -> real)
    requires forall i :: 0 <= i < |s| ==> f(s[i]) >= 0.0
    ensures SumReal(Filter(s, p), f) <= SumReal(s, f)
    decreases |s|
  {
    if |s| > 0 {
      var s' := s[..|s| - 1];
      var x := s[|s| - 1];
      assert forall i :: 0 <= i < |s'| ==> s'[i] == s[i];
      SumRealFilterLe(s', p, f);
      assert SumReal(s, f) == SumReal(s', f) + f(x);
      if p(x) {
        assert Filter(s, p) == Filter(s', p) + [x];
        SumRealAppend(Filter(s', p), [x], f);
        assert SumReal([x], f) == f(x) by { assert [x][..0] == []; }
      } else {
        assert Filter(s, p) == Filter(s', p);
      }
    }
  }

  /** A weaker filter keeps at least as much of a non-negative sum. */
  lemma {:induction false} SumRealFilterMono<T>(s: seq<T>, p: T -> bool, q: T -> bool, f: T -> real)
    requires forall i :: 0 <= i < |s| ==> f(s[i]) >= 0.0
    requires forall i :: 0 <= i < |s| && p(s[i]) ==> q(s[i])
    ensures SumReal(Filter(s, p), f) <= SumReal(Filter(s, q), f)
    decreases |s|
  {
    if |s| > 0 {
      var s' := s[..|s| - 1];
      var x := s[|s| - 1];
      assert forall i :: 0 <= i < |s'| ==> s'[i] == s[i];
      SumRealFilterMono(s', p, q, f);
      assert SumReal([x], f) == f(x) by { assert [x][..0] == []; }
      if p(x) {
        assert Filter(s, p) == Filter(s', p) + [x];
        assert Filter(s, q) == Filter(s', q) + [x];
        SumRealAppend(Filter(s', p), [x], f);
        SumRealAppend(Filter(s', q), [x], f);
      } else if q(x) {
        assert Filter(s, p) == Filter(s', p);
        assert Filter(s, q) == Filter(s', q) + [x];
        SumRealAppend(Filter(s', q), [x], f);
      } else {
        assert Filter(s, p) == Filter(s', p);
        assert Filter(s, q) == Filter(s', q);
      }
    }
  }

  /** Sum of a sequence of integers. */
  function SumInt(s: seq<int>): int
  {
    if |s| == 0 then 0 else SumInt(s[..|s| - 1]) + s[|s| - 1]
  }

  lemma {:induction false} SumIntBounds(s: seq<int>, lo: int, hi: int)
    requires forall i :: 0 <= i < |s| ==> lo <= s[i] <= hi
    ensures |s| * lo <= SumInt(s) <= |s| * hi
    decreases |s|
  {
    if |s| > 0 {
      SumIntBounds(s[..|s| - 1], lo, hi);
      assert |s| * lo == (|s| - 1) * lo + lo;
      assert |s| * hi == (|s| - 1) * hi + hi;
    }
  }

  /** `[...s].reverse()`. */
  function Reverse<T>(s: seq<T>): (r: seq<T>)
    ensures |r| == |s|
    ensures forall i :: 0 <= i < |s| ==> r[i] == s[|s| - 1 - i]
  {
    seq(|s|, i requires 0 <= i < |s| => s[|s| - 1 - i])
  }

  /** Reversing keeps every element with its multiplicity. */
  lemma {:induction false} ReversePermutes<T>(s: seq<T>)
    ensures multiset(Reverse(s)) == multiset(s)
    decreases |s|
  {
    if |s| > 0 {
      var init := s[..|s| - 1];
      ReversePermutes(init);
      assert Reverse(s) == [s[|s| - 1]] + Reverse(init);
      assert s == init + [s[|s| - 1]];
    }
  }

  /** `s.slice(0, n)`. */
  function Take<T>(s: seq<T>, n: nat): (r: seq<T>)
    ensures |r| == Min(n, |s|)
    ensures forall i :: 0 <= i < |r| ==> r[i] == s[i]
  {
    if n <= |s| then s[..n] else s
  }

  /** A prefix takes each element at most as often as the whole. */
  lemma TakeSubMultiset<T>(s: seq<T>, n: nat)
    ensures multiset(Take(s, n)) <= multiset(s)
  {
    if n <= |s| {
      assert s == s[..n] + s[n..];
    }
  }

  /** Sum of a natural-valued measure. */
  function SumNat<T>(s: seq<T>, f: T -> nat): (r: nat)
  {
    if |s| == 0 then 0 else SumNat(s[..|s| - 1], f) + f(s[|s| - 1])
  }

  lemma {:induction false} SumNatAppend<T>(a: seq<T>, b: seq<T>, f: T -> nat)
    ensures SumNat(a + b, f) == SumNat(a, f) + SumNat(b, f)
    decreases |b|
  {
    if |b| == 0 {
      assert a + b == a;
    } else {
      assert (a + b)[..|a + b| - 1] == a + b[..|b| - 1];
      SumNatAppend(a, b[..|b| - 1], f);
    }
  }

  /** Reordering does not change a sum. */
  lemma {:induction false} SumNatPermutation<T>(a: seq<T>, b: seq<T>, f: T -> nat)
    requires multiset(a) == multiset(b)
    ensures SumNat(a, f) == SumNat(b, f)
    decreases |a|
  {
    if |a| == 0 {
      assert |b| == |multiset(b)| == |multiset(a)| == 0;
    } else {
      var x := a[|a| - 1];
      var a' := a[..|a| - 1];
      assert a == a' + [x];
      assert x in multiset(b);
      var k :| 0 <= k < |b| && b[k] == x;
      var b' := b[..k] + b[k + 1..];
      MultisetRemove(b, k);
      assert multiset(a') == multiset(a) - multiset{x};
      SumNatPermutation(a', b', f);
      SumNatRemove(b, k, f);
    }
  }

  lemma MultisetRemove<T>(b: seq<T>, k: int)
    requires 0 <= k < |b|
    ensures multiset(b[..k] + b[k + 1..]) == multiset(b) - multiset{b[k]}
  {
    assert b == b[..k] + [b[k]] + b[k + 1..];
  }

  lemma SumNatRemove<T>(b: seq<T>, k: int, f: T -> nat)
    requires 0 <= k < |b|
    ensures SumNat(b, f) == SumNat(b[..k] + b[k + 1..], f) + f(b[k])
  {
    assert b == b[..k] + ([b[k]] + b[k + 1..]);
    SumNatAppend(b[..k], [b[k]] + b[k + 1..], f);
    SumNatAppend([b[k]], b[k + 1..], f);
    SumNatAppend(b[..k], b[k + 1..], f);
    assert [b[k]][..0] == [];
  }

  /** Summing a measure after a map is summing the composed measure. */
  lemma {:induction false} SumNatMap<T, U>(s: seq<T>, g: T -> U, f1: T -> nat, f2: U -> nat)
    requires forall x :: f2(g(x)) == f1(x)
    ensures SumNat(Map(s, g), f2) == SumNat(s, f1)
    decreases |s|
  {
    if |s| > 0 {
      assert Map(s, g)[..|s| - 1] == Map(s[..|s| - 1], g);
      SumNatMap(s[..|s| - 1], g, f1, f2);
    }
  }

  /** Summing a real measure after a map is summing the composed measure. */
  lemma {:induction false} SumRealMap<T, U>(s: seq<T>, g: T -> U, f1: T -> real, f2: U -> real)
    requires forall x :: f2(g(x)) == f1(x)
    ensures SumReal(Map(s, g), f2) == SumReal(s, f1)
    decreases |s|
  {
    if |s| > 0 {
      assert Map(s, g)[..|s| - 1] == Map(s[..|s| - 1], g);
      SumRealMap(s[..|s| - 1], g, f1, f2);
    }
  }

  /** Filtering by a predicate every element satisfies changes nothing. */
  lemma {:induction false} FilterKeepsAll<T>(s: seq<T>, p: T -> bool)
    requires forall i :: 0 <= i < |s| ==> p(s[i])
    ensures Filter(s, p) == s
    decreases |s|
  {
    if |s| > 0 {
      FilterKeepsAll(s[..|s| - 1], p);
    }
  }

  /** The smallest entry (the `min` accumulator of a loop starting at +Infinity). */
  function MinOf(s: seq<int>): (r: int)
    requires |s| > 0
    ensures r in s
    ensures forall i :: 0 <= i < |s| ==> r <= s[i]
  {
    if |s| == 1 then s[0]
    else
      var m := MinOf(s[..|s| - 1]);
      assert forall i :: 0 <= i < |s| - 1 ==> s[..|s| - 1][i] == s[i];
      if s[|s| - 1] < m then s[|s| - 1] else m
  }

  /** The largest entry (the `max` accumulator of a loop starting at -Infinity). */
  function MaxOf(s: seq<int>): (r: int)
    requires |s| > 0
    ensures r in s
    ensures forall i :: 0 <= i < |s| ==> s[i] <= r
  {
    if |s| == 1 then s[0]
    else
      var m := MaxOf(s[..|s| - 1]);
      assert forall i :: 0 <= i < |s| - 1 ==> s[..|s| - 1][i] == s[i];
      if s[|s| - 1] > m then s[|s| - 1] else m
  }

  /** Number of elements satisfying `p`. */
  function Count<T(==)>(s: seq<T>, p: T -> bool): nat
  {
    |Filter(s, p)|
  }

  /** One more element adds one to the count when it satisfies the predicate. */
  lemma CountSnoc<T>(s: seq<T>, p: T -> bool)
    requires |s| > 0
    ensures Count(s, p) == Count(s[..|s| - 1], p) + (if p(s[|s| - 1]) then 1 else 0)
  {
  }

  /** Two predicates that never hold together select no more than the whole. */
  lemma {:induction false} CountDisjoint<T>(s: seq<T>, p: T -> bool, q: T -> bool)
    requires forall i :: 0 <= i < |s| ==> !(p(s[i]) && q(s[i]))
    ensures Count(s, p) + Count(s, q) <= |s|
    decreases |s|
  {
    if |s| > 0 {
      var s' := s[..|s| - 1];
      assert forall i :: 0 <= i < |s'| ==> s'[i] == s[i];
      CountDisjoint(s', p, q);
    }
  }

  /** The sum of a sequence of counts. */
  function NatSum(h: seq<nat>): nat
  {
    if |h| == 0 then 0 else NatSum(h[..|h| - 1]) + h[|h| - 1]
  }

  lemma {:induction false} NatSumZeros(n: nat)
    ensures NatSum(seq(n, _ => 0)) == 0
  {
    if n > 0 {
      assert seq(n, _ => 0)[..n - 1] == seq(n - 1, _ => 0);
      NatSumZeros(n - 1);
    }
  }

  /** Incrementing one count adds one to the sum. */
  lemma {:induction false} NatSumIncrement(h: seq<nat>, k: nat)
    requires k < |h|
    ensures NatSum(h[k := h[k] + 1]) == NatSum(h) + 1
    decreases |h|
  {
    var h2 := h[k := h[k] + 1];
    if k < |h| - 1 {
      assert h2[..|h| - 1] == h[..|h| - 1][k := h[k] + 1];
      NatSumIncrement(h[..|h| - 1], k);
    } else {
      assert h2[..|h| - 1] == h[..|h| - 1];
    }
  }

  /** Summing a measure is summing the list of its values. */
  lemma {:induction false} SumNatOfCounts<T>(s: seq<T>, f: T -> nat)
    ensures SumNat(s, f) == NatSum(Map(s, f))
    decreases |s|
  {
    if |s| > 0 {
      SumNatOfCounts(s[..|s| - 1], f);
      assert Map(s, f)[..|s| - 1] == Map(s[..|s| - 1], f);
    }
  }

  /** Selects the elements that `f` sends to index `i`. */
  function Hits<T>(f: T -> int, i: int): T -> bool
  {
    x => f(x) == i
  }

  /** Selects the elements that `f` sends into `[0, n)`. */
  function InRange<T>(f: T -> int, n: nat): T -> bool
  {
    x => 0 <= f(x) < n
  }

  /**
   * The bucket-counting loop: start from `n` zeros and, for each element in
   * turn, add one to the bucket `f` names, skipping elements that name no
   * bucket.
   */
  function Histogram<T>(s: seq<T>, f: T -> int, n: nat): (r: seq<nat>)
    ensures |r| == n
    decreases |s|
  {
    if |s| == 0 then seq(n, _ => 0)
    else
      var h := Histogram(s[..|s| - 1], f, n);
      var k := f(s[|s| - 1]);
      if 0 <= k < n then h[k := h[k] + 1] else h
  }

  /** Each bucket holds the number of elements sent to it. */
  lemma {:induction false} HistogramCounts<T>(s: seq<T>, f: T -> int, n: nat)
    ensures forall i :: 0 <= i < n ==> Histogram(s, f, n)[i] == Count(s, Hits(f, i))
    decreases |s|
  {
    if |s| > 0 {
      HistogramCounts(s[..|s| - 1], f, n);
    }
  }

  /** The buckets add up to the number of elements that name a bucket. */
  lemma {:induction false} HistogramSum<T>(s: seq<T>, f: T -> int, n: nat)
    ensures NatSum(Histogram(s, f, n)) == Count(s, InRange(f, n))
    decreases |s|
  {
    if |s| == 0 {
      NatSumZeros(n);
    } else {
      var s' := s[..|s| - 1];
      var h := Histogram(s', f, n);
      HistogramSum(s', f, n);
      var k := f(s[|s| - 1]);
      assert Count(s, InRange(f, n)) == Count(s', InRange(f, n)) + (if 0 <= k < n then 1 else 0) by {
        CountSnoc(s, InRange(f, n));
      }
      if 0 <= k < n {
        assert Histogram(s, f, n) == h[k := h[k] + 1];
        NatSumIncrement(h, k);
      } else {
        assert Histogram(s, f, n) == h;
      }
    }
  }

  /** Index of the first occurrence of `x`. */
  function FirstIndex<T(==)>(s: seq<T>, x: T): (r: nat)
    requires x in s
    ensures r < |s| && s[r] == x
    ensures forall j :: 0 <= j < r ==> s[j] != x
  {
    if s[0] == x then 0 else 1 + FirstIndex(s[1..], x)
  }

  predicate NoDup<T(==)>(s: seq<T>)
  {
    forall i, j :: 0 <= i < j < |s| ==> s[i] != s[j]
  }

  /**
   * The distinct elements of `s` in order of first occurrence: the key
   * order of a JavaScript `Set`, `Map` or string-keyed object built by
   * walking `s` from the front.
   */
  function Dedup<T(==)>(s: seq<T>): (r: seq<T>)
    ensures NoDup(r)
    ensures |r| <= |s|
    ensures forall i :: 0 <= i < |r| ==> r[i] in s
    ensures forall i :: 0 <= i < |s| ==> s[i] in r
  {
    if |s| == 0 then []
    else
      var d := Dedup(s[..|s| - 1]);
      var x := s[|s| - 1];
      if x in d then d else d + [x]
  }

  /** The kept elements appear in order of their first occurrence. */
  lemma {:induction false} DedupFirstOccurrenceOrder<T>(s: seq<T>)
    ensures forall i, j :: 0 <= i < j < |Dedup(s)| ==> FirstIndex(s, Dedup(s)[i]) < FirstIndex(s, Dedup(s)[j])
    decreases |s|
  {
    if |s| > 0 {
      DedupFirstOccurrenceOrder(s[..|s| - 1]);
      FirstIndexPrefix(s);
    }
  }

  /** First occurrences in a prefix are first occurrences in the whole. */
  lemma FirstIndexPrefix<T>(s: seq<T>)
    requires |s| > 0
    ensures forall x :: x in s[..|s| - 1] ==> FirstIndex(s, x) == FirstIndex(s[..|s| - 1], x)
    ensures s[|s| - 1] !in s[..|s| - 1] ==> FirstIndex(s, s[|s| - 1]) == |s| - 1
  {
    var p := s[..|s| - 1];
    forall x | x in p
      ensures FirstIndex(s, x) == FirstIndex(p, x)
    {
      var i := FirstIndex(p, x);
      assert forall j :: 0 <= j <= i ==> s[j] == p[j];
      FirstIndexUnique(s, x, i);
    }
    if s[|s| - 1] !in p {
      FirstIndexUnique(s, s[|s| - 1], |s| - 1);
    }
  }

  /** The first index is the only position holding `x` with no earlier `x`. */
  lemma FirstIndexUnique<T>(s: seq<T>, x: T, k: nat)
    requires k < |s| && s[k] == x
    requires forall j :: 0 <= j < k ==> s[j] != x
    ensures FirstIndex(s, x) == k
  {
    var r := FirstIndex(s, x);
    assert s[r] == x;
  }

  // ---------------------------------------------------------------------
  // Grouping: the `Map`/object accumulators the dashboard builds in loops
  // ---------------------------------------------------------------------

  /** A key together with the elements filed under it, in input order. */
  datatype Group<K, T> = Group(key: K, members: seq<T>)

  /** Index of the last element satisfying `p`, if any. */
  function LastWhere<T>(s: seq<T>, p: T -> bool): (r: Option<nat>)
    ensures r.None? <==> forall i :: 0 <= i < |s| ==> !p(s[i])
    ensures r.Some? ==> r.value < |s| && p(s[r.value])
    ensures r.Some? ==> forall j :: r.value < j < |s| ==> !p(s[j])
  {
    if |s| == 0 then None
    else if p(s[|s| - 1]) then Some(|s| - 1)
    else
      var r := LastWhere(s[..|s| - 1], p);
      assert forall i :: 0 <= i < |s| - 1 ==> s[..|s| - 1][i] == s[i];
      r
  }

  lemma LastWhereUnique<T>(s: seq<T>, p: T -> bool, i: nat)
    requires i < |s| && p(s[i])
    requires forall j :: i < j < |s| ==> !p(s[j])
    ensures LastWhere(s, p) == Some(i)
  {
  }

  function KeyIs<T, K(==)>(key: T -> K, k: K): T -> bool
  {
    x => key(x) == k
  }

  function GroupKeys<K, T>(g: seq<Group<K, T>>): (r: seq<K>)
    ensures |r| == |g|
    ensures forall i :: 0 <= i < |g| ==> r[i] == g[i].key
  {
    seq(|g|, i requires 0 <= i < |g| => g[i].key)
  }

  /** One step of the accumulator: append `x` under `k`, creating the key at the end if new. */
  function AddToGroup<K(==), T(==)>(g: seq<Group<K, T>>, k: K, x: T): (r: seq<Group<K, T>>)
    requires NoDup(GroupKeys(g))
    ensures NoDup(GroupKeys(r))
    ensures k in GroupKeys(g) ==> GroupKeys(r) == GroupKeys(g)
    ensures k !in GroupKeys(g) ==> GroupKeys(r) == GroupKeys(g) + [k]
    ensures forall i :: 0 <= i < |g| ==>
              r[i].members == g[i].members + (if g[i].key == k then [x] else [])
    ensures k !in GroupKeys(g) ==> r[|g|].members == [x]
  {
    if |g| == 0 then [Group(k, [x])]
    else if g[0].key == k then [Group(k, g[0].members + [x])] + g[1..]
    else
      var rest := AddToGroup(g[1..], k, x);
      GroupKeysTail(g);
      GroupKeysCons(g[0], rest);
      assert g[0].key !in GroupKeys(rest);
      [g[0]] + rest
  }

  lemma GroupKeysTail<K, T>(g: seq<Group<K, T>>)
    requires |g| > 0
    ensures GroupKeys(g[1..]) == GroupKeys(g)[1..]
    ensures NoDup(GroupKeys(g)) ==> NoDup(GroupKeys(g[1..]))
  {
    assert GroupKeys(g[1..]) == GroupKeys(g)[1..];
  }

  lemma GroupKeysCons<K, T>(a: Group<K, T>, rest: seq<Group<K, T>>)
    ensures GroupKeys([a] + rest) == [a.key] + GroupKeys(rest)
  {
  }

  /**
   * Groups `s` by `key`, walking from the front: `if (!m.has(k)) m.set(k, [])`
   * then `m.get(k).push(x)`.
   */
  function GroupBy<T(==), K(==)>(s: seq<T>, key: T -> K): (r: seq<Group<K, T>>)
    ensures NoDup(GroupKeys(r))
  {
    if |s| == 0 then []
    else AddToGroup(GroupBy(s[..|s| - 1], key), key(s[|s| - 1]), s[|s| - 1])
  }

  /** The accumulator keeps one group per distinct key, in first-occurrence order. */
  lemma {:induction false} GroupByKeys<T, K>(s: seq<T>, key: T -> K)
    ensures GroupKeys(GroupBy(s, key)) == Dedup(Map(s, key))
    decreases |s|
  {
    if |s| > 0 {
      var pre := s[..|s| - 1];
      var m := Map(s, key);
      GroupByKeys(pre, key);
      assert m[..|s| - 1] == Map(pre, key);
      assert GroupBy(s, key) == AddToGroup(GroupBy(pre, key), key(s[|s| - 1]), s[|s| - 1]);
      assert Dedup(m) == var d := Dedup(Map(pre, key)); if m[|s| - 1] in d then d else d + [m[|s| - 1]];
    }
  }

  /** Each group holds exactly the elements with its key, in input order. */
  lemma {:induction false} GroupByMembers<T, K>(s: seq<T>, key: T -> K)
    ensures forall i :: 0 <= i < |GroupBy(s, key)| ==>
              GroupBy(s, key)[i].members == Filter(s, KeyIs(key, GroupBy(s, key)[i].key))
    decreases |s|
  {
    if |s| > 0 {
      var s' := s[..|s| - 1];
      GroupByMembers(s', key);
      GroupByKeys(s', key);
      forall i | 0 <= i < |GroupBy(s, key)|
        ensures GroupBy(s, key)[i].members == Filter(s, KeyIs(key, GroupBy(s, key)[i].key))
      {
        GroupByMembersStep(s, s', s[|s| - 1], key, i);
      }
    }
  }

  lemma GroupByMembersStep<T, K>(s: seq<T>, s': seq<T>, x: T, key: T -> K, i: int)
    requires |s| > 0 && s' == s[..|s| - 1] && x == s[|s| - 1]
    requires forall i :: 0 <= i < |GroupBy(s', key)| ==>
              GroupBy(s', key)[i].members == Filter(s', KeyIs(key, GroupBy(s', key)[i].key))
    requires GroupKeys(GroupBy(s', key)) == Dedup(Map(s', key))
    requires 0 <= i < |GroupBy(s, key)|
    ensures GroupBy(s, key)[i].members == Filter(s, KeyIs(key, GroupBy(s, key)[i].key))
  {
    var g := GroupBy(s', key);
    var r := GroupBy(s, key);
    assert r == AddToGroup(g, key(x), x);
    var k := r[i].key;
    var p := KeyIs(key, k);
    assert Filter(s, p) == Filter(s', p) + (if p(x) then [x] else []);
    assert p(x) == (key(x) == k);
    if i < |g| {
      assert GroupKeys(r)[i] == GroupKeys(g)[i];
      assert g[i].key == k;
      assert g[i].members == Filter(s', p);
      assert r[i].members == g[i].members + (if g[i].key == key(x) then [x] else []);
    } else {
      assert |GroupKeys(r)| == |r| && |GroupKeys(g)| == |g|;
      assert key(x) !in GroupKeys(g);
      assert i == |g|;
      assert GroupKeys(r)[i] == key(x);
      assert r[i].members == [x];
      assert k !in Dedup(Map(s', key));
      forall j | 0 <= j < |s'| ensures !p(s'[j]) {
        assert Map(s', key)[j] == key(s'[j]);
      }
      FilterNone(s', p);
    }
  }

  /** Both readings of the accumulator together. */
  lemma GroupByCharacterized<T, K>(s: seq<T>, key: T -> K)
    ensures GroupKeys(GroupBy(s, key)) == Dedup(Map(s, key))
    ensures forall i :: 0 <= i < |GroupBy(s, key)| ==>
              GroupBy(s, key)[i].members == Filter(s, KeyIs(key, GroupBy(s, key)[i].key))
  {
    GroupByKeys(s, key);
    GroupByMembers(s, key);
  }

  lemma {:induction false} FilterNone<T>(s: seq<T>, p: T -> bool)
    requires forall i :: 0 <= i < |s| ==> !p(s[i])
    ensures Filter(s, p) == []
    decreases |s|
  {
    if |s| > 0 {
      var init := s[..|s| - 1];
      forall i | 0 <= i < |init| ensures !p(init[i]) {
        assert init[i] == s[i];
      }
      FilterNone(init, p);
      assert !p(s[|s| - 1]);
    }
  }

  function MemberCount<K, T>(g: Group<K, T>): nat { |g.members| }

  /** No element is lost or duplicated by grouping. */
  lemma {:induction false} GroupBySizes<T, K>(s: seq<T>, key: T -> K)
    ensures SumNat(GroupBy(s, key), MemberCount) == |s|
    ensures forall i :: 0 <= i < |GroupBy(s, key)| ==> |GroupBy(s, key)[i].members| >= 1
    decreases |s|
  {
    GroupBySum(s, key);
    GroupByNonEmpty(s, key);
  }

  lemma {:induction false} GroupBySum<T, K>(s: seq<T>, key: T -> K)
    ensures SumNat(GroupBy(s, key), MemberCount) == |s|
    decreases |s|
  {
    if |s| > 0 {
      var s' := s[..|s| - 1];
      var x := s[|s| - 1];
      assert GroupBy(s, key) == AddToGroup(GroupBy(s', key), key(x), x);
      GroupBySum(s', key);
      AddToGroupSize(GroupBy(s', key), key(x), x);
    }
  }

  lemma {:induction false} GroupByNonEmpty<T, K>(s: seq<T>, key: T -> K)
    ensures forall i :: 0 <= i < |GroupBy(s, key)| ==> |GroupBy(s, key)[i].members| >= 1
    decreases |s|
  {
    if |s| > 0 {
      var s' := s[..|s| - 1];
      var x := s[|s| - 1];
      var g := GroupBy(s', key);
      var r := GroupBy(s, key);
      assert r == AddToGroup(g, key(x), x);
      GroupByNonEmpty(s', key);
      forall i | 0 <= i < |r| ensures |r[i].members| >= 1 {
        if i < |g| {
          assert r[i].members == g[i].members + (if g[i].key == key(x) then [x] else []);
        } else {
          assert |GroupKeys(r)| == |r| && |GroupKeys(g)| == |g|;
          assert key(x) !in GroupKeys(g);
          assert i == |g|;
        }
      }
    }
  }

  lemma {:induction false} AddToGroupSize<K, T>(g: seq<Group<K, T>>, k: K, x: T)
    requires NoDup(GroupKeys(g))
    ensures SumNat(AddToGroup(g, k, x), MemberCount) == SumNat(g, MemberCount) + 1
    decreases |g|
  {
    var r := AddToGroup(g, k, x);
    if |g| == 0 {
      assert r == [Group(k, [x])];
      SumNatSingle(Group(k, [x]), MemberCount);
    } else {
      var rest := g[1..];
      assert g == [g[0]] + rest;
      SumNatCons(g[0], rest, MemberCount);
      if g[0].key == k {
        var g0 := Group(k, g[0].members + [x]);
        assert r == [g0] + rest;
        SumNatCons(g0, rest, MemberCount);
      } else {
        GroupKeysTail(g);
        AddToGroupSize(rest, k, x);
        assert r == [g[0]] + AddToGroup(rest, k, x);
        SumNatCons(g[0], AddToGroup(rest, k, x), MemberCount);
      }
    }
  }

  lemma SumNatSingle<T>(a: T, f: T -> nat)
    ensures SumNat([a], f) == f(a)
  {
    assert [a][..0] == [];
  }

  lemma SumNatCons<T>(a: T, rest: seq<T>, f: T -> nat)
    ensures SumNat([a] + rest, f) == f(a) + SumNat(rest, f)
  {
    SumNatAppend([a], rest, f);
    SumNatSingle(a, f);
  }

  function MemberSum<K, T>(f: T -> real): Group<K, T> -> real
  {
    (g: Group<K, T>) => SumReal(g.members, f)
  }

  /** Summing per group and then over the groups is summing over the input. */
  lemma {:induction false} GroupBySumReal<T, K>(s: seq<T>, key: T -> K, f: T -> real)
    ensures SumReal(GroupBy(s, key), MemberSum(f)) == SumReal(s, f)
    decreases |s|
  {
    if |s| > 0 {
      var s' := s[..|s| - 1];
      GroupBySumReal(s', key, f);
      AddToGroupSumReal(GroupBy(s', key), key(s[|s| - 1]), s[|s| - 1], f);
    }
  }

  /** Appending a member to the first group adds its measure once. */
  lemma AppendToFirstGroupSumReal<K, T>(k: K, m: seq<T>, x: T, rest: seq<Group<K, T>>, f: T -> real)
    ensures SumReal([Group(k, m + [x])] + rest, MemberSum(f)) == SumReal(rest, MemberSum(f)) + SumReal(m, f) + f(x)
  {
    SumRealCons(Group(k, m + [x]), rest, MemberSum(f));
    SumRealAppend(m, [x], f);
    SumRealSingle(x, f);
  }

  lemma {:induction false} AddToGroupSumReal<K, T>(g: seq<Group<K, T>>, k: K, x: T, f: T -> real)
    requires NoDup(GroupKeys(g))
    ensures SumReal(AddToGroup(g, k, x), MemberSum(f)) == SumReal(g, MemberSum(f)) + f(x)
    decreases |g|
  {
    var F := MemberSum<K, T>(f);
    var r := AddToGroup(g, k, x);
    if |g| == 0 {
      var g0 := Group(k, [x]);
      assert r == [g0];
      SumRealSingle(x, f);
      SumRealSingle(g0, F);
    } else {
      var rest := g[1..];
      assert g == [g[0]] + rest;
      SumRealCons(g[0], rest, F);
      if g[0].key == k {
        assert r == [Group(k, g[0].members + [x])] + rest;
        AppendToFirstGroupSumReal(k, g[0].members, x, rest, f);
      } else {
        GroupKeysTail(g);
        AddToGroupSumReal(rest, k, x, f);
        assert r == [g[0]] + AddToGroup(rest, k, x);
        SumRealCons(g[0], AddToGroup(rest, k, x), F);
      }
    }
  }

  // ---------------------------------------------------------------------
  // Sorting with a JavaScript comparator
  // ---------------------------------------------------------------------

  /**
   * A comparator in the JavaScript convention (negative: a first) whose
   * "a may precede b" relation `cmp(a, b) <= 0` is a total preorder: the
   * condition under which `Array.prototype.sort` has a defined result.
   */
  ghost predicate TotalPreorder<T(!new)>(cmp: (T, T) -> int)
  {
    (forall a, b :: cmp(a, b) <= 0 || cmp(b, a) <= 0) &&
    (forall a, b, c :: cmp(a, b) <= 0 && cmp(b, c) <= 0 ==> cmp(a, c) <= 0)
  }

  ghost predicate SortedBy<T>(s: seq<T>, cmp: (T, T) -> int)
  {
    forall i, j :: 0 <= i < j < |s| ==> cmp(s[i], s[j]) <= 0
  }

  /** Insert `x` after every element that may precede it (keeps stability). */
  function Insert<T>(t: seq<T>, x: T, cmp: (T, T) -> int): (r: seq<T>)
    ensures multiset(r) == multiset(t) + multiset{x}
    ensures |r| == |t| + 1
  {
    if |t| == 0 then [x]
    else if cmp(t[|t| - 1], x) <= 0 then t + [x]
    else
      assert t == t[..|t| - 1] + [t[|t| - 1]];
      Insert(t[..|t| - 1], x, cmp) + [t[|t| - 1]]
  }

  lemma {:induction false} InsertSorted<T(!new)>(t: seq<T>, x: T, cmp: (T, T) -> int)
    requires TotalPreorder(cmp)
    requires SortedBy(t, cmp)
    ensures SortedBy(Insert(t, x, cmp), cmp)
    decreases |t|
  {
    if |t| > 0 && cmp(t[|t| - 1], x) > 0 {
      var t' := t[..|t| - 1];
      var last := t[|t| - 1];
      InsertSorted(t', x, cmp);
      var r' := Insert(t', x, cmp);
      forall i | 0 <= i < |r'|
        ensures cmp(r'[i], last) <= 0
      {
        assert r'[i] in multiset(r');
        if r'[i] in multiset(t') {
          var k :| 0 <= k < |t'| && t'[k] == r'[i];
          assert t[k] == r'[i];
        } else {
          assert r'[i] == x;
        }
      }
    }
  }

  lemma InsertKeepsSorted<T(!new)>(t: seq<T>, x: T, cmp: (T, T) -> int)
    ensures TotalPreorder(cmp) && SortedBy(t, cmp) ==> SortedBy(Insert(t, x, cmp), cmp)
  {
    if TotalPreorder(cmp) && SortedBy(t, cmp) {
      InsertSorted(t, x, cmp);
    }
  }

  /**
   * `s.sort(cmp)` on a copy: a stable insertion sort. With a total-preorder
   * comparator a stable sort has exactly one possible result, so this is
   * the result `Array.prototype.sort` produces.
   */
  function SortBy<T(!new)>(s: seq<T>, cmp: (T, T) -> int): (r: seq<T>)
    ensures multiset(r) == multiset(s)
    ensures |r| == |s|
    ensures TotalPreorder(cmp) ==> SortedBy(r, cmp)
  {
    if |s| == 0 then []
    else
      var r := Insert(SortBy(s[..|s| - 1], cmp), s[|s| - 1], cmp);
      assert s == s[..|s| - 1] + [s[|s| - 1]];
      InsertKeepsSorted(SortBy(s[..|s| - 1], cmp), s[|s| - 1], cmp);
      r
  }

  lemma SortByMembers<T(!new)>(s: seq<T>, cmp: (T, T) -> int)
    ensures forall x :: x in SortBy(s, cmp) <==> x in s
  {
    var r := SortBy(s, cmp);
    forall x
      ensures x in r <==> x in s
    {
      assert x in r <==> x in multiset(r);
      assert x in s <==> x in multiset(s);
    }
  }

  /** Sorted largest first, the first element carries the largest measure. */
  lemma SortedFirstIsMax<T(!new)>(s: seq<T>, f: T -> int)
    requires |s| > 0
    ensures var r := SortBy(s, Descending(f));
      |r| > 0 && r[0] in s && forall x :: x in s ==> f(x) <= f(r[0])
  {
    DescendingIsPreorder(f);
    var r := SortBy(s, Descending(f));
    SortByMembers(s, Descending(f));
    forall x | x in s ensures f(x) <= f(r[0]) {
      var k :| 0 <= k < |r| && r[k] == x;
      if k > 0 {
        assert Descending(f)(r[0], r[k]) <= 0;
      }
    }
  }

  /** Sorted smallest first, the last element carries the largest measure. */
  lemma SortedLastIsMax<T(!new)>(s: seq<T>, f: T -> int)
    requires |s| > 0
    ensures var r := SortBy(s, Ascending(f));
      |r| > 0 && r[|r| - 1] in s && forall x :: x in s ==> f(x) <= f(r[|r| - 1])
  {
    AscendingIsPreorder(f);
    var r := SortBy(s, Ascending(f));
    SortByMembers(s, Ascending(f));
    forall x | x in s ensures f(x) <= f(r[|r| - 1]) {
      var k :| 0 <= k < |r| && r[k] == x;
      if k < |r| - 1 {
        assert Ascending(f)(r[k], r[|r| - 1]) <= 0;
      }
    }
  }

  /** Two equal entries at distinct positions occur at least twice. */
  lemma TwoIndices<T>(s: seq<T>, i: int, j: int)
    requires 0 <= i < j < |s| && s[i] == s[j]
    ensures multiset(s)[s[i]] >= 2
  {
    assert s == s[..i] + [s[i]] + s[i + 1..j] + [s[j]] + s[j + 1..];
  }

  /** An entry held at exactly one position occurs once. */
  lemma OneIndex<T>(s: seq<T>, p: int)
    requires 0 <= p < |s|
    requires forall q :: 0 <= q < |s| && q != p ==> s[q] != s[p]
    ensures multiset(s)[s[p]] == 1
  {
    assert s == s[..p] + [s[p]] + s[p + 1..];
    assert s[p] !in s[..p];
    assert s[p] !in s[p + 1..];
  }

  /** Reordering keeps the set of keys. */
  lemma PermutationKeepsKeys<T, K>(a: seq<T>, b: seq<T>, key: T -> K, k: K)
    requires multiset(a) == multiset(b)
    ensures k in Map(a, key) <==> k in Map(b, key)
  {
    if k in Map(a, key) {
      var i :| 0 <= i < |a| && Map(a, key)[i] == k;
      assert a[i] in multiset(b);
      var j :| 0 <= j < |b| && b[j] == a[i];
      assert Map(b, key)[j] == k;
    }
    if k in Map(b, key) {
      var i :| 0 <= i < |b| && Map(b, key)[i] == k;
      assert b[i] in multiset(a);
      var j :| 0 <= j < |a| && a[j] == b[i];
      assert Map(a, key)[j] == k;
    }
  }

  /** Reordering keeps keys distinct. */
  lemma PermutationKeepsDistinctKeys<T, K>(a: seq<T>, b: seq<T>, key: T -> K)
    requires multiset(a) == multiset(b)
    requires forall i, j :: 0 <= i < j < |a| ==> key(a[i]) != key(a[j])
    ensures forall i, j :: 0 <= i < j < |b| ==> key(b[i]) != key(b[j])
  {
    forall i, j | 0 <= i < j < |b|
      ensures key(b[i]) != key(b[j])
    {
      assert b[i] in multiset(a);
      assert b[j] in multiset(a);
      var p :| 0 <= p < |a| && a[p] == b[i];
      var q :| 0 <= q < |a| && a[q] == b[j];
      if p == q {
        TwoIndices(b, i, j);
        if key(b[i]) == key(b[j]) {
          forall r | 0 <= r < |a| && r != p
            ensures a[r] != a[p]
          {
            if r < p { assert key(a[r]) != key(a[p]); } else { assert key(a[p]) != key(a[r]); }
          }
          OneIndex(a, p);
        }
      } else if p < q {
        assert key(a[p]) != key(a[q]);
      } else {
        assert key(a[q]) != key(a[p]);
      }
    }
  }

  /** Descending order of an integer measure: `(a, b) => f(b) - f(a)`. */
  function Descending<T>(f: T -> int): (T, T) -> int
  {
    (a: T, b: T) => f(b) - f(a)
  }

  lemma DescendingIsPreorder<T(!new)>(f: T -> int)
    ensures TotalPreorder(Descending(f))
  {
  }

  /** Ascending order of an integer measure: `(a, b) => f(a) - f(b)`. */
  function Ascending<T>(f: T -> int): (T, T) -> int
  {
    (a: T, b: T) => f(a) - f(b)
  }

  /** The sign of a real difference; `sort` reads only the sign of a comparison. */
  function RealSign(d: real): (r: int)
    ensures r < 0 <==> d < 0.0
    ensures r > 0 <==> d > 0.0
  {
    if d < 0.0 then -1 else if d > 0.0 then 1 else 0
  }

  /** Descending order of a real measure: `(a, b) => f(b) - f(a)`. */
  function DescendingReal<T>(f: T -> real): (T, T) -> int
  {
    (a: T, b: T) => RealSign(f(b) - f(a))
  }

  /**
   * A comparator that never claims both "a strictly first" and "b strictly
   * first" in a way negation would break: `cmp(a, b) <= 0` exactly when
   * `cmp(b, a) >= 0`. Differences and `localeCompare` have this shape.
   */
  ghost predicate SignSymmetric<T(!new)>(cmp: (T, T) -> int)
  {
    forall a, b :: cmp(a, b) <= 0 <==> cmp(b, a) >= 0
  }

  lemma DescendingRealIsPreorder<T(!new)>(f: T -> real)
    ensures TotalPreorder(DescendingReal(f)) && SignSymmetric(DescendingReal(f))
  {
  }

  lemma AscendingIsPreorder<T(!new)>(f: T -> int)
    ensures TotalPreorder(Ascending(f)) && SignSymmetric(Ascending(f))
  {
  }

  lemma StrCompareIsSymmetric()
    ensures SignSymmetric(StrCompare)
  {
  }

  /** The comparator for the opposite direction: `-cmp(a, b)`. */
  function Negate<T>(cmp: (T, T) -> int): (T, T) -> int
  {
    (a: T, b: T) => -cmp(a, b)
  }

  /** Reversing a sign-symmetric total preorder gives another one. */
  lemma NegateIsPreorder<T(!new)>(cmp: (T, T) -> int)
    requires TotalPreorder(cmp) && SignSymmetric(cmp)
    ensures TotalPreorder(Negate(cmp)) && SignSymmetric(Negate(cmp))
  {
    var n := Negate(cmp);
    forall a, b, c | n(a, b) <= 0 && n(b, c) <= 0
      ensures n(a, c) <= 0
    {
      assert cmp(b, a) <= 0 && cmp(c, b) <= 0;
      assert cmp(c, a) <= 0;
    }
  }

  /** Compare by the integer measure `f` first, then by `cmp` on a tie. */
  function ThenBy<T>(f: T -> int, cmp: (T, T) -> int): (T, T) -> int
  {
    (a: T, b: T) => if f(a) - f(b) != 0 then f(a) - f(b) else cmp(a, b)
  }

  lemma ThenByIsPreorder<T(!new)>(f: T -> int, cmp: (T, T) -> int)
    requires TotalPreorder(cmp)
    ensures TotalPreorder(ThenBy(f, cmp))
  {
    var t := ThenBy(f, cmp);
    forall a, b, c | t(a, b) <= 0 && t(b, c) <= 0
      ensures t(a, c) <= 0
    {
      if f(a) == f(b) && f(b) == f(c) {
        assert cmp(a, b) <= 0 && cmp(b, c) <= 0;
      }
    }
  }

  /** A stable sort leaves an already sorted sequence as it is. */
  lemma {:induction false} SortBySorted<T(!new)>(s: seq<T>, cmp: (T, T) -> int)
    requires SortedBy(s, cmp)
    ensures SortBy(s, cmp) == s
    decreases |s|
  {
    if |s| > 0 {
      var s' := s[..|s| - 1];
      var x := s[|s| - 1];
      SortedPrefix(s, cmp);
      SortBySorted(s', cmp);
      assert s == s' + [x];
      SortBySnoc(s', x, cmp);
    }
  }

  /** Sorting a sequence the sort keeps, extended by an element no earlier than its last, keeps it too. */
  lemma SortBySnoc<T(!new)>(t: seq<T>, x: T, cmp: (T, T) -> int)
    requires SortBy(t, cmp) == t
    requires |t| == 0 || cmp(t[|t| - 1], x) <= 0
    ensures SortBy(t + [x], cmp) == t + [x]
  {
    var s := t + [x];
    assert s[..|s| - 1] == t;
    assert s[|s| - 1] == x;
    assert SortBy(s, cmp) == Insert(t, x, cmp);
    InsertAtEnd(t, x, cmp);
  }

  lemma SortedPrefix<T>(s: seq<T>, cmp: (T, T) -> int)
    requires |s| > 0 && SortedBy(s, cmp)
    ensures SortedBy(s[..|s| - 1], cmp)
    ensures |s| > 1 ==> cmp(s[|s| - 2], s[|s| - 1]) <= 0
  {
  }

  /** An element no earlier than the last one goes at the end. */
  lemma InsertAtEnd<T>(t: seq<T>, x: T, cmp: (T, T) -> int)
    requires |t| == 0 || cmp(t[|t| - 1], x) <= 0
    ensures Insert(t, x, cmp) == t + [x]
  {
  }

  /** A subsequence of a sorted sequence is sorted. */
  lemma {:induction false} SubseqSorted<T>(a: seq<T>, b: seq<T>, cmp: (T, T) -> int)
    requires IsSubseq(a, b) && SortedBy(b, cmp)
    ensures SortedBy(a, cmp)
    decreases |b|
  {
    if |a| > 0 && |b| > 0 {
      if a[0] == b[0] {
        SubseqSorted(a[1..], b[1..], cmp);
        SubseqMembers(a[1..], b[1..]);
        forall j | 0 < j < |a| ensures cmp(a[0], a[j]) <= 0 {
          assert a[1..][j - 1] == a[j] && a[j] in a[1..];
          var k :| 0 <= k < |b[1..]| && b[1..][k] == a[j];
          assert b[k + 1] == a[j];
        }
      } else {
        SubseqSorted(a, b[1..], cmp);
      }
    }
  }

  /** Every element of a subsequence occurs in the sequence. */
  lemma {:induction false} SubseqMembers<T>(a: seq<T>, b: seq<T>)
    requires IsSubseq(a, b)
    ensures forall x :: x in a ==> x in b
    decreases |b|
  {
    if |a| > 0 {
      if a[0] == b[0] {
        SubseqMembers(a[1..], b[1..]);
        assert forall x :: x in a ==> x == a[0] || x in a[1..];
      } else {
        SubseqMembers(a, b[1..]);
      }
      assert forall x :: x in b[1..] ==> x in b;
    }
  }

  lemma {:induction false} SubsetCard<T>(a: set<T>, b: set<T>)
    requires a <= b
    ensures |a| <= |b|
    decreases b
  {
    if a != {} {
      var x :| x in a;
      SubsetCard(a - {x}, b - {x});
    }
  }

  /** Toggling membership in a set (expand/collapse, filter chips). */
  function Toggle<T(!new)>(s: set<T>, x: T): (r: set<T>)
    ensures x in r <==> x !in s
    ensures forall y :: y != x ==> (y in r <==> y in s)
  {
    if x in s then s - {x} else s + {x}
  }

  lemma ToggleTwice<T(!new)>(s: set<T>, x: T)
    ensures Toggle(Toggle(s, x), x) == s
  {
  }

  // ---------------------------------------------------------------------
  // Strings
  // ---------------------------------------------------------------------

  /** Lexicographic order on character codes, standing in for `localeCompare`. */
  predicate StrLe(a: string, b: string)
    decreases |a|
  {
    |a| == 0 ||
    (|b| > 0 && (a[0] < b[0] || (a[0] == b[0] && StrLe(a[1..], b[1..]))))
  }

  lemma {:induction false} StrLeTotal(a: string, b: string)
    ensures StrLe(a, b) || StrLe(b, a)
    decreases |a|
  {
    if |a| > 0 && |b| > 0 && a[0] == b[0] {
      StrLeTotal(a[1..], b[1..]);
    }
  }

  lemma {:induction false} StrLeTrans(a: string, b: string, c: string)
    requires StrLe(a, b) && StrLe(b, c)
    ensures StrLe(a, c)
    decreases |a|
  {
    if |a| > 0 && a[0] == b[0] && b[0] == c[0] {
      StrLeTrans(a[1..], b[1..], c[1..]);
    }
  }

  lemma {:induction false} StrLeAntisym(a: string, b: string)
    requires StrLe(a, b) && StrLe(b, a)
    ensures a == b
    decreases |a|
  {
    if |a| > 0 {
      StrLeAntisym(a[1..], b[1..]);
      assert a == [a[0]] + a[1..];
      assert b == [b[0]] + b[1..];
    }
  }

  lemma {:induction false} StrLeRefl(a: string)
    ensures StrLe(a, a)
    decreases |a|
  {
    if |a| > 0 { StrLeRefl(a[1..]); }
  }

  /** `a.localeCompare(b)`: -1, 0 or 1. */
  function StrCompare(a: string, b: string): (r: int)
    ensures r == 0 <==> a == b
    ensures r <= 0 <==> StrLe(a, b)
    ensures r < 0 <==> !StrLe(b, a)
  {
    StrLeRefl(a);
    StrLeTotal(a, b);
    if a == b then 0
    else if StrLe(a, b) then
      assert !StrLe(b, a) by { if StrLe(b, a) { StrLeAntisym(a, b); } }
      -1
    else 1
  }

  lemma StrCompareIsPreorder()
    ensures TotalPreorder(StrCompare)
  {
    forall a, b, c | StrCompare(a, b) <= 0 && StrCompare(b, c) <= 0
      ensures StrCompare(a, c) <= 0
    {
      StrLeTrans(a, b, c);
    }
  }

  /** `(a, b) => f(a).localeCompare(f(b))`. */
  function ByString<T>(f: T -> string): (T, T) -> int
  {
    (a: T, b: T) => StrCompare(f(a), f(b))
  }

  lemma ByStringIsPreorder<T(!new)>(f: T -> string)
    ensures TotalPreorder(ByString(f)) && SignSymmetric(ByString(f))
  {
    StrCompareIsPreorder();
    var c := ByString(f);
    forall a, b ensures c(a, b) <= 0 || c(b, a) <= 0 {
      assert StrCompare(f(a), f(b)) <= 0 || StrCompare(f(b), f(a)) <= 0;
    }
    forall a, b, d | c(a, b) <= 0 && c(b, d) <= 0 ensures c(a, d) <= 0 {
      assert StrCompare(f(a), f(b)) <= 0 && StrCompare(f(b), f(d)) <= 0;
    }
  }

  predicate StartsWith(s: string, prefix: string)
  {
    |prefix| <= |s| && s[..|prefix|] == prefix
  }

  predicate EndsWith(s: string, suffix: string)
  {
    |suffix| <= |s| && s[|s| - |suffix|..] == suffix
  }

  /** `s.includes(sub)`. */
  predicate Contains(s: string, sub: string)
    decreases |s|
  {
    StartsWith(s, sub) || (|s| > 0 && Contains(s[1..], sub))
  }

  /** Whitespace removed by `String.prototype.trim` (the Latin-1 part of it). */
  predicate IsSpace(c: char)
  {
    c == ' ' || c == '\t' || c == '\n' || c == '\r' || c == '\U{000B}' || c == '\U{000C}' ||
    c == '\U{00A0}' || c == '\U{FEFF}'
  }

  function TrimStart(s: string): (r: string)
    ensures |r| <= |s| && s[|s| - |r|..] == r
    ensures |r| > 0 ==> !IsSpace(r[0])
    ensures forall i :: 0 <= i < |s| - |r| ==> IsSpace(s[i])
  {
    if |s| > 0 && IsSpace(s[0]) then TrimStart(s[1..]) else s
  }

  function TrimEnd(s: string): (r: string)
    ensures |r| <= |s| && s[..|r|] == r
    ensures |r| > 0 ==> !IsSpace(r[|r| - 1])
    ensures forall i :: |r| <= i < |s| ==> IsSpace(s[i])
  {
    if |s| > 0 && IsSpace(s[|s| - 1]) then TrimEnd(s[..|s| - 1]) else s
  }

  /** `s.trim()`. */
  function Trim(s: string): (r: string)
    ensures |r| <= |s|
    ensures |r| > 0 ==> !IsSpace(r[0]) && !IsSpace(r[|r| - 1])
    ensures |r| == 0 <==> forall i :: 0 <= i < |s| ==> IsSpace(s[i])
  {
    TrimFacts(s);
    TrimEnd(TrimStart(s))
  }

  lemma TrimFacts(s: string)
    ensures var r := TrimEnd(TrimStart(s));
      (|r| > 0 ==> !IsSpace(r[0])) &&
      (|r| == 0 <==> forall i :: 0 <= i < |s| ==> IsSpace(s[i]))
  {
    var t := TrimStart(s);
    var r := TrimEnd(t);
    if |r| == 0 {
      forall i | 0 <= i < |s| ensures IsSpace(s[i]) {
        assert i < |s| - |t|;
      }
    } else {
      assert r[0] == t[0];
      assert t[0] == s[|s| - |t|];
    }
  }

  predicate NonEmpty(s: string)
  {
    |s| > 0
  }

  function Trimmed(): string -> string { s => Trim(s) }
  function IsNonEmpty(): string -> bool { s => NonEmpty(s) }

  /** Trimming only removes characters. */
  lemma TrimInside(s: string)
    ensures forall c :: c in Trim(s) ==> c in s
  {
    var t := TrimStart(s);
    var r := TrimEnd(t);
    var a := |s| - |t|;
    assert Trim(s) == r;
    forall c | c in r ensures c in s {
      var i :| 0 <= i < |r| && r[i] == c;
      assert t[i] == c;
      assert s[a + i] == c;
    }
  }

  /** A string without surrounding blanks is its own trim. */
  lemma TrimOfTrimmed(s: string)
    requires |s| > 0 && !IsSpace(s[0]) && !IsSpace(s[|s| - 1])
    ensures Trim(s) == s
  {
  }

  lemma {:induction false} JoinNonEmpty(ts: seq<string>, sep: string)
    requires |ts| > 0 && |ts[0]| > 0
    ensures |Join(ts, sep)| > 0
  {
  }

  /** ASCII lower-casing (`toLowerCase` on the Latin letters). */
  function LowerChar(c: char): char
  {
    if 'A' <= c <= 'Z' then (c as int + 32) as char else c
  }

  function ToLower(s: string): (r: string)
    ensures |r| == |s|
    ensures forall i :: 0 <= i < |s| ==> r[i] == LowerChar(s[i])
  {
    seq(|s|, i requires 0 <= i < |s| => LowerChar(s[i]))
  }

  /** Index of the first `c` in `s`, if any. */
  function IndexOfChar(s: string, c: char): (r: Option<nat>)
    ensures r.None? <==> c !in s
    ensures r.Some? ==> r.value < |s| && s[r.value] == c && c !in s[..r.value]
  {
    if |s| == 0 then None
    else if s[0] == c then Some(0)
    else match IndexOfChar(s[1..], c)
      case None => None
      case Some(i) =>
        assert s[..i + 1] == [s[0]] + s[1..][..i];
        Some(i + 1)
  }

  /** `s.split(c)` for a one-character separator: always at least one piece. */
  function Split(s: string, c: char): (r: seq<string>)
    ensures |r| >= 1
    ensures forall i :: 0 <= i < |r| ==> c !in r[i]
    decreases |s|
  {
    match IndexOfChar(s, c)
    case None => [s]
    case Some(i) => [s[..i]] + Split(s[i + 1..], c)
  }

  /** `parts.join(sep)`. */
  function Join(parts: seq<string>, sep: string): (r: string)
  {
    if |parts| == 0 then ""
    else if |parts| == 1 then parts[0]
    else parts[0] + sep + Join(parts[1..], sep)
  }

  lemma {:induction false} JoinSplit(s: string, c: char)
    ensures Join(Split(s, c), [c]) == s
    decreases |s|
  {
    match IndexOfChar(s, c)
    case None =>
    case Some(i) =>
      JoinSplit(s[i + 1..], c);
      assert Split(s, c) == [s[..i]] + Split(s[i + 1..], c);
      assert s == s[..i] + [c] + s[i + 1..];
  }

  lemma {:induction false} SplitJoin(parts: seq<string>, c: char)
    requires |parts| >= 1
    requires forall i :: 0 <= i < |parts| ==> c !in parts[i]
    ensures Split(Join(parts, [c]), c) == parts
    decreases |parts|
  {
    if |parts| == 1 {
      assert IndexOfChar(parts[0], c).None?;
    } else {
      var rest := Join(parts[1..], [c]);
      var s := parts[0] + [c] + rest;
      assert s == Join(parts, [c]);
      assert IndexOfChar(s, c) == Some(|parts[0]|) by {
        assert s[|parts[0]|] == c;
        assert s[..|parts[0]|] == parts[0];
      }
      assert s[..|parts[0]|] == parts[0];
      assert s[|parts[0]| + 1..] == rest;
      SplitJoin(parts[1..], c);
    }
  }

  function DigitChar(d: nat): char
    requires d < 10
  {
    ['0', '1', '2', '3', '4', '5', '6', '7', '8', '9'][d]
  }

  /** Decimal rendering of a natural number (`${n}`). */
  function NatToString(n: nat): (r: string)
    ensures |r| >= 1
    ensures forall i :: 0 <= i < |r| ==> '0' <= r[i] <= '9'
    decreases n
  {
    if n < 10 then [DigitChar(n)] else NatToString(n / 10) + [DigitChar(n % 10)]
  }

  /** Decimal rendering of an integer (`${n}`). */
  function IntToString(n: int): (r: string)
    ensures |r| >= 1
  {
    if n < 0 then "-" + NatToString(-n) else NatToString(n)
  }

  function DigitValue(c: char): nat
  {
    if '0' <= c <= '9' then c as nat - '0' as nat else 0
  }

  /** Decimal reading of a digit string (`Number(s)` on digits only). */
  function ParseNat(s: string): nat
  {
    if |s| == 0 then 0 else 10 * ParseNat(s[..|s| - 1]) + DigitValue(s[|s| - 1])
  }

  lemma {:induction false} ParseNatToString(n: nat)
    ensures ParseNat(NatToString(n)) == n
    decreases n
  {
    var s := NatToString(n);
    if n < 10 {
      assert s == [DigitChar(n)];
      assert s[..0] == [];
    } else {
      var d := n % 10;
      ParseNatToString(n / 10);
      assert s == NatToString(n / 10) + [DigitChar(d)];
      assert s[..|s| - 1] == NatToString(n / 10);
      assert DigitValue(s[|s| - 1]) == d;
      assert ParseNat(s) == 10 * ParseNat(s[..|s| - 1]) + DigitValue(s[|s| - 1]);
      assert ParseNat(s) == 10 * (n / 10) + d;
    }
  }

  // ---------------------------------------------------------------------
  // Numbers
  // ---------------------------------------------------------------------

  /** `Math.round`: nearest integer, halves rounded up (towards +infinity). */
  function Round(x: real): (r: int)
    ensures x - 0.5 < r as real <= x + 0.5
  {
    (x + 0.5).Floor
  }

  /** `Math.round(x * 10) / 10`: one decimal place. */
  function Round1(x: real): (r: real)
    ensures x - 0.05 < r <= x + 0.05
  {
    Round(x * 10.0) as real / 10.0
  }

  lemma RoundMonotone(x: real, y: real)
    requires x <= y
    ensures Round(x) <= Round(y)
  {
  }

  lemma Round1Monotone(x: real, y: real)
    requires x <= y
    ensures Round1(x) <= Round1(y)
  {
    RoundMonotone(x * 10.0, y * 10.0);
  }

  lemma RoundInt(k: int)
    ensures Round(k as real) == k
  {
  }

  /** `Math.round(sum / n)` of a list of integers, 0 for an empty list. */
  function RoundedMean(times: seq<int>): (r: int)
  {
    if |times| > 0 then Round(SumInt(times) as real / |times| as real) else 0
  }

  /** The rounded mean lies between the smallest and the largest element. */
  lemma RoundedMeanBounds(times: seq<int>)
    ensures |times| > 0 ==> MinOf(times) <= RoundedMean(times) <= MaxOf(times)
  {
    if |times| == 0 { return; }
    var n := |times|;
    SumIntBounds(times, MinOf(times), MaxOf(times));
    var mean := SumInt(times) as real / n as real;
    MeanBounds(SumInt(times), n, MinOf(times), MaxOf(times));
    RoundMonotone(MinOf(times) as real, mean);
    RoundMonotone(mean, MaxOf(times) as real);
    RoundInt(MinOf(times));
    RoundInt(MaxOf(times));
  }

  lemma MeanBounds(sum: int, n: int, lo: int, hi: int)
    requires n > 0 && n * lo <= sum <= n * hi
    ensures lo as real <= sum as real / n as real <= hi as real
  {
    var m := sum as real / n as real;
    assert m * n as real == sum as real;
    assert (n * lo) as real == n as real * lo as real;
    assert (n * hi) as real == n as real * hi as real;
  }

  function Max(a: int, b: int): int { if a >= b then a else b }
  function Min(a: int, b: int): int { if a <= b then a else b }

  /** Integer division truncating toward zero, as `Math.trunc(a / b)`. */
  function DivTrunc(a: int, b: int): (r: int)
    requires b > 0
    ensures a >= 0 ==> r == a / b
    ensures a <= 0 ==> r == -((-a) / b)
  {
    if a >= 0 then a / b else -((-a) / b)
  }

  // ---------------------------------------------------------------------
  // Last write wins: `new Map(s.map(x => [key(x), x])).values()`
  // ---------------------------------------------------------------------

  /** `map.set(key(x), x)`: the entry with the same key is replaced in place, else `x` is appended. */
  function Upsert<T, K(==)>(acc: seq<T>, x: T, key: T -> K): (r: seq<T>)
    ensures |r| == (if key(x) in Map(acc, key) then |acc| else |acc| + 1)
    decreases |acc|
  {
    if |acc| == 0 then [x]
    else if key(acc[0]) == key(x) then [x] + acc[1..]
    else
      assert Map(acc, key) == [key(acc[0])] + Map(acc[1..], key);
      [acc[0]] + Upsert(acc[1..], x, key)
  }

  /** Setting a key keeps the key order, adding a new key at the end. */
  lemma {:induction false} UpsertKeys<T, K>(acc: seq<T>, x: T, key: T -> K)
    ensures Map(Upsert(acc, x, key), key) ==
      if key(x) in Map(acc, key) then Map(acc, key) else Map(acc, key) + [key(x)]
    decreases |acc|
  {
    if |acc| == 0 {
      assert Map([x], key) == [key(x)];
    } else {
      var rest := acc[1..];
      assert acc == [acc[0]] + rest;
      MapCons(acc[0], rest, key);
      if key(acc[0]) == key(x) {
        MapCons(x, rest, key);
      } else {
        UpsertKeys(rest, x, key);
        MapCons(acc[0], Upsert(rest, x, key), key);
        assert Map(rest, key) + [key(x)] == Map(rest, key) + [key(x)];
      }
    }
  }

  lemma MapCons<T, U>(a: T, rest: seq<T>, f: T -> U)
    ensures Map([a] + rest, f) == [f(a)] + Map(rest, f)
  {
  }

  /** With distinct keys, the entry under `key(x)` becomes `x` and every other entry stays. */
  lemma {:induction false} UpsertValues<T, K>(acc: seq<T>, x: T, key: T -> K)
    requires NoDup(Map(acc, key))
    ensures forall i :: 0 <= i < |acc| ==>
      Upsert(acc, x, key)[i] == if key(acc[i]) == key(x) then x else acc[i]
    ensures key(x) !in Map(acc, key) ==> Upsert(acc, x, key)[|acc|] == x
    decreases |acc|
  {
    if |acc| > 0 {
      assert Map(acc, key) == [key(acc[0])] + Map(acc[1..], key);
      assert NoDup(Map(acc[1..], key));
      if key(acc[0]) == key(x) {
        forall i | 1 <= i < |acc|
          ensures key(acc[i]) != key(x)
        {
          assert Map(acc, key)[0] != Map(acc, key)[i];
        }
      } else {
        UpsertValues(acc[1..], x, key);
      }
    }
  }

  /**
   * The values of a JavaScript `Map` filled with `map.set(key(x), x)` from
   * the front: one element per key, in first-occurrence order of the keys,
   * each the last element carrying its key.
   */
  function LastPerKey<T, K(==)>(s: seq<T>, key: T -> K): seq<T>
  {
    if |s| == 0 then [] else Upsert(LastPerKey(s[..|s| - 1], key), s[|s| - 1], key)
  }

  /** The keys of the result are the distinct keys of the input, in first-occurrence order. */
  lemma {:induction false} LastPerKeyKeys<T, K>(s: seq<T>, key: T -> K)
    ensures Map(LastPerKey(s, key), key) == Dedup(Map(s, key))
    decreases |s|
  {
    if |s| > 0 {
      var s' := s[..|s| - 1];
      LastPerKeyKeys(s', key);
      UpsertKeys(LastPerKey(s', key), s[|s| - 1], key);
      assert Map(s, key)[..|s| - 1] == Map(s', key);
    }
  }

  /** `x` is the last element of `s` carrying its key. */
  ghost predicate LastWithKey<T, K>(s: seq<T>, key: T -> K, x: T)
  {
    var w := LastWhere(s, KeyIs(key, key(x)));
    w.Some? && s[w.value] == x
  }

  /** Each kept element is the last element of the input carrying its key. */
  lemma {:induction false} LastPerKeyLast<T, K>(s: seq<T>, key: T -> K)
    ensures forall i :: 0 <= i < |LastPerKey(s, key)| ==> LastWithKey(s, key, LastPerKey(s, key)[i])
    decreases |s|
  {
    if |s| > 0 {
      var s' := s[..|s| - 1];
      LastPerKeyLast(s', key);
      LastPerKeyKeys(s', key);
      UpsertValues(LastPerKey(s', key), s[|s| - 1], key);
      forall i | 0 <= i < |LastPerKey(s, key)|
        ensures LastWithKey(s, key, LastPerKey(s, key)[i])
      {
        LastPerKeyStep(s, key, i);
      }
    }
  }

  lemma LastPerKeyStep<T, K>(s: seq<T>, key: T -> K, i: nat)
    requires |s| > 0
    requires var acc := LastPerKey(s[..|s| - 1], key);
      forall j :: 0 <= j < |acc| ==> LastWithKey(s[..|s| - 1], key, acc[j])
    requires var acc := LastPerKey(s[..|s| - 1], key);
      forall j :: 0 <= j < |acc| ==>
        Upsert(acc, s[|s| - 1], key)[j] == if key(acc[j]) == key(s[|s| - 1]) then s[|s| - 1] else acc[j]
    requires var acc := LastPerKey(s[..|s| - 1], key);
      key(s[|s| - 1]) !in Map(acc, key) ==> Upsert(acc, s[|s| - 1], key)[|acc|] == s[|s| - 1]
    requires i < |LastPerKey(s, key)|
    ensures LastWithKey(s, key, LastPerKey(s, key)[i])
  {
    var s' := s[..|s| - 1];
    var x := s[|s| - 1];
    var acc := LastPerKey(s', key);
    var r := Upsert(acc, x, key);
    assert LastPerKey(s, key) == r;
    var y := r[i];
    if key(y) == key(x) {
      if i < |acc| {
        assert key(acc[i]) == key(x);
      } else {
        assert key(x) !in Map(acc, key);
      }
      assert y == x;
      assert KeyIs(key, key(y))(x);
    } else {
      assert i < |acc| && y == acc[i];
      assert !KeyIs(key, key(y))(x);
      assert LastWhere(s, KeyIs(key, key(y))) == LastWhere(s', KeyIs(key, key(y)));
    }
  }

  // ---------------------------------------------------------------------
  // First match: `Array.prototype.find` / `findIndex`
  // ---------------------------------------------------------------------

  /** Index of the first element satisfying `p`, if any. */
  function FirstWhere<T>(s: seq<T>, p: T -> bool): (r: Option<nat>)
    ensures r.None? <==> forall i :: 0 <= i < |s| ==> !p(s[i])
    ensures r.Some? ==> r.value < |s| && p(s[r.value])
    ensures r.Some? ==> forall j :: 0 <= j < r.value ==> !p(s[j])
  {
    if |s| == 0 then None
    else if p(s[0]) then Some(0)
    else
      var r := FirstWhere(s[1..], p);
      if r.None? then None else Some(r.value + 1)
  }

  /** `Array.prototype.find`: the first element satisfying `p`, if any. */
  function Find<T>(s: seq<T>, p: T -> bool): (r: Option<T>)
    ensures r.None? <==> forall i :: 0 <= i < |s| ==> !p(s[i])
    ensures r.Some? ==> r.value in s && p(r.value)
  {
    match FirstWhere(s, p)
    case None => None
    case Some(i) => Some(s[i])
  }

  /** Elements with the same predicate values give the same first match. */
  lemma {:induction false} FirstWhereCongruent<T>(s: seq<T>, p: T -> bool, q: T -> bool)
    requires forall i :: 0 <= i < |s| ==> p(s[i]) == q(s[i])
    ensures FirstWhere(s, p) == FirstWhere(s, q)
    decreases |s|
  {
    if |s| > 0 && !p(s[0]) {
      FirstWhereCongruent(s[1..], p, q);
    }
  }

  // ---------------------------------------------------------------------
  // Insertion-ordered sets: a JavaScript `Set` as a duplicate-free sequence
  // ---------------------------------------------------------------------

  /** The members of a sequence. */
  function Elements<T(==)>(s: seq<T>): set<T>
  {
    set x | x in s
  }

  /** A duplicate-free sequence has as many members as elements (`Set.size`). */
  lemma {:induction false} NoDupCard<T>(s: seq<T>)
    requires NoDup(s)
    ensures |Elements(s)| == |s|
    decreases |s|
  {
    if |s| > 0 {
      var s' := s[..|s| - 1];
      var x := s[|s| - 1];
      NoDupCard(s');
      assert Elements(s) == Elements(s') + {x};
      assert x !in Elements(s');
    }
  }

  /** A subset as large as its finite superset is the whole superset. */
  lemma SubsetEqualCard<T>(a: set<T>, b: set<T>)
    requires a <= b && |a| == |b|
    ensures a == b
  {
    if b - a != {} {
      var x :| x in b - a;
      SubsetCard(a, b - {x});
    } else {
      assert b <= a;
    }
  }

  /** `Set.prototype.delete`: the remaining members keep their insertion order. */
  function SetDelete<T(==,!new)>(s: seq<T>, x: T): (r: seq<T>)
    ensures forall y :: y in r <==> y in s && y != x
    ensures x !in s ==> r == s
    ensures NoDup(s) ==> NoDup(r) && (x in s ==> |r| == |s| - 1)
  {
    if |s| == 0 then []
    else
      var s', y := s[..|s| - 1], s[|s| - 1];
      var rest := SetDelete(s', x);
      assert s == s' + [y];
      assert NoDup(s) ==> NoDup(s') && y !in s';
      if y == x then rest else rest + [y]
  }

  /** The filter chips' toggle: delete a member, or add a non-member at the end. */
  function SetToggle<T(==,!new)>(s: seq<T>, x: T): (r: seq<T>)
    ensures x in r <==> x !in s
    ensures forall y :: y != x ==> (y in r <==> y in s)
    ensures NoDup(s) ==> NoDup(r) && |r| == (if x in s then |s| - 1 else |s| + 1)
  {
    if x in s then SetDelete(s, x) else s + [x]
  }

  /**
   * Toggling twice restores the members, and restores the sequence itself
   * unless `x` was a member (which then moves to the end).
   */
  lemma SetToggleTwice<T(!new)>(s: seq<T>, x: T)
    requires NoDup(s)
    ensures Elements(SetToggle(SetToggle(s, x), x)) == Elements(s)
    ensures x !in s ==> SetToggle(SetToggle(s, x), x) == s
    ensures x in s ==> SetToggle(SetToggle(s, x), x) == SetDelete(s, x) + [x]
  {
    if x !in s {
      SetDeleteAppended(s, x);
    }
  }

  /** Deleting a freshly appended non-member gives back the original. */
  lemma {:induction false} SetDeleteAppended<T(!new)>(s: seq<T>, x: T)
    requires x !in s
    ensures SetDelete(s + [x], x) == s
  {
    assert (s + [x])[..|s + [x]| - 1] == s;
  }
}

=== FILE: filters.dfy ===
/**
 * The filter controls: the work-type filter of the dashboard
 * (src/components/dashboard/TypeFilter.tsx), the RAID category filter of
 * the watch list (src/components/watchlist/RaidTypeFilter.tsx), the sprint
 * selector (src/components/filters/SprintSelector.tsx) and the sync
 * indicator (src/components/dashboard/SyncIndicator.tsx).
 *
 * A JavaScript `Set` is a duplicate-free sequence in insertion order, so
 * that `[...selected][0]` and `size` mean what they mean in the browser.
 */
module Filters {
  import opened Common
  import opened WorkItems
  import opened Raid
  import opened Sprints

  // ---------------------------------------------------------------------
  // Chips shared by both type filters
  // ---------------------------------------------------------------------

  /** `toggle` / `toggleType`: copy the set, then delete the option or add it. */
  function Toggled<T(==,!new)>(selected: seq<T>, option: T): (r: seq<T>)
    requires NoDup(selected)
    ensures NoDup(r)
    ensures Elements(r) == (Elements(selected) - {option}) + ({option} - Elements(selected))
  {
    SetToggle(selected, option)
  }

  /** Toggling the same option twice gives back the same selection, as a set. */
  lemma ToggledTwice<T(!new)>(selected: seq<T>, option: T)
    requires NoDup(selected)
    ensures Elements(Toggled(Toggled(selected, option), option)) == Elements(selected)
    ensures |Toggled(Toggled(selected, option), option)| == |selected|
    ensures |selected| == 1 ==> Toggled(Toggled(selected, option), option) == selected
  {
    SetToggleTwice(selected, option);
    if |selected| == 1 && option in selected {
      assert selected == [option];
      assert SetDelete(selected, option) == [];
    }
  }

  // ---------------------------------------------------------------------
  // Work-type filter
  // ---------------------------------------------------------------------

  const AREA_PATH_KEY: string := "Area Path"

  /** `ALL_TYPE_OPTIONS`, in menu order. */
  const ALL_TYPE_OPTIONS: seq<string> :=
    [AREA_PATH_KEY, "Epic", "Feature", "User Story", "Bug", "Task", "Issue", "Risk"]

  /** `DEFAULT_SELECTED_TYPES`, in insertion order. */
  const DEFAULT_SELECTED_TYPES: seq<string> := [AREA_PATH_KEY, "Epic", "Feature", "User Story"]

  /** The eight options are distinct, so `selectAll` yields a set of size 8. */
  lemma TypeOptionsDistinct()
    ensures NoDup(ALL_TYPE_OPTIONS)
    ensures |Elements(ALL_TYPE_OPTIONS)| == 8
    ensures "All Types" !in ALL_TYPE_OPTIONS
  {
    var o := ALL_TYPE_OPTIONS;
    assert o[0][0] == 'A' && o[1][0] == 'E' && o[2][0] == 'F' && o[3][0] == 'U';
    assert o[4][0] == 'B' && o[5][0] == 'T' && o[6][0] == 'I' && o[7][0] == 'R';
    assert o[0][1] == 'r' && "All Types"[1] == 'l';
    NoDupCard(o);
  }

  /** The number of work types selected, Area Path not counting as one. */
  function TypeCount(selected: seq<string>): nat
  {
    if AREA_PATH_KEY in selected then |selected| - 1 else |selected|
  }

  /** The trigger label of the work-type filter. */
  function TypeLabel(selected: seq<string>): (r: string)
    requires NoDup(selected)
    ensures |selected| == |ALL_TYPE_OPTIONS| ==> r == "All Types"
    ensures selected == [] ==> r == "No Types"
    ensures selected == [AREA_PATH_KEY] ==> r == AREA_PATH_KEY
    ensures |selected| == 1 && selected[0] != AREA_PATH_KEY ==> r == selected[0]
    ensures 2 <= |selected| < |ALL_TYPE_OPTIONS| ==>
      r == NatToString(|Elements(selected) - {AREA_PATH_KEY}|) + " Types"
  {
    var typeCount := TypeCount(selected);
    TypeCountIsTypes(selected);
    if |selected| == |ALL_TYPE_OPTIONS| then "All Types"
    else if |selected| == 0 then "No Types"
    else if typeCount == 1 && AREA_PATH_KEY !in selected then selected[0]
    else if typeCount == 0 then AREA_PATH_KEY
    else NatToString(typeCount) + " Types"
  }

  /** `typeCount` is the number of selected members other than Area Path. */
  lemma TypeCountIsTypes(selected: seq<string>)
    requires NoDup(selected)
    ensures TypeCount(selected) == |Elements(selected) - {AREA_PATH_KEY}|
  {
    NoDupCard(selected);
    if AREA_PATH_KEY in selected {
      assert Elements(selected) == (Elements(selected) - {AREA_PATH_KEY}) + {AREA_PATH_KEY};
    } else {
      assert Elements(selected) - {AREA_PATH_KEY} == Elements(selected);
    }
  }

  /** A "n Types" label starts with a digit. */
  lemma CountLabelStart(n: nat)
    ensures var t := NatToString(n) + " Types"; |t| > 0 && '0' <= t[0] <= '9'
  {
  }

  /**
   * Over options of the menu, the label reads "All Types" exactly when
   * every option is selected.
   */
  lemma TypeLabelAll(selected: seq<string>)
    requires NoDup(selected)
    requires forall i :: 0 <= i < |selected| ==> selected[i] in ALL_TYPE_OPTIONS
    ensures TypeLabel(selected) == "All Types" <==> forall o :: o in ALL_TYPE_OPTIONS ==> o in selected
  {
    if TypeLabel(selected) == "All Types" {
      if |selected| != |ALL_TYPE_OPTIONS| {
        TypeLabelNotAll(selected);
      }
      EightAreAll(selected);
    }
    if forall o :: o in ALL_TYPE_OPTIONS ==> o in selected {
      AllAreEight(selected);
    }
  }

  /** Eight distinct options selected are all of them. */
  lemma EightAreAll(selected: seq<string>)
    requires NoDup(selected) && |selected| == |ALL_TYPE_OPTIONS|
    requires forall i :: 0 <= i < |selected| ==> selected[i] in ALL_TYPE_OPTIONS
    ensures forall o :: o in ALL_TYPE_OPTIONS ==> o in selected
  {
    TypeOptionsDistinct();
    NoDupCard(selected);
    assert Elements(selected) <= Elements(ALL_TYPE_OPTIONS);
    SubsetEqualCard(Elements(selected), Elements(ALL_TYPE_OPTIONS));
    forall o | o in ALL_TYPE_OPTIONS ensures o in selected {
      assert o in Elements(ALL_TYPE_OPTIONS);
    }
  }

  /** Every option selected, without duplicates, makes eight. */
  lemma AllAreEight(selected: seq<string>)
    requires NoDup(selected)
    requires forall i :: 0 <= i < |selected| ==> selected[i] in ALL_TYPE_OPTIONS
    requires forall o :: o in ALL_TYPE_OPTIONS ==> o in selected
    ensures |selected| == |ALL_TYPE_OPTIONS|
  {
    TypeOptionsDistinct();
    NoDupCard(selected);
    assert Elements(selected) == Elements(ALL_TYPE_OPTIONS);
  }

  /** Short of eight members, no branch of the label reads "All Types". */
  lemma TypeLabelNotAll(selected: seq<string>)
    requires NoDup(selected)
    requires forall i :: 0 <= i < |selected| ==> selected[i] in ALL_TYPE_OPTIONS
    requires |selected| != |ALL_TYPE_OPTIONS|
    ensures TypeLabel(selected) != "All Types"
  {
    TypeOptionsDistinct();
    if |selected| > 0 {
      assert selected[0] in ALL_TYPE_OPTIONS;
      CountLabelStart(TypeCount(selected));
    }
  }

  /** `selectAll`, `clearAll` and the default selection, read back through the label. */
  lemma TypeSelectionLabels()
    ensures TypeLabel(ALL_TYPE_OPTIONS) == "All Types"
    ensures TypeLabel([]) == "No Types"
    ensures TypeLabel(DEFAULT_SELECTED_TYPES) == "3 Types"
  {
    TypeOptionsDistinct();
    var d := DEFAULT_SELECTED_TYPES;
    assert d[0][0] == 'A' && d[1][0] == 'E' && d[2][0] == 'F' && d[3][0] == 'U';
    assert TypeCount(d) == 3;
  }

  /** Area Path plus one work type counts as "1 Types". */
  lemma TypeLabelAreaPlusOne()
    ensures TypeLabel([AREA_PATH_KEY, "Epic"]) == "1 Types"
  {
    assert "Epic"[0] == 'E' && AREA_PATH_KEY[0] == 'A';
    assert TypeCount([AREA_PATH_KEY, "Epic"]) == 1;
  }

  /** Toggling an option twice leaves the label as it was. */
  lemma TypeToggleTwiceLabel(selected: seq<string>, option: string)
    requires NoDup(selected)
    ensures TypeLabel(Toggled(Toggled(selected, option), option)) == TypeLabel(selected)
  {
    var t := Toggled(Toggled(selected, option), option);
    ToggledTwice(selected, option);
    TypeCountIsTypes(selected);
    TypeCountIsTypes(t);
  }

  /** Toggling a menu option keeps the selection within the menu. */
  lemma ToggledStaysInMenu(selected: seq<string>, option: string)
    requires NoDup(selected)
    requires forall i :: 0 <= i < |selected| ==> selected[i] in ALL_TYPE_OPTIONS
    requires option in ALL_TYPE_OPTIONS
    ensures var r := Toggled(selected, option);
      forall i :: 0 <= i < |r| ==> r[i] in ALL_TYPE_OPTIONS
  {
    var r := Toggled(selected, option);
    forall i | 0 <= i < |r| ensures r[i] in ALL_TYPE_OPTIONS {
      assert r[i] in Elements(r);
      if r[i] != option {
        assert r[i] in Elements(selected);
      }
    }
  }

  // ---------------------------------------------------------------------
  // RAID category filter
  // ---------------------------------------------------------------------

  /** The trigger label of the RAID category filter. */
  function RaidLabel(selected: seq<RaidCategory>): (r: string)
    requires NoDup(selected)
    ensures (forall c: RaidCategory :: c in selected) ==> r == "All Types"
    ensures selected == [] ==> r == "No Types"
    ensures |selected| == 1 ==> r == CategoryName(selected[0])
    ensures 2 <= |selected| && (exists c: RaidCategory :: c !in selected) ==>
      r == NatToString(|Elements(selected)|) + " Types"
  {
    AllCategoriesCounted(selected);
    if |selected| == |ALL_RAID_CATEGORIES| then "All Types"
    else if |selected| == 0 then "No Types"
    else if |selected| == 1 then CategoryName(selected[0])
    else NatToString(|selected|) + " Types"
  }

  /** Five distinct categories selected means every category is selected. */
  lemma AllCategoriesCounted(selected: seq<RaidCategory>)
    requires NoDup(selected)
    ensures |Elements(selected)| == |selected|
    ensures |selected| == |ALL_RAID_CATEGORIES| <==> forall c: RaidCategory :: c in selected
  {
    NoDupCard(selected);
    assert NoDup(ALL_RAID_CATEGORIES) by {
      AllCategoriesListed(IssueCat);
    }
    NoDupCard(ALL_RAID_CATEGORIES);
    assert Elements(selected) <= Elements(ALL_RAID_CATEGORIES) by {
      forall c | c in Elements(selected) ensures c in Elements(ALL_RAID_CATEGORIES) {
        AllCategoriesListed(c);
      }
    }
    if |selected| == |ALL_RAID_CATEGORIES| {
      SubsetEqualCard(Elements(selected), Elements(ALL_RAID_CATEGORIES));
      forall c: RaidCategory ensures c in selected {
        AllCategoriesListed(c);
        assert c in Elements(ALL_RAID_CATEGORIES);
      }
    }
    if forall c: RaidCategory :: c in selected {
      assert Elements(ALL_RAID_CATEGORIES) == Elements(selected);
    }
  }

  /** No category is called "All Types", and no count label is either. */
  lemma RaidLabelAll(selected: seq<RaidCategory>)
    requires NoDup(selected)
    ensures RaidLabel(selected) == "All Types" <==> forall c: RaidCategory :: c in selected
  {
    AllCategoriesCounted(selected);
    if |selected| > 1 {
      CountLabelStart(|selected|);
    }
  }

  /** A count label names between two and four categories. */
  lemma RaidCountLabelRange(selected: seq<RaidCategory>)
    requires NoDup(selected)
    requires |selected| >= 2 && exists c: RaidCategory :: c !in selected
    ensures 2 <= |selected| <= 4
  {
    AllCategoriesCounted(selected);
    SubsetCard(Elements(selected), Elements(ALL_RAID_CATEGORIES)) by {
      forall c | c in Elements(selected) ensures c in Elements(ALL_RAID_CATEGORIES) {
        AllCategoriesListed(c);
      }
    }
    NoDupCard(ALL_RAID_CATEGORIES) by {
      AllCategoriesListed(IssueCat);
    }
  }

  /** `selectAll` and `clearAll`, read back through the label. */
  lemma RaidSelectionLabels()
    ensures RaidLabel(ALL_RAID_CATEGORIES) == "All Types"
    ensures RaidLabel([]) == "No Types"
  {
    AllCategoriesListed(IssueCat);
  }

  /** Toggling a category twice leaves the label as it was. */
  lemma RaidToggleTwiceLabel(selected: seq<RaidCategory>, c: RaidCategory)
    requires NoDup(selected)
    ensures RaidLabel(Toggled(Toggled(selected, c), c)) == RaidLabel(selected)
  {
    ToggledTwice(selected, c);
    var t := Toggled(Toggled(selected, c), c);
    AllCategoriesCounted(selected);
    AllCategoriesCounted(t);
    forall d: RaidCategory ensures d in t <==> d in selected {
      assert d in Elements(t) <==> d in Elements(selected);
    }
  }

  // ---------------------------------------------------------------------
  // Sprint selector
  // ---------------------------------------------------------------------

  function SprintName(s: Sprint): string
  {
    s.name
  }

  predicate IsCurrent(s: Sprint)
  {
    s.timeFrame == Current
  }

  /**
   * `uniqueSprints`: the sprints newest first, then one per name through a
   * `Map` keyed by name, the last sprint of a name replacing the earlier
   * ones at the first one's position.
   */
  function UniqueSprints(sprints: seq<Sprint>): (r: seq<Sprint>)
    ensures NoDup(Map(r, SprintName))
    ensures |r| <= |sprints|
  {
    var sorted := SortNewestFirst(sprints);
    LastPerKeyKeys(sorted, SprintName);
    LastPerKey(sorted, SprintName)
  }

  /** Every name of the input appears exactly once, each kept sprint is one of the input's. */
  lemma UniqueSprintsNames(sprints: seq<Sprint>)
    ensures forall s :: s in sprints ==> s.name in Map(UniqueSprints(sprints), SprintName)
    ensures forall i :: 0 <= i < |UniqueSprints(sprints)| ==> UniqueSprints(sprints)[i] in sprints
  {
    var sorted := SortNewestFirst(sprints);
    var r := UniqueSprints(sprints);
    LastPerKeyKeys(sorted, SprintName);
    LastPerKeyLast(sorted, SprintName);
    forall s | s in sprints ensures s.name in Map(r, SprintName) {
      assert s in multiset(sorted);
      var k :| 0 <= k < |sorted| && sorted[k] == s;
      assert Map(sorted, SprintName)[k] == s.name;
    }
    forall i | 0 <= i < |r| ensures r[i] in sprints {
      assert LastWithKey(sorted, SprintName, r[i]);
      assert r[i] in multiset(sorted);
    }
  }

  /**
   * For a shared name the kept sprint is the last of that name in the
   * newest-first order, so the oldest start among them.
   */
  lemma UniqueSprintsKeepLast(sprints: seq<Sprint>)
    ensures var sorted := SortNewestFirst(sprints);
      forall i :: 0 <= i < |UniqueSprints(sprints)| ==> LastWithKey(sorted, SprintName, UniqueSprints(sprints)[i])
    ensures forall i, s :: 0 <= i < |UniqueSprints(sprints)| && s in sprints && s.name == UniqueSprints(sprints)[i].name ==>
      SprintStart(UniqueSprints(sprints)[i]) <= SprintStart(s)
  {
    var sorted := SortNewestFirst(sprints);
    var r := UniqueSprints(sprints);
    LastPerKeyLast(sorted, SprintName);
    forall i, s | 0 <= i < |r| && s in sprints && s.name == r[i].name
      ensures SprintStart(r[i]) <= SprintStart(s)
    {
      assert s in multiset(sorted);
      LastOfNameIsOldest(sorted, r[i], s);
    }
  }

  /** In a newest-first list the last sprint of a name starts no later than any other of that name. */
  lemma LastOfNameIsOldest(sorted: seq<Sprint>, x: Sprint, s: Sprint)
    requires forall i, j :: 0 <= i < j < |sorted| ==> SprintStart(sorted[i]) >= SprintStart(sorted[j])
    requires LastWithKey(sorted, SprintName, x)
    requires s in sorted && s.name == x.name
    ensures SprintStart(x) <= SprintStart(s)
  {
    var w := LastWhere(sorted, KeyIs(SprintName, x.name));
    var k :| 0 <= k < |sorted| && sorted[k] == s;
    assert KeyIs(SprintName, x.name)(sorted[k]);
    assert k <= w.value;
  }

  /** The names are listed in the order of their newest sprint, newest first. */
  lemma UniqueSprintsOrder(sprints: seq<Sprint>)
    ensures var names := Map(SortNewestFirst(sprints), SprintName);
      forall i, j :: 0 <= i < j < |UniqueSprints(sprints)| ==>
        UniqueSprints(sprints)[i].name in names && UniqueSprints(sprints)[j].name in names &&
        FirstIndex(names, UniqueSprints(sprints)[i].name) < FirstIndex(names, UniqueSprints(sprints)[j].name) &&
        SprintStart(SortNewestFirst(sprints)[FirstIndex(names, UniqueSprints(sprints)[i].name)]) >=
        SprintStart(SortNewestFirst(sprints)[FirstIndex(names, UniqueSprints(sprints)[j].name)])
  {
    var sorted := SortNewestFirst(sprints);
    var names := Map(sorted, SprintName);
    var r := UniqueSprints(sprints);
    LastPerKeyKeys(sorted, SprintName);
    DedupFirstOccurrenceOrder(names);
    forall i, j | 0 <= i < j < |r|
      ensures r[i].name in names && r[j].name in names
      ensures FirstIndex(names, r[i].name) < FirstIndex(names, r[j].name)
      ensures SprintStart(sorted[FirstIndex(names, r[i].name)]) >= SprintStart(sorted[FirstIndex(names, r[j].name)])
    {
      assert Map(r, SprintName)[i] == r[i].name && Map(r, SprintName)[j] == r[j].name;
    }
  }

  /**
   * `currentSprint`: the first current sprint of the array after the
   * in-place sort, i.e. the current sprint with the newest start.
   */
  function CurrentSprint(sprints: seq<Sprint>): (r: Option<Sprint>)
    ensures r.None? <==> forall s :: s in sprints ==> !IsCurrent(s)
    ensures r.Some? ==> r.value in sprints && IsCurrent(r.value)
    ensures r.Some? ==> forall s :: s in sprints && IsCurrent(s) ==> SprintStart(s) <= SprintStart(r.value)
  {
    var sorted := SortNewestFirst(sprints);
    var i := FirstWhere(sorted, IsCurrent);
    CurrentInSorted(sprints, sorted, i);
    if i.None? then None else Some(sorted[i.value])
  }

  lemma CurrentInSorted(sprints: seq<Sprint>, sorted: seq<Sprint>, i: Option<nat>)
    requires sorted == SortNewestFirst(sprints) && i == FirstWhere(sorted, IsCurrent)
    ensures i.None? <==> forall s :: s in sprints ==> !IsCurrent(s)
    ensures i.Some? ==> sorted[i.value] in sprints
    ensures i.Some? ==> forall s :: s in sprints && IsCurrent(s) ==> SprintStart(s) <= SprintStart(sorted[i.value])
  {
    forall s | s in sprints ensures s in sorted {
      assert s in multiset(sorted);
    }
    if i.Some? {
      assert sorted[i.value] in multiset(sprints);
      forall s | s in sprints && IsCurrent(s) ensures SprintStart(s) <= SprintStart(sorted[i.value]) {
        var k :| 0 <= k < |sorted| && sorted[k] == s;
        assert i.value <= k;
      }
    } else {
      forall s | s in sprints ensures !IsCurrent(s) {
        var k :| 0 <= k < |sorted| && sorted[k] == s;
      }
    }
  }

  const ALL_SPRINTS_VALUE: string := "__all__"
  const CURRENT_SPRINT_VALUE: string := "__current__"

  /** The value shown by the select: `selected ?? '__all__'`. */
  function SelectValue(selected: Option<string>): (r: string)
    ensures selected.None? ==> r == ALL_SPRINTS_VALUE
  {
    selected.GetOr(ALL_SPRINTS_VALUE)
  }

  /** `onValueChange`: the "all" entry clears the selection. */
  function OnValueChange(v: string): (r: Option<string>)
    ensures r.None? <==> v == ALL_SPRINTS_VALUE
  {
    if v == ALL_SPRINTS_VALUE then None else Some(v)
  }

  /** Choosing the shown value changes nothing, and showing a chosen value shows it. */
  lemma SelectValueRoundTrip(selected: Option<string>, v: string)
    ensures selected != Some(ALL_SPRINTS_VALUE) ==> OnValueChange(SelectValue(selected)) == selected
    ensures SelectValue(OnValueChange(v)) == v
  {
  }

  /** One entry of the select: its value and its text. */
  datatype SelectItem = SelectItem(value: string, text: string)

  function SprintItem(s: Sprint): SelectItem
  {
    SelectItem(s.path, s.name + (if IsCurrent(s) then " (current)" else ""))
  }

  /** The entries of the select: "All Sprints", the current sprint if any, then one per name. */
  function SprintOptions(sprints: seq<Sprint>): (r: seq<SelectItem>)
    ensures |r| == |UniqueSprints(sprints)| + (if CurrentSprint(sprints).Some? then 2 else 1)
    ensures r[0] == SelectItem(ALL_SPRINTS_VALUE, "All Sprints")
    ensures CurrentSprint(sprints).Some? ==>
      r[1].value == CURRENT_SPRINT_VALUE && r[1].text == "Current Sprint (" + CurrentSprint(sprints).value.name + ")"
    ensures r[|r| - |UniqueSprints(sprints)|..] == Map(UniqueSprints(sprints), SprintItem)
  {
    var current := CurrentSprint(sprints);
    var head := [SelectItem(ALL_SPRINTS_VALUE, "All Sprints")] +
      (if current.Some? then [SelectItem(CURRENT_SPRINT_VALUE, "Current Sprint (" + current.value.name + ")")] else []);
    var u := UniqueSprints(sprints);
    var tail := Map(u, SprintItem);
    assert (head + tail)[|head|..] == tail;
    head + tail
  }

  // ---------------------------------------------------------------------
  // Sync indicator
  // ---------------------------------------------------------------------

  const MS_PER_HOUR: int := 3_600_000

  /** date-fns `differenceInMinutes(now, synced)`, truncated toward zero. */
  function MinutesSince(now: int, synced: int): int
  {
    DivTrunc(now - synced, MS_PER_MINUTE)
  }

  /** date-fns `differenceInHours(now, synced)`, truncated toward zero. */
  function HoursSince(now: int, synced: int): int
  {
    DivTrunc(now - synced, MS_PER_HOUR)
  }

  /** `friendlyTimeSince`, stated by the time elapsed since the sync. */
  function FriendlyTimeSince(now: int, synced: int): (r: string)
    ensures |r| > 7 && r[..7] == "Synced "
    ensures now - synced < 60_000 ==> r == "Synced just now"
    ensures 60_000 <= now - synced < 300_000 ==> r == "Synced a few minutes ago"
    ensures 300_000 <= now - synced < 1_800_000 ==> r == "Synced recently"
    ensures 1_800_000 <= now - synced < 3_600_000 ==> r == "Synced less than an hour ago"
    ensures 3_600_000 <= now - synced < 7_200_000 ==> r == "Synced about an hour ago"
    ensures now - synced >= 7_200_000 ==> r == "Synced " + NatToString((now - synced) / MS_PER_HOUR) + " hours ago"
  {
    var mins := MinutesSince(now, synced);
    if mins < 1 then "Synced just now"
    else if mins < 5 then "Synced a few minutes ago"
    else if mins < 30 then "Synced recently"
    else if mins < 60 then "Synced less than an hour ago"
    else
      var hrs := HoursSince(now, synced);
      if hrs == 1 then "Synced about an hour ago"
      else "Synced " + IntToString(hrs) + " hours ago"
  }

  /** The band of elapsed time a label stands for; from two hours on, one band per hour. */
  function Band(elapsed: int): int
  {
    if elapsed < 60_000 then -5
    else if elapsed < 300_000 then -4
    else if elapsed < 1_800_000 then -3
    else if elapsed < 3_600_000 then -2
    else if elapsed < 7_200_000 then -1
    else elapsed / MS_PER_HOUR
  }

  /** The text of each band. */
  function BandText(band: int): string
  {
    if band == -5 then "Synced just now"
    else if band == -4 then "Synced a few minutes ago"
    else if band == -3 then "Synced recently"
    else if band == -2 then "Synced less than an hour ago"
    else if band < 0 then "Synced about an hour ago"
    else "Synced " + NatToString(band) + " hours ago"
  }

  /** The label depends on the elapsed time only through its band. */
  lemma FriendlyIsBandText(now: int, synced: int)
    ensures FriendlyTimeSince(now, synced) == BandText(Band(now - synced))
  {
  }

  /** Different bands give different texts, so the label tells the bands apart. */
  lemma FriendlyTimeDistinct(now: int, a: int, b: int)
    requires Band(now - a) != Band(now - b)
    ensures FriendlyTimeSince(now, a) != FriendlyTimeSince(now, b)
  {
    FriendlyIsBandText(now, a);
    FriendlyIsBandText(now, b);
    BandTextInjective(Band(now - a), Band(now - b));
  }

  lemma BandTextInjective(x: int, y: int)
    requires -5 <= x && -5 <= y && x != y
    ensures BandText(x) != BandText(y)
  {
    var tx, ty := BandText(x), BandText(y);
    if x >= 0 && y >= 0 {
      NatToStringInjective(x, y);
      HoursTextParts(x);
      HoursTextParts(y);
      assert tx[7..|tx| - 10] != ty[7..|ty| - 10];
    } else if x >= 0 {
      HoursTextParts(x);
      assert '0' <= tx[7] <= '9' && !('0' <= ty[7] <= '9');
    } else if y >= 0 {
      HoursTextParts(y);
      assert '0' <= ty[7] <= '9' && !('0' <= tx[7] <= '9');
    } else {
      assert tx[7] != ty[7] || tx[8] != ty[8];
    }
  }

  lemma HoursTextParts(n: nat)
    ensures var t := "Synced " + NatToString(n) + " hours ago";
      |t| >= 18 && '0' <= t[7] <= '9' && t[8] != 'b' && t[7..|t| - 10] == NatToString(n)
  {
    var t := "Synced " + NatToString(n) + " hours ago";
    var d := NatToString(n);
    assert t[7] == d[0];
    assert |d| == 1 ==> t[8] == ' ';
    assert |d| > 1 ==> t[8] == d[1];
  }

  lemma {:induction false} NatToStringInjective(m: nat, n: nat)
    requires m != n
    ensures NatToString(m) != NatToString(n)
  {
    ParseNatToString(m);
    ParseNatToString(n);
  }

  /** The label next to the dot: no sync yet, or how long ago. */
  function SyncLabel(now: int, lastUpdated: Option<int>): (r: string)
    ensures lastUpdated.None? ==> r == "Not synced yet"
    ensures lastUpdated.Some? ==> |r| > 7 && r[..7] == "Synced "
  {
    if lastUpdated.None? then "Not synced yet" else FriendlyTimeSince(now, lastUpdated.value)
  }

  /** The label says "Not synced yet" exactly when there has been no sync. */
  lemma NotSyncedExactly(now: int, lastUpdated: Option<int>)
    ensures SyncLabel(now, lastUpdated) == "Not synced yet" <==> lastUpdated.None?
  {
    if lastUpdated.Some? {
      assert SyncLabel(now, lastUpdated)[0] == 'S';
    }
  }

  /** The dot beside the label: amber while fetching, emerald once synced, else zinc. */
  datatype Dot = Fetching | Synced | Idle

  function DotOf(isFetching: bool, lastUpdated: Option<int>): (r: Dot)
    ensures r == Fetching <==> isFetching
    ensures r == Synced <==> !isFetching && lastUpdated.Some?
    ensures r == Idle <==> !isFetching && lastUpdated.None?
  {
    if isFetching then Fetching else if lastUpdated.Some? then Synced else Idle
  }
}

=== FILE: gantt.dfy ===
/**
 * The date logic of the Gantt chart (src/components/dashboard/GanttChart.tsx):
 * bar start and end dates, the end date inherited from an ancestor, the
 * (rank, start date) node order, the per-group date ranges and the span
 * of the timeline. Timestamps are milliseconds; "now" is a parameter.
 */
module Gantt {
  import opened Common
  import opened WorkItems
  import opened Tree
  import opened NodeSort

  const PADDING_DAYS: int := 7
  const MIN_TIMELINE_DAYS: int := 14
  const EMPTY_TIMELINE_DAYS: int := 30

  /** `getStartDate`: the activated date, else the created date. */
  function StartDate(x: WorkItem): int
  {
    x.activatedDate.GetOr(x.createdDate)
  }

  /** The date an item contributes as an end: its closed date, else its target date. */
  function OwnEnd(x: WorkItem): Option<int>
  {
    if x.closedDate.Some? then x.closedDate else x.targetDate
  }

  // ---------------------------------------------------------------------
  // Inherited end date
  // ---------------------------------------------------------------------

  /**
   * `findInheritedEndDate` from `current`, with the parent ids already
   * visited: stop at an absent, revisited or unknown parent, answer with
   * the first parent that has an end of its own, otherwise climb.
   */
  function InheritedEnd(current: WorkItem, lookup: map<int, WorkItem>, visited: set<int>): (r: Option<int>)
    ensures r.Some? ==> exists id :: id in lookup && id !in visited && OwnEnd(lookup[id]) == r
    ensures current.parentId.None? ==> r.None?
    decreases lookup.Keys - visited
  {
    match current.parentId
    case None => None
    case Some(p) =>
      if p in visited || p !in lookup then None
      else
        var parent := lookup[p];
        if OwnEnd(parent).Some? then OwnEnd(parent)
        else InheritedEnd(parent, lookup, visited + {p})
  }

  /** The parent ids the walk visits, ignoring dates: the ancestor chain through `lookup`. */
  function AncestorIds(current: WorkItem, lookup: map<int, WorkItem>, visited: set<int>): (ids: seq<int>)
    ensures NoDup(ids)
    ensures forall i :: 0 <= i < |ids| ==> ids[i] in lookup && ids[i] !in visited
    ensures |ids| > 0 ==> current.parentId == Some(ids[0])
    ensures forall i :: 0 <= i < |ids| - 1 ==> lookup[ids[i]].parentId == Some(ids[i + 1])
    decreases lookup.Keys - visited
  {
    match current.parentId
    case None => []
    case Some(p) =>
      if p in visited || p !in lookup then []
      else
        var rest := AncestorIds(lookup[p], lookup, visited + {p});
        assert forall i :: 0 <= i < |rest| ==> rest[i] != p;
        [p] + rest
  }

  /** The first id of the list whose item has an end of its own. */
  function FirstOwnEnd(ids: seq<int>, lookup: map<int, WorkItem>): (r: Option<int>)
    requires forall i :: 0 <= i < |ids| ==> ids[i] in lookup
    ensures r.None? <==> forall i :: 0 <= i < |ids| ==> OwnEnd(lookup[ids[i]]).None?
  {
    if |ids| == 0 then None
    else if OwnEnd(lookup[ids[0]]).Some? then OwnEnd(lookup[ids[0]])
    else
      var r := FirstOwnEnd(ids[1..], lookup);
      assert forall i :: 1 <= i < |ids| ==> ids[i] == ids[1..][i - 1];
      r
  }

  /**
   * The inherited end date is the end of the nearest ancestor that has one,
   * along a chain that never repeats a parent id; the item's own dates play
   * no part.
   */
  lemma {:induction false} InheritedIsNearestAncestor(current: WorkItem, lookup: map<int, WorkItem>, visited: set<int>)
    ensures InheritedEnd(current, lookup, visited) == FirstOwnEnd(AncestorIds(current, lookup, visited), lookup)
    decreases lookup.Keys - visited
  {
    match current.parentId
    case None =>
    case Some(p) =>
      if p !in visited && p in lookup {
        InheritedIsNearestAncestor(lookup[p], lookup, visited + {p});
        var ids := AncestorIds(current, lookup, visited);
        assert ids[1..] == AncestorIds(lookup[p], lookup, visited + {p});
      }
  }

  /** Changing an item's own closed and target dates does not change what it inherits. */
  lemma InheritedIgnoresOwnDates(current: WorkItem, lookup: map<int, WorkItem>, closed: Option<int>, target: Option<int>)
    ensures InheritedEnd(current.(closedDate := closed, targetDate := target), lookup, {}) ==
            InheritedEnd(current, lookup, {})
  {
  }

  /** `getEndDate`; the lookup is optional as in the source. */
  function EndDate(item: WorkItem, lookup: Option<map<int, WorkItem>>, today: int): int
  {
    if item.closedDate.Some? then item.closedDate.value
    else if item.targetDate.Some? then item.targetDate.value
    else if lookup.Some? && InheritedEnd(item, lookup.value, {}).Some? then InheritedEnd(item, lookup.value, {}).value
    else today
  }

  /**
   * Where an end date comes from: the item's own end when it has one,
   * otherwise the nearest dated ancestor's end, otherwise today.
   */
  lemma EndDateSources(item: WorkItem, lookup: map<int, WorkItem>, today: int)
    ensures OwnEnd(item).Some? ==> EndDate(item, Some(lookup), today) == OwnEnd(item).value
    ensures OwnEnd(item).None? ==>
              EndDate(item, Some(lookup), today) ==
              FirstOwnEnd(AncestorIds(item, lookup, {}), lookup).GetOr(today)
    ensures EndDate(item, None, today) == OwnEnd(item).GetOr(today)
  {
    InheritedIsNearestAncestor(item, lookup, {});
  }

  // ---------------------------------------------------------------------
  // Node order
  // ---------------------------------------------------------------------

  /** The comparator of the chart's `sortNodes`: hierarchy rank, then start date. */
  function GanttOrder(): (WorkItem, WorkItem) -> int
  {
    ThenBy(RankKey, Ascending(StartDate))
  }

  lemma GanttOrderIsPreorder()
    ensures TotalPreorder(GanttOrder())
  {
    AscendingIsPreorder(StartDate);
    ThenByIsPreorder(RankKey, Ascending(StartDate));
  }

  /** `sortNodes` of the chart. */
  function SortGantt(nodes: seq<TreeNode>): seq<TreeNode>
  {
    SortForest(nodes, GanttOrder())
  }

  /** Siblings end up in (rank, start date) order at every level, and no item is lost or duplicated. */
  lemma SortGanttOrdered(nodes: seq<TreeNode>)
    ensures var r := SortGantt(nodes);
      forall i, j :: 0 <= i < j < |r| ==>
        RankKey(r[i].item) < RankKey(r[j].item) ||
        (RankKey(r[i].item) == RankKey(r[j].item) && StartDate(r[i].item) <= StartDate(r[j].item))
    ensures SortedDeep(SortGantt(nodes), GanttOrder())
    ensures Items(SortGantt(nodes)) == Items(nodes)
  {
    var r := SortGantt(nodes);
    SortGanttDeep(nodes);
    SortedLevelPairs(r, GanttOrder());
    GanttPairs(r);
  }

  lemma SortGanttDeep(nodes: seq<TreeNode>)
    ensures SortedBy(SortGantt(nodes), OnItems(GanttOrder()))
    ensures SortedDeep(SortGantt(nodes), GanttOrder())
    ensures Items(SortGantt(nodes)) == Items(nodes)
  {
    GanttOrderIsPreorder();
    SortForestSortedDeep(nodes, GanttOrder());
    SortForestItems(nodes, GanttOrder());
  }

  /** Two items in chart order: lower rank first, then earlier start. */
  lemma GanttPairs(r: seq<TreeNode>)
    requires forall i, j :: 0 <= i < j < |r| ==> GanttOrder()(r[i].item, r[j].item) <= 0
    ensures forall i, j :: 0 <= i < j < |r| ==>
      RankKey(r[i].item) < RankKey(r[j].item) ||
      (RankKey(r[i].item) == RankKey(r[j].item) && StartDate(r[i].item) <= StartDate(r[j].item))
  {
    forall i, j | 0 <= i < j < |r|
      ensures RankKey(r[i].item) < RankKey(r[j].item) ||
              (RankKey(r[i].item) == RankKey(r[j].item) && StartDate(r[i].item) <= StartDate(r[j].item))
    {
      assert GanttOrder()(r[i].item, r[j].item) <= 0;
    }
  }

  // ---------------------------------------------------------------------
  // Groups
  // ---------------------------------------------------------------------

  /** The chart's `groups` memo over the (already type-filtered) items. */
  function GanttGroups(items: seq<WorkItem>, byArea: bool): seq<AreaGroup>
  {
    GroupedForest(items, GanttOrder(), byArea)
  }

  /** The start and end of a group's whole subtree. */
  datatype Range = Range(start: int, end: int)

  function Starts(xs: seq<WorkItem>): seq<int>
  {
    Map(xs, StartDate)
  }

  function Ends(xs: seq<WorkItem>, lookup: map<int, WorkItem>, today: int): seq<int>
  {
    Map(xs, (x: WorkItem) => EndDate(x, Some(lookup), today))
  }

  /** `walkNodes` over a labelled group: the earliest start and latest end of every item below it. */
  function GroupRange(g: AreaGroup, lookup: map<int, WorkItem>, today: int): (r: Option<Range>)
    ensures r.Some? <==> g.caption != "" && |g.roots| > 0
  {
    var xs := ItemList(g.roots);
    if g.caption == "" || |g.roots| == 0 then None
    else
      assert |xs| > 0;
      Some(Range(MinOf(Starts(xs)), MaxOf(Ends(xs, lookup, today))))
  }

  /** A group's range is attained: its start and end are those of items in the subtree, and bound all of them. */
  lemma GroupRangeBounds(g: AreaGroup, lookup: map<int, WorkItem>, today: int)
    requires GroupRange(g, lookup, today).Some?
    ensures var r := GroupRange(g, lookup, today).value; var xs := ItemList(g.roots);
      (forall i :: 0 <= i < |xs| ==> r.start <= StartDate(xs[i])) &&
      (exists i :: 0 <= i < |xs| && r.start == StartDate(xs[i])) &&
      (forall i :: 0 <= i < |xs| ==> EndDate(xs[i], Some(lookup), today) <= r.end) &&
      (exists i :: 0 <= i < |xs| && r.end == EndDate(xs[i], Some(lookup), today))
  {
    var r := GroupRange(g, lookup, today).value;
    var xs := ItemList(g.roots);
    var i :| 0 <= i < |xs| && Starts(xs)[i] == r.start;
    assert Starts(xs)[i] == StartDate(xs[i]);
    var j :| 0 <= j < |xs| && Ends(xs, lookup, today)[j] == r.end;
    assert Ends(xs, lookup, today)[j] == EndDate(xs[j], Some(lookup), today);
    forall k | 0 <= k < |xs|
      ensures r.start <= StartDate(xs[k]) && EndDate(xs[k], Some(lookup), today) <= r.end
    {
      assert Starts(xs)[k] == StartDate(xs[k]);
      assert Ends(xs, lookup, today)[k] == EndDate(xs[k], Some(lookup), today);
    }
  }

  /** The (group id, range) pair the loop of `groupDateRanges` looks at. */
  function RangeEntry(lookup: map<int, WorkItem>, today: int): AreaGroup -> (string, Option<Range>)
  {
    (g: AreaGroup) => (g.groupId, GroupRange(g, lookup, today))
  }

  /** `ranges.set` over the entries that have a range, later entries replacing earlier ones. */
  function Collect(es: seq<(string, Option<Range>)>): map<string, Range>
  {
    if |es| == 0 then map[]
    else
      var m := Collect(es[..|es| - 1]);
      var e := es[|es| - 1];
      if e.1.Some? then m[e.0 := e.1.value] else m
  }

  lemma {:induction false} CollectKeys(es: seq<(string, Option<Range>)>)
    ensures forall k :: k in Collect(es) <==> exists i :: 0 <= i < |es| && es[i].0 == k && es[i].1.Some?
    decreases |es|
  {
    if |es| > 0 {
      var es' := es[..|es| - 1];
      CollectKeys(es');
      assert forall i :: 0 <= i < |es'| ==> es'[i] == es[i];
    }
  }

  lemma {:induction false} CollectDistinct(es: seq<(string, Option<Range>)>, i: int)
    requires forall a, b :: 0 <= a < b < |es| ==> es[a].0 != es[b].0
    requires 0 <= i < |es| && es[i].1.Some?
    ensures es[i].0 in Collect(es) && Collect(es)[es[i].0] == es[i].1.value
    decreases |es|
  {
    if i < |es| - 1 {
      var es' := es[..|es| - 1];
      assert es'[i] == es[i];
      CollectDistinct(es', i);
    }
  }

  /** `groupDateRanges`: group id to range, for the labelled groups only. */
  function GroupRanges(groups: seq<AreaGroup>, lookup: map<int, WorkItem>, today: int): (m: map<string, Range>)
  {
    Collect(Map(groups, RangeEntry(lookup, today)))
  }

  /** Only labelled, non-empty groups have a range. */
  lemma GroupRangesKeys(groups: seq<AreaGroup>, lookup: map<int, WorkItem>, today: int)
    ensures forall k :: k in GroupRanges(groups, lookup, today) <==>
              exists i :: 0 <= i < |groups| && groups[i].groupId == k && groups[i].caption != "" && |groups[i].roots| > 0
  {
    var es := Map(groups, RangeEntry(lookup, today));
    CollectKeys(es);
    forall k ensures k in GroupRanges(groups, lookup, today) <==>
        exists i :: 0 <= i < |groups| && groups[i].groupId == k && groups[i].caption != "" && |groups[i].roots| > 0
    {
      if k in GroupRanges(groups, lookup, today) {
        var i :| 0 <= i < |es| && es[i].0 == k && es[i].1.Some?;
        assert groups[i].groupId == k && groups[i].caption != "" && |groups[i].roots| > 0;
      }
      if exists i :: 0 <= i < |groups| && groups[i].groupId == k && groups[i].caption != "" && |groups[i].roots| > 0 {
        var i :| 0 <= i < |groups| && groups[i].groupId == k && groups[i].caption != "" && |groups[i].roots| > 0;
        assert es[i].0 == k && es[i].1.Some?;
      }
    }
  }

  /** With distinct group ids (as `groupByAreaPath` makes them), each labelled group finds its own range. */
  lemma GroupRangesDistinct(groups: seq<AreaGroup>, lookup: map<int, WorkItem>, today: int, i: int)
    requires forall a, b :: 0 <= a < b < |groups| ==> groups[a].groupId != groups[b].groupId
    requires 0 <= i < |groups| && groups[i].caption != "" && |groups[i].roots| > 0
    ensures groups[i].groupId in GroupRanges(groups, lookup, today)
    ensures GroupRange(groups[i], lookup, today) == Some(GroupRanges(groups, lookup, today)[groups[i].groupId])
  {
    var es := Map(groups, RangeEntry(lookup, today));
    forall a, b | 0 <= a < b < |es| ensures es[a].0 != es[b].0 {
      assert es[a].0 == groups[a].groupId && es[b].0 == groups[b].groupId;
    }
    assert es[i] == (groups[i].groupId, GroupRange(groups[i], lookup, today));
    CollectDistinct(es, i);
  }

  // ---------------------------------------------------------------------
  // Timeline span
  // ---------------------------------------------------------------------

  /** The extents the span loop reads: one per item row, one per group row that has a range. */
  function Extents(rows: seq<FlatRow>, ranges: map<string, Range>, lookup: map<int, WorkItem>, today: int): (r: seq<Range>)
    ensures |r| <= |rows|
  {
    if |rows| == 0 then []
    else
      var rest := Extents(rows[1..], ranges, lookup, today);
      match rows[0]
      case ItemRow(x, _, _) => [Range(StartDate(x), EndDate(x, Some(lookup), today))] + rest
      case GroupRow(id, _, _) => if id in ranges then [ranges[id]] + rest else rest
  }

  datatype Span = Span(rangeStart: int, totalDays: int)

  function ExtentStart(e: Range): int { e.start }
  function ExtentEnd(e: Range): int { e.end }

  /** Seven days in milliseconds move a timestamp seven calendar days. */
  lemma DayShift(ms: int, k: int)
    ensures Day(ms + k * MS_PER_DAY) == Day(ms) + k
  {
    var q := ms / MS_PER_DAY;
    var rm := ms % MS_PER_DAY;
    assert ms == q * MS_PER_DAY + rm;
    assert ms + k * MS_PER_DAY == (q + k) * MS_PER_DAY + rm;
  }

  /**
   * The `{ rangeStart, totalDays }` memo: 30 days from today with no
   * extent, otherwise from the earliest start less seven days to the latest
   * end plus seven days, and never fewer than 14 days.
   */
  function TimelineSpan(extents: seq<Range>, today: int): (s: Span)
    ensures |extents| == 0 ==> s == Span(today, EMPTY_TIMELINE_DAYS)
    ensures s.totalDays >= MIN_TIMELINE_DAYS
    ensures forall i :: 0 <= i < |extents| ==>
              s.rangeStart + PADDING_DAYS * MS_PER_DAY <= extents[i].start
    ensures |extents| > 0 ==>
              (exists i :: 0 <= i < |extents| && s.rangeStart + PADDING_DAYS * MS_PER_DAY == extents[i].start)
    ensures |extents| > 0 ==> forall i :: 0 <= i < |extents| ==>
              Day(extents[i].end) + PADDING_DAYS <= Day(s.rangeStart) + s.totalDays
    ensures |extents| > 0 ==> s.totalDays == MIN_TIMELINE_DAYS || EndReached(extents, s)
  {
    if |extents| == 0 then Span(today, EMPTY_TIMELINE_DAYS)
    else
      var lo := MinOf(Map(extents, ExtentStart));
      var hi := MaxOf(Map(extents, ExtentEnd));
      var paddedStart := lo - PADDING_DAYS * MS_PER_DAY;
      var paddedEnd := hi + PADDING_DAYS * MS_PER_DAY;
      var s := Span(paddedStart, Max(Day(paddedEnd) - Day(paddedStart), MIN_TIMELINE_DAYS));
      assert exists i :: 0 <= i < |extents| && s.rangeStart + PADDING_DAYS * MS_PER_DAY == extents[i].start by {
        var i :| 0 <= i < |extents| && Map(extents, ExtentStart)[i] == lo;
      }
      forall i | 0 <= i < |extents|
        ensures Day(extents[i].end) + PADDING_DAYS <= Day(s.rangeStart) + s.totalDays
      {
        assert extents[i].end <= hi by { assert Map(extents, ExtentEnd)[i] == extents[i].end; }
        DayShift(hi, PADDING_DAYS);
        DayMonotone(extents[i].end, hi);
      }
      assert s.totalDays == MIN_TIMELINE_DAYS || EndReached(extents, s) by {
        var i :| 0 <= i < |extents| && Map(extents, ExtentEnd)[i] == hi;
        DayShift(hi, PADDING_DAYS);
        if s.totalDays != MIN_TIMELINE_DAYS {
          assert Day(extents[i].end) + PADDING_DAYS == Day(s.rangeStart) + s.totalDays;
        }
      }
      s
  }

  /** Some extent's end, plus the padding, is where the timeline stops. */
  ghost predicate EndReached(extents: seq<Range>, s: Span)
  {
    exists i :: 0 <= i < |extents| && Day(extents[i].end) + PADDING_DAYS == Day(s.rangeStart) + s.totalDays
  }

  /** The timeline of the visible rows. */
  function VisibleSpan(rows: seq<FlatRow>, ranges: map<string, Range>, lookup: map<int, WorkItem>, today: int): Span
  {
    TimelineSpan(Extents(rows, ranges, lookup, today), today)
  }

  /** Every visible item's bar starts at least seven days after the timeline start. */
  lemma {:induction false} VisibleItemsInside(rows: seq<FlatRow>, ranges: map<string, Range>, lookup: map<int, WorkItem>, today: int, k: int)
    requires 0 <= k < |rows| && rows[k].ItemRow?
    ensures VisibleSpan(rows, ranges, lookup, today).rangeStart + PADDING_DAYS * MS_PER_DAY <= StartDate(rows[k].item)
    ensures Day(EndDate(rows[k].item, Some(lookup), today)) + PADDING_DAYS <=
            Day(VisibleSpan(rows, ranges, lookup, today).rangeStart) + VisibleSpan(rows, ranges, lookup, today).totalDays
  {
    var e := ExtentOfRow(rows, ranges, lookup, today, k);
  }

  lemma {:induction false} ExtentOfRow(rows: seq<FlatRow>, ranges: map<string, Range>, lookup: map<int, WorkItem>, today: int, k: int)
    returns (j: int)
    requires 0 <= k < |rows| && rows[k].ItemRow?
    ensures 0 <= j < |Extents(rows, ranges, lookup, today)|
    ensures Extents(rows, ranges, lookup, today)[j] ==
            Range(StartDate(rows[k].item), EndDate(rows[k].item, Some(lookup), today))
    decreases k
  {
    if k == 0 {
      j := 0;
    } else {
      var j' := ExtentOfRow(rows[1..], ranges, lookup, today, k - 1);
      j := if rows[0].ItemRow? || (rows[0].GroupRow? && rows[0].groupId in ranges) then j' + 1 else j';
    }
  }
  /** A group row whose group has a range contributes that range. */
  lemma {:induction false} ExtentOfGroupRow(rows: seq<FlatRow>, ranges: map<string, Range>, lookup: map<int, WorkItem>, today: int, k: int)
    returns (j: int)
    requires 0 <= k < |rows| && rows[k].GroupRow? && rows[k].groupId in ranges
    ensures 0 <= j < |Extents(rows, ranges, lookup, today)|
    ensures Extents(rows, ranges, lookup, today)[j] == ranges[rows[k].groupId]
    decreases k
  {
    if k == 0 {
      j := 0;
    } else {
      var j' := ExtentOfGroupRow(rows[1..], ranges, lookup, today, k - 1);
      j := if Contributes(rows[0], ranges) then j' + 1 else j';
    }
  }

  /** A row takes part in the span: an item row always, a group row when its group has a range. */
  predicate Contributes(row: FlatRow, ranges: map<string, Range>)
  {
    row.ItemRow? || row.groupId in ranges
  }

  /** `e` is the extent `row` contributes. */
  predicate RowGives(row: FlatRow, ranges: map<string, Range>, lookup: map<int, WorkItem>, today: int, e: Range)
  {
    match row
    case ItemRow(x, _, _) => e == Range(StartDate(x), EndDate(x, Some(lookup), today))
    case GroupRow(id, _, _) => id in ranges && e == ranges[id]
  }

  ghost predicate FromVisibleRow(rows: seq<FlatRow>, ranges: map<string, Range>, lookup: map<int, WorkItem>, today: int, e: Range)
  {
    exists i :: 0 <= i < |rows| && RowGives(rows[i], ranges, lookup, today, e)
  }

  /** Every extent the span loop reads is the one some visible row contributes. */
  lemma {:induction false} ExtentsFromRows(rows: seq<FlatRow>, ranges: map<string, Range>, lookup: map<int, WorkItem>, today: int)
    ensures forall j :: 0 <= j < |Extents(rows, ranges, lookup, today)| ==>
              FromVisibleRow(rows, ranges, lookup, today, Extents(rows, ranges, lookup, today)[j])
    decreases |rows|
  {
    if |rows| > 0 {
      var r := Extents(rows, ranges, lookup, today);
      var rest := Extents(rows[1..], ranges, lookup, today);
      ExtentsFromRows(rows[1..], ranges, lookup, today);
      var off := if Contributes(rows[0], ranges) then 1 else 0;
      assert r[off..] == rest;
      assert off == 1 ==> RowGives(rows[0], ranges, lookup, today, r[0]);
      forall j | 0 <= j < |r| ensures FromVisibleRow(rows, ranges, lookup, today, r[j]) {
        if j >= off {
          assert 0 <= j - off < |rest| && r[j] == rest[j - off];
          assert FromVisibleRow(rows[1..], ranges, lookup, today, rest[j - off]);
          var i :| 0 <= i < |rows[1..]| && RowGives(rows[1..][i], ranges, lookup, today, rest[j - off]);
          assert rows[1..][i] == rows[i + 1];
        }
      }
    }
  }

  /** Some visible row's extent starts exactly seven days after the timeline start. */
  ghost predicate StartsAtVisibleRow(rows: seq<FlatRow>, ranges: map<string, Range>, lookup: map<int, WorkItem>, today: int, t: int)
  {
    exists i, e :: 0 <= i < |rows| && RowGives(rows[i], ranges, lookup, today, e) && e.start == t
  }

  /**
   * With some row taking part, the timeline starts seven days before the
   * earliest start of a visible row, and every group range lies inside it too.
   */
  lemma VisibleSpanStart(rows: seq<FlatRow>, ranges: map<string, Range>, lookup: map<int, WorkItem>, today: int, k: int)
    requires 0 <= k < |rows| && Contributes(rows[k], ranges)
    ensures StartsAtVisibleRow(rows, ranges, lookup, today,
                               VisibleSpan(rows, ranges, lookup, today).rangeStart + PADDING_DAYS * MS_PER_DAY)
  {
    var r := Extents(rows, ranges, lookup, today);
    var s := VisibleSpan(rows, ranges, lookup, today);
    var j0: int;
    if rows[k].ItemRow? {
      j0 := ExtentOfRow(rows, ranges, lookup, today, k);
    } else {
      j0 := ExtentOfGroupRow(rows, ranges, lookup, today, k);
    }
    ExtentsFromRows(rows, ranges, lookup, today);
    var j :| 0 <= j < |r| && s.rangeStart + PADDING_DAYS * MS_PER_DAY == r[j].start;
    assert FromVisibleRow(rows, ranges, lookup, today, r[j]);
    var i :| 0 <= i < |rows| && RowGives(rows[i], ranges, lookup, today, r[j]);
  }

  /** Every visible group's range lies inside the timeline, padding included. */
  lemma VisibleGroupsInside(rows: seq<FlatRow>, ranges: map<string, Range>, lookup: map<int, WorkItem>, today: int, k: int)
    requires 0 <= k < |rows| && rows[k].GroupRow? && rows[k].groupId in ranges
    ensures VisibleSpan(rows, ranges, lookup, today).rangeStart + PADDING_DAYS * MS_PER_DAY <= ranges[rows[k].groupId].start
    ensures Day(ranges[rows[k].groupId].end) + PADDING_DAYS <=
            Day(VisibleSpan(rows, ranges, lookup, today).rangeStart) + VisibleSpan(rows, ranges, lookup, today).totalDays
  {
    var e := ExtentOfGroupRow(rows, ranges, lookup, today, k);
  }
}

=== FILE: hashsync.dfy ===
/**
 * URL hash synchronisation (src/hooks/useHashSync.ts): the store's
 * navigation and filter fields are written to `#page=..&projects=..`
 * and read back on load and on `hashchange`.
 *
 * `encodeURIComponent` / `decodeURIComponent` are modelled on the four
 * characters that carry structure here ('%', '&', '=', ','); every other
 * character passes through unchanged.
 */
module HashSync {
  import opened Common
  import opened UIStore

  // ---------------------------------------------------------------------
  // Percent coding
  // ---------------------------------------------------------------------

  predicate Coded(c: char)
  {
    c == '%' || c == '&' || c == '=' || c == ','
  }

  function EncodeChar(c: char): (r: string)
    ensures !Coded(c) ==> r == [c]
    ensures Coded(c) ==> |r| == 3 && r[0] == '%'
    ensures '&' !in r && '=' !in r && ',' !in r
  {
    if c == '%' then "%25"
    else if c == '&' then "%26"
    else if c == ',' then "%2C"
    else if c == '=' then "%3D"
    else [c]
  }

  /** `encodeURIComponent`: the result never contains '&', '=' or ','. */
  function Encode(s: string): (r: string)
    ensures '&' !in r && '=' !in r && ',' !in r
  {
    if |s| == 0 then ""
    else EncodeChar(s[0]) + Encode(s[1..])
  }

  /** The character a two-digit escape stands for, upper or lower case hex. */
  function Unescape(a: char, b: char): (r: Option<char>)
    ensures r.Some? ==> Coded(r.value)
  {
    if a == '2' && b == '5' then Some('%')
    else if a == '2' && b == '6' then Some('&')
    else if a == '2' && (b == 'C' || b == 'c') then Some(',')
    else if a == '3' && (b == 'D' || b == 'd') then Some('=')
    else None
  }

  /** `decodeURIComponent`: escapes are replaced, everything else is kept. */
  function Decode(s: string): (r: string)
    decreases |s|
  {
    if |s| == 0 then ""
    else if s[0] == '%' && |s| >= 3 && Unescape(s[1], s[2]).Some? then
      [Unescape(s[1], s[2]).value] + Decode(s[3..])
    else
      [s[0]] + Decode(s[1..])
  }

  /** Text without '%' decodes to itself. */
  lemma {:induction false} DecodePlain(s: string)
    requires '%' !in s
    ensures Decode(s) == s
    decreases |s|
  {
    if |s| > 0 {
      assert '%' !in s[1..];
      DecodePlain(s[1..]);
      assert s == [s[0]] + s[1..];
    }
  }

  /** Decoding one encoded character in front of any text. */
  lemma DecodeOne(c: char, t: string)
    ensures Decode(EncodeChar(c) + t) == [c] + Decode(t)
  {
    var e := EncodeChar(c);
    if Coded(c) {
      assert (e + t)[0] == '%' && (e + t)[1] == e[1] && (e + t)[2] == e[2];
      assert Unescape(e[1], e[2]) == Some(c);
      assert (e + t)[3..] == t;
    } else {
      assert (e + t)[0] == c;
      assert (e + t)[1..] == t;
    }
  }

  /** Decoding consumes an encoded prefix exactly, whatever follows it. */
  lemma {:induction false} DecodeEncodeAppend(x: string, y: string)
    ensures Decode(Encode(x) + y) == x + Decode(y)
    decreases |x|
  {
    if |x| > 0 {
      var t := Encode(x[1..]) + y;
      assert Encode(x) + y == EncodeChar(x[0]) + t;
      DecodeOne(x[0], t);
      DecodeEncodeAppend(x[1..], y);
      assert x == [x[0]] + x[1..];
      assert [x[0]] + (x[1..] + Decode(y)) == x + Decode(y);
    } else {
      assert Encode(x) + y == y;
      assert x + Decode(y) == Decode(y);
    }
  }

  /** Each name encoded. */
  function EncodeAll(ps: seq<string>): (r: seq<string>)
    ensures |r| == |ps|
    ensures forall i :: 0 <= i < |r| ==> r[i] == Encode(ps[i])
  {
    if |ps| == 0 then [] else [Encode(ps[0])] + EncodeAll(ps[1..])
  }

  /** Each part decoded. */
  function DecodeAll(ps: seq<string>): (r: seq<string>)
    ensures |r| == |ps|
    ensures forall i :: 0 <= i < |r| ==> r[i] == Decode(ps[i])
  {
    if |ps| == 0 then [] else [Decode(ps[0])] + DecodeAll(ps[1..])
  }

  /** Decoding inverts encoding. */
  lemma DecodeEncode(x: string)
    ensures Decode(Encode(x)) == x
  {
    DecodeEncodeAppend(x, "");
    assert Encode(x) + "" == Encode(x);
  }

  /** Decoding a comma-joined list of encoded names gives the names joined by commas. */
  lemma {:induction false} DecodeJoined(ps: seq<string>)
    ensures Decode(Join(EncodeAll(ps), ",")) == Join(ps, ",")
    decreases |ps|
  {
    var es := EncodeAll(ps);
    if |ps| == 1 {
      DecodeEncode(ps[0]);
    } else if |ps| > 1 {
      var rest := Join(EncodeAll(ps[1..]), ",");
      assert es[1..] == EncodeAll(ps[1..]);
      assert Join(es, ",") == Encode(ps[0]) + ("," + rest);
      DecodeEncodeAppend(ps[0], "," + rest);
      assert ("," + rest)[1..] == rest;
      DecodeJoined(ps[1..]);
    }
  }

  // ---------------------------------------------------------------------
  // Parsing
  // ---------------------------------------------------------------------

  /** A `key=value` piece split at its first '='; a piece without '=' is skipped. */
  function SplitPair(piece: string): (r: Option<(string, string)>)
    ensures r.None? <==> '=' !in piece
    ensures r.Some? ==> '=' !in r.value.0 && piece == r.value.0 + "=" + r.value.1
  {
    match IndexOfChar(piece, '=')
    case None => None
    case Some(i) =>
      assert piece == piece[..i] + "=" + piece[i + 1..];
      Some((piece[..i], piece[i + 1..]))
  }

  /** A key without '=' followed by '=' and any value splits back into the two. */
  lemma SplitPairOf(key: string, value: string)
    requires '=' !in key
    ensures SplitPair(key + "=" + value) == Some((key, value))
  {
    var piece := key + "=" + value;
    assert piece[|key|] == '=';
    assert piece[..|key|] == key;
    assert piece[|key| + 1..] == value;
  }

  /** The pairs of the pieces that contain '=', in order. */
  function RawPairs(pieces: seq<string>): (r: seq<(string, string)>)
    ensures |r| <= |pieces|
  {
    if |pieces| == 0 then []
    else
      var rest := RawPairs(pieces[1..]);
      match SplitPair(pieces[0])
      case None => rest
      case Some(p) => [p] + rest
  }

  /** Every pair comes from a piece of the text. */
  lemma {:induction false} RawPairsFromPieces(pieces: seq<string>)
    ensures forall i :: 0 <= i < |RawPairs(pieces)| ==>
      exists j :: 0 <= j < |pieces| && SplitPair(pieces[j]) == Some(RawPairs(pieces)[i])
    decreases |pieces|
  {
    if |pieces| == 0 {
      assert RawPairs(pieces) == [];
    } else {
      var tail := pieces[1..];
      var r := RawPairs(pieces);
      var rest := RawPairs(tail);
      RawPairsFromPieces(tail);
      var k := if SplitPair(pieces[0]).Some? then 1 else 0;
      assert r[k..] == rest;
      forall i | 0 <= i < |r|
        ensures exists j :: 0 <= j < |pieces| && SplitPair(pieces[j]) == Some(r[i])
      {
        if i < k {
          assert SplitPair(pieces[0]) == Some(r[i]);
        } else {
          assert r[i] == rest[i - k];
          var j :| 0 <= j < |tail| && SplitPair(tail[j]) == Some(rest[i - k]);
          assert tail[j] == pieces[j + 1];
        }
      }
    }
  }

  /** Every piece holding '=' gives a pair. */
  lemma {:induction false} RawPairsCoverPieces(pieces: seq<string>)
    ensures forall j :: 0 <= j < |pieces| && '=' in pieces[j] ==> SplitPair(pieces[j]).value in RawPairs(pieces)
    decreases |pieces|
  {
    if |pieces| > 0 {
      var tail := pieces[1..];
      var r := RawPairs(pieces);
      RawPairsCoverPieces(tail);
      var k := if SplitPair(pieces[0]).Some? then 1 else 0;
      assert r[k..] == RawPairs(tail);
      forall j | 0 <= j < |pieces| && '=' in pieces[j]
        ensures SplitPair(pieces[j]).value in r
      {
        if j == 0 {
          assert r[0] == SplitPair(pieces[0]).value;
        } else {
          assert tail[j - 1] == pieces[j];
          assert SplitPair(pieces[j]).value in r[k..];
        }
      }
    }
  }

  lemma {:induction false} RawPairsAppend(pieces: seq<string>, piece: string)
    ensures RawPairs(pieces + [piece]) ==
      RawPairs(pieces) + (if SplitPair(piece).Some? then [SplitPair(piece).value] else [])
    decreases |pieces|
  {
    if |pieces| == 0 {
      assert [piece][1..] == [];
    } else {
      assert (pieces + [piece])[1..] == pieces[1..] + [piece];
      RawPairsAppend(pieces[1..], piece);
    }
  }

  /** `params[key] = value` for each pair in turn. */
  function Assign(ps: seq<(string, string)>): map<string, string>
  {
    if |ps| == 0 then map[]
    else
      var last := ps[|ps| - 1];
      Assign(ps[..|ps| - 1])[last.0 := last.1]
  }

  /** The keys assigned are exactly the keys of the pairs. */
  lemma {:induction false} AssignDomain(ps: seq<(string, string)>)
    ensures forall k :: k in Assign(ps) <==> exists i :: 0 <= i < |ps| && ps[i].0 == k
    decreases |ps|
  {
    if |ps| > 0 {
      var init := ps[..|ps| - 1];
      AssignDomain(init);
      assert forall i :: 0 <= i < |init| ==> init[i] == ps[i];
    }
  }

  /** A later pair overwrites an earlier one: a key takes the value of the last pair carrying it. */
  lemma {:induction false} AssignLast(ps: seq<(string, string)>, i: nat)
    requires i < |ps|
    requires forall j :: i < j < |ps| ==> ps[j].0 != ps[i].0
    ensures ps[i].0 in Assign(ps) && Assign(ps)[ps[i].0] == ps[i].1
    decreases |ps|
  {
    if i < |ps| - 1 {
      var init := ps[..|ps| - 1];
      assert init[i] == ps[i];
      AssignLast(init, i);
    }
  }

  /** Key and value of each pair decoded. */
  function DecodePairs(ps: seq<(string, string)>): (r: seq<(string, string)>)
    ensures |r| == |ps|
    ensures forall i :: 0 <= i < |r| ==> r[i] == (Decode(ps[i].0), Decode(ps[i].1))
  {
    if |ps| == 0 then [] else [(Decode(ps[0].0), Decode(ps[0].1))] + DecodePairs(ps[1..])
  }

  /** The pieces of the hash text between '&' separators, split into raw pairs. */
  function HashPairs(raw: string): seq<(string, string)>
  {
    RawPairs(Split(raw, '&'))
  }

  /** `parseHash` on the text after '#': decoded keys and values, the last occurrence winning. */
  function ParseHash(raw: string): (r: map<string, string>)
    ensures raw == "" ==> r == map[]
  {
    if raw == "" then map[] else Assign(DecodePairs(HashPairs(raw)))
  }

  /** Every parameter is the decoded key of some `key=value` piece of the hash. */
  lemma ParseHashKeys(raw: string)
    ensures forall k :: k in ParseHash(raw) ==> exists i :: 0 <= i < |HashPairs(raw)| && Decode(HashPairs(raw)[i].0) == k
  {
    if raw != "" {
      AssignDomain(DecodePairs(HashPairs(raw)));
    }
  }

  /** The same pairs without decoding, as the corrected restore reads the project list. */
  function ParseRaw(raw: string): (r: map<string, string>)
    ensures raw == "" ==> r == map[]
  {
    if raw == "" then map[] else Assign(HashPairs(raw))
  }

  /** The first `c` of `a + t` is the first `c` of `a` when there is one, else `|a|` when `t` starts with `c`. */
  lemma IndexOfCharAppend(a: string, t: string, c: char)
    requires c in a || (|t| > 0 && t[0] == c)
    ensures IndexOfChar(a + t, c) == if c in a then IndexOfChar(a, c) else Some(|a|)
  {
    var s := a + t;
    var v := IndexOfChar(s, c).value;
    assert s[..v] == (a + t)[..v];
    if c in a {
      var w := IndexOfChar(a, c).value;
      assert s[w] == c;
      assert a[..w] == s[..w];
    } else {
      assert s[|a|] == c;
    }
  }

  /** Splitting after one more '&'-separated piece adds that piece at the end. */
  lemma {:induction false} SplitAppend(a: string, b: string, c: char)
    requires c !in b
    ensures Split(a + [c] + b, c) == Split(a, c) + [b]
    decreases |a|
  {
    var s := a + ([c] + b);
    assert a + [c] + b == s;
    IndexOfCharAppend(a, [c] + b, c);
    if c in a {
      var i := IndexOfChar(a, c).value;
      assert s[..i] == a[..i];
      assert s[i + 1..] == a[i + 1..] + [c] + b;
      SplitAppend(a[i + 1..], b, c);
      assert Split(s, c) == [a[..i]] + Split(a[i + 1..] + [c] + b, c);
    } else {
      assert s[..|a|] == a;
      assert s[|a| + 1..] == b;
      assert Split(s, c) == [a] + Split(b, c);
      assert IndexOfChar(b, c).None?;
    }
  }

  /** One more `&key=value` at the end of the hash adds one more pair at the end. */
  lemma HashPairsAppend(raw: string, key: string, value: string)
    requires '=' !in key && '&' !in key && '&' !in value
    ensures HashPairs(raw + "&" + key + "=" + value) == HashPairs(raw) + [(key, value)]
  {
    var piece := key + "=" + value;
    assert '&' !in piece;
    assert raw + "&" + key + "=" + value == raw + ['&'] + piece;
    SplitAppend(raw, piece, '&');
    SplitPairOf(key, value);
    RawPairsAppend(Split(raw, '&'), piece);
  }

  /** The decoded pairs of a hash with `&key=value` appended end with that pair decoded. */
  lemma DecodedPairsAppend(raw: string, key: string, value: string)
    requires '=' !in key && '&' !in key && '&' !in value
    ensures DecodePairs(HashPairs(raw + "&" + key + "=" + value)) ==
      DecodePairs(HashPairs(raw)) + [(Decode(key), Decode(value))]
  {
    HashPairsAppend(raw, key, value);
    DecodePairsAppend(HashPairs(raw), [(key, value)]);
  }

  /** Decoding distributes over concatenation. */
  lemma DecodePairsAppend(a: seq<(string, string)>, b: seq<(string, string)>)
    ensures DecodePairs(a + b) == DecodePairs(a) + DecodePairs(b)
  {
  }

  /**
   * Appending `&key=value` to a non-empty hash updates the parameters at
   * the decoded key: a later pair overwrites whatever the hash held.
   */
  lemma LaterPairWins(raw: string, key: string, value: string)
    requires raw != ""
    requires '=' !in key && '&' !in key && '&' !in value
    ensures ParseHash(raw + "&" + key + "=" + value) == ParseHash(raw)[Decode(key) := Decode(value)]
  {
    DecodedPairsAppend(raw, key, value);
    AssignLastPair(DecodePairs(HashPairs(raw)), (Decode(key), Decode(value)));
  }

  /** Assigning one more pair binds its key to its value. */
  lemma AssignLastPair(ds: seq<(string, string)>, last: (string, string))
    ensures Assign(ds + [last]) == Assign(ds)[last.0 := last.1]
  {
    assert (ds + [last])[..|ds + [last]| - 1] == ds;
  }

  // ---------------------------------------------------------------------
  // Building
  // ---------------------------------------------------------------------

  /** `buildHash` before joining: each present field as a key and its encoded value. */
  function HashFields(s: UIState): (r: seq<(string, string)>)
    ensures |r| >= 1 && r[0].0 == "page"
  {
    NavigationFields(s) + ExtraFields(s)
  }

  /** The page, the project list, the sprint and the resource. */
  function NavigationFields(s: UIState): (r: seq<(string, string)>)
    ensures |r| >= 1 && r[0].0 == "page"
  {
    [("page", Encode(PageName(s.activePage)))] +
    Entry(|s.selectedProjects| > 0, "projects", Join(EncodeAll(s.selectedProjects), ",")) +
    Entry(Truthy(s.selectedSprint), "sprint", Encode(s.selectedSprint.GetOr(""))) +
    Entry(Truthy(s.selectedResource), "resource", Encode(s.selectedResource.GetOr("")))
  }

  /** The archived flag and the two ends of the date range. */
  function ExtraFields(s: UIState): seq<(string, string)>
  {
    var range := s.dateRange.Some?;
    Entry(s.showArchived, "archived", "1") +
    Entry(range, "from", Encode(if range then s.dateRange.value.from else "")) +
    Entry(range, "to", Encode(if range then s.dateRange.value.to else ""))
  }

  /** Each pair as `key=value`. */
  function PairTexts(fs: seq<(string, string)>): (r: seq<string>)
    ensures |r| == |fs|
    ensures forall i :: 0 <= i < |r| ==> r[i] == fs[i].0 + "=" + fs[i].1
  {
    if |fs| == 0 then [] else [fs[0].0 + "=" + fs[0].1] + PairTexts(fs[1..])
  }

  /** `buildHash`: the fields as `key=value` joined with '&'. */
  function BuildHash(s: UIState): (r: string)
    ensures r != ""
  {
    var fs := HashFields(s);
    var ts := PairTexts(fs);
    assert |ts[0]| > 0;
    JoinNonEmpty(ts, "&");
    Join(ts, "&")
  }

  // ---------------------------------------------------------------------
  // Restoring
  // ---------------------------------------------------------------------

  /** `params.sprint || null`. */
  function NullIfEmpty(v: string): (r: Option<string>)
    ensures r.None? <==> v == ""
    ensures r.Some? ==> r.value == v
  {
    if v == "" then None else Some(v)
  }

  /** The project list as the source reads it: the decoded value split at ',' and each part decoded again. */
  function ProjectsAsWritten(value: string): seq<string>
  {
    DecodeAll(Split(value, ','))
  }

  /**
   * The part of a restore both handlers share: the page when it names a
   * valid page, the project list when non-empty, and sprint and resource
   * whenever their key is present, an empty value clearing the filter.
   */
  function ApplyNavigation(params: map<string, string>, projects: seq<string>, s: UIState): (r: UIState)
    ensures r.activePage != s.activePage ==> "page" in params && PageName(r.activePage) == params["page"]
    ensures "page" in params && PageOf(params["page"]).Some? ==> PageName(r.activePage) == params["page"]
    ensures r.selectedProjects != s.selectedProjects ==> "projects" in params && params["projects"] != ""
    ensures "projects" in params && params["projects"] != "" ==> r.selectedProjects == projects
    ensures "sprint" in params ==>
      (r.selectedSprint.None? <==> params["sprint"] == "") &&
      (r.selectedSprint.Some? ==> r.selectedSprint.value == params["sprint"])
    ensures "sprint" !in params ==> r.selectedSprint == s.selectedSprint
    ensures "resource" in params ==>
      (r.selectedResource.None? <==> params["resource"] == "") &&
      (r.selectedResource.Some? ==> r.selectedResource.value == params["resource"])
    ensures "resource" !in params ==> r.selectedResource == s.selectedResource
    ensures Differ(s, r) <= {PageField, ProjectsField, SprintField, ResourceField}
  {
    var page := PageParam(params, s.activePage);
    var names := ProjectsParam(params, projects, s.selectedProjects);
    var sprint := FilterParam(params, "sprint", s.selectedSprint);
    var resource := FilterParam(params, "resource", s.selectedResource);
    DifferNavigation(s, page, names, sprint, resource);
    s.(activePage := page, selectedProjects := names, selectedSprint := sprint, selectedResource := resource)
  }

  /** The page the hash names when it names a valid one, else the current page. */
  function PageParam(params: map<string, string>, current: Page): (r: Page)
    ensures r != current ==> "page" in params && PageName(r) == params["page"]
    ensures "page" in params && PageOf(params["page"]).Some? ==> PageName(r) == params["page"]
  {
    if "page" in params && PageOf(params["page"]).Some? then PageOf(params["page"]).value else current
  }

  /** The project list when the hash holds a non-empty one, else the current list. */
  function ProjectsParam(params: map<string, string>, projects: seq<string>, current: seq<string>): (r: seq<string>)
    ensures r != current ==> "projects" in params && params["projects"] != ""
    ensures "projects" in params && params["projects"] != "" ==> r == projects
  {
    if "projects" in params && params["projects"] != "" then projects else current
  }

  /** A filter the hash sets whenever its key is present, an empty value clearing it. */
  function FilterParam(params: map<string, string>, key: string, current: Option<string>): (r: Option<string>)
    ensures key in params ==> (r.None? <==> params[key] == "") && (r.Some? ==> r.value == params[key])
    ensures key !in params ==> r == current
  {
    if key in params then NullIfEmpty(params[key]) else current
  }

  /** The archived flag and the date range, read on load only: archived can only be switched on. */
  function ApplyExtras(params: map<string, string>, s: UIState): (r: UIState)
    ensures r.showArchived == (s.showArchived || ("archived" in params && params["archived"] == "1"))
    ensures r.dateRange != s.dateRange ==>
      "from" in params && "to" in params && r.dateRange == Some(DateRange(params["from"], params["to"]))
    ensures "from" in params && "to" in params && params["from"] != "" && params["to"] != "" ==>
      r.dateRange == Some(DateRange(params["from"], params["to"]))
    ensures Differ(s, r) <= {ArchivedField, DateRangeField}
  {
    var archived := if "archived" in params && params["archived"] == "1" then true else s.showArchived;
    var range := if "from" in params && "to" in params && params["from"] != "" && params["to"] != ""
                 then Some(DateRange(params["from"], params["to"])) else s.dateRange;
    DifferExtras(s, archived, range);
    s.(showArchived := archived, dateRange := range)
  }

  /** The mount effect: nothing when the hash has no parameters, else navigation and extras. */
  function RestoreOnLoad(raw: string, s: UIState): (r: UIState)
    ensures ParseHash(raw) == map[] ==> r == s
    ensures Differ(s, r) <= {PageField, ProjectsField, SprintField, ResourceField, ArchivedField, DateRangeField}
  {
    var params := ParseHash(raw);
    if |params| == 0 then s
    else
      var projects := if "projects" in params then ProjectsAsWritten(params["projects"]) else [];
      var nav := ApplyNavigation(params, projects, s);
      DifferTrans(s, nav, ApplyExtras(params, nav));
      ApplyExtras(params, nav)
  }

  /** The `hashchange` handler: ignored while the store's own write is in flight; never touches archived or dates. */
  function RestoreOnHashChange(raw: string, suppressed: bool, s: UIState): (r: UIState)
    ensures suppressed ==> r == s
    ensures Differ(s, r) <= {PageField, ProjectsField, SprintField, ResourceField}
  {
    if suppressed then s
    else
      var params := ParseHash(raw);
      var projects := if "projects" in params then ProjectsAsWritten(params["projects"]) else [];
      ApplyNavigation(params, projects, s)
  }

  /**
   * On a hash with parameters, the `hashchange` handler and the mount
   * effect agree on the four navigation fields; they differ at most in
   * the archived flag and the date range, which only the mount effect reads.
   */
  lemma HashChangeAgreesWithLoad(raw: string, s: UIState)
    requires ParseHash(raw) != map[]
    ensures Differ(RestoreOnHashChange(raw, false, s), RestoreOnLoad(raw, s)) <= {ArchivedField, DateRangeField}
  {
    var params := ParseHash(raw);
    assert |params| > 0;
  }

  /** The corrected project list: split the undecoded value at ',' and decode each name once. */
  function ProjectsCorrected(raw: string): seq<string>
  {
    var m := ParseRaw(raw);
    if "projects" in m then DecodeAll(Split(m["projects"], ',')) else []
  }

  /** The mount effect with the corrected project list. */
  function RestoreOnLoadCorrected(raw: string, s: UIState): (r: UIState)
    ensures ParseHash(raw) == map[] ==> r == s
    ensures Differ(s, r) <= {PageField, ProjectsField, SprintField, ResourceField, ArchivedField, DateRangeField}
  {
    var params := ParseHash(raw);
    if |params| == 0 then s
    else
      var nav := ApplyNavigation(params, ProjectsCorrected(raw), s);
      DifferTrans(s, nav, ApplyExtras(params, nav));
      ApplyExtras(params, nav)
  }

  // ---------------------------------------------------------------------
  // Round trip
  // ---------------------------------------------------------------------

  /** A pair the hash can carry: a plain key and a value without '&'. */
  predicate PlainPair(q: (string, string))
  {
    '=' !in q.0 && '&' !in q.0 && '%' !in q.0 && '&' !in q.1
  }

  /** A field that is written only when `present` holds. */
  function Entry(present: bool, key: string, value: string): seq<(string, string)>
  {
    if present then [(key, value)] else []
  }

  /** Every pair in the list is a plain pair. */
  predicate AllPlain(fs: seq<(string, string)>)
  {
    forall q :: q in fs ==> PlainPair(q)
  }

  lemma AllPlainAppend(fs: seq<(string, string)>, present: bool, key: string, value: string)
    requires AllPlain(fs) && PlainPair((key, value))
    ensures AllPlain(fs + Entry(present, key, value))
  {
  }

  /** Every field the hash writes is a plain pair. */
  lemma HashFieldsShape(s: UIState)
    ensures AllPlain(HashFields(s))
  {
    NavigationShape(s);
    ExtraShape(s);
  }

  lemma NavigationShape(s: UIState)
    ensures AllPlain(NavigationFields(s))
  {
    var ps := s.selectedProjects;
    var a := [("page", Encode(PageName(s.activePage)))];
    JoinNoChar(EncodeAll(ps), ",", '&');
    var b := a + Entry(|ps| > 0, "projects", Join(EncodeAll(ps), ","));
    AllPlainAppend(a, |ps| > 0, "projects", Join(EncodeAll(ps), ","));
    var c := b + Entry(Truthy(s.selectedSprint), "sprint", Encode(s.selectedSprint.GetOr("")));
    AllPlainAppend(b, Truthy(s.selectedSprint), "sprint", Encode(s.selectedSprint.GetOr("")));
    AllPlainAppend(c, Truthy(s.selectedResource), "resource", Encode(s.selectedResource.GetOr("")));
  }

  lemma ExtraShape(s: UIState)
    ensures AllPlain(ExtraFields(s))
  {
    var range := s.dateRange.Some?;
    var e := Entry(s.showArchived, "archived", "1");
    AllPlainAppend([], s.showArchived, "archived", "1");
    assert [] + e == e;
    var from := Encode(if range then s.dateRange.value.from else "");
    var f := e + Entry(range, "from", from);
    AllPlainAppend(e, range, "from", from);
    AllPlainAppend(f, range, "to", Encode(if range then s.dateRange.value.to else ""));
  }

  /** A joined string holds a character only when a part or the separator does. */
  lemma {:induction false} JoinNoChar(parts: seq<string>, sep: string, c: char)
    requires c !in sep
    requires forall i :: 0 <= i < |parts| ==> c !in parts[i]
    ensures c !in Join(parts, sep)
    decreases |parts|
  {
    if |parts| > 1 {
      JoinNoChar(parts[1..], sep, c);
    }
  }

  lemma {:induction false} RawPairsOfTexts(fs: seq<(string, string)>)
    requires forall i :: 0 <= i < |fs| ==> '=' !in fs[i].0
    ensures RawPairs(PairTexts(fs)) == fs
    decreases |fs|
  {
    if |fs| > 0 {
      var ts := PairTexts(fs);
      var rest := fs[1..];
      assert ts[1..] == PairTexts(rest) && SplitPair(ts[0]) == Some(fs[0]) by { PairTextsCons(fs); }
      RawPairsCons(ts, fs[0]);
      assert forall i :: 0 <= i < |rest| ==> '=' !in rest[i].0 by {
        forall i | 0 <= i < |rest| ensures '=' !in rest[i].0 { assert rest[i] == fs[i + 1]; }
      }
      RawPairsOfTexts(rest);
      assert fs == [fs[0]] + rest;
    }
  }

  lemma PairTextsCons(fs: seq<(string, string)>)
    requires |fs| > 0 && '=' !in fs[0].0
    ensures PairTexts(fs)[1..] == PairTexts(fs[1..])
    ensures SplitPair(PairTexts(fs)[0]) == Some(fs[0])
  {
    SplitPairOf(fs[0].0, fs[0].1);
  }

  lemma RawPairsCons(pieces: seq<string>, p: (string, string))
    requires |pieces| > 0 && SplitPair(pieces[0]) == Some(p)
    ensures RawPairs(pieces) == [p] + RawPairs(pieces[1..])
  {
  }

  /** The hash text splits back into the field pairs. */
  lemma BuiltPairs(s: UIState)
    ensures HashPairs(BuildHash(s)) == HashFields(s)
  {
    var fs := HashFields(s);
    var ts := PairTexts(fs);
    HashFieldsShape(s);
    forall i | 0 <= i < |ts|
      ensures '&' !in ts[i]
    {
      assert fs[i] in fs;
    }
    forall i | 0 <= i < |fs|
      ensures '=' !in fs[i].0
    {
      assert fs[i] in fs;
    }
    SplitJoin(ts, '&');
    assert "&" == ['&'];
    RawPairsOfTexts(fs);
  }

  /** The map a field contributes: its key bound to its value when it is written. */
  function EntryMap(present: bool, key: string, value: string): map<string, string>
  {
    if present then map[key := value] else map[]
  }

  /** Assigning two runs of pairs: the later run overrides the earlier. */
  lemma {:induction false} AssignAppend(a: seq<(string, string)>, b: seq<(string, string)>)
    ensures Assign(a + b) == Assign(a) + Assign(b)
    decreases |b|
  {
    if |b| == 0 {
      assert a + b == a;
    } else {
      var init := b[..|b| - 1];
      var last := b[|b| - 1];
      assert (a + b)[..|a + b| - 1] == a + init;
      assert (a + b)[|a + b| - 1] == last;
      AssignAppend(a, init);
    }
  }

  /** Assigning one more field binds its key. */
  lemma AssignEntry(fs: seq<(string, string)>, present: bool, key: string, value: string)
    ensures Assign(fs + Entry(present, key, value)) == Assign(fs) + EntryMap(present, key, value)
  {
    AssignAppend(fs, Entry(present, key, value));
  }

  /** Decoding and assigning one more field binds its plain key to its decoded value. */
  lemma ParsedEntry(fs: seq<(string, string)>, present: bool, key: string, value: string)
    requires '%' !in key
    ensures Assign(DecodePairs(fs + Entry(present, key, value))) ==
      Assign(DecodePairs(fs)) + EntryMap(present, key, Decode(value))
  {
    var e := Entry(present, key, value);
    DecodePlain(key);
    assert DecodePairs(fs + e) == DecodePairs(fs) + Entry(present, key, Decode(value));
    AssignEntry(DecodePairs(fs), present, key, Decode(value));
  }

  /** What the navigation fields read back as. */
  function NavigationMap(s: UIState): map<string, string>
  {
    map["page" := PageName(s.activePage)] +
    EntryMap(|s.selectedProjects| > 0, "projects", Join(s.selectedProjects, ",")) +
    EntryMap(Truthy(s.selectedSprint), "sprint", s.selectedSprint.GetOr("")) +
    EntryMap(Truthy(s.selectedResource), "resource", s.selectedResource.GetOr(""))
  }

  /** What the archived flag and the date range read back as. */
  function ExtraMap(s: UIState): map<string, string>
  {
    var range := s.dateRange.Some?;
    EntryMap(s.showArchived, "archived", "1") +
    EntryMap(range, "from", if range then s.dateRange.value.from else "") +
    EntryMap(range, "to", if range then s.dateRange.value.to else "")
  }

  lemma NavigationParsed(s: UIState)
    ensures Assign(DecodePairs(NavigationFields(s))) == NavigationMap(s)
  {
    var ps := s.selectedProjects;
    var page := PageName(s.activePage);
    var sprint := s.selectedSprint.GetOr("");
    var resource := s.selectedResource.GetOr("");
    var a := Entry(true, "page", Encode(page));
    var ma := map["page" := page];
    assert Assign(DecodePairs(a)) == ma by {
      ParsedEntry([], true, "page", Encode(page));
      assert [] + a == a;
      DecodeEncode(page);
    }
    var b := a + Entry(|ps| > 0, "projects", Join(EncodeAll(ps), ","));
    var mb := ma + EntryMap(|ps| > 0, "projects", Join(ps, ","));
    assert Assign(DecodePairs(b)) == mb by {
      ParsedEntry(a, |ps| > 0, "projects", Join(EncodeAll(ps), ","));
      DecodeJoined(ps);
    }
    var c := b + Entry(Truthy(s.selectedSprint), "sprint", Encode(sprint));
    var mc := mb + EntryMap(Truthy(s.selectedSprint), "sprint", sprint);
    assert Assign(DecodePairs(c)) == mc by {
      ParsedEntry(b, Truthy(s.selectedSprint), "sprint", Encode(sprint));
      DecodeEncode(sprint);
    }
    var d := c + Entry(Truthy(s.selectedResource), "resource", Encode(resource));
    assert Assign(DecodePairs(d)) == mc + EntryMap(Truthy(s.selectedResource), "resource", resource) by {
      ParsedEntry(c, Truthy(s.selectedResource), "resource", Encode(resource));
      DecodeEncode(resource);
    }
    assert NavigationFields(s) == d;
  }

  lemma ExtraParsed(s: UIState)
    ensures Assign(DecodePairs(ExtraFields(s))) == ExtraMap(s)
  {
    var range := s.dateRange.Some?;
    var from := if range then s.dateRange.value.from else "";
    var to := if range then s.dateRange.value.to else "";
    var a := Entry(s.showArchived, "archived", "1");
    var ma := EntryMap(s.showArchived, "archived", "1");
    assert Assign(DecodePairs(a)) == ma by {
      ParsedEntry([], s.showArchived, "archived", "1");
      assert [] + a == a;
      DecodePlain("1");
    }
    var b := a + Entry(range, "from", Encode(from));
    var mb := ma + EntryMap(range, "from", from);
    assert Assign(DecodePairs(b)) == mb by {
      ParsedEntry(a, range, "from", Encode(from));
      DecodeEncode(from);
    }
    assert Assign(DecodePairs(b + Entry(range, "to", Encode(to)))) == mb + EntryMap(range, "to", to) by {
      ParsedEntry(b, range, "to", Encode(to));
      DecodeEncode(to);
    }
  }

  /**
   * `parseHash` after `buildHash`: every written field reads back under its
   * own key with its original value, the project names comma-joined.
   */
  lemma ParseBuilt(s: UIState)
    ensures ParseHash(BuildHash(s)) == NavigationMap(s) + ExtraMap(s)
  {
    var h := BuildHash(s);
    var nav := NavigationFields(s);
    var extra := ExtraFields(s);
    assert ParseHash(h) == Assign(DecodePairs(HashPairs(h)));
    assert HashPairs(h) == nav + extra by { BuiltPairs(s); }
    assert DecodePairs(nav + extra) == DecodePairs(nav) + DecodePairs(extra) by { DecodePairsAppend(nav, extra); }
    assert Assign(DecodePairs(nav) + DecodePairs(extra)) == Assign(DecodePairs(nav)) + Assign(DecodePairs(extra)) by {
      AssignAppend(DecodePairs(nav), DecodePairs(extra));
    }
    assert Assign(DecodePairs(nav)) == NavigationMap(s) by { NavigationParsed(s); }
    assert Assign(DecodePairs(extra)) == ExtraMap(s) by { ExtraParsed(s); }
  }

  /**
   * A project list the restore picks up: the joined value must be
   * non-empty, which fails only for no names or the one empty name.
   */
  predicate ProjectsWritten(ps: seq<string>)
  {
    |ps| > 0 && ps != [""]
  }

  lemma JoinedNonEmpty(ps: seq<string>)
    requires |ps| > 0
    ensures Join(ps, ",") != "" <==> ProjectsWritten(ps)
  {
    if |ps| > 1 {
      assert |Join(ps, ",")| >= |ps[0] + ","|;
    }
  }

  /** A date range the restore picks up: both ends non-empty. */
  predicate RangeWritten(range: Option<DateRange>)
  {
    range.Some? && range.value.from != "" && range.value.to != ""
  }

  /** The navigation keys and the extra keys are different words. */
  lemma KeysDistinct()
    ensures "page" != "archived" && "page" != "from" && "page" != "to"
    ensures "projects" != "archived" && "projects" != "from" && "projects" != "to"
    ensures "sprint" != "archived" && "sprint" != "from" && "sprint" != "to"
    ensures "resource" != "archived" && "resource" != "from" && "resource" != "to"
    ensures "projects" != "sprint" && "projects" != "resource"
  {
    assert "archived"[0] == 'a' && "from"[0] == 'f' && "to"[0] == 't';
    assert "page"[0] == 'p' && "projects"[0] == 'p' && "sprint"[0] == 's' && "resource"[0] == 'r';
  }

  /** Each navigation field under its own key. */
  lemma NavigationLookups(s: UIState)
    ensures var n := NavigationMap(s);
      "page" in n && n["page"] == PageName(s.activePage) &&
      ("projects" in n <==> |s.selectedProjects| > 0) &&
      (|s.selectedProjects| > 0 ==> n["projects"] == Join(s.selectedProjects, ",")) &&
      ("sprint" in n <==> Truthy(s.selectedSprint)) &&
      (Truthy(s.selectedSprint) ==> n["sprint"] == s.selectedSprint.value) &&
      ("resource" in n <==> Truthy(s.selectedResource)) &&
      (Truthy(s.selectedResource) ==> n["resource"] == s.selectedResource.value) &&
      "archived" !in n && "from" !in n && "to" !in n
  {
    KeysDistinct();
  }

  /** Each extra field under its own key. */
  lemma ExtraLookups(s: UIState)
    ensures var e := ExtraMap(s);
      ("archived" in e <==> s.showArchived) &&
      (s.showArchived ==> e["archived"] == "1") &&
      ("from" in e <==> s.dateRange.Some?) && ("to" in e <==> s.dateRange.Some?) &&
      (s.dateRange.Some? ==> e["from"] == s.dateRange.value.from && e["to"] == s.dateRange.value.to) &&
      "page" !in e && "projects" !in e && "sprint" !in e && "resource" !in e
  {
    KeysDistinct();
  }

  /**
   * Parameters that carry the hashed fields of `s`: each written field
   * under its own key with its original value, and no key for a field not
   * written.
   */
  predicate Carries(m: map<string, string>, s: UIState)
  {
    "page" in m && m["page"] == PageName(s.activePage) &&
    ("projects" in m <==> |s.selectedProjects| > 0) &&
    (|s.selectedProjects| > 0 ==> m["projects"] == Join(s.selectedProjects, ",")) &&
    ("sprint" in m <==> Truthy(s.selectedSprint)) &&
    (Truthy(s.selectedSprint) ==> m["sprint"] == s.selectedSprint.value) &&
    ("resource" in m <==> Truthy(s.selectedResource)) &&
    (Truthy(s.selectedResource) ==> m["resource"] == s.selectedResource.value) &&
    ("archived" in m <==> s.showArchived) &&
    (s.showArchived ==> m["archived"] == "1") &&
    ("from" in m <==> s.dateRange.Some?) && ("to" in m <==> s.dateRange.Some?) &&
    (s.dateRange.Some? ==> m["from"] == s.dateRange.value.from && m["to"] == s.dateRange.value.to)
  }

  /** The parameters read back from a built hash carry its fields. */
  lemma ParsedFields(s: UIState)
    ensures Carries(ParseHash(BuildHash(s)), s)
  {
    ParseBuilt(s);
    NavigationLookups(s);
    ExtraLookups(s);
  }

  /** The undecoded project value of a built hash is the comma-joined encoded names. */
  lemma RawProjects(s: UIState)
    requires |s.selectedProjects| > 0
    ensures var m := ParseRaw(BuildHash(s));
      "projects" in m && m["projects"] == Join(EncodeAll(s.selectedProjects), ",")
  {
    var nav := NavigationFields(s);
    var extra := ExtraFields(s);
    BuiltPairs(s);
    AssignAppend(nav, extra);
    NavigationProjects(s);
    ExtraKeys(s);
  }

  /** Before decoding, the navigation fields bind "projects" to the encoded names. */
  lemma NavigationProjects(s: UIState)
    requires |s.selectedProjects| > 0
    ensures var m := Assign(NavigationFields(s));
      "projects" in m && m["projects"] == Join(EncodeAll(s.selectedProjects), ",")
  {
    var ps := s.selectedProjects;
    var v := Join(EncodeAll(ps), ",");
    var a := [("page", Encode(PageName(s.activePage)))];
    var b := a + Entry(true, "projects", v);
    var c := b + Entry(Truthy(s.selectedSprint), "sprint", Encode(s.selectedSprint.GetOr("")));
    var d := c + Entry(Truthy(s.selectedResource), "resource", Encode(s.selectedResource.GetOr("")));
    assert NavigationFields(s) == d;
    KeysDistinct();
    assert "projects" in Assign(b) && Assign(b)["projects"] == v by {
      AssignEntry(a, true, "projects", v);
    }
    assert "projects" in Assign(c) && Assign(c)["projects"] == v by {
      AssignEntry(b, Truthy(s.selectedSprint), "sprint", Encode(s.selectedSprint.GetOr("")));
    }
    AssignEntry(c, Truthy(s.selectedResource), "resource", Encode(s.selectedResource.GetOr("")));
  }

  /** Before decoding, the extra fields bind no navigation key. */
  lemma ExtraKeys(s: UIState)
    ensures var m := Assign(ExtraFields(s));
      "page" !in m && "projects" !in m && "sprint" !in m && "resource" !in m
  {
    var range := s.dateRange.Some?;
    var a := Entry(s.showArchived, "archived", "1");
    var from := Encode(if range then s.dateRange.value.from else "");
    var b := a + Entry(range, "from", from);
    KeysDistinct();
    AssignEntry([], s.showArchived, "archived", "1");
    assert [] + a == a;
    AssignEntry(a, range, "from", from);
    AssignEntry(b, range, "to", Encode(if range then s.dateRange.value.to else ""));
  }

  /** With the corrected reading, any project names come back exactly. */
  lemma CorrectedProjectsRoundTrip(s: UIState)
    requires |s.selectedProjects| > 0
    ensures ProjectsCorrected(BuildHash(s)) == s.selectedProjects
  {
    var ps := s.selectedProjects;
    var es := EncodeAll(ps);
    RawProjects(s);
    assert "," == [','];
    SplitJoin(es, ',');
    forall i | 0 <= i < |ps|
      ensures Decode(es[i]) == ps[i]
    {
      DecodeEncode(ps[i]);
    }
  }

  /**
   * `r` restores the hashed fields of `s` over `start`: what the hash
   * carries is taken from `s`, the rest kept from `start`; archived is
   * only ever switched on.
   */
  predicate Restores(r: UIState, s: UIState, start: UIState)
  {
    r.activePage == s.activePage &&
    r.selectedProjects == (if ProjectsWritten(s.selectedProjects) then s.selectedProjects else start.selectedProjects) &&
    r.selectedSprint == (if Truthy(s.selectedSprint) then s.selectedSprint else start.selectedSprint) &&
    r.selectedResource == (if Truthy(s.selectedResource) then s.selectedResource else start.selectedResource) &&
    r.showArchived == (s.showArchived || start.showArchived) &&
    r.dateRange == (if RangeWritten(s.dateRange) then s.dateRange else start.dateRange) &&
    r.darkMode == start.darkMode && r.syncLastUpdated == start.syncLastUpdated &&
    r.syncIsFetching == start.syncIsFetching && r.hasRefetch == start.hasRefetch
  }

  /** Applying parameters that carry `s`, with the project list read correctly, restores `s`. */
  lemma ApplyCarried(m: map<string, string>, projects: seq<string>, s: UIState, start: UIState)
    requires Carries(m, s)
    requires |s.selectedProjects| > 0 ==> (Join(s.selectedProjects, ",") != "" <==> ProjectsWritten(s.selectedProjects))
    requires ProjectsWritten(s.selectedProjects) ==> projects == s.selectedProjects
    ensures Restores(ApplyExtras(m, ApplyNavigation(m, projects, start)), s, start)
  {
    var nav := ApplyNavigation(m, projects, start);
    var r := ApplyExtras(m, nav);
    assert PageOf(m["page"]) == Some(s.activePage);
    assert Differ(start, nav) <= {PageField, ProjectsField, SprintField, ResourceField};
    assert Differ(nav, r) <= {ArchivedField, DateRangeField};
    assert DarkModeField !in Differ(start, nav) && DarkModeField !in Differ(nav, r);
    assert LastUpdatedField !in Differ(start, nav) && LastUpdatedField !in Differ(nav, r);
    assert FetchingField !in Differ(start, nav) && FetchingField !in Differ(nav, r);
    assert RefetchField !in Differ(start, nav) && RefetchField !in Differ(nav, r);
    assert ArchivedField !in Differ(start, nav) && DateRangeField !in Differ(start, nav);
    assert PageField !in Differ(nav, r) && ProjectsField !in Differ(nav, r);
    assert SprintField !in Differ(nav, r) && ResourceField !in Differ(nav, r);
  }

  /**
   * Round trip of the corrected restore: reading back a built hash
   * reproduces every field the hash carries and leaves the others as
   * they were.
   */
  lemma RoundTrip(s: UIState, start: UIState)
    ensures Restores(RestoreOnLoadCorrected(BuildHash(s), start), s, start)
  {
    var m := ParseHash(BuildHash(s));
    ParsedFields(s);
    assert |m| > 0 by { assert "page" in m; }
    if |s.selectedProjects| > 0 {
      JoinedNonEmpty(s.selectedProjects);
      CorrectedProjectsRoundTrip(s);
    }
    ApplyCarried(m, ProjectsCorrected(BuildHash(s)), s, start);
  }

  /** Starting from the initial store, the restored state carries exactly the hashed fields. */
  lemma RoundTripFromInitial(s: UIState, prefersDark: bool)
    requires s.selectedProjects != [""]
    requires s.dateRange.Some? ==> RangeWritten(s.dateRange)
    requires s.selectedSprint != Some("") && s.selectedResource != Some("")
    ensures RestoreOnLoadCorrected(BuildHash(s), Initial(prefersDark)) ==
      s.(darkMode := prefersDark, syncLastUpdated := None, syncIsFetching := false, hasRefetch := false)
  {
    RoundTrip(s, Initial(prefersDark));
  }

  /**
   * As written, the project list is decoded once by `parseHash` and again
   * after splitting: the names come back as the comma-joined text split at
   * every comma, each decoded a second time.
   */
  lemma AsWrittenProjects(s: UIState, start: UIState)
    requires ProjectsWritten(s.selectedProjects)
    ensures RestoreOnLoad(BuildHash(s), start).selectedProjects ==
      DecodeAll(Split(Join(s.selectedProjects, ","), ','))
  {
    ParsedFields(s);
    JoinedNonEmpty(s.selectedProjects);
    var m := ParseHash(BuildHash(s));
    assert |m| > 0 by { assert "page" in m; }
    var projects := ProjectsAsWritten(m["projects"]);
    var nav := ApplyNavigation(m, projects, start);
    assert ProjectsField !in Differ(nav, ApplyExtras(m, nav));
  }

  /** The name "a,b", joined, split at commas and decoded, gives "a" and "b". */
  lemma CommaNameSplits()
    ensures DecodeAll(Split(Join(["a,b"], ","), ',')) == ["a", "b"]
  {
    assert Join(["a,b"], ",") == "a,b";
    assert Split("a,b", ',') == ["a", "b"] by {
      assert IndexOfChar("a,b", ',') == Some(1);
      assert "a,b"[..1] == "a" && "a,b"[2..] == "b";
      assert IndexOfChar("b", ',') == None;
    }
    assert DecodeAll(["a", "b"]) == ["a", "b"] by {
      DecodePlain("a");
      DecodePlain("b");
    }
  }

  /** A project named "a,b" is restored as the two selections "a" and "b". */
  lemma AsWrittenSplitsComma(s: UIState, start: UIState)
    requires s.selectedProjects == ["a,b"]
    ensures RestoreOnLoad(BuildHash(s), start).selectedProjects == ["a", "b"]
  {
    AsWrittenProjects(s, start);
    CommaNameSplits();
  }

  /** Names free of ',' and '%' survive even the double decoding. */
  lemma AsWrittenPlainNames(s: UIState, start: UIState)
    requires ProjectsWritten(s.selectedProjects)
    requires forall i :: 0 <= i < |s.selectedProjects| ==> ',' !in s.selectedProjects[i] && '%' !in s.selectedProjects[i]
    ensures RestoreOnLoad(BuildHash(s), start).selectedProjects == s.selectedProjects
  {
    var ps := s.selectedProjects;
    AsWrittenProjects(s, start);
    assert "," == [','];
    SplitJoin(ps, ',');
    forall i | 0 <= i < |ps|
      ensures Decode(ps[i]) == ps[i]
    {
      DecodePlain(ps[i]);
    }
  }
}

=== FILE: ingest.dfy ===
/**
 * Turning Azure DevOps work-item payloads into `WorkItem` records
 * (src/services/api/workItems.ts) and the WIQL text and batch/page
 * constants (src/lib/constants.ts). HTTP calls become a `fetch`
 * parameter; dates arrive already as milliseconds.
 */
module Ingest {
  import opened Common
  import opened WorkItems

  /** Ids per detail request (the service's own limit). */
  const WORK_ITEM_BATCH_SIZE: nat := 200

  /** Rows per page in the paginated tables. */
  const TABLE_PAGE_SIZE: nat := 20

  // ---------------------------------------------------------------------
  // State and type decoding
  // ---------------------------------------------------------------------

  /** Membership in `VALID_STATES`, as the decoded state. */
  function StateOf(raw: string): (r: Option<State>)
    ensures r.Some? ==> StateName(r.value) == raw
    ensures r.None? ==> forall s: State :: StateName(s) != raw
  {
    if raw == "New" then Some(New)
    else if raw == "Active" then Some(Active)
    else if raw == "Resolved" then Some(Resolved)
    else if raw == "Closed" then Some(Closed)
    else if raw == "Removed" then Some(Removed)
    else None
  }

  /** `toWorkItemState`: a known name decodes to itself, anything else to New. */
  function ToState(raw: string): (r: State)
    ensures StateName(r) == raw || (r == New && forall s: State :: StateName(s) != raw)
  {
    StateOf(raw).GetOr(New)
  }

  /** Membership in `VALID_TYPES`, as the decoded type. */
  function TypeOf(raw: string): (r: Option<ItemType>)
    ensures r.Some? ==> TypeName(r.value) == raw
    ensures r.None? ==> forall t: ItemType :: TypeName(t) != raw
  {
    if raw == "User Story" then Some(UserStory)
    else if raw == "Bug" then Some(Bug)
    else if raw == "Task" then Some(Task)
    else if raw == "Epic" then Some(Epic)
    else if raw == "Feature" then Some(Feature)
    else if raw == "Issue" then Some(Issue)
    else if raw == "Risk" then Some(Risk)
    else None
  }

  /** `toWorkItemType`: a known name decodes to itself, anything else to Task. */
  function ToType(raw: string): (r: ItemType)
    ensures TypeName(r) == raw || (r == Task && forall t: ItemType :: TypeName(t) != raw)
  {
    TypeOf(raw).GetOr(Task)
  }

  /** Decoding inverts the wire names. */
  lemma DecodeRoundTrip(s: State, t: ItemType)
    ensures ToState(StateName(s)) == s
    ensures ToType(TypeName(t)) == t
  {
    StateNameInjective(ToState(StateName(s)), s);
    TypeNameInjective(ToType(TypeName(t)), t);
  }

  // ---------------------------------------------------------------------
  // Relations
  // ---------------------------------------------------------------------

  /** One entry of `relations`: link type, target URL and optional attribute name. */
  datatype Relation = Relation(rel: string, url: string, name: Option<string>)

  datatype LinkKind = IssueLink | RiskLink

  /**
   * `/\/(Issue|Risk)\//i.exec` on an already lower-cased URL: the leftmost
   * position where either word sits between slashes, "issue" tried first.
   */
  function LinkIn(lower: string): (r: Option<LinkKind>)
    ensures r == Some(IssueLink) ==> Contains(lower, "/issue/")
    ensures r == Some(RiskLink) ==> Contains(lower, "/risk/")
    ensures r.None? <==> !Contains(lower, "/issue/") && !Contains(lower, "/risk/")
    decreases |lower|
  {
    if StartsWith(lower, "/issue/") then Some(IssueLink)
    else if StartsWith(lower, "/risk/") then Some(RiskLink)
    else if |lower| == 0 then None
    else LinkIn(lower[1..])
  }

  /** The regular expression is case-insensitive on these ASCII words. */
  function UrlLink(url: string): Option<LinkKind>
  {
    LinkIn(ToLower(url))
  }

  predicate IsDigit(c: char)
  {
    '0' <= c <= '9'
  }

  /** Length of the longest all-digit suffix. */
  function DigitSuffixLen(s: string): (n: nat)
    ensures n <= |s|
    ensures forall i :: |s| - n <= i < |s| ==> IsDigit(s[i])
    ensures n < |s| ==> !IsDigit(s[|s| - n - 1])
  {
    if |s| > 0 && IsDigit(s[|s| - 1]) then DigitSuffixLen(s[..|s| - 1]) + 1 else 0
  }

  const WORK_ITEMS_SEGMENT: string := "/workitems/"

  /**
   * `/\/workItems\/(\d+)$/i`: the digits ending the URL, when they follow
   * the segment `/workItems/` in any letter case. The digits of a match
   * are always the whole digit suffix, because the segment ends in '/'.
   */
  function TrailingId(url: string): (r: Option<nat>)
  {
    var n := DigitSuffixLen(url);
    if n > 0 && EndsWith(ToLower(url[..|url| - n]), WORK_ITEMS_SEGMENT) then Some(ParseNat(url[|url| - n..]))
    else None
  }

  lemma {:induction false} DigitSuffixOf(a: string, d: string)
    requires |a| > 0 && !IsDigit(a[|a| - 1])
    requires forall i :: 0 <= i < |d| ==> IsDigit(d[i])
    ensures DigitSuffixLen(a + d) == |d|
    decreases |d|
  {
    if |d| > 0 {
      assert (a + d)[..|a + d| - 1] == a + d[..|d| - 1];
      DigitSuffixOf(a, d[..|d| - 1]);
    } else {
      assert a + d == a;
    }
  }

  /** A work-item link URL gives back the id it was built from, whatever the segment's case. */
  lemma TrailingIdOfLink(prefix: string, segment: string, id: nat)
    requires ToLower(segment) == WORK_ITEMS_SEGMENT
    ensures TrailingId(prefix + segment + NatToString(id)) == Some(id)
  {
    var d := NatToString(id);
    var a := prefix + segment;
    var url := a + d;
    assert segment[|segment| - 1] == '/' by {
      assert LowerChar(segment[|segment| - 1]) == '/';
    }
    DigitSuffixOf(a, d);
    assert url[..|url| - |d|] == a;
    assert url[|url| - |d|..] == d;
    assert ToLower(a)[|a| - |segment|..] == ToLower(segment);
    ParseNatToString(id);
  }

  const HIERARCHY_REVERSE: string := "System.LinkTypes.Hierarchy-Reverse"

  /** A child-to-parent relation whose URL names a work item. */
  predicate ParentLink(r: Relation)
  {
    r.rel == HIERARCHY_REVERSE && TrailingId(r.url).Some?
  }

  /** Index of the last parent link, if any. */
  function LastParentLink(rels: seq<Relation>): (r: Option<nat>)
    ensures r.None? <==> forall i :: 0 <= i < |rels| ==> !ParentLink(rels[i])
    ensures r.Some? ==> r.value < |rels| && ParentLink(rels[r.value])
    ensures r.Some? ==> forall j :: r.value < j < |rels| ==> !ParentLink(rels[j])
  {
    LastWhere(rels, (x: Relation) => ParentLink(x))
  }

  /** The parent-id loop of `mapWorkItem`: each parent link overwrites the value so far. */
  function ParentIdScan(rels: seq<Relation>, acc: Option<int>): Option<int>
  {
    if |rels| == 0 then acc
    else ParentIdScan(rels[1..], if ParentLink(rels[0]) then Some(TrailingId(rels[0].url).value as int) else acc)
  }

  /** The loop keeps the id of the last parent link, or none. */
  lemma {:induction false} ParentIdScanIsLast(rels: seq<Relation>, acc: Option<int>)
    ensures ParentIdScan(rels, acc) ==
      match LastParentLink(rels)
      case None => acc
      case Some(i) => Some(TrailingId(rels[i].url).value as int)
    decreases |rels|
  {
    if |rels| > 0 {
      var next := if ParentLink(rels[0]) then Some(TrailingId(rels[0].url).value as int) else acc;
      ParentIdScanIsLast(rels[1..], next);
      var tail := LastParentLink(rels[1..]);
      match tail
      case None =>
        forall j | 1 <= j < |rels| ensures !ParentLink(rels[j]) {
          assert rels[j] == rels[1..][j - 1];
        }
        if ParentLink(rels[0]) {
          assert LastParentLink(rels) == Some(0) by { LastParentLinkUnique(rels, 0); }
        } else {
          assert LastParentLink(rels).None?;
        }
      case Some(k) =>
        assert rels[k + 1] == rels[1..][k];
        forall j | k + 1 < j < |rels| ensures !ParentLink(rels[j]) {
          assert rels[j] == rels[1..][j - 1];
        }
        LastParentLinkUnique(rels, k + 1);
    }
  }

  /** The last parent link is the unique parent link with none after it. */
  lemma LastParentLinkUnique(rels: seq<Relation>, i: nat)
    requires i < |rels| && ParentLink(rels[i])
    requires forall j :: i < j < |rels| ==> !ParentLink(rels[j])
    ensures LastParentLink(rels) == Some(i)
  {
    LastWhereUnique(rels, (x: Relation) => ParentLink(x), i);
  }

  /** `detectLinkedTypes`, issue half: an issue URL or an attribute name mentioning "issue". */
  predicate DirectIssue(r: Relation)
  {
    r.url != "" && (UrlLink(r.url) == Some(IssueLink) || Contains(ToLower(r.name.GetOr("")), "issue"))
  }

  predicate DirectRisk(r: Relation)
  {
    r.url != "" && (UrlLink(r.url) == Some(RiskLink) || Contains(ToLower(r.name.GetOr("")), "risk"))
  }

  /** The related item, by the id at the end of the URL, has this type in the batch. */
  predicate RelatedIs(r: Relation, types: map<int, string>, t: string)
  {
    match TrailingId(r.url)
    case None => false
    case Some(id) => id in types && types[id] == t
  }

  /** A flag that starts at `acc` and is set, never cleared, by any element satisfying `p`. */
  function SetByAny<T>(s: seq<T>, p: T -> bool, acc: bool): bool
  {
    if |s| == 0 then acc else SetByAny(s[1..], p, acc || p(s[0]))
  }

  lemma {:induction false} SetByAnyExists<T>(s: seq<T>, p: T -> bool, acc: bool)
    ensures SetByAny(s, p, acc) <==> acc || exists i :: 0 <= i < |s| && p(s[i])
    decreases |s|
  {
    if |s| > 0 {
      SetByAnyExists(s[1..], p, acc || p(s[0]));
      if exists i :: 0 <= i < |s| && p(s[i]) {
        var i :| 0 <= i < |s| && p(s[i]);
        if i > 0 { assert s[1..][i - 1] == s[i]; }
      }
      if exists i :: 0 <= i < |s[1..]| && p(s[1..][i]) {
        var i :| 0 <= i < |s[1..]| && p(s[1..][i]);
        assert s[i + 1] == s[1..][i];
      }
    }
  }

  function IsDirectIssue(): Relation -> bool { r => DirectIssue(r) }
  function IsDirectRisk(): Relation -> bool { r => DirectRisk(r) }
  function IsRelated(types: map<int, string>, t: string): Relation -> bool { r => RelatedIs(r, types, t) }

  /** Evidence that a relation links an issue: direct, or through the related item's type. */
  predicate IssueEvidence(r: Relation, types: map<int, string>)
  {
    DirectIssue(r) || RelatedIs(r, types, "Issue")
  }

  predicate RiskEvidence(r: Relation, types: map<int, string>)
  {
    DirectRisk(r) || RelatedIs(r, types, "Risk")
  }

  /** The payload of one work item; dates already converted to milliseconds. */
  datatype RawFields = RawFields(
    teamProject: string,
    title: string,
    state: string,
    workItemType: string,
    assignedTo: Option<Assignee>,
    storyPoints: Option<real>,
    priority: Option<int>,
    iterationPath: string,
    areaPath: string,
    createdDate: int,
    changedDate: int,
    stateChangeDate: Option<int>,
    closedDate: Option<int>,
    resolvedDate: Option<int>,
    targetDate: Option<int>,
    activatedDate: Option<int>,
    tags: Option<string>,
    description: Option<string>,
    reason: Option<string>)

  datatype RawItem = RawItem(id: int, fields: RawFields, relations: Option<seq<Relation>>)

  function RelationsOf(raw: RawItem): seq<Relation>
  {
    raw.relations.GetOr([])
  }

  /** `mapWorkItem`. */
  function MapWorkItem(raw: RawItem, types: map<int, string>): (w: WorkItem)
    ensures w.id == raw.id && w.projectName == raw.fields.teamProject
    ensures StateName(w.state) == raw.fields.state || w.state == New
    ensures TypeName(w.workItemType) == raw.fields.workItemType || w.workItemType == Task
    ensures w.hasLinkedIssue <==> exists i :: 0 <= i < |RelationsOf(raw)| && IssueEvidence(RelationsOf(raw)[i], types)
    ensures w.hasLinkedRisk <==> exists i :: 0 <= i < |RelationsOf(raw)| && RiskEvidence(RelationsOf(raw)[i], types)
    ensures w.parentId.None? <==> forall i :: 0 <= i < |RelationsOf(raw)| ==> !ParentLink(RelationsOf(raw)[i])
  {
    var f := raw.fields;
    var rels := RelationsOf(raw);
    var directIssue := SetByAny(rels, IsDirectIssue(), false);
    var directRisk := SetByAny(rels, IsDirectRisk(), false);
    var issue := SetByAny(rels, IsRelated(types, "Issue"), directIssue);
    var risk := SetByAny(rels, IsRelated(types, "Risk"), directRisk);
    LinkFlags(rels, types);
    ParentIdScanIsLast(rels, None);
    WorkItem(
      raw.id, f.teamProject, f.title, ToState(f.state), ToType(f.workItemType), f.assignedTo,
      f.storyPoints, f.priority, f.iterationPath, f.areaPath, f.createdDate, f.changedDate,
      f.stateChangeDate, f.closedDate, f.resolvedDate, f.targetDate, f.activatedDate,
      f.tags, f.description, f.reason, ParentIdScan(rels, None), issue, risk)
  }

  lemma LinkFlags(rels: seq<Relation>, types: map<int, string>)
    ensures SetByAny(rels, IsRelated(types, "Issue"), SetByAny(rels, IsDirectIssue(), false)) <==>
              (exists i :: 0 <= i < |rels| && IssueEvidence(rels[i], types))
    ensures SetByAny(rels, IsRelated(types, "Risk"), SetByAny(rels, IsDirectRisk(), false)) <==>
              (exists i :: 0 <= i < |rels| && RiskEvidence(rels[i], types))
  {
    SetByAnyExists(rels, IsDirectIssue(), false);
    SetByAnyExists(rels, IsRelated(types, "Issue"), SetByAny(rels, IsDirectIssue(), false));
    SetByAnyExists(rels, IsDirectRisk(), false);
    SetByAnyExists(rels, IsRelated(types, "Risk"), SetByAny(rels, IsDirectRisk(), false));
  }

  /** The parent id is the id named by the last parent link. */
  lemma MapWorkItemParent(raw: RawItem, types: map<int, string>, i: nat)
    requires i < |RelationsOf(raw)| && ParentLink(RelationsOf(raw)[i])
    requires forall j :: i < j < |RelationsOf(raw)| ==> !ParentLink(RelationsOf(raw)[j])
    ensures MapWorkItem(raw, types).parentId == Some(TrailingId(RelationsOf(raw)[i].url).value as int)
  {
    ParentIdScanIsLast(RelationsOf(raw), None);
    LastParentLinkUnique(RelationsOf(raw), i);
  }

  /** The id-to-type lookup of a batch; a later item with the same id overwrites. */
  function TypeMap(raws: seq<RawItem>): (m: map<int, string>)
    ensures forall i :: 0 <= i < |raws| ==> raws[i].id in m
    ensures forall id :: id in m ==> exists i :: 0 <= i < |raws| && raws[i].id == id
  {
    if |raws| == 0 then map[]
    else
      var m := TypeMap(raws[..|raws| - 1]);
      var last := raws[|raws| - 1];
      assert forall i :: 0 <= i < |raws| - 1 ==> raws[i] == raws[..|raws| - 1][i];
      m[last.id := last.fields.workItemType]
  }

  /** The type recorded for an id is the type of the last item with that id. */
  lemma {:induction false} TypeMapLastWins(raws: seq<RawItem>, i: nat)
    requires i < |raws|
    requires forall j :: i < j < |raws| ==> raws[j].id != raws[i].id
    ensures TypeMap(raws)[raws[i].id] == raws[i].fields.workItemType
    decreases |raws|
  {
    if i < |raws| - 1 {
      var p := raws[..|raws| - 1];
      assert p[i] == raws[i];
      TypeMapLastWins(p, i);
    }
  }

  // ---------------------------------------------------------------------
  // Batching
  // ---------------------------------------------------------------------

  /** `chunk(arr, size)`: consecutive slices of `size`, the last one possibly shorter. */
  function Chunk<T>(arr: seq<T>, size: nat): (r: seq<seq<T>>)
    requires size > 0
    ensures forall i :: 0 <= i < |r| ==> 0 < |r[i]| <= size
    ensures forall i :: 0 <= i < |r| - 1 ==> |r[i]| == size
    decreases |arr|
  {
    if |arr| == 0 then []
    else if |arr| <= size then [arr]
    else [arr[..size]] + Chunk(arr[size..], size)
  }

  function Concat<T>(s: seq<seq<T>>): seq<T>
  {
    if |s| == 0 then [] else s[0] + Concat(s[1..])
  }

  /** The chunks put back together are the input. */
  lemma {:induction false} ChunkConcat<T>(arr: seq<T>, size: nat)
    requires size > 0
    ensures Concat(Chunk(arr, size)) == arr
    decreases |arr|
  {
    if |arr| > size {
      ChunkConcat(arr[size..], size);
      var r := Chunk(arr, size);
      assert r[1..] == Chunk(arr[size..], size);
      assert arr == arr[..size] + arr[size..];
    }
  }

  /** There are ceil(n / size) chunks: just enough to hold every element. */
  lemma {:induction false} ChunkCount<T>(arr: seq<T>, size: nat)
    requires size > 0
    ensures |arr| <= |Chunk(arr, size)| * size
    ensures |Chunk(arr, size)| > 0 ==> (|Chunk(arr, size)| - 1) * size < |arr|
    decreases |arr|
  {
    if |arr| > size {
      var k := |Chunk(arr[size..], size)|;
      ChunkCount(arr[size..], size);
      assert |Chunk(arr, size)| == k + 1;
      assert (k + 1) * size == k * size + size;
      assert k > 0;
      assert (k + 1 - 1) * size == (k - 1) * size + size;
    }
  }

  /** The fulfilled batch results, concatenated in batch order; failed batches are dropped. */
  function Fulfilled(results: seq<Option<seq<RawItem>>>): seq<RawItem>
  {
    if |results| == 0 then []
    else results[0].GetOr([]) + Fulfilled(results[1..])
  }

  /** `fetchWorkItemDetails`, with the per-batch request passed in. */
  function FetchWorkItemDetails(ids: seq<int>, fetch: seq<int> -> Option<seq<RawItem>>): (r: seq<WorkItem>)
    ensures |ids| == 0 ==> r == []
  {
    if |ids| == 0 then []
    else
      var raws := Fulfilled(Map(Chunk(ids, WORK_ITEM_BATCH_SIZE), fetch));
      var types := TypeMap(raws);
      Map(raws, (raw: RawItem) => MapWorkItem(raw, types))
  }

  /** Every id is requested exactly once, in order, in batches of at most 200. */
  lemma FetchBatches(ids: seq<int>)
    ensures Concat(Chunk(ids, WORK_ITEM_BATCH_SIZE)) == ids
    ensures forall b :: b in Chunk(ids, WORK_ITEM_BATCH_SIZE) ==> 0 < |b| <= WORK_ITEM_BATCH_SIZE
  {
    ChunkConcat(ids, WORK_ITEM_BATCH_SIZE);
  }

  /** One record per fulfilled payload, keeping its id, in payload order. */
  lemma FetchKeepsPayloads(ids: seq<int>, fetch: seq<int> -> Option<seq<RawItem>>)
    requires |ids| > 0
    ensures var raws := Fulfilled(Map(Chunk(ids, WORK_ITEM_BATCH_SIZE), fetch));
      |FetchWorkItemDetails(ids, fetch)| == |raws| &&
      forall i :: 0 <= i < |raws| ==> FetchWorkItemDetails(ids, fetch)[i].id == raws[i].id
  {
  }

  // ---------------------------------------------------------------------
  // WIQL
  // ---------------------------------------------------------------------

  predicate IsQuote(c: char)
  {
    c == '\''
  }

  function Quote(): char -> bool { c => IsQuote(c) }
  function NotQuote(): char -> bool { c => !IsQuote(c) }

  /** `iterationPath.replace(/'/g, "''")`. */
  function EscapeQuotes(s: string): (r: string)
    decreases |s|
  {
    if |s| == 0 then ""
    else (if IsQuote(s[0]) then "''" else [s[0]]) + EscapeQuotes(s[1..])
  }

  /** Collapse each `''` back to `'`, left to right. */
  function UnescapeQuotes(r: string): string
    decreases |r|
  {
    if |r| == 0 then ""
    else if |r| >= 2 && IsQuote(r[0]) && IsQuote(r[1]) then "'" + UnescapeQuotes(r[2..])
    else [r[0]] + UnescapeQuotes(r[1..])
  }

  lemma FilterCons(c: char, s: string, p: char -> bool)
    ensures Filter([c] + s, p) == (if p(c) then [c] else []) + Filter(s, p)
  {
    FilterAppend([c], s, p);
    assert Filter([c], p) == Filter([c][..0], p) + (if p(c) then [c] else []);
  }

  /** Each quote is doubled, so the length grows by the number of quotes. */
  lemma {:induction false} EscapeLength(s: string)
    ensures |EscapeQuotes(s)| == |s| + Count(s, Quote())
    decreases |s|
  {
    if |s| > 0 {
      EscapeLength(s[1..]);
      FilterCons(s[0], s[1..], Quote());
      assert s == [s[0]] + s[1..];
    }
  }

  /** Escaping changes no character other than the quotes. */
  lemma {:induction false} EscapeKeepsOthers(s: string)
    ensures Filter(EscapeQuotes(s), NotQuote()) == Filter(s, NotQuote())
    decreases |s|
  {
    if |s| > 0 {
      EscapeKeepsOthers(s[1..]);
      var head := if IsQuote(s[0]) then "''" else [s[0]];
      FilterAppend(head, EscapeQuotes(s[1..]), NotQuote());
      FilterCons(s[0], s[1..], NotQuote());
      assert s == [s[0]] + s[1..];
      if IsQuote(s[0]) {
        FilterCons('\'', "'", NotQuote());
        FilterCons('\'', "", NotQuote());
      } else {
        FilterCons(s[0], "", NotQuote());
        assert [s[0]] + "" == [s[0]];
      }
    }
  }

  /** Collapsing the doubled quotes recovers the original path. */
  lemma {:induction false} UnescapeEscape(s: string)
    ensures UnescapeQuotes(EscapeQuotes(s)) == s
    decreases |s|
  {
    if |s| > 0 {
      UnescapeEscape(s[1..]);
      var e := EscapeQuotes(s);
      if IsQuote(s[0]) {
        assert e[2..] == EscapeQuotes(s[1..]);
      } else {
        assert e[1..] == EscapeQuotes(s[1..]);
      }
      assert s == [s[0]] + s[1..];
    }
  }

  /**
   * How WIQL reads a quoted string body: `''` stands for one quote and a
   * lone quote closes the literal; the result is the value and the text
   * after the closing quote.
   */
  function ReadQuoted(s: string): Option<(string, string)>
    decreases |s|
  {
    if |s| == 0 then None
    else if IsQuote(s[0]) then
      if |s| >= 2 && IsQuote(s[1]) then
        match ReadQuoted(s[2..])
        case None => None
        case Some(vr) => Some(("'" + vr.0, vr.1))
      else Some(("", s[1..]))
    else
      match ReadQuoted(s[1..])
      case None => None
      case Some(vr) => Some(([s[0]] + vr.0, vr.1))
  }

  /** An escaped path followed by a closing quote reads back as exactly that path. */
  lemma {:induction false} ReadQuotedEscaped(s: string, rest: string)
    requires |rest| == 0 || !IsQuote(rest[0])
    ensures ReadQuoted(EscapeQuotes(s) + "'" + rest) == Some((s, rest))
    decreases |s|
  {
    var t := EscapeQuotes(s) + "'" + rest;
    if |s| == 0 {
      assert t == "'" + rest;
      assert t[1..] == rest;
    } else {
      ReadQuotedEscaped(s[1..], rest);
      var tail := EscapeQuotes(s[1..]) + "'" + rest;
      if IsQuote(s[0]) {
        assert t == "''" + tail;
        assert t[2..] == tail;
      } else {
        assert t == [s[0]] + tail;
        assert t[1..] == tail;
      }
      assert s == [s[0]] + s[1..];
    }
  }

  const WIQL_ALL_ITEMS: string :=
    "\n  SELECT [System.Id]\n  FROM WorkItems\n  WHERE [System.TeamProject] = @project\n  ORDER BY [System.ChangedDate] DESC\n"

  const WIQL_ITERATION_HEAD: string :=
    "\n  SELECT [System.Id]\n  FROM WorkItems\n  WHERE [System.TeamProject] = @project\n    AND [System.IterationPath] = "

  const WIQL_ITERATION_TAIL: string := "\n  ORDER BY [System.ChangedDate] DESC\n"

  /** `WIQL_ITERATION_ITEMS(iterationPath)`. */
  function IterationQuery(path: string): (q: string)
    ensures StartsWith(q, WIQL_ITERATION_HEAD + "'")
  {
    var q := WIQL_ITERATION_HEAD + "'" + EscapeQuotes(path) + "'" + WIQL_ITERATION_TAIL;
    assert q[..|WIQL_ITERATION_HEAD + "'"|] == WIQL_ITERATION_HEAD + "'";
    q
  }

  /** The iteration clause's string literal holds exactly the path, and the query goes on unchanged after it. */
  lemma IterationClauseReadsBack(path: string)
    ensures ReadQuoted(IterationQuery(path)[|WIQL_ITERATION_HEAD| + 1..]) == Some((path, WIQL_ITERATION_TAIL))
  {
    var q := IterationQuery(path);
    assert q[|WIQL_ITERATION_HEAD| + 1..] == EscapeQuotes(path) + "'" + WIQL_ITERATION_TAIL;
    ReadQuotedEscaped(path, WIQL_ITERATION_TAIL);
  }

  /** `fetchWorkItemsByProject`: the iteration query for a non-empty path, else all items. */
  function WiqlFor(iterationPath: Option<string>): (q: string)
    ensures iterationPath.None? || iterationPath == Some("") ==> q == WIQL_ALL_ITEMS
    ensures iterationPath.Some? && iterationPath.value != "" ==> q == IterationQuery(iterationPath.value)
    ensures iterationPath.Some? && iterationPath.value != "" ==>
              ReadQuoted(q[|WIQL_ITERATION_HEAD| + 1..]) == Some((iterationPath.value, WIQL_ITERATION_TAIL))
  {
    match iterationPath
    case Some(p) =>
      if p != "" then
        IterationClauseReadsBack(p);
        IterationQuery(p)
      else WIQL_ALL_ITEMS
    case None => WIQL_ALL_ITEMS
  }
}

=== FILE: itemstable.dfy ===
/**
 * The work-items table (src/components/dashboard/WorkItemsTable.tsx): the
 * seven sort columns, the (rank, column) node order, the top-level and
 * state filters, pagination and the expand toggles.
 */
module ItemsTable {
  import opened Common
  import opened WorkItems
  import opened Tree
  import opened NodeSort
  import opened Paging
  import opened Ingest

  datatype SortKey = ById | ByTitle | ByState | ByType | ByAssignee | ByPoints | ByChanged

  /** The table opens sorted by id, ascending, on the first page. */
  const INITIAL_SORT: SortState<SortKey> := SortState(ById, Asc, 0)

  function Id(x: WorkItem): int { x.id }
  function Changed(x: WorkItem): int { x.changedDate }

  function ByPointsCompare(a: WorkItem, b: WorkItem): int
  {
    RealSign(Points(a) - Points(b))
  }

  /** The `switch` of `compareBySortKey`, before the direction is applied. */
  function KeyCompare(key: SortKey): (WorkItem, WorkItem) -> int
  {
    match key
    case ById => Ascending(Id)
    case ByTitle => ByString((x: WorkItem) => x.title)
    case ByState => ByString((x: WorkItem) => StateName(x.state))
    case ByType => ByString((x: WorkItem) => TypeName(x.workItemType))
    case ByAssignee => ByString(AssigneeName)
    case ByPoints => ByPointsCompare
    case ByChanged => Ascending(Changed)
  }

  /** Every column orders items as a total preorder whose reverse is one too. */
  lemma KeyCompareIsPreorder(key: SortKey)
    ensures TotalPreorder(KeyCompare(key)) && SignSymmetric(KeyCompare(key))
  {
    match key
    case ById => AscendingIsPreorder(Id);
    case ByTitle => ByStringIsPreorder((x: WorkItem) => x.title);
    case ByState => ByStringIsPreorder((x: WorkItem) => StateName(x.state));
    case ByType => ByStringIsPreorder((x: WorkItem) => TypeName(x.workItemType));
    case ByAssignee => ByStringIsPreorder(AssigneeName);
    case ByPoints =>
    case ByChanged => AscendingIsPreorder(Changed);
  }

  /** `compareBySortKey`. */
  function CompareBySortKey(a: WorkItem, b: WorkItem, key: SortKey, dir: SortDir): int
  {
    Directed(KeyCompare(key), dir)(a, b)
  }

  /**
   * 'desc' is 'asc' negated; a missing story-points value compares like 0,
   * and an unassigned item sorts first in ascending order (its name is '').
   */
  lemma CompareBySortKeyFacts(a: WorkItem, b: WorkItem, key: SortKey)
    ensures CompareBySortKey(a, b, key, Desc) == -CompareBySortKey(a, b, key, Asc)
    ensures a.storyPoints.None? ==>
              CompareBySortKey(a, b, ByPoints, Asc) == CompareBySortKey(a.(storyPoints := Some(0.0)), b, ByPoints, Asc)
    ensures a.assignedTo.None? ==> CompareBySortKey(a, b, ByAssignee, Asc) <= 0
  {
    if a.assignedTo.None? {
      assert KeyCompare(ByAssignee)(a, b) == StrCompare(AssigneeName(a), AssigneeName(b));
      assert StrLe(AssigneeName(a), AssigneeName(b));
    }
  }

  /** The comparator of the table's `sortNodes`: hierarchy rank, then the chosen column and direction. */
  function TableOrder(key: SortKey, dir: SortDir): (WorkItem, WorkItem) -> int
  {
    ThenBy(RankKey, Directed(KeyCompare(key), dir))
  }

  lemma TableOrderIsPreorder(key: SortKey, dir: SortDir)
    ensures TotalPreorder(TableOrder(key, dir))
  {
    KeyCompareIsPreorder(key);
    DirectedIsPreorder(KeyCompare(key), dir);
    ThenByIsPreorder(RankKey, Directed(KeyCompare(key), dir));
  }

  /** `sortNodes(nodes, sortKey, sortDir)`. */
  function SortTable(nodes: seq<TreeNode>, key: SortKey, dir: SortDir): seq<TreeNode>
  {
    SortForest(nodes, TableOrder(key, dir))
  }

  /** Siblings are ordered by rank, then by the column; every level is sorted; the items are a permutation. */
  lemma SortTableOrdered(nodes: seq<TreeNode>, key: SortKey, dir: SortDir)
    ensures var r := SortTable(nodes, key, dir);
      forall i, j :: 0 <= i < j < |r| ==>
        RankKey(r[i].item) < RankKey(r[j].item) ||
        (RankKey(r[i].item) == RankKey(r[j].item) && CompareBySortKey(r[i].item, r[j].item, key, dir) <= 0)
    ensures SortedDeep(SortTable(nodes, key, dir), TableOrder(key, dir))
    ensures Items(SortTable(nodes, key, dir)) == Items(nodes)
  {
    var r := SortTable(nodes, key, dir);
    SortTableDeep(nodes, key, dir);
    SortedLevelPairs(r, TableOrder(key, dir));
    TablePairs(r, key, dir);
  }

  lemma SortTableDeep(nodes: seq<TreeNode>, key: SortKey, dir: SortDir)
    ensures SortedBy(SortTable(nodes, key, dir), OnItems(TableOrder(key, dir)))
    ensures SortedDeep(SortTable(nodes, key, dir), TableOrder(key, dir))
    ensures Items(SortTable(nodes, key, dir)) == Items(nodes)
  {
    TableOrderIsPreorder(key, dir);
    SortForestSortedDeep(nodes, TableOrder(key, dir));
    SortForestItems(nodes, TableOrder(key, dir));
  }

  /** Two items in table order: lower rank first, then the column in the chosen direction. */
  lemma TablePairs(r: seq<TreeNode>, key: SortKey, dir: SortDir)
    requires forall i, j :: 0 <= i < j < |r| ==> TableOrder(key, dir)(r[i].item, r[j].item) <= 0
    ensures forall i, j :: 0 <= i < j < |r| ==>
      RankKey(r[i].item) < RankKey(r[j].item) ||
      (RankKey(r[i].item) == RankKey(r[j].item) && CompareBySortKey(r[i].item, r[j].item, key, dir) <= 0)
  {
    forall i, j | 0 <= i < j < |r|
      ensures RankKey(r[i].item) < RankKey(r[j].item) ||
              (RankKey(r[i].item) == RankKey(r[j].item) && CompareBySortKey(r[i].item, r[j].item, key, dir) <= 0)
    {
      assert TableOrder(key, dir)(r[i].item, r[j].item) <= 0;
    }
  }

  /** The `groups` memo: state filter, top-level filter, forest, sort, then area groups or one unlabelled group. */
  function TableGroups(items: seq<WorkItem>, states: set<State>, top: TopLevel, key: SortKey, dir: SortDir): (r: seq<AreaGroup>)
    ensures top != AreaPathLevel ==> |r| == 1 && r[0].caption == "" && r[0].groupId == ""
  {
    var filtered := FilterByTopLevel(StateFilter(items, states), top);
    GroupedForest(filtered, TableOrder(key, dir), top == AreaPathLevel)
  }

  /** Below any top level but Area Path, the one group's roots hold exactly the items of the forest of the kept items. */
  lemma TableGroupsFiltered(items: seq<WorkItem>, states: set<State>, top: TopLevel, key: SortKey, dir: SortDir)
    ensures top != AreaPathLevel ==>
              Items(TableGroups(items, states, top, key, dir)[0].roots) ==
              Items(BuildTree(FilterByTopLevel(StateFilter(items, states), top)))
  {
    var filtered := FilterByTopLevel(StateFilter(items, states), top);
    SortForestItems(BuildTree(filtered), TableOrder(key, dir));
  }

  /** `n` is a root of some group. */
  ghost predicate InSomeGroup(gs: seq<AreaGroup>, n: TreeNode)
  {
    exists i :: 0 <= i < |gs| && n in gs[i].roots
  }

  /** The area groups of a list of roots split it between them. */
  lemma AreaGroupsSplit(roots: seq<TreeNode>)
    ensures var gs := GroupByAreaPath(roots);
      (forall i, n :: 0 <= i < |gs| && n in gs[i].roots ==> n in roots) &&
      (forall k :: 0 <= k < |roots| ==> InSomeGroup(gs, roots[k])) &&
      SumNat(gs, GroupSize) == |roots|
  {
    var gs := GroupByAreaPath(roots);
    GroupByAreaPathContents(roots);
    GroupByAreaPathSizes(roots);
    forall i, n | 0 <= i < |gs| && n in gs[i].roots ensures n in roots {
      var j :| 0 <= j < |gs[i].roots| && gs[i].roots[j] == n;
    }
    forall k | 0 <= k < |roots| ensures InSomeGroup(gs, roots[k]) {
      var q := GroupByAreaPathCovers(roots, k);
      assert roots[k] in gs[q].roots;
    }
  }

  /**
   * Grouped by area path (the table's default), the groups split the sorted
   * roots of the kept items between them: every group root is one of them,
   * every one of them is in a group, and the group sizes add up to their
   * number; the sorted roots hold exactly the items of the kept forest.
   */
  lemma TableGroupsByArea(items: seq<WorkItem>, states: set<State>, key: SortKey, dir: SortDir)
    ensures var filtered := FilterByTopLevel(StateFilter(items, states), AreaPathLevel);
      var roots := SortForest(BuildTree(filtered), TableOrder(key, dir));
      var gs := TableGroups(items, states, AreaPathLevel, key, dir);
      Items(roots) == Items(BuildTree(filtered)) &&
      (forall i, n :: 0 <= i < |gs| && n in gs[i].roots ==> n in roots) &&
      (forall k :: 0 <= k < |roots| ==> InSomeGroup(gs, roots[k])) &&
      SumNat(gs, GroupSize) == |roots|
  {
    var filtered := FilterByTopLevel(StateFilter(items, states), AreaPathLevel);
    var cmp := TableOrder(key, dir);
    var roots := SortForest(BuildTree(filtered), cmp);
    SortForestItems(BuildTree(filtered), cmp);
    TableOrderIsPreorder(key, dir);
    GroupResortIsNoop(filtered, cmp);
    AreaGroupsSplit(roots);
  }

  /** `totalPages` and `pageRows` of the visible rows. */
  function TablePage(rows: seq<FlatRow>, page: nat): (r: seq<FlatRow>)
    ensures |r| <= TABLE_PAGE_SIZE
  {
    PageSlice(rows, page, TABLE_PAGE_SIZE)
  }

  /** The rows shown on one page: the flattened groups under the expanded set, sliced. */
  function PageRows(groups: seq<AreaGroup>, expanded: set<string>, page: nat): seq<FlatRow>
  {
    TablePage(FlattenGroupedTree(groups, expanded), page)
  }

  /** `toggleExpandAll`: anything open closes everything, otherwise every expandable id opens. */
  function ToggleExpandAll(expanded: set<string>, groups: seq<AreaGroup>): (r: set<string>)
    ensures |expanded| > 0 ==> r == {}
    ensures |expanded| == 0 ==> forall k :: k in r <==> k in CollectAllExpandableIds(groups)
  {
    if |expanded| > 0 then {} else set k | k in CollectAllExpandableIds(groups)
  }

  /** Expand-all from nothing shows every reachable row; pressed again it shows only the top level. */
  lemma ExpandAllRows(groups: seq<AreaGroup>)
    ensures FlattenGroupedTree(groups, ToggleExpandAll({}, groups)) == FullRows(groups)
    ensures |CollectAllExpandableIds(groups)| > 0 ==>
              FlattenGroupedTree(groups, ToggleExpandAll(ToggleExpandAll({}, groups), groups)) == CollapsedRows(groups)
  {
    ExpandAllShowsEverything(groups, ToggleExpandAll({}, groups));
    if |CollectAllExpandableIds(groups)| > 0 {
      assert CollectAllExpandableIds(groups)[0] in ToggleExpandAll({}, groups);
      CollapseAllShowsTopOnly(groups);
    }
  }

  /** Toggling one expand id twice restores the set (`toggleExpand` is `Common.Toggle`). */
  lemma ToggleExpandTwice(expanded: set<string>, id: string)
    ensures Toggle(Toggle(expanded, id), id) == expanded
  {
    ToggleTwice(expanded, id);
  }
}

=== FILE: metrics.dfy ===
/**
 * Dashboard KPIs and the state / work-type distributions
 * (src/hooks/useMetrics.ts).
 */
module Metrics {
  import opened Common
  import opened WorkItems
  import opened Tally

  datatype DashboardMetrics = DashboardMetrics(
    activeItemCount: nat,
    totalStoryPoints: real,
    completedStoryPoints: real,
    velocityAverage: real,
    averageCycleTimeDays: int,
    totalItems: nat,
    newCount: nat,
    resolvedCount: nat,
    closedCount: nat,
    removedCount: nat)

  function HasState(s: State): WorkItem -> bool
  {
    (w: WorkItem) => w.state == s
  }

  function StateCount(items: seq<WorkItem>, s: State): nat
  {
    Count(items, HasState(s))
  }

  function Completed(): WorkItem -> bool
  {
    (w: WorkItem) => IsCompleted(w)
  }

  /** `w.activatedDate && w.closedDate`: both dates present. */
  predicate HasCycleDates(w: WorkItem)
  {
    w.activatedDate.Some? && w.closedDate.Some?
  }

  function CycleDays(w: WorkItem): int
    requires HasCycleDates(w)
  {
    DifferenceInDays(w.closedDate.value, w.activatedDate.value)
  }

  /**
   * The cycle times of the items that have both dates, dropping negative
   * differences. `differenceInDays` truncates, so an item closed less than
   * a day before its activation still counts, as 0 days.
   */
  function CycleTimes(items: seq<WorkItem>): (r: seq<int>)
    ensures forall i :: 0 <= i < |r| ==> r[i] >= 0
    ensures |r| <= |items|
  {
    if |items| == 0 then []
    else
      var w := items[|items| - 1];
      CycleTimes(items[..|items| - 1]) + (if HasCycleDates(w) && CycleDays(w) >= 0 then [CycleDays(w)] else [])
  }

  /** An item is measured exactly when it has both dates and was closed less than a day before it was activated, or later. */
  lemma MeasuredIff(w: WorkItem)
    ensures (HasCycleDates(w) && CycleDays(w) >= 0) <==>
              (HasCycleDates(w) && w.closedDate.value - w.activatedDate.value > -MS_PER_DAY)
  {
    if HasCycleDates(w) {
      var d := w.closedDate.value - w.activatedDate.value;
      if d <= -MS_PER_DAY {
        assert (-d) / MS_PER_DAY >= 1;
      }
    }
  }

  /** Measured items are the ones with both dates and a non-negative difference; every other item is left out, not counted as 0. */
  lemma {:induction false} CycleTimesCount(items: seq<WorkItem>)
    ensures |CycleTimes(items)| == Count(items, (w: WorkItem) => HasCycleDates(w) && CycleDays(w) >= 0)
    decreases |items|
  {
    if |items| > 0 {
      CycleTimesCount(items[..|items| - 1]);
    }
  }

  /** `useMetrics`. */
  function ComputeMetrics(items: seq<WorkItem>): (m: DashboardMetrics)
    ensures m.totalItems == |items|
    ensures m.activeItemCount == StateCount(items, Active)
    ensures m.velocityAverage == 0.0
    ensures m.newCount == StateCount(items, New) && m.resolvedCount == StateCount(items, Resolved)
    ensures m.closedCount == StateCount(items, Closed) && m.removedCount == StateCount(items, Removed)
    ensures m.totalStoryPoints == SumReal(items, Points)
    ensures m.completedStoryPoints == SumReal(Filter(items, Completed()), Points)
    ensures m.averageCycleTimeDays >= 0
    ensures |CycleTimes(items)| == 0 ==> m.averageCycleTimeDays == 0
    ensures var t := CycleTimes(items);
      |t| > 0 ==> SumInt(t) as real / |t| as real - 0.5 < m.averageCycleTimeDays as real <= SumInt(t) as real / |t| as real + 0.5
  {
    var times := CycleTimes(items);
    RoundedMeanBounds(times);
    DashboardMetrics(
      activeItemCount := StateCount(items, Active),
      totalStoryPoints := SumReal(items, Points),
      completedStoryPoints := SumReal(Filter(items, Completed()), Points),
      velocityAverage := 0.0,
      averageCycleTimeDays := RoundedMean(times),
      totalItems := |items|,
      newCount := StateCount(items, New),
      resolvedCount := StateCount(items, Resolved),
      closedCount := StateCount(items, Closed),
      removedCount := StateCount(items, Removed))
  }

  /** Every item has one of the five states, so the five state counts add up to the total. */
  lemma {:induction false} StateCountsSum(items: seq<WorkItem>)
    ensures StateCount(items, New) + StateCount(items, Active) + StateCount(items, Resolved) +
            StateCount(items, Closed) + StateCount(items, Removed) == |items|
    decreases |items|
  {
    if |items| > 0 {
      StateCountsSum(items[..|items| - 1]);
    }
  }

  /** With non-negative points, completed points never exceed the total. */
  lemma CompletedWithinTotal(items: seq<WorkItem>)
    requires NonNegativePoints(items)
    ensures ComputeMetrics(items).completedStoryPoints <= ComputeMetrics(items).totalStoryPoints
    ensures ComputeMetrics(items).newCount + ComputeMetrics(items).activeItemCount +
            ComputeMetrics(items).resolvedCount + ComputeMetrics(items).closedCount +
            ComputeMetrics(items).removedCount == ComputeMetrics(items).totalItems
  {
    SumRealFilterLe(items, Completed(), Points);
    StateCountsSum(items);
  }

  // ---------------------------------------------------------------------
  // Distributions
  // ---------------------------------------------------------------------

  /** One bar of a distribution chart. */
  datatype DistEntry = DistEntry(name: string, count: nat, percentage: int)

  /** `Math.round((count / (n || 1)) * 100)`. */
  function Percentage(count: nat, n: nat): (r: int)
    ensures var x := count as real / (if n == 0 then 1 else n) as real * 100.0;
      x - 0.5 < r as real <= x + 0.5
    ensures count <= n ==> 0 <= r <= 100
  {
    var total := if n == 0 then 1 else n;
    var x := count as real / total as real * 100.0;
    if count <= n then
      assert 0.0 <= x <= 100.0 by {
        assert count as real / total as real <= 1.0;
      }
      RoundMonotone(0.0, x);
      RoundMonotone(x, 100.0);
      RoundInt(0);
      RoundInt(100);
      Round(x)
    else Round(x)
  }

  function StateOfItem(w: WorkItem): State { w.state }
  function TypeOfItem(w: WorkItem): ItemType { w.workItemType }

  function Bar<K>(name: K -> string, n: nat): Entry<K> -> DistEntry
  {
    (e: Entry<K>) => DistEntry(name(e.key), e.count, Percentage(e.count, n))
  }

  /** Count by `key`, largest first, each bar named and given its share of the input. */
  function Distribution<K(==, !new)>(items: seq<WorkItem>, key: WorkItem -> K, name: K -> string): seq<DistEntry>
  {
    Map(TallyDesc(items, key), Bar(name, |items|))
  }

  /** `useStateDistribution`. */
  function StateDistribution(items: seq<WorkItem>): seq<DistEntry>
  {
    Distribution(items, StateOfItem, StateName)
  }

  /** `useWorkTypeDistribution`. */
  function WorkTypeDistribution(items: seq<WorkItem>): seq<DistEntry>
  {
    Distribution(items, TypeOfItem, TypeName)
  }

  function DistCount(d: DistEntry): nat { d.count }

  /** What a distribution chart promises: distinct names, counts summing to the input, largest first, percentages in range. */
  ghost predicate IsDistribution(d: seq<DistEntry>, n: nat)
  {
    (forall i, j :: 0 <= i < j < |d| ==> d[i].name != d[j].name) &&
    SumNat(d, DistCount) == n &&
    (forall i, j :: 0 <= i < j < |d| ==> d[i].count >= d[j].count) &&
    (forall i :: 0 <= i < |d| ==> d[i].count >= 1 && 0 <= d[i].percentage <= 100)
  }

  /** The items whose value is shown under the bar name `n`. */
  function NameIs<K>(key: WorkItem -> K, name: K -> string, n: string): WorkItem -> bool
  {
    (w: WorkItem) => name(key(w)) == n
  }

  /** Each bar counts the items whose value carries its name, and shows that count's share of all items. */
  ghost predicate BarsCount<K>(d: seq<DistEntry>, items: seq<WorkItem>, key: WorkItem -> K, name: K -> string)
  {
    forall i :: 0 <= i < |d| ==>
      d[i].count == Count(items, NameIs(key, name, d[i].name)) && d[i].percentage == Percentage(d[i].count, |items|)
  }

  ghost predicate Injective<K(!new)>(name: K -> string)
  {
    forall a, b :: name(a) == name(b) ==> a == b
  }

  lemma DistributionNames<K(!new)>(items: seq<WorkItem>, key: WorkItem -> K, name: K -> string)
    requires Injective(name)
    ensures var d := Distribution(items, key, name);
      forall i, j :: 0 <= i < j < |d| ==> d[i].name != d[j].name
  {
    TallyDescDistinct(items, key);
  }

  lemma DistributionCounts<K(!new)>(items: seq<WorkItem>, key: WorkItem -> K, name: K -> string)
    ensures var d := Distribution(items, key, name);
      SumNat(d, DistCount) == |items| &&
      (forall i, j :: 0 <= i < j < |d| ==> d[i].count >= d[j].count) &&
      (forall i :: 0 <= i < |d| ==> d[i].count >= 1 && 0 <= d[i].percentage <= 100)
    ensures var d := Distribution(items, key, name);
      var t := TallyDesc(items, key);
      |d| == |t| &&
      forall i :: 0 <= i < |d| ==>
        d[i].name == name(t[i].key) && d[i].count == Count(items, KeyIs(key, t[i].key)) &&
        d[i].percentage == Percentage(d[i].count, |items|)
  {
    var t := TallyDesc(items, key);
    TallyDescCounts(items, key);
    SumNatMap(t, Bar(name, |items|), EntryCount, DistCount);
    forall i | 0 <= i < |t| ensures t[i].count <= |items| {
      CountAtMost(items, KeyIs(key, t[i].key));
    }
  }

  /** With distinct names, a bar's count is the number of items shown under its name. */
  lemma DistributionBarCounts<K(!new)>(items: seq<WorkItem>, key: WorkItem -> K, name: K -> string)
    requires Injective(name)
    ensures BarsCount(Distribution(items, key, name), items, key, name)
  {
    var t := TallyDesc(items, key);
    var d := Distribution(items, key, name);
    TallyDescCounts(items, key);
    forall i | 0 <= i < |d|
      ensures d[i].count == Count(items, NameIs(key, name, d[i].name))
    {
      assert d[i] == Bar(name, |items|)(t[i]);
      forall j | 0 <= j < |items|
        ensures KeyIs(key, t[i].key)(items[j]) == NameIs(key, name, d[i].name)(items[j])
      {
      }
      FilterCongruent(items, KeyIs(key, t[i].key), NameIs(key, name, d[i].name));
    }
  }

  lemma DistributionCovers<K(!new)>(items: seq<WorkItem>, key: WorkItem -> K, name: K -> string)
    ensures var d := Distribution(items, key, name);
      forall x :: x in items ==> exists i :: 0 <= i < |d| && d[i].name == name(key(x))
  {
    var t := TallyDesc(items, key);
    var d := Distribution(items, key, name);
    TallyDescCovers(items, key);
    forall x | x in items
      ensures exists i :: 0 <= i < |d| && d[i].name == name(key(x))
    {
      assert key(x) in Keys(t);
      var i :| 0 <= i < |t| && Keys(t)[i] == key(x);
      assert d[i].name == name(key(x));
    }
  }

  /** A distribution chart: one bar per distinct value present, nothing for empty input. */
  lemma DistributionFacts<K(!new)>(items: seq<WorkItem>, key: WorkItem -> K, name: K -> string)
    requires Injective(name)
    ensures IsDistribution(Distribution(items, key, name), |items|)
    ensures BarsCount(Distribution(items, key, name), items, key, name)
    ensures |items| == 0 <==> Distribution(items, key, name) == []
    ensures forall x :: x in items ==>
              exists i :: 0 <= i < |Distribution(items, key, name)| && Distribution(items, key, name)[i].name == name(key(x))
  {
    DistributionNames(items, key, name);
    DistributionCounts(items, key, name);
    DistributionBarCounts(items, key, name);
    DistributionCovers(items, key, name);
    if |items| > 0 {
      assert items[0] in items;
    }
  }

  lemma StateDistributionFacts(items: seq<WorkItem>)
    ensures IsDistribution(StateDistribution(items), |items|)
    ensures BarsCount(StateDistribution(items), items, StateOfItem, StateName)
    ensures |items| == 0 <==> StateDistribution(items) == []
    ensures forall x :: x in items ==>
              exists i :: 0 <= i < |StateDistribution(items)| && StateDistribution(items)[i].name == StateName(x.state)
  {
    forall a, b ensures StateName(a) == StateName(b) ==> a == b { StateNameInjective(a, b); }
    DistributionFacts(items, StateOfItem, StateName);
  }

  lemma WorkTypeDistributionFacts(items: seq<WorkItem>)
    ensures IsDistribution(WorkTypeDistribution(items), |items|)
    ensures BarsCount(WorkTypeDistribution(items), items, TypeOfItem, TypeName)
    ensures |items| == 0 <==> WorkTypeDistribution(items) == []
    ensures forall x :: x in items ==>
              exists i :: 0 <= i < |WorkTypeDistribution(items)| && WorkTypeDistribution(items)[i].name == TypeName(x.workItemType)
  {
    forall a, b ensures TypeName(a) == TypeName(b) ==> a == b { TypeNameInjective(a, b); }
    DistributionFacts(items, TypeOfItem, TypeName);
  }

  lemma CountAtMost<T>(s: seq<T>, p: T -> bool)
    ensures Count(s, p) <= |s|
  {
  }
}

=== FILE: nodesort.dfy ===
/**
 * The recursive `sortNodes` shared by the Gantt chart and the work-items
 * table: sort one level of a forest with a comparator on the items, then
 * every child list the same way. The comparator only looks at items, so
 * sorting the children before or after their parents' level gives the same
 * forest; this model sorts children first.
 */
module NodeSort {
  import opened Common
  import opened WorkItems
  import opened Tree

  /** Lift a comparator on work items to tree nodes. */
  function OnItems(cmp: (WorkItem, WorkItem) -> int): (TreeNode, TreeNode) -> int
  {
    (a: TreeNode, b: TreeNode) => cmp(a.item, b.item)
  }

  lemma OnItemsPreorder(cmp: (WorkItem, WorkItem) -> int)
    ensures TotalPreorder(cmp) ==> TotalPreorder(OnItems(cmp))
  {
    if TotalPreorder(cmp) {
      var o := OnItems(cmp);
      forall a, b ensures o(a, b) <= 0 || o(b, a) <= 0 {
        assert cmp(a.item, b.item) <= 0 || cmp(b.item, a.item) <= 0;
      }
      forall a, b, c | o(a, b) <= 0 && o(b, c) <= 0 ensures o(a, c) <= 0 {
        assert cmp(a.item, b.item) <= 0 && cmp(b.item, c.item) <= 0;
      }
    }
  }

  /** `sortNodes(nodes)`: this level sorted, every child list sorted recursively. */
  function SortForest(nodes: seq<TreeNode>, cmp: (WorkItem, WorkItem) -> int): (r: seq<TreeNode>)
    ensures |r| == |nodes|
    ensures multiset(r) == multiset(SortEach(nodes, cmp))
    ensures TotalPreorder(cmp) ==> SortedBy(r, OnItems(cmp))
    decreases nodes, 1
  {
    OnItemsPreorder(cmp);
    SortBy(SortEach(nodes, cmp), OnItems(cmp))
  }

  /** Every node of a level with its children sorted. */
  function SortEach(nodes: seq<TreeNode>, cmp: (WorkItem, WorkItem) -> int): (r: seq<TreeNode>)
    ensures |r| == |nodes|
    ensures forall i :: 0 <= i < |r| ==> r[i].item == nodes[i].item
    ensures forall i :: 0 <= i < |r| ==> r[i].children == SortForest(nodes[i].children, cmp)
    decreases nodes, 0
  {
    if |nodes| == 0 then []
    else
      [TreeNode(nodes[0].item, SortForest(nodes[0].children, cmp))] + SortEach(nodes[1..], cmp)
  }

  /** Every level of the forest is in comparator order. */
  ghost predicate SortedDeep(nodes: seq<TreeNode>, cmp: (WorkItem, WorkItem) -> int)
    decreases nodes
  {
    SortedBy(nodes, OnItems(cmp)) &&
    forall i :: 0 <= i < |nodes| ==> SortedDeep(nodes[i].children, cmp)
  }

  /** After `sortNodes` every level is sorted. */
  lemma {:induction false} SortForestSortedDeep(nodes: seq<TreeNode>, cmp: (WorkItem, WorkItem) -> int)
    requires TotalPreorder(cmp)
    ensures SortedDeep(SortForest(nodes, cmp), cmp)
    decreases nodes
  {
    var e := SortEach(nodes, cmp);
    var r := SortForest(nodes, cmp);
    forall i | 0 <= i < |r|
      ensures SortedDeep(r[i].children, cmp)
    {
      var j := PermutedFrom(r, e, i);
      SortForestSortedDeep(nodes[j].children, cmp);
    }
    SortedDeepIntro(r, cmp);
  }

  lemma SortedDeepIntro(nodes: seq<TreeNode>, cmp: (WorkItem, WorkItem) -> int)
    requires SortedBy(nodes, OnItems(cmp))
    requires forall i :: 0 <= i < |nodes| ==> SortedDeep(nodes[i].children, cmp)
    ensures SortedDeep(nodes, cmp)
  {
  }

  /** A level sorted on its items puts every earlier item before every later one. */
  lemma SortedLevelPairs(nodes: seq<TreeNode>, cmp: (WorkItem, WorkItem) -> int)
    requires SortedBy(nodes, OnItems(cmp))
    ensures forall i, j :: 0 <= i < j < |nodes| ==> cmp(nodes[i].item, nodes[j].item) <= 0
  {
    forall i, j | 0 <= i < j < |nodes| ensures cmp(nodes[i].item, nodes[j].item) <= 0 {
      assert OnItems(cmp)(nodes[i], nodes[j]) <= 0;
    }
  }

  /** Each entry of a permutation comes from some position of the original. */
  lemma PermutedFrom<T>(r: seq<T>, e: seq<T>, i: int) returns (j: int)
    requires multiset(r) == multiset(e) && 0 <= i < |r|
    ensures 0 <= j < |e| && e[j] == r[i]
  {
    assert r[i] in multiset(e);
    j :| 0 <= j < |e| && e[j] == r[i];
  }

  /** A forest already sorted at every level is left as it is. */
  lemma {:induction false} SortForestOfSorted(nodes: seq<TreeNode>, cmp: (WorkItem, WorkItem) -> int)
    requires SortedDeep(nodes, cmp)
    ensures SortForest(nodes, cmp) == nodes
    decreases nodes
  {
    var e := SortEach(nodes, cmp);
    forall i | 0 <= i < |nodes|
      ensures e[i] == nodes[i]
    {
      SortForestOfSorted(nodes[i].children, cmp);
    }
    assert e == nodes;
    SortBySorted(nodes, OnItems(cmp));
  }

  /** Sorting twice is sorting once. */
  lemma SortForestIdempotent(nodes: seq<TreeNode>, cmp: (WorkItem, WorkItem) -> int)
    requires TotalPreorder(cmp)
    ensures SortForest(SortForest(nodes, cmp), cmp) == SortForest(nodes, cmp)
  {
    SortForestSortedDeep(nodes, cmp);
    SortForestOfSorted(SortForest(nodes, cmp), cmp);
  }

  /** A level taken out of a sorted forest in order (a group's roots) needs no sorting. */
  lemma SubforestNeedsNoSort(sub: seq<TreeNode>, nodes: seq<TreeNode>, cmp: (WorkItem, WorkItem) -> int)
    requires SortedDeep(nodes, cmp)
    requires IsSubseq(sub, nodes)
    ensures SortForest(sub, cmp) == sub
  {
    SubseqSorted(sub, nodes, OnItems(cmp));
    SubseqMembers(sub, nodes);
    forall i | 0 <= i < |sub|
      ensures SortedDeep(sub[i].children, cmp)
    {
      assert sub[i] in nodes;
    }
    SortForestOfSorted(sub, cmp);
  }

  /** All items held in a forest, counted with multiplicity. */
  function Items(nodes: seq<TreeNode>): multiset<WorkItem>
    decreases nodes
  {
    if |nodes| == 0 then multiset{}
    else multiset{nodes[0].item} + Items(nodes[0].children) + Items(nodes[1..])
  }

  lemma {:induction false} ItemsAppend(a: seq<TreeNode>, b: seq<TreeNode>)
    ensures Items(a + b) == Items(a) + Items(b)
    decreases |a|
  {
    if |a| > 0 {
      assert (a + b)[0] == a[0];
      assert (a + b)[1..] == a[1..] + b;
      ItemsAppend(a[1..], b);
    } else {
      assert a + b == b;
    }
  }

  /** Reordering a level keeps the items. */
  lemma {:induction false} ItemsPermutation(a: seq<TreeNode>, b: seq<TreeNode>)
    requires multiset(a) == multiset(b)
    ensures Items(a) == Items(b)
    decreases |a|
  {
    if |a| == 0 {
      assert |b| == |multiset(b)| == 0;
    } else {
      var x := a[0];
      var k := PermutedFrom(a, b, 0);
      var b' := b[..k] + b[k + 1..];
      MultisetRemove(b, k);
      assert a == [x] + a[1..];
      assert multiset(a[1..]) == multiset(a) - multiset{x};
      ItemsPermutation(a[1..], b');
      ItemsRemove(b, k);
    }
  }

  lemma {:induction false} ItemsRemove(b: seq<TreeNode>, k: int)
    requires 0 <= k < |b|
    ensures Items(b) == multiset{b[k].item} + Items(b[k].children) + Items(b[..k] + b[k + 1..])
  {
    var x, pre, post := b[k], b[..k], b[k + 1..];
    var mid := [x] + post;
    assert b == pre + mid;
    ItemsAppend(pre, mid);
    assert mid[0] == x && mid[1..] == post;
    assert Items(mid) == multiset{x.item} + Items(x.children) + Items(post);
    ItemsAppend(pre, post);
  }

  /** `sortNodes` neither loses nor duplicates an item, at any depth. */
  lemma {:induction false} SortForestItems(nodes: seq<TreeNode>, cmp: (WorkItem, WorkItem) -> int)
    ensures Items(SortForest(nodes, cmp)) == Items(nodes)
    decreases nodes, 1
  {
    SortEachItems(nodes, cmp);
    ItemsPermutation(SortForest(nodes, cmp), SortEach(nodes, cmp));
  }

  lemma {:induction false} SortEachItems(nodes: seq<TreeNode>, cmp: (WorkItem, WorkItem) -> int)
    ensures Items(SortEach(nodes, cmp)) == Items(nodes)
    decreases nodes, 0
  {
    if |nodes| > 0 {
      var e := SortEach(nodes, cmp);
      assert e[1..] == SortEach(nodes[1..], cmp);
      SortForestItems(nodes[0].children, cmp);
      SortEachItems(nodes[1..], cmp);
    }
  }

  /** Every item of a forest in pre-order, whatever is expanded (the walk of a group's subtree). */
  function ItemList(nodes: seq<TreeNode>): (r: seq<WorkItem>)
    ensures multiset(r) == Items(nodes)
    decreases nodes
  {
    if |nodes| == 0 then []
    else [nodes[0].item] + ItemList(nodes[0].children) + ItemList(nodes[1..])
  }

  /** The hierarchy rank of a node's item, the first sort key of both views. */
  function RankKey(x: WorkItem): int
  {
    Rank(x.workItemType)
  }

  /** Sort every group's roots again (`for (const g of grouped) sortNodes(g.roots)`). */
  function ResortGroups(gs: seq<AreaGroup>, cmp: (WorkItem, WorkItem) -> int): seq<AreaGroup>
  {
    Map(gs, (g: AreaGroup) => g.(roots := SortForest(g.roots, cmp)))
  }

  /**
   * The `groups` memo of the Gantt chart and the work-items table: build the
   * forest, sort it, then either group the roots by area path and sort each
   * group again, or keep one unlabelled group.
   */
  function GroupedForest(items: seq<WorkItem>, cmp: (WorkItem, WorkItem) -> int, byArea: bool): (r: seq<AreaGroup>)
    ensures !byArea ==> |r| == 1 && r[0] == AreaGroup("", "", SortForest(BuildTree(items), cmp))
    ensures byArea ==> |r| == |GroupByAreaPath(SortForest(BuildTree(items), cmp))|
  {
    var roots := SortForest(BuildTree(items), cmp);
    if byArea then ResortGroups(GroupByAreaPath(roots), cmp)
    else [AreaGroup("", "", roots)]
  }

  /** Sorting each area group again changes nothing: the groups inherit the order of the sorted roots. */
  lemma GroupResortIsNoop(items: seq<WorkItem>, cmp: (WorkItem, WorkItem) -> int)
    requires TotalPreorder(cmp)
    ensures GroupedForest(items, cmp, true) == GroupByAreaPath(SortForest(BuildTree(items), cmp))
  {
    var roots := SortForest(BuildTree(items), cmp);
    var gs := GroupByAreaPath(roots);
    SortForestSortedDeep(BuildTree(items), cmp);
    GroupByAreaPathContents(roots);
    var rs := ResortGroups(gs, cmp);
    forall i | 0 <= i < |gs|
      ensures rs[i] == gs[i]
    {
      FilterIsSubseq(roots, KeyIs(RootArea, gs[i].caption));
      SubforestNeedsNoSort(gs[i].roots, roots, cmp);
    }
  }

  /** Every level of every group is in comparator order. */
  lemma GroupedForestSorted(items: seq<WorkItem>, cmp: (WorkItem, WorkItem) -> int, byArea: bool)
    requires TotalPreorder(cmp)
    ensures forall i :: 0 <= i < |GroupedForest(items, cmp, byArea)| ==>
              SortedDeep(GroupedForest(items, cmp, byArea)[i].roots, cmp)
  {
    var roots := SortForest(BuildTree(items), cmp);
    SortForestSortedDeep(BuildTree(items), cmp);
    if byArea {
      GroupResortIsNoop(items, cmp);
      var gs := GroupByAreaPath(roots);
      GroupByAreaPathContents(roots);
      forall i | 0 <= i < |gs| ensures SortedDeep(gs[i].roots, cmp) {
        FilterIsSubseq(roots, KeyIs(RootArea, gs[i].caption));
        SubforestNeedsNoSort(gs[i].roots, roots, cmp);
        SortForestSortedDeep(gs[i].roots, cmp);
      }
    }
  }
}

=== FILE: pages.dfy ===
/**
 * The data flow of the pages (src/pages/Dashboard.tsx, src/pages/Reports.tsx,
 * src/pages/WatchList.tsx): which projects are active, which sprint the
 * queries and the burndown use, the assignee list, the area, resource and
 * date filters applied in turn, and the report page's single-project gate,
 * area label and export file name. Fetching is left to the caller: the
 * functions take the fetched projects, iterations and work items.
 */
module Pages {
  import opened Common
  import opened WorkItems
  import opened Selection
  import opened Filters

  // ---------------------------------------------------------------------
  // Projects
  // ---------------------------------------------------------------------

  predicate Shown(showArchived: bool, p: Project)
  {
    showArchived || !p.isArchived
  }

  function IsShown(showArchived: bool): Project -> bool
  {
    (p: Project) => Shown(showArchived, p)
  }

  /** `visible`: every project, or only the non-archived ones, in fetched order. */
  function Visible(projects: seq<Project>, showArchived: bool): (r: seq<Project>)
    ensures forall p :: p in r <==> p in projects && Shown(showArchived, p)
  {
    var r := if showArchived then projects else Filter(projects, IsShown(false));
    assert forall i :: 0 <= i < |projects| ==> (projects[i] in r <==> Shown(showArchived, projects[i]));
    r
  }

  function ProjectName(p: Project): string
  {
    p.name
  }

  /** The names of the visible projects, in fetched order. */
  function VisibleNames(projects: seq<Project>, showArchived: bool): (r: seq<string>)
    ensures |r| == |Visible(projects, showArchived)|
  {
    Map(Visible(projects, showArchived), ProjectName)
  }

  /** A name is visible exactly when some shown project carries it. */
  lemma VisibleNamesCharacterized(projects: seq<Project>, showArchived: bool, n: string)
    ensures n in VisibleNames(projects, showArchived) <==>
      exists p :: p in projects && Shown(showArchived, p) && p.name == n
  {
    var v := Visible(projects, showArchived);
    if n in VisibleNames(projects, showArchived) {
      var i :| 0 <= i < |v| && VisibleNames(projects, showArchived)[i] == n;
      assert v[i] in v;
    }
    if exists p :: p in projects && Shown(showArchived, p) && p.name == n {
      var p :| p in projects && Shown(showArchived, p) && p.name == n;
      assert p in v;
      var i :| 0 <= i < |v| && v[i] == p;
      assert VisibleNames(projects, showArchived)[i] == n;
    }
  }

  /**
   * The first-load effect: with projects fetched and nothing selected yet,
   * select every visible project by name; otherwise leave the selection.
   */
  function InitialSelection(initialized: bool, projects: seq<Project>, selected: seq<string>, showArchived: bool): (r: seq<string>)
    ensures !initialized && |projects| > 0 && |selected| == 0 ==> r == VisibleNames(projects, showArchived)
    ensures initialized || |projects| == 0 || |selected| > 0 ==> r == selected
  {
    if !initialized && |projects| > 0 && |selected| == 0 then VisibleNames(projects, showArchived) else selected
  }

  function InNames(names: seq<string>): string -> bool
  {
    n => n in names
  }

  /** `activeProjectNames`: the parsed project names that are visible, in parsed order. */
  function ActiveProjectNames(projects: seq<Project>, parsedNames: seq<string>, showArchived: bool): (r: seq<string>)
    ensures forall i :: 0 <= i < |r| ==> r[i] in parsedNames && r[i] in VisibleNames(projects, showArchived)
    ensures forall i :: 0 <= i < |parsedNames| && parsedNames[i] in VisibleNames(projects, showArchived) ==>
      parsedNames[i] in r
  {
    Filter(parsedNames, InNames(VisibleNames(projects, showArchived)))
  }

  lemma ActiveProjectNamesKeepOrder(projects: seq<Project>, parsedNames: seq<string>, showArchived: bool)
    ensures IsSubseq(ActiveProjectNames(projects, parsedNames, showArchived), parsedNames)
  {
    FilterIsSubseq(parsedNames, InNames(VisibleNames(projects, showArchived)));
  }

  /**
   * Right after the first-load selection, the active projects are the
   * visible projects, each name once.
   */
  lemma ActiveAfterInitialSelection(projects: seq<Project>, showArchived: bool)
    requires forall p :: p in projects ==> SEP !in p.name
    ensures var sel := InitialSelection(false, projects, [], showArchived);
      |projects| > 0 ==>
        ActiveProjectNames(projects, ParseSelections(sel).projectNames, showArchived) == Dedup(VisibleNames(projects, showArchived))
  {
    var names := VisibleNames(projects, showArchived);
    if |projects| > 0 {
      assert Map(names, ProjectOf) == names by {
        forall i | 0 <= i < |names| ensures ProjectOf(names[i]) == names[i] {
          assert Visible(projects, showArchived)[i] in projects;
        }
      }
      ProjectsToFetchAgree(names);
      ParseLoopProjects(names);
      var parsed := Dedup(names);
      FilterKeepsAll(parsed, InNames(names));
    }
  }

  // ---------------------------------------------------------------------
  // Sprint
  // ---------------------------------------------------------------------

  /**
   * `resolvedSprintPath`: no selection means every sprint, "__current__"
   * the path of the first current iteration (if any), anything else is
   * the path itself.
   */
  function ResolveSprint(selected: Option<string>, iterations: seq<Sprint>): (r: Option<string>)
    ensures selected.None? ==> r.None?
    ensures selected.Some? && selected.value != CURRENT_SPRINT_VALUE ==> r == selected
    ensures selected == Some(CURRENT_SPRINT_VALUE) ==>
      (r.None? <==> forall i :: 0 <= i < |iterations| ==> !IsCurrent(iterations[i]))
  {
    if selected.None? then None
    else if selected.value == CURRENT_SPRINT_VALUE then
      match Find(iterations, IsCurrent)
      case None => None
      case Some(s) => Some(s.path)
    else selected
  }

  /** "__current__" resolves to the path of the first current iteration. */
  lemma ResolveCurrentIsFirst(iterations: seq<Sprint>)
    ensures var r := ResolveSprint(Some(CURRENT_SPRINT_VALUE), iterations);
      r.Some? ==> exists i :: (0 <= i < |iterations| && IsCurrent(iterations[i]) && iterations[i].path == r.value &&
        forall j :: 0 <= j < i ==> !IsCurrent(iterations[j]))
  {
    var w := FirstWhere(iterations, IsCurrent);
    if w.Some? {
      assert ResolveSprint(Some(CURRENT_SPRINT_VALUE), iterations) == Some(iterations[w.value].path);
    }
  }

  function HasPath(path: string): Sprint -> bool
  {
    (s: Sprint) => s.path == path
  }

  /**
   * The burndown's sprint: the iteration with the resolved path when a
   * path is set, else the first current iteration.
   */
  function BurndownSprint(resolved: Option<string>, iterations: seq<Sprint>): (r: Option<Sprint>)
    ensures r.Some? ==> r.value in iterations
    ensures Truthy(resolved) ==> (r.None? <==> forall i :: 0 <= i < |iterations| ==> iterations[i].path != resolved.value)
    ensures Truthy(resolved) && r.Some? ==> r.value.path == resolved.value
    ensures !Truthy(resolved) ==> (r.None? <==> forall i :: 0 <= i < |iterations| ==> !IsCurrent(iterations[i]))
    ensures !Truthy(resolved) && r.Some? ==> IsCurrent(r.value)
  {
    if Truthy(resolved) then Find(iterations, HasPath(resolved.value)) else Find(iterations, IsCurrent)
  }

  /**
   * With distinct paths, the burndown shows the selected sprint; with no
   * selection or "__current__" it shows the first current iteration.
   */
  lemma BurndownFollowsSelection(selected: Option<string>, iterations: seq<Sprint>, k: nat)
    requires NoDup(Map(iterations, (s: Sprint) => s.path))
    ensures selected.None? ==> BurndownSprint(ResolveSprint(selected, iterations), iterations) == Find(iterations, IsCurrent)
    ensures selected == Some(CURRENT_SPRINT_VALUE) ==>
      BurndownSprint(ResolveSprint(selected, iterations), iterations) == Find(iterations, IsCurrent)
    ensures (k < |iterations| && selected == Some(iterations[k].path) && iterations[k].path != "" &&
             iterations[k].path != CURRENT_SPRINT_VALUE) ==>
      BurndownSprint(ResolveSprint(selected, iterations), iterations) == Some(iterations[k])
  {
    if selected == Some(CURRENT_SPRINT_VALUE) {
      CurrentPathFindsCurrent(iterations);
    }
    if k < |iterations| && selected == Some(iterations[k].path) && iterations[k].path != "" &&
      iterations[k].path != CURRENT_SPRINT_VALUE {
      PathFindsSprint(iterations, k);
    }
  }

  lemma CurrentPathFindsCurrent(iterations: seq<Sprint>)
    requires NoDup(Map(iterations, (s: Sprint) => s.path))
    ensures BurndownSprint(ResolveSprint(Some(CURRENT_SPRINT_VALUE), iterations), iterations) == Find(iterations, IsCurrent)
  {
    var w := FirstWhere(iterations, IsCurrent);
    if w.Some? {
      var c := iterations[w.value];
      if c.path != "" {
        PathFindsSprint(iterations, w.value);
      }
    }
  }

  /** With distinct paths, finding a sprint's path finds that sprint. */
  lemma PathFindsSprint(iterations: seq<Sprint>, k: nat)
    requires NoDup(Map(iterations, (s: Sprint) => s.path))
    requires k < |iterations|
    ensures Find(iterations, HasPath(iterations[k].path)) == Some(iterations[k])
  {
    var w := FirstWhere(iterations, HasPath(iterations[k].path));
    assert HasPath(iterations[k].path)(iterations[k]);
    assert w.Some? && w.value <= k;
  }

  // ---------------------------------------------------------------------
  // Assignees
  // ---------------------------------------------------------------------

  /** An entry of the resource selector. */
  datatype Resource = Resource(displayName: string, uniqueName: string)

  function UniqueName(r: Resource): string
  {
    r.uniqueName
  }

  function DisplayName(r: Resource): string
  {
    r.displayName
  }

  /** The assignees of the items that have one, in item order. */
  function Assignments(items: seq<WorkItem>): (r: seq<Resource>)
    ensures |r| <= |items|
    ensures forall i :: 0 <= i < |items| && items[i].assignedTo.Some? ==>
      Resource(items[i].assignedTo.value.displayName, items[i].assignedTo.value.uniqueName) in r
  {
    if |items| == 0 then []
    else
      var x := items[|items| - 1];
      Assignments(items[..|items| - 1]) +
        (match x.assignedTo
         case None => []
         case Some(a) => [Resource(a.displayName, a.uniqueName)])
  }

  /** The resource an assigned item contributes. */
  function AssigneeOf(x: WorkItem): Resource
    requires x.assignedTo.Some?
  {
    Resource(x.assignedTo.value.displayName, x.assignedTo.value.uniqueName)
  }

  /** `x` is the assignee of one of the items. */
  ghost predicate AssigneeOfSome(items: seq<WorkItem>, x: Resource)
  {
    exists k :: 0 <= k < |items| && items[k].assignedTo.Some? && x == AssigneeOf(items[k])
  }

  /** Every listed assignment comes from an assigned item. */
  lemma {:induction false} AssignmentsFromItems(items: seq<WorkItem>)
    ensures forall i :: 0 <= i < |Assignments(items)| ==> AssigneeOfSome(items, Assignments(items)[i])
    decreases |items|
  {
    if |items| > 0 {
      var items' := items[..|items| - 1];
      var last := |items| - 1;
      AssignmentsFromItems(items');
      var r := Assignments(items);
      var r' := Assignments(items');
      forall i | 0 <= i < |r| ensures AssigneeOfSome(items, r[i]) {
        if i < |r'| {
          assert r[i] == r'[i];
          assert AssigneeOfSome(items', r'[i]);
          var k :| 0 <= k < |items'| && items'[k].assignedTo.Some? && r'[i] == AssigneeOf(items'[k]);
          assert items[k] == items'[k];
        } else {
          assert items[last].assignedTo.Some? && r[i] == AssigneeOf(items[last]);
        }
      }
    }
  }

  /**
   * `uniqueResources`: one entry per unique name, the last item's display
   * name winning, sorted by display name.
   */
  function UniqueResources(items: seq<WorkItem>): (r: seq<Resource>)
    ensures forall i, j :: 0 <= i < j < |r| ==> StrLe(r[i].displayName, r[j].displayName)
    ensures multiset(r) == multiset(LastPerKey(Assignments(items), UniqueName))
  {
    var latest := LastPerKey(Assignments(items), UniqueName);
    ByStringIsPreorder(DisplayName);
    var r := SortBy(latest, ByString(DisplayName));
    assert SortedBy(r, ByString(DisplayName));
    assert forall i, j :: 0 <= i < j < |r| ==> StrCompare(r[i].displayName, r[j].displayName) <= 0 by {
      forall i, j | 0 <= i < j < |r| ensures StrCompare(r[i].displayName, r[j].displayName) <= 0 {
        assert ByString(DisplayName)(r[i], r[j]) <= 0;
        assert ByString(DisplayName)(r[i], r[j]) == StrCompare(DisplayName(r[i]), DisplayName(r[j]));
      }
    }
    r
  }

  /** No unique name appears twice. */
  lemma UniqueResourcesDistinct(items: seq<WorkItem>)
    ensures var r := UniqueResources(items);
      forall i, j :: 0 <= i < j < |r| ==> r[i].uniqueName != r[j].uniqueName
  {
    var a := Assignments(items);
    var latest := LastPerKey(a, UniqueName);
    LastPerKeyKeys(a, UniqueName);
    assert forall i, j :: 0 <= i < j < |latest| ==> UniqueName(latest[i]) != UniqueName(latest[j]) by {
      forall i, j | 0 <= i < j < |latest| ensures UniqueName(latest[i]) != UniqueName(latest[j]) {
        assert Map(latest, UniqueName)[i] == UniqueName(latest[i]);
        assert Map(latest, UniqueName)[j] == UniqueName(latest[j]);
      }
    }
    PermutationKeepsDistinctKeys(latest, UniqueResources(items), UniqueName);
  }

  /** Every assignee of an item is listed. */
  lemma UniqueResourcesComplete(items: seq<WorkItem>, k: nat)
    requires k < |items| && items[k].assignedTo.Some?
    ensures items[k].assignedTo.value.uniqueName in Map(UniqueResources(items), UniqueName)
  {
    var a := Assignments(items);
    var latest := LastPerKey(a, UniqueName);
    var x := AssigneeOf(items[k]);
    assert x in a;
    var p :| 0 <= p < |a| && a[p] == x;
    assert Map(a, UniqueName)[p] == x.uniqueName;
    LastPerKeyKeys(a, UniqueName);
    assert x.uniqueName in Map(latest, UniqueName);
    PermutationKeepsKeys(latest, UniqueResources(items), UniqueName, x.uniqueName);
  }

  /** Each entry carries the display name of the last item assigned to that unique name. */
  lemma UniqueResourcesLatest(items: seq<WorkItem>)
    ensures var r := UniqueResources(items);
      forall i :: 0 <= i < |r| ==> LastWithKey(Assignments(items), UniqueName, r[i])
  {
    var a := Assignments(items);
    var latest := LastPerKey(a, UniqueName);
    var r := UniqueResources(items);
    LastPerKeyLast(a, UniqueName);
    forall i | 0 <= i < |r| ensures LastWithKey(a, UniqueName, r[i]) {
      assert r[i] in multiset(latest);
      var p :| 0 <= p < |latest| && latest[p] == r[i];
    }
  }

  // ---------------------------------------------------------------------
  // Filters applied in turn: area, resource, date
  // ---------------------------------------------------------------------

  function AreaPass(filters: seq<Group<string, string>>): WorkItem -> bool
  {
    (x: WorkItem) => PassesAreaFilter(filters, x)
  }

  /** The area stage is a filter by its predicate, also when there are no area filters. */
  lemma AreaStageIsFilter(items: seq<WorkItem>, filters: seq<Group<string, string>>)
    ensures FilterByAreaSelections(items, filters) == Filter(items, AreaPass(filters))
  {
    if |filters| == 0 {
      FilterKeepsAll(items, AreaPass(filters));
    } else {
      FilterCongruent(items, AreaPass(filters), (x: WorkItem) => PassesAreaFilter(filters, x));
    }
  }

  predicate AssignedTo(x: WorkItem, uniqueName: string)
  {
    x.assignedTo.Some? && x.assignedTo.value.uniqueName == uniqueName
  }

  /** An unset (null or empty) resource selection keeps every item. */
  predicate PassesResource(resource: Option<string>, x: WorkItem)
  {
    !Truthy(resource) || AssignedTo(x, resource.value)
  }

  function ResourcePass(resource: Option<string>): WorkItem -> bool
  {
    (x: WorkItem) => PassesResource(resource, x)
  }

  /** The resource filter. */
  function ResourceFilter(items: seq<WorkItem>, resource: Option<string>): (r: seq<WorkItem>)
    ensures !Truthy(resource) ==> r == items
    ensures forall i :: 0 <= i < |r| ==> r[i] in items && PassesResource(resource, r[i])
    ensures forall i :: 0 <= i < |items| && PassesResource(resource, items[i]) ==> items[i] in r
  {
    if Truthy(resource) then Filter(items, ResourcePass(resource)) else items
  }

  lemma ResourceStageIsFilter(items: seq<WorkItem>, resource: Option<string>)
    ensures ResourceFilter(items, resource) == Filter(items, ResourcePass(resource))
  {
    if !Truthy(resource) {
      FilterKeepsAll(items, ResourcePass(resource));
    }
  }

  /** `new Date(dateRange.from).getTime()` and the same for `to`; parsing the strings is the caller's. */
  datatype DateBounds = DateBounds(fromMs: int, toMs: int)

  /** Changed within [from, to + one day): the whole `to` day counts. */
  predicate InDateRange(bounds: Option<DateBounds>, x: WorkItem)
  {
    bounds.None? || (bounds.value.fromMs <= x.changedDate < bounds.value.toMs + MS_PER_DAY)
  }

  function DatePass(bounds: Option<DateBounds>): WorkItem -> bool
  {
    (x: WorkItem) => InDateRange(bounds, x)
  }

  /** The date-range filter. */
  function DateFilter(items: seq<WorkItem>, bounds: Option<DateBounds>): (r: seq<WorkItem>)
    ensures bounds.None? ==> r == items
    ensures forall i :: 0 <= i < |r| ==> r[i] in items && InDateRange(bounds, r[i])
    ensures forall i :: 0 <= i < |items| && InDateRange(bounds, items[i]) ==> items[i] in r
  {
    if bounds.None? then items else Filter(items, DatePass(bounds))
  }

  lemma DateStageIsFilter(items: seq<WorkItem>, bounds: Option<DateBounds>)
    ensures DateFilter(items, bounds) == Filter(items, DatePass(bounds))
  {
    if bounds.None? {
      FilterKeepsAll(items, DatePass(bounds));
    }
  }

  /**
   * For a range of whole days (midnight to midnight), an item passes
   * exactly when it changed on a day from the first to the last, both included.
   */
  lemma DateRangeWholeDays(fromDay: int, toDay: int, x: WorkItem)
    ensures InDateRange(Some(DateBounds(fromDay * MS_PER_DAY, toDay * MS_PER_DAY)), x) <==>
      fromDay <= Day(x.changedDate) <= toDay
  {
    var d := Day(x.changedDate);
    assert d * MS_PER_DAY <= x.changedDate < (d + 1) * MS_PER_DAY;
    if fromDay <= d {
      assert fromDay * MS_PER_DAY <= d * MS_PER_DAY;
    }
    if d <= toDay {
      assert (d + 1) * MS_PER_DAY <= (toDay + 1) * MS_PER_DAY;
    }
    if fromDay * MS_PER_DAY <= x.changedDate {
      assert fromDay * MS_PER_DAY < (d + 1) * MS_PER_DAY;
    }
    if x.changedDate < toDay * MS_PER_DAY + MS_PER_DAY {
      assert d * MS_PER_DAY < (toDay + 1) * MS_PER_DAY;
    }
  }

  /** `workItems`: the area, resource and date filters applied in turn. */
  function FilteredItems(raw: seq<WorkItem>, filters: seq<Group<string, string>>, resource: Option<string>, bounds: Option<DateBounds>): (r: seq<WorkItem>)
    ensures |r| <= |raw|
  {
    DateFilter(ResourceFilter(FilterByAreaSelections(raw, filters), resource), bounds)
  }

  predicate PassesAll(filters: seq<Group<string, string>>, resource: Option<string>, bounds: Option<DateBounds>, x: WorkItem)
  {
    PassesAreaFilter(filters, x) && PassesResource(resource, x) && InDateRange(bounds, x)
  }

  function AllPass(filters: seq<Group<string, string>>, resource: Option<string>, bounds: Option<DateBounds>): WorkItem -> bool
  {
    (x: WorkItem) => PassesAll(filters, resource, bounds, x)
  }

  /** The three stages together are one filter by the conjunction of their tests. */
  lemma FilteredItemsIsOneFilter(raw: seq<WorkItem>, filters: seq<Group<string, string>>, resource: Option<string>, bounds: Option<DateBounds>)
    ensures FilteredItems(raw, filters, resource, bounds) == Filter(raw, AllPass(filters, resource, bounds))
  {
    var a := FilterByAreaSelections(raw, filters);
    AreaStageIsFilter(raw, filters);
    ResourceStageIsFilter(a, resource);
    DateStageIsFilter(ResourceFilter(a, resource), bounds);
    var ar := (x: WorkItem) => PassesAreaFilter(filters, x) && PassesResource(resource, x);
    FilterFilter(raw, AreaPass(filters), ResourcePass(resource), ar);
    FilterFilter(raw, ar, DatePass(bounds), AllPass(filters, resource, bounds));
  }

  /**
   * The dashboard's items are, in their fetched order, exactly the fetched
   * items passing all three filters.
   */
  lemma FilteredItemsCharacterized(raw: seq<WorkItem>, filters: seq<Group<string, string>>, resource: Option<string>, bounds: Option<DateBounds>)
    ensures var r := FilteredItems(raw, filters, resource, bounds);
      IsSubseq(r, raw) &&
      (forall i :: 0 <= i < |r| ==> PassesAll(filters, resource, bounds, r[i])) &&
      (forall i :: 0 <= i < |raw| && PassesAll(filters, resource, bounds, raw[i]) ==> raw[i] in r)
  {
    FilteredItemsIsOneFilter(raw, filters, resource, bounds);
    FilterIsSubseq(raw, AllPass(filters, resource, bounds));
  }

  /** Each stage keeps a sub-sequence of what it is given. */
  lemma StagesKeepOrder(raw: seq<WorkItem>, filters: seq<Group<string, string>>, resource: Option<string>, bounds: Option<DateBounds>)
    ensures var a := FilterByAreaSelections(raw, filters);
      var b := ResourceFilter(a, resource);
      IsSubseq(a, raw) && IsSubseq(b, a) && IsSubseq(DateFilter(b, bounds), b)
  {
    var a := FilterByAreaSelections(raw, filters);
    var b := ResourceFilter(a, resource);
    FilterByAreaSelectionsKeepsOrder(raw, filters);
    ResourceStageIsFilter(a, resource);
    FilterIsSubseq(a, ResourcePass(resource));
    DateStageIsFilter(b, bounds);
    FilterIsSubseq(b, DatePass(bounds));
  }

  /** The watch list's items: the same pipeline without the date stage. */
  function WatchListItems(raw: seq<WorkItem>, filters: seq<Group<string, string>>, resource: Option<string>): (r: seq<WorkItem>)
    ensures r == FilteredItems(raw, filters, resource, None)
  {
    ResourceFilter(FilterByAreaSelections(raw, filters), resource)
  }

  // ---------------------------------------------------------------------
  // Report page
  // ---------------------------------------------------------------------

  /** `reportProject`: the only active project, when there is exactly one. */
  function ReportProject(active: seq<string>): (r: Option<string>)
    ensures r.Some? <==> |active| == 1
    ensures r.Some? ==> active == [r.value]
  {
    if |active| == 1 then Some(active[0]) else None
  }

  /** The multi-project gate. */
  predicate MultipleProjectsSelected(active: seq<string>)
  {
    |active| > 1
  }

  /** The gate and the report never show together, and with no project neither shows. */
  lemma GateOrReport(active: seq<string>)
    ensures !(MultipleProjectsSelected(active) && ReportProject(active).Some?)
    ensures MultipleProjectsSelected(active) || ReportProject(active).Some? <==> |active| > 0
  {
  }

  /** The area names of selection entries, whole-project entries skipped. */
  function AreaNames(entries: seq<string>): (r: seq<string>)
    ensures |r| <= |entries|
    ensures (forall i :: 0 <= i < |entries| ==> IsAreaEntry(entries[i])) ==>
      |r| == |entries| && forall i :: 0 <= i < |r| ==> AreaNameOf(entries[i]) == Some(r[i])
  {
    if |entries| == 0 then []
    else
      var e := entries[|entries| - 1];
      AreaNames(entries[..|entries| - 1]) + (match AreaNameOf(e) case None => [] case Some(a) => [a])
  }

  /** `reportAreaNames`: the area names of the report project's area filter, or none. */
  function ReportAreaNames(reportProject: Option<string>, filters: seq<Group<string, string>>): (r: seq<string>)
    ensures !Truthy(reportProject) ==> r == []
    ensures Truthy(reportProject) && reportProject.value !in GroupKeys(filters) ==> r == []
  {
    if !Truthy(reportProject) then []
    else
      match Lookup(filters, reportProject.value)
      case None => []
      case Some(entries) => AreaNames(entries)
  }

  /**
   * Of a parsed selection, the report's area names rebuild, with the
   * project name and the separator, the project's area entries in order.
   */
  lemma ReportAreaNamesRebuild(sel: seq<string>, p: string)
    requires p != ""
    ensures var filters := ParseSelections(sel).areaFilters;
      var names := ReportAreaNames(Some(p), filters);
      p in GroupKeys(filters) ==>
        |names| == |Filter(sel, AreaEntriesOf(p))| &&
        forall i :: 0 <= i < |names| ==> p + [SEP] + names[i] == Filter(sel, AreaEntriesOf(p))[i]
  {
    var filters := ParseSelections(sel).areaFilters;
    if p in GroupKeys(filters) {
      var entries := Lookup(filters, p).value;
      assert entries == Filter(sel, AreaEntriesOf(p)) by {
        LookupOfParsed(sel, p);
      }
      AreaNamesRebuild(entries, p);
    }
  }

  /** The filter the parse files under a project is that project's area entries. */
  lemma LookupOfParsed(sel: seq<string>, p: string)
    requires p in GroupKeys(ParseSelections(sel).areaFilters)
    ensures Lookup(ParseSelections(sel).areaFilters, p) == Some(Filter(sel, AreaEntriesOf(p)))
  {
    var filters := ParseSelections(sel).areaFilters;
    AreaFiltersCharacterized(sel);
    var entries := Lookup(filters, p).value;
    var k :| 0 <= k < |filters| && filters[k].key == p && filters[k].members == entries;
  }

  /** Area entries of one project rebuild from their area names. */
  lemma AreaNamesRebuild(entries: seq<string>, p: string)
    requires forall i :: 0 <= i < |entries| ==> AreaEntriesOf(p)(entries[i])
    ensures |AreaNames(entries)| == |entries|
    ensures forall i :: 0 <= i < |entries| ==> p + [SEP] + AreaNames(entries)[i] == entries[i]
  {
    assert forall i :: 0 <= i < |entries| ==> IsAreaEntry(entries[i]) && ProjectOf(entries[i]) == p;
    forall i | 0 <= i < |entries| ensures p + [SEP] + AreaNames(entries)[i] == entries[i] {
      SelectionRoundTrip(entries[i]);
    }
  }

  /** `reportAreaLabel`: the names joined with ", ", or none. */
  function AreaLabel(names: seq<string>): (r: Option<string>)
    ensures r.None? <==> names == []
  {
    if |names| > 0 then Some(Join(names, ", ")) else None
  }

  /** `wikiAreaName`: the first area name, or none. */
  function WikiArea(names: seq<string>): (r: Option<string>)
    ensures r.None? <==> names == []
    ensures r.Some? ==> r.value == names[0]
  {
    if |names| > 0 then Some(names[0]) else None
  }

  /** The label and the wiki area are present together, and agree for a single area. */
  lemma LabelAndWikiAgree(names: seq<string>)
    ensures AreaLabel(names).None? <==> WikiArea(names).None?
    ensures |names| == 1 ==> AreaLabel(names) == WikiArea(names)
  {
  }

  /** The exported slide's file name: "<project>[ - <areas>] - <today>.png". */
  function ExportFilename(projectName: string, areaLabel: Option<string>, today: string): (r: string)
    ensures |r| >= |projectName| + |today| + 7 && r[..|projectName|] == projectName
    ensures r[|r| - |today| - 4..|r| - 4] == today && r[|r| - 4..] == ".png"
    ensures Truthy(areaLabel) ==> (|r| == |projectName| + 3 + |areaLabel.value| + |today| + 7 &&
      r[|projectName|..|projectName| + 3 + |areaLabel.value|] == " - " + areaLabel.value)
    ensures !Truthy(areaLabel) ==> |r| == |projectName| + |today| + 7
  {
    var base := if Truthy(areaLabel) then projectName + " - " + areaLabel.value else projectName;
    base + " - " + today + ".png"
  }
}

=== FILE: paging.dfy ===
/**
 * What the two tables share: sort direction and the sort toggle, the
 * comparator for a direction, and pagination by `TABLE_PAGE_SIZE`
 * (src/components/dashboard/WorkItemsTable.tsx, src/components/watchlist/RaidTable.tsx).
 */
module Paging {
  import opened Common
  import opened Ingest

  datatype SortDir = Asc | Desc

  /** The sort column, its direction and the current page of a table. */
  datatype SortState<K> = SortState(key: K, dir: SortDir, page: nat)

  function Flip(d: SortDir): SortDir
  {
    if d == Asc then Desc else Asc
  }

  /** `toggleSort`: the same column flips direction, a new column starts descending; back to the first page. */
  function ToggleSort<K(==)>(st: SortState<K>, key: K): (r: SortState<K>)
    ensures r.page == 0 && r.key == key
    ensures key == st.key ==> r.dir != st.dir
    ensures key != st.key ==> r.dir == Desc
  {
    if st.key == key then SortState(key, Flip(st.dir), 0)
    else SortState(key, Desc, 0)
  }

  /** Clicking the same column twice restores the direction (on the first page). */
  lemma ToggleSortTwice<K>(st: SortState<K>, key: K)
    ensures ToggleSort(ToggleSort(st, key), key).dir == (if key == st.key then st.dir else Asc)
    ensures ToggleSort(ToggleSort(st, key), key).page == 0
  {
  }

  /** `sortDir === 'asc' ? cmp : -cmp`. */
  function Directed<T>(cmp: (T, T) -> int, dir: SortDir): (T, T) -> int
  {
    if dir == Asc then cmp else Negate(cmp)
  }

  lemma DirectedIsPreorder<T(!new)>(cmp: (T, T) -> int, dir: SortDir)
    requires TotalPreorder(cmp) && SignSymmetric(cmp)
    ensures TotalPreorder(Directed(cmp, dir))
  {
    NegateIsPreorder(cmp);
  }

  /** Descending order is ascending order read backwards: `b` may precede `a` under 'asc' exactly when `a` may precede `b` under 'desc'. */
  lemma DescIsReversedAsc<T(!new)>(cmp: (T, T) -> int, a: T, b: T)
    requires SignSymmetric(cmp)
    ensures Directed(cmp, Desc)(a, b) <= 0 <==> Directed(cmp, Asc)(b, a) <= 0
  {
  }

  /** `Math.ceil(n / size)`. */
  function TotalPages(n: nat, size: nat): (r: nat)
    requires size > 0
    ensures n <= r * size
    ensures r > 0 ==> (r - 1) * size < n
  {
    var q := (n + size - 1) / size;
    var m := (n + size - 1) % size;
    assert n + size - 1 == q * size + m;
    assert q * size + size == (q + 1) * size;
    q
  }

  lemma MulMono(a: int, b: int, s: nat)
    requires a <= b
    ensures a * s <= b * s
  {
    assert b * s - a * s == (b - a) * s;
  }

  /** `rows.slice(page * size, (page + 1) * size)`, clamped as `slice` clamps. */
  function PageSlice<T>(rows: seq<T>, page: nat, size: nat): (r: seq<T>)
    requires size > 0
    ensures |r| <= size
    ensures page >= TotalPages(|rows|, size) ==> r == []
  {
    var lo := Min(page * size, |rows|);
    var hi := Min((page + 1) * size, |rows|);
    assert (page + 1) * size == page * size + size;
    PageBeyondEnd(|rows|, size, page);
    rows[lo..hi]
  }

  lemma PageBeyondEnd(n: nat, size: nat, page: nat)
    requires size > 0
    ensures page >= TotalPages(n, size) ==> n <= page * size
  {
    if page >= TotalPages(n, size) {
      MulMono(TotalPages(n, size), page, size);
    }
  }

  /** The `p`-th chunk is the slice from `p * size`, at most `size` long. */
  lemma {:induction false} ChunkAt<T>(rows: seq<T>, size: nat, p: nat)
    requires size > 0 && p < |Chunk(rows, size)|
    ensures p * size < |rows|
    ensures Chunk(rows, size)[p] == rows[p * size..Min(p * size + size, |rows|)]
    decreases p
  {
    if p > 0 {
      var rest := rows[size..];
      assert |rows| > size;
      assert Chunk(rows, size)[p] == Chunk(rest, size)[p - 1];
      ChunkAt(rest, size, p - 1);
      var x := (p - 1) * size;
      assert x + size == p * size;
      assert rest[x..Min(x + size, |rest|)] == rows[size + x..size + Min(x + size, |rest|)];
    }
  }

  /** Page `p` is the `p`-th chunk. */
  lemma PageIsChunk<T>(rows: seq<T>, size: nat, p: nat)
    requires size > 0 && p < |Chunk(rows, size)|
    ensures PageSlice(rows, p, size) == Chunk(rows, size)[p]
  {
    ChunkAt(rows, size, p);
    assert (p + 1) * size == p * size + size;
  }

  /** The pages of a table. */
  function Pages<T>(rows: seq<T>, size: nat): seq<seq<T>>
    requires size > 0
  {
    seq(TotalPages(|rows|, size), p requires 0 <= p => PageSlice(rows, p, size))
  }

  /** There are as many pages as chunks. */
  lemma PageCount<T>(rows: seq<T>, size: nat)
    requires size > 0
    ensures TotalPages(|rows|, size) == |Chunk(rows, size)|
  {
    var k := |Chunk(rows, size)|;
    var t := TotalPages(|rows|, size);
    ChunkCount(rows, size);
    if t < k {
      MulMono(t, k - 1, size);
    } else if k < t {
      MulMono(k, t - 1, size);
    }
  }

  /** The pages partition the rows in order, each page holding at most `size` rows. */
  lemma PagesPartition<T>(rows: seq<T>, size: nat)
    requires size > 0
    ensures Concat(Pages(rows, size)) == rows
    ensures forall p :: 0 <= p < |Pages(rows, size)| ==> 0 < |Pages(rows, size)[p]| <= size
  {
    PageCount(rows, size);
    var c := Chunk(rows, size);
    forall p | 0 <= p < |c| ensures Pages(rows, size)[p] == c[p] {
      PageIsChunk(rows, size, p);
    }
    assert Pages(rows, size) == c;
    ChunkConcat(rows, size);
  }
}

=== FILE: projectselector.dfy ===
/**
 * The project/area picker (src/components/filters/ProjectSelector.tsx):
 * the selection is a list of entries, each a project name or a
 * "Project\Area" key; a project counts as fully selected when its own
 * entry is present or every one of its areas is.
 */
module ProjectSelector {
  import opened Common
  import opened WorkItems
  import opened Selection

  /** Area names per project (`areaPaths` prop); a project may be missing. */
  type AreaPaths = map<string, seq<string>>

  /** `${projectName}\\${areaName}`. */
  function AreaKey(p: string, a: string): string
  {
    p + [SEP] + a
  }

  /** `areaPaths[projectName] ?? []`. */
  function AreasOf(areaPaths: AreaPaths, p: string): seq<string>
  {
    if p in areaPaths then areaPaths[p] else []
  }

  /** The entry is the project itself or one of its area keys. */
  predicate Owns(p: string, s: string)
  {
    s == p || StartsWith(s, p + [SEP])
  }

  function NotOwnedBy(p: string): string -> bool
  {
    s => !Owns(p, s)
  }

  /** `isProjectFullySelected`. */
  predicate IsFullySelected(sel: seq<string>, areaPaths: AreaPaths, p: string)
  {
    p in sel ||
    (p in areaPaths && |areaPaths[p]| > 0 &&
     forall i :: 0 <= i < |areaPaths[p]| ==> AreaKey(p, areaPaths[p][i]) in sel)
  }

  /** `isAreaSelected`. */
  predicate IsAreaSelected(sel: seq<string>, p: string, a: string)
  {
    AreaKey(p, a) in sel
  }

  /** `hasAnySelection`. */
  predicate HasAnySelection(sel: seq<string>, areaPaths: AreaPaths, p: string)
  {
    p in sel ||
    (p in areaPaths && exists i :: 0 <= i < |areaPaths[p]| && AreaKey(p, areaPaths[p][i]) in sel)
  }

  lemma FullyImpliesAny(sel: seq<string>, areaPaths: AreaPaths, p: string)
    ensures IsFullySelected(sel, areaPaths, p) ==> HasAnySelection(sel, areaPaths, p)
  {
    if IsFullySelected(sel, areaPaths, p) && p !in sel {
      assert AreaKey(p, areaPaths[p][0]) in sel;
    }
  }

  /** For a project name without '\', owning an entry is having it as the entry's project. */
  lemma OwnsIffProject(p: string, s: string)
    requires SEP !in p
    ensures Owns(p, s) <==> ProjectOf(s) == p
  {
    if StartsWith(s, p + [SEP]) {
      assert s == p + [SEP] + s[|p| + 1..];
      SelectionSplitsBack(p, s[|p| + 1..]);
    }
    if ProjectOf(s) == p && s != p {
      SelectionRoundTrip(s);
      var a := AreaNameOf(s).value;
      assert s == p + [SEP] + a;
      assert s[..|p| + 1] == p + [SEP];
    }
  }

  lemma AreaKeyOwned(p: string, a: string)
    ensures Owns(p, AreaKey(p, a))
  {
    assert AreaKey(p, a)[..|p| + 1] == p + [SEP];
  }

  lemma AreaKeyInjective(p: string, a: string, b: string)
    ensures AreaKey(p, a) == AreaKey(p, b) ==> a == b
  {
    if AreaKey(p, a) == AreaKey(p, b) {
      assert a == AreaKey(p, a)[|p| + 1..];
    }
  }

  /** `toggleProject`. */
  function ToggleProject(sel: seq<string>, areaPaths: AreaPaths, p: string): (r: seq<string>)
    ensures IsFullySelected(sel, areaPaths, p) ==> forall i :: 0 <= i < |r| ==> !Owns(p, r[i])
    ensures !IsFullySelected(sel, areaPaths, p) ==> |r| > 0 && r[|r| - 1] == p
    ensures !IsFullySelected(sel, areaPaths, p) ==> forall i :: 0 <= i < |r| - 1 ==> !Owns(p, r[i])
  {
    if IsFullySelected(sel, areaPaths, p) then Filter(sel, NotOwnedBy(p))
    else Filter(sel, NotOwnedBy(p)) + [p]
  }

  /** Toggling a project flips whether it is fully selected. */
  lemma ToggleProjectFlips(sel: seq<string>, areaPaths: AreaPaths, p: string)
    ensures IsFullySelected(ToggleProject(sel, areaPaths, p), areaPaths, p) == !IsFullySelected(sel, areaPaths, p)
  {
    var r := ToggleProject(sel, areaPaths, p);
    if IsFullySelected(sel, areaPaths, p) {
      if p in areaPaths && |areaPaths[p]| > 0 {
        var k := AreaKey(p, areaPaths[p][0]);
        AreaKeyOwned(p, areaPaths[p][0]);
        assert k !in r;
      }
    }
  }

  /** Keeping only the entries of other projects, a selection and its filtered self agree. */
  lemma {:induction false} FilterIdempotent(s: seq<string>, q: string -> bool)
    ensures Filter(Filter(s, q), q) == Filter(s, q)
    decreases |s|
  {
    if |s| > 0 {
      var s' := s[..|s| - 1];
      var x := s[|s| - 1];
      FilterIdempotent(s', q);
      if q(x) {
        assert Filter(s, q) == Filter(s', q) + [x];
        FilterAppendAccepted(Filter(s', q), x, q);
      } else {
        assert Filter(s, q) == Filter(s', q);
      }
    }
  }

  lemma FilterAppendRejected(s: seq<string>, x: string, q: string -> bool)
    requires !q(x)
    ensures Filter(s + [x], q) == Filter(s, q)
  {
    assert (s + [x])[..|s|] == s;
  }

  lemma FilterAppendAccepted(s: seq<string>, x: string, q: string -> bool)
    requires q(x)
    ensures Filter(s + [x], q) == Filter(s, q) + [x]
  {
    assert (s + [x])[..|s|] == s;
  }

  /** `toggleProject` leaves the entries of every other project as they were, in order. */
  lemma ToggleProjectKeepsOthers(sel: seq<string>, areaPaths: AreaPaths, p: string)
    ensures Filter(ToggleProject(sel, areaPaths, p), NotOwnedBy(p)) == Filter(sel, NotOwnedBy(p))
  {
    var q := NotOwnedBy(p);
    FilterIdempotent(sel, q);
    if !IsFullySelected(sel, areaPaths, p) {
      FilterAppendRejected(Filter(sel, q), p, q);
    }
  }

  function NotKey(k: string): string -> bool
  {
    s => s != k
  }

  /** `areas.every(a => a === areaName || newSelected.includes(key(a)))`. */
  predicate CompletesAll(areas: seq<string>, a: string, p: string, newSelected: seq<string>)
  {
    forall i :: 0 <= i < |areas| ==> areas[i] == a || AreaKey(p, areas[i]) in newSelected
  }

  function NotAreaOf(p: string): string -> bool
  {
    s => !StartsWith(s, p + [SEP])
  }

  /** `toggleArea`. */
  function ToggleArea(sel: seq<string>, areaPaths: AreaPaths, p: string, a: string): (r: seq<string>)
    ensures AreaKey(p, a) in sel ==> AreaKey(p, a) !in r
    ensures AreaKey(p, a) in sel ==> forall s :: s in r <==> s in sel && s != AreaKey(p, a)
    ensures AreaKey(p, a) !in sel && p in sel ==> p !in r && |r| > 0 && r[|r| - 1] == AreaKey(p, a)
    ensures AreaKey(p, a) !in sel && p in sel ==>
              forall s :: s in r <==> (s in sel && s != p) || s == AreaKey(p, a)
    ensures AreaKey(p, a) !in sel && p !in sel && CompletesAll(AreasOf(areaPaths, p), a, p, sel + [AreaKey(p, a)]) ==>
              |r| > 0 && r[|r| - 1] == p && forall i :: 0 <= i < |r| ==> !StartsWith(r[i], p + [SEP])
    ensures AreaKey(p, a) !in sel && p !in sel && !CompletesAll(AreasOf(areaPaths, p), a, p, sel + [AreaKey(p, a)]) ==>
              r == sel + [AreaKey(p, a)]
  {
    var key := AreaKey(p, a);
    if key in sel then Filter(sel, NotKey(key))
    else if p in sel then Filter(sel, NotKey(p)) + [key]
    else
      var newSelected := sel + [key];
      if CompletesAll(AreasOf(areaPaths, p), a, p, newSelected) then
        assert !StartsWith(p, p + [SEP]);
        Filter(newSelected, NotAreaOf(p)) + [p]
      else newSelected
  }

  /** `toggleArea` leaves the entries of every other project as they were, in order. */
  lemma ToggleAreaKeepsOthers(sel: seq<string>, areaPaths: AreaPaths, p: string, a: string)
    ensures Filter(ToggleArea(sel, areaPaths, p, a), NotOwnedBy(p)) == Filter(sel, NotOwnedBy(p))
  {
    var key := AreaKey(p, a);
    var q := NotOwnedBy(p);
    AreaKeyOwned(p, a);
    if key in sel {
      FilterCongruentOn(sel, NotKey(key), q);
    } else if p in sel {
      FilterAppendRejected(Filter(sel, NotKey(p)), key, q);
      FilterCongruentOn(sel, NotKey(p), q);
    } else {
      var ns := sel + [key];
      FilterAppendRejected(sel, key, q);
      if CompletesAll(AreasOf(areaPaths, p), a, p, ns) {
        FilterAppendRejected(Filter(ns, NotAreaOf(p)), p, q);
          FilterCongruentOn(ns, NotAreaOf(p), q);
      }
    }
  }

  /** Filtering first by a weaker test changes nothing when the stronger one follows. */
  lemma FilterCongruentOn(s: seq<string>, weak: string -> bool, q: string -> bool)
    requires forall x :: q(x) ==> weak(x)
    ensures Filter(Filter(s, weak), q) == Filter(s, q)
  {
    var both := (x: string) => weak(x) && q(x);
    FilterFilter(s, weak, q, both);
    FilterCongruent(s, both, q);
  }

  /** Toggling the areas one after another (the last one last). */
  function ToggleAreas(sel: seq<string>, areaPaths: AreaPaths, p: string, areas: seq<string>): seq<string>
  {
    if |areas| == 0 then sel
    else ToggleArea(ToggleAreas(sel, areaPaths, p, areas[..|areas| - 1]), areaPaths, p, areas[|areas| - 1])
  }

  function KeyOf(p: string): string -> string
  {
    a => AreaKey(p, a)
  }

  lemma KeysNotProject(p: string, areas: seq<string>)
    ensures p !in Map(areas, KeyOf(p))
  {
    forall i | 0 <= i < |areas| ensures Map(areas, KeyOf(p))[i] != p {
      assert |AreaKey(p, areas[i])| > |p|;
    }
  }

  /** An area's key is among the keys of a list of areas exactly when the area is. */
  lemma KeysMembership(p: string, areas: seq<string>, b: string)
    ensures AreaKey(p, b) in Map(areas, KeyOf(p)) <==> b in areas
  {
    var m := Map(areas, KeyOf(p));
    if AreaKey(p, b) in m {
      var j :| 0 <= j < |m| && m[j] == AreaKey(p, b);
      AreaKeyInjective(p, areas[j], b);
    }
    if b in areas {
      var j :| 0 <= j < |areas| && areas[j] == b;
      assert m[j] == AreaKey(p, b);
    }
  }

  /** While some area is still missing, each toggle just appends its key. */
  lemma {:induction false} TogglePrefix(areaPaths: AreaPaths, p: string, k: nat)
    requires p in areaPaths && NoDup(areaPaths[p])
    requires k < |areaPaths[p]|
    ensures ToggleAreas([], areaPaths, p, areaPaths[p][..k]) == Map(areaPaths[p][..k], KeyOf(p))
    decreases k
  {
    var areas := areaPaths[p];
    if k > 0 {
      TogglePrefix(areaPaths, p, k - 1);
      assert areas[..k][..k - 1] == areas[..k - 1];
      var sel := Map(areas[..k - 1], KeyOf(p));
      var a := areas[k - 1];
      ToggleAppends(areaPaths, p, sel, k - 1);
      assert Map(areas[..k], KeyOf(p)) == sel + [AreaKey(p, a)];
    }
  }

  lemma ToggleAppends(areaPaths: AreaPaths, p: string, sel: seq<string>, j: nat)
    requires p in areaPaths && NoDup(areaPaths[p])
    requires j + 1 < |areaPaths[p]|
    requires sel == Map(areaPaths[p][..j], KeyOf(p))
    ensures ToggleArea(sel, areaPaths, p, areaPaths[p][j]) == sel + [AreaKey(p, areaPaths[p][j])]
  {
    var areas := areaPaths[p];
    var a := areas[j];
    var key := AreaKey(p, a);
    var last := areas[|areas| - 1];
    KeysMembership(p, areas[..j], a);
    KeysMembership(p, areas[..j], last);
    KeysNotProject(p, areas[..j]);
    AreaKeyInjective(p, last, a);
    assert last !in areas[..j];
    assert AreaKey(p, last) !in sel + [key];
    assert !CompletesAll(AreasOf(areaPaths, p), a, p, sel + [key]);
  }

  /**
   * Starting from an empty selection, toggling each area of a project once
   * consolidates to the project entry alone.
   */
  lemma ToggleEveryAreaConsolidates(areaPaths: AreaPaths, p: string)
    requires p in areaPaths && NoDup(areaPaths[p]) && |areaPaths[p]| > 0
    ensures ToggleAreas([], areaPaths, p, areaPaths[p]) == [p]
  {
    var areas := areaPaths[p];
    var n := |areas|;
    TogglePrefix(areaPaths, p, n - 1);
    assert areas[..n] == areas;
    ToggleCompletes(areaPaths, p, Map(areas[..n - 1], KeyOf(p)));
  }

  lemma ToggleCompletes(areaPaths: AreaPaths, p: string, sel: seq<string>)
    requires p in areaPaths && NoDup(areaPaths[p]) && |areaPaths[p]| > 0
    requires sel == Map(areaPaths[p][..|areaPaths[p]| - 1], KeyOf(p))
    ensures ToggleArea(sel, areaPaths, p, areaPaths[p][|areaPaths[p]| - 1]) == [p]
  {
    var areas := areaPaths[p];
    var n := |areas|;
    var a := areas[n - 1];
    var key := AreaKey(p, a);
    KeysMembership(p, areas[..n - 1], a);
    KeysNotProject(p, areas[..n - 1]);
    var ns := sel + [key];
    forall i | 0 <= i < n ensures areas[i] == a || AreaKey(p, areas[i]) in ns {
      if i < n - 1 {
        assert ns[i] == AreaKey(p, areas[i]);
      }
    }
    assert CompletesAll(AreasOf(areaPaths, p), a, p, ns);
    forall i | 0 <= i < |ns| ensures !NotAreaOf(p)(ns[i]) {
      AreaKeyOwned(p, if i < n - 1 then areas[i] else a);
    }
    FilterNone(ns, NotAreaOf(p));
  }

  /** `visibleProjects`: archived projects hidden unless shown, sorted by name. */
  function VisibleProjects(projects: seq<Project>, showArchived: bool): (r: seq<Project>)
    ensures multiset(r) == multiset(if showArchived then projects else Filter(projects, (x: Project) => !x.isArchived))
    ensures !showArchived ==> forall i :: 0 <= i < |r| ==> !r[i].isArchived
  {
    var shown := if showArchived then projects else Filter(projects, (x: Project) => !x.isArchived);
    var r := SortBy(shown, ByName);
    assert forall i :: 0 <= i < |r| ==> r[i] in multiset(shown);
    r
  }

  function ByName(a: Project, b: Project): int
  {
    StrCompare(a.name, b.name)
  }

  lemma VisibleProjectsSorted(projects: seq<Project>, showArchived: bool)
    ensures SortedBy(VisibleProjects(projects, showArchived), ByName)
  {
    StrCompareIsPreorder();
    assert TotalPreorder(ByName) by {
      forall a: Project, b: Project ensures ByName(a, b) <= 0 || ByName(b, a) <= 0 {
        StrLeTotal(a.name, b.name);
      }
      forall a: Project, b: Project, c: Project | ByName(a, b) <= 0 && ByName(b, c) <= 0
        ensures ByName(a, c) <= 0
      {
        StrLeTrans(a.name, b.name, c.name);
      }
    }
  }

  function Names(ps: seq<Project>): seq<string>
  {
    Map(ps, (x: Project) => x.name)
  }

  /** `allSelected`. */
  predicate AllSelected(sel: seq<string>, areaPaths: AreaPaths, visible: seq<Project>)
  {
    |visible| > 0 && forall i :: 0 <= i < |visible| ==> IsFullySelected(sel, areaPaths, visible[i].name)
  }

  /** `selectAll`: every visible project's own entry. */
  function SelectAll(visible: seq<Project>): (r: seq<string>)
    ensures |r| == |visible|
  {
    Names(visible)
  }

  /** After "select all", every visible project is fully selected. */
  lemma SelectAllSelectsAll(areaPaths: AreaPaths, visible: seq<Project>)
    requires |visible| > 0
    ensures AllSelected(SelectAll(visible), areaPaths, visible)
  {
    forall i | 0 <= i < |visible| ensures visible[i].name in SelectAll(visible) {
      assert SelectAll(visible)[i] == visible[i].name;
    }
  }

  /** `selectionCount`: the number of distinct projects touched by the selection. */
  function SelectionCount(sel: seq<string>): (r: nat)
    ensures r <= |sel|
    ensures r == 0 <==> |sel| == 0
  {
    var r := GetProjectsToFetch(sel);
    assert |sel| > 0 ==> ProjectOf(sel[0]) in r;
    |r|
  }

  lemma SelectionCountIsFetchCount(sel: seq<string>)
    ensures SelectionCount(sel) == |ParseSelections(sel).projectNames|
  {
    ProjectsToFetchAgree(sel);
  }

  function StartsWithPrefix(prefix: string): string -> bool
  {
    s => StartsWith(s, prefix)
  }

  /** The trigger button's `label`. */
  function Label(sel: seq<string>, areaPaths: AreaPaths, visible: seq<Project>): string
  {
    if |sel| == 0 then "No Projects"
    else if AllSelected(sel, areaPaths, visible) then "All Projects"
    else
      var projects := GetProjectsToFetch(sel);
      if |projects| == 1 then OneProjectLabel(sel, projects[0])
      else NatToString(|projects|) + " Projects"
  }

  /** The label when `only` is the one project touched. */
  function OneProjectLabel(sel: seq<string>, only: string): string
  {
    if only in sel then only
    else AreasLabel(only, Filter(sel, StartsWithPrefix(only + [SEP])))
  }

  /** The label for the selected area entries of `only`. */
  function AreasLabel(only: string, areaEntries: seq<string>): string
  {
    if |areaEntries| == 1 then
      only + " > " + (if |only| + 1 <= |areaEntries[0]| then areaEntries[0][|only| + 1..] else "")
    else only + " (" + NatToString(|areaEntries|) + " areas)"
  }

  /** Label rules when not everything is selected: counts for several projects, names for one. */
  lemma LabelCases(sel: seq<string>, areaPaths: AreaPaths, visible: seq<Project>)
    ensures |sel| == 0 ==> Label(sel, areaPaths, visible) == "No Projects"
    ensures |sel| > 0 && AllSelected(sel, areaPaths, visible) ==> Label(sel, areaPaths, visible) == "All Projects"
    ensures |sel| > 0 && !AllSelected(sel, areaPaths, visible) && SelectionCount(sel) >= 2 ==>
              Label(sel, areaPaths, visible) == NatToString(SelectionCount(sel)) + " Projects"
    ensures |sel| > 0 && !AllSelected(sel, areaPaths, visible) && SelectionCount(sel) == 1 ==>
              StartsWith(Label(sel, areaPaths, visible), ProjectOf(sel[0]))
  {
    if |sel| > 0 && !AllSelected(sel, areaPaths, visible) && SelectionCount(sel) == 1 {
      LabelOneProject(sel, areaPaths, visible);
    }
  }

  /**
   * The label when one project is touched and not everything is selected:
   * the project's name when it is selected whole, "Project > Area" for a
   * single area entry, "Project (n areas)" for n area entries.
   */
  lemma LabelOneProject(sel: seq<string>, areaPaths: AreaPaths, visible: seq<Project>)
    requires |sel| > 0 && !AllSelected(sel, areaPaths, visible) && SelectionCount(sel) == 1
    ensures StartsWith(Label(sel, areaPaths, visible), ProjectOf(sel[0]))
    ensures ProjectOf(sel[0]) in sel ==> Label(sel, areaPaths, visible) == ProjectOf(sel[0])
    ensures ProjectOf(sel[0]) !in sel && |sel| == 1 ==>
              Label(sel, areaPaths, visible) == ProjectOf(sel[0]) + " > " + AreaNameOf(sel[0]).value
    ensures ProjectOf(sel[0]) !in sel && |sel| >= 2 ==>
              Label(sel, areaPaths, visible) == ProjectOf(sel[0]) + " (" + NatToString(|sel|) + " areas)"
  {
    var only := OnlyProject(sel);
    assert Label(sel, areaPaths, visible) == OneProjectLabel(sel, only);
    if only in sel {
      StartsWithAppend(only, "");
      assert only + "" == only;
    } else {
      LabelAreas(sel, areaPaths, visible, only);
    }
  }

  /** With one project touched, it is the project of the first entry. */
  lemma OnlyProject(sel: seq<string>) returns (only: string)
    requires |sel| > 0 && SelectionCount(sel) == 1
    ensures GetProjectsToFetch(sel) == [only] && only == ProjectOf(sel[0])
  {
    var projects := GetProjectsToFetch(sel);
    assert ProjectOf(sel[0]) in projects;
    only := projects[0];
    assert projects == [only];
  }

  /** One project touched, only through area entries: "Project > Area" for one, "Project (n areas)" for more. */
  lemma LabelAreas(sel: seq<string>, areaPaths: AreaPaths, visible: seq<Project>, only: string)
    requires |sel| > 0 && !AllSelected(sel, areaPaths, visible)
    requires GetProjectsToFetch(sel) == [only] && only == ProjectOf(sel[0]) && only !in sel
    ensures StartsWith(Label(sel, areaPaths, visible), only)
    ensures |sel| == 1 ==> Label(sel, areaPaths, visible) == only + " > " + AreaNameOf(sel[0]).value
    ensures |sel| >= 2 ==> Label(sel, areaPaths, visible) == only + " (" + NatToString(|sel|) + " areas)"
  {
    OneProjectAreaEntries(sel, only);
    assert Label(sel, areaPaths, visible) == OneProjectLabel(sel, only);
    assert OneProjectLabel(sel, only) == AreasLabel(only, sel);
    if |sel| == 1 {
      var a := AreaNameOf(sel[0]).value;
      AreaTail(sel[0], only);
      AreasLabelOne(only, sel, a);
    } else {
      AreasLabelMany(only, sel);
    }
  }

  lemma AreasLabelOne(only: string, entries: seq<string>, a: string)
    requires |entries| == 1 && |only| + 1 <= |entries[0]| && entries[0][|only| + 1..] == a
    ensures AreasLabel(only, entries) == only + " > " + a
    ensures StartsWith(AreasLabel(only, entries), only)
  {
    StartsWithAppend(only, " > " + a);
    assert only + " > " + a == only + (" > " + a);
  }

  lemma AreasLabelMany(only: string, entries: seq<string>)
    requires |entries| >= 2
    ensures AreasLabel(only, entries) == only + " (" + NatToString(|entries|) + " areas)"
    ensures StartsWith(AreasLabel(only, entries), only)
  {
    var n := " (" + NatToString(|entries|) + " areas)";
    StartsWithAppend(only, n);
    assert only + " (" + NatToString(|entries|) + " areas)" == only + n;
  }

  /** The area name of an area entry of `only` is the text after `only` and the separator. */
  lemma AreaTail(e: string, only: string)
    requires IsAreaEntry(e) && ProjectOf(e) == only
    ensures |only| + 1 <= |e| && e[|only| + 1..] == AreaNameOf(e).value
  {
    SelectionRoundTrip(e);
    var a := AreaNameOf(e).value;
    assert e == only + [SEP] + a;
    assert e[|only| + 1..] == a;
  }

  lemma StartsWithAppend(a: string, b: string)
    ensures StartsWith(a + b, a)
  {
    assert (a + b)[..|a|] == a;
  }

  /**
   * When every entry belongs to one project that is not itself selected,
   * every entry is an area entry of it.
   */
  lemma OneProjectAreaEntries(sel: seq<string>, only: string)
    requires GetProjectsToFetch(sel) == [only] && only !in sel
    ensures Filter(sel, StartsWithPrefix(only + [SEP])) == sel
  {
    forall i | 0 <= i < |sel| ensures StartsWithPrefix(only + [SEP])(sel[i]) {
      assert ProjectOf(sel[i]) in GetProjectsToFetch(sel);
      SelectionRoundTrip(sel[i]);
      assert sel[i] == only + [SEP] + AreaNameOf(sel[i]).value;
      assert sel[i][..|only| + 1] == only + [SEP];
    }
    FilterKeepsAll(sel, StartsWithPrefix(only + [SEP]));
  }

  /** One area entry of one project reads "Project > Area". */
  lemma LabelSingleArea(p: string, a: string, areaPaths: AreaPaths, visible: seq<Project>)
    requires SEP !in p
    requires !AllSelected([AreaKey(p, a)], areaPaths, visible)
    ensures Label([AreaKey(p, a)], areaPaths, visible) == p + " > " + a
  {
    var sel := [AreaKey(p, a)];
    SelectionSplitsBack(p, a);
    var projects := GetProjectsToFetch(sel);
    assert projects[0] == p;
    AreaKeyOwned(p, a);
    assert Filter(sel, StartsWithPrefix(p + [SEP])) == sel by {
      assert sel[..0] == [];
    }
    assert AreaKey(p, a)[|p| + 1..] == a;
  }

  // `toggleExpand` is `Common.Toggle`.

  /** `projectsWithAreas`: visible projects having at least one area. */
  function ProjectsWithAreas(visible: seq<Project>, areaPaths: AreaPaths): (r: set<string>)
    ensures forall q :: q in r <==> (exists i :: 0 <= i < |visible| && visible[i].name == q) && |AreasOf(areaPaths, q)| > 0
  {
    set i | 0 <= i < |visible| && |AreasOf(areaPaths, visible[i].name)| > 0 :: visible[i].name
  }

  /** `toggleAllAreas`: collapse everything once at least as many are open as have areas, else open those. */
  function ToggleAllAreas(expanded: set<string>, withAreas: set<string>): (r: set<string>)
    ensures |expanded| >= |withAreas| ==> r == {}
    ensures |expanded| < |withAreas| ==> r == withAreas && |r| > |expanded|
  {
    if |expanded| >= |withAreas| then {} else withAreas
  }

  lemma ToggleAllAreasTwice(withAreas: set<string>)
    requires |withAreas| > 0
    ensures ToggleAllAreas(ToggleAllAreas({}, withAreas), withAreas) == {}
  {
  }
}

=== FILE: raid.dfy ===
/**
 * RAID classification (src/lib/raidHelpers.ts): Issue and Risk items by
 * type, Dependency / Decision / Critical Dependency items by tag.
 */
module Raid {
  import opened Common
  import opened WorkItems

  datatype RaidCategory = IssueCat | RiskCat | Dependency | Decision | CriticalDependency

  /** The display name of a category (`RaidCategory` string). */
  function CategoryName(c: RaidCategory): string
  {
    match c
    case IssueCat => "Issue"
    case RiskCat => "Risk"
    case Dependency => "Dependency"
    case Decision => "Decision"
    case CriticalDependency => "Critical Dependency"
  }

  /** `ALL_RAID_CATEGORIES`, in display order. */
  const ALL_RAID_CATEGORIES: seq<RaidCategory> := [IssueCat, RiskCat, Dependency, Decision, CriticalDependency]

  lemma AllCategoriesListed(c: RaidCategory)
    ensures c in ALL_RAID_CATEGORIES
    ensures NoDup(ALL_RAID_CATEGORIES)
  {
  }

  lemma CategoryNameInjective(a: RaidCategory, b: RaidCategory)
    ensures CategoryName(a) == CategoryName(b) ==> a == b
  {
  }

  /** `parseTags`: split on ';', trim each part, drop the empty ones. */
  function ParseTags(tags: Option<string>): (r: seq<string>)
    ensures tags.None? || tags == Some("") ==> r == []
    ensures forall i :: 0 <= i < |r| ==> |r[i]| > 0 && !IsSpace(r[i][0]) && !IsSpace(r[i][|r[i]| - 1])
    ensures forall i :: 0 <= i < |r| ==> ';' !in r[i]
  {
    match tags
    case None => []
    case Some(t) =>
      if t == "" then []
      else
        var parts := Split(t, ';');
        var trimmed := Map(parts, Trimmed());
        assert forall i :: 0 <= i < |trimmed| ==> ';' !in trimmed[i] by {
          forall i | 0 <= i < |trimmed| ensures ';' !in trimmed[i] {
            TrimInside(parts[i]);
          }
        }
        Filter(trimmed, IsNonEmpty())
  }

  /** Clean tags joined with ';' parse back to the same list. */
  lemma ParseTagsJoin(ts: seq<string>)
    requires |ts| > 0
    requires forall i :: 0 <= i < |ts| ==> |ts[i]| > 0 && !IsSpace(ts[i][0]) && !IsSpace(ts[i][|ts[i]| - 1])
    requires forall i :: 0 <= i < |ts| ==> ';' !in ts[i]
    ensures ParseTags(Some(Join(ts, ";"))) == ts
  {
    SplitJoin(ts, ';');
    assert Join(ts, ";") != "" by { JoinNonEmpty(ts, ";"); }
    var trimmed := Map(ts, Trimmed());
    forall i | 0 <= i < |ts| ensures trimmed[i] == ts[i] {
      TrimOfTrimmed(ts[i]);
    }
    assert trimmed == ts;
    FilterKeepsAll(ts, IsNonEmpty());
  }

  /** The category a single tag names, matched whole and case-insensitively. */
  function TagCategory(tag: string): (r: Option<RaidCategory>)
    ensures r.Some? ==> r.value in {Dependency, Decision, CriticalDependency}
    ensures r.Some? ==> ToLower(tag) == ToLower(CategoryName(r.value))
  {
    var lower := ToLower(tag);
    if lower == "critical dependency" then Some(CriticalDependency)
    else if lower == "dependency" then Some(Dependency)
    else if lower == "decision" then Some(Decision)
    else None
  }

  /** A tag names a tag category exactly when its lower-case form is that category's. */
  lemma TagCategoryComplete(tag: string, c: RaidCategory)
    requires c in {Dependency, Decision, CriticalDependency}
    requires ToLower(tag) == ToLower(CategoryName(c))
    ensures TagCategory(tag) == Some(c)
  {
    var lower := ToLower(tag);
    match c
    case Dependency =>
      assert ToLower("Dependency") == "dependency";
      assert |lower| == 10;
    case Decision =>
      assert ToLower("Decision") == "decision";
      assert |lower| == 8;
    case CriticalDependency =>
      assert ToLower("Critical Dependency") == "critical dependency";
  }

  /** The loop over tags: the first tag that names a category decides. */
  function FirstTagCategory(tags: seq<string>): (r: Option<RaidCategory>)
    ensures r.None? <==> forall i :: 0 <= i < |tags| ==> TagCategory(tags[i]).None?
    decreases |tags|
  {
    if |tags| == 0 then None
    else if TagCategory(tags[0]).Some? then TagCategory(tags[0])
    else
      var r := FirstTagCategory(tags[1..]);
      assert forall i :: 1 <= i < |tags| ==> tags[i] == tags[1..][i - 1];
      r
  }

  /** The deciding tag is the first tag, in order, that names a category. */
  lemma {:induction false} FirstTagDecides(tags: seq<string>, k: nat)
    requires k < |tags| && TagCategory(tags[k]).Some?
    requires forall j :: 0 <= j < k ==> TagCategory(tags[j]).None?
    ensures FirstTagCategory(tags) == TagCategory(tags[k])
    decreases k
  {
    if k > 0 {
      assert tags[1..][k - 1] == tags[k];
      FirstTagDecides(tags[1..], k - 1);
    }
  }

  /** `getRaidCategory`. */
  function GetRaidCategory(wi: WorkItem): (r: Option<RaidCategory>)
    ensures wi.workItemType == Issue ==> r == Some(IssueCat)
    ensures wi.workItemType == Risk ==> r == Some(RiskCat)
    ensures wi.workItemType != Issue && wi.workItemType != Risk ==> r == FirstTagCategory(ParseTags(wi.tags))
  {
    if wi.workItemType == Issue then Some(IssueCat)
    else if wi.workItemType == Risk then Some(RiskCat)
    else FirstTagCategory(ParseTags(wi.tags))
  }

  /** `isRaidItem`. */
  predicate IsRaidItem(wi: WorkItem)
  {
    GetRaidCategory(wi).Some?
  }

  /** An item of another type is RAID exactly when one of its tags names a tag category. */
  lemma RaidByTag(wi: WorkItem)
    requires wi.workItemType != Issue && wi.workItemType != Risk
    ensures IsRaidItem(wi) <==>
              exists i :: 0 <= i < |ParseTags(wi.tags)| && TagCategory(ParseTags(wi.tags)[i]).Some?
  {
  }

  /** The category of a RAID item, which `IsRaidItem` guarantees exists. */
  function CategoryOf(wi: WorkItem): RaidCategory
    requires IsRaidItem(wi)
  {
    GetRaidCategory(wi).value
  }
}

=== FILE: raidcharts.dfy ===
/**
 * The watch-list charts: open-item age buckets
 * (src/components/watchlist/RaidAgeChart.tsx), the 12-week created/resolved
 * trend (RaidTrendChart.tsx) and the per-assignee, per-project and
 * per-state counts (RaidAssigneeChart.tsx, RaidProjectChart.tsx,
 * RaidStateChart.tsx).
 */
module RaidCharts {
  import opened Common
  import opened WorkItems
  import opened Tally
  import opened RaidMetrics
  import RaidTable

  // ---------------------------------------------------------------------
  // Age buckets
  // ---------------------------------------------------------------------

  const AGE_BUCKET_LABELS: seq<string> := ["< 7d", "7-30d", "30-90d", "90d+"]

  /** The upper bounds (exclusive) of the first three buckets; the last has none. */
  const AGE_BUCKET_MAX: seq<int> := [7, 30, 90]

  /** The bucket loop from index `i`: the first bucket whose bound exceeds the age, else the last. */
  function FirstBucket(age: int, i: nat): (b: nat)
    requires i <= |AGE_BUCKET_MAX|
    ensures i <= b <= |AGE_BUCKET_MAX|
    ensures b < |AGE_BUCKET_MAX| ==> age < AGE_BUCKET_MAX[b]
    ensures forall j :: i <= j < b ==> age >= AGE_BUCKET_MAX[j]
    decreases |AGE_BUCKET_MAX| - i
  {
    if i == |AGE_BUCKET_MAX| || age < AGE_BUCKET_MAX[i] then i else FirstBucket(age, i + 1)
  }

  function AgeBucket(age: int): (b: nat)
    ensures b < |AGE_BUCKET_LABELS|
  {
    FirstBucket(age, 0)
  }

  /** The buckets are the day ranges [0, 7), [7, 30), [30, 90) and 90 or more. */
  lemma AgeBucketRanges(age: nat)
    ensures AgeBucket(age) == 0 <==> age < 7
    ensures AgeBucket(age) == 1 <==> 7 <= age < 30
    ensures AgeBucket(age) == 2 <==> 30 <= age < 90
    ensures AgeBucket(age) == 3 <==> 90 <= age
  {
    var b := AgeBucket(age);
    if b > 0 { assert age >= AGE_BUCKET_MAX[0]; }
    if b > 1 { assert age >= AGE_BUCKET_MAX[1]; }
    if b > 2 { assert age >= AGE_BUCKET_MAX[2]; }
  }

  datatype AgeBar = AgeBar(bucket: string, count: nat)

  function AgeOf(now: int): WorkItem -> int
  {
    (w: WorkItem) => AgeBucket(RaidTable.DaysSince(now, w.createdDate))
  }

  function AgeBarCount(b: AgeBar): nat { b.count }

  /** The age chart's data: always the four buckets, in order, over the New/Active items. */
  function AgeChart(items: seq<WorkItem>, now: int): (r: seq<AgeBar>)
    ensures |r| == |AGE_BUCKET_LABELS|
    ensures forall i :: 0 <= i < |r| ==> r[i].bucket == AGE_BUCKET_LABELS[i]
    ensures forall i :: 0 <= i < |r| ==> r[i].count == Count(Filter(items, Open()), Hits(AgeOf(now), i))
  {
    var h := Histogram(Filter(items, Open()), AgeOf(now), |AGE_BUCKET_LABELS|);
    HistogramCounts(Filter(items, Open()), AgeOf(now), |AGE_BUCKET_LABELS|);
    seq(|AGE_BUCKET_LABELS|, i requires 0 <= i < |AGE_BUCKET_LABELS| => AgeBar(AGE_BUCKET_LABELS[i], h[i]))
  }

  /** Every New/Active item lands in exactly one bucket, so the buckets add up to the open count. */
  lemma AgeChartTotal(items: seq<WorkItem>, now: int)
    ensures SumNat(AgeChart(items, now), AgeBarCount) == |Filter(items, Open())|
  {
    var open := Filter(items, Open());
    var n := |AGE_BUCKET_LABELS|;
    var h := Histogram(open, AgeOf(now), n);
    var r := AgeChart(items, now);
    HistogramSum(open, AgeOf(now), n);
    assert Filter(open, InRange(AgeOf(now), n)) == open by { FilterKeepsAll(open, InRange(AgeOf(now), n)); }
    HistogramCounts(open, AgeOf(now), n);
    assert Map(r, AgeBarCount) == h;
    SumNatOfCounts(r, AgeBarCount);
  }

  // ---------------------------------------------------------------------
  // Created vs resolved, by week
  // ---------------------------------------------------------------------

  const WEEKS: nat := 12

  /** The Monday starting the week of a day number (day 0, 1970-01-01, was a Thursday). */
  function WeekStartDay(d: int): (r: int)
    ensures r <= d < r + 7
    ensures (r + 3) % 7 == 0
  {
    d - (d + 3) % 7
  }

  /** The window's first Monday: eleven weeks before the current week's. */
  function WindowStart(now: int): int
  {
    WeekStartDay(Day(now)) - 7 * (WEEKS - 1)
  }

  /** The bucket of a timestamp: weeks between the window start and its week's Monday. */
  function WeekIndex(now: int, ms: int): int
  {
    (WeekStartDay(Day(ms)) - WindowStart(now)) / 7
  }

  /** A timestamp falls in bucket `i` exactly when its day lies in the `i`-th week of the window. */
  lemma WeekIndexIff(now: int, ms: int, i: int)
    ensures WeekIndex(now, ms) == i <==> WindowStart(now) + 7 * i <= Day(ms) < WindowStart(now) + 7 * i + 7
  {
    var w := WindowStart(now);
    var ws := WeekStartDay(Day(ms));
    assert (w + 3) % 7 == 0;
    var k := (ws - w) / 7;
    assert ws - w == 7 * k by {
      assert (ws + 3) % 7 == 0;
      assert (ws - w) % 7 == 0;
    }
    if w + 7 * i <= Day(ms) < w + 7 * i + 7 {
      assert w + 7 * k <= Day(ms) < w + 7 * k + 7;
      assert k == i;
    }
  }

  /** `closedDate ?? resolvedDate`. */
  function ResolvedDate(w: WorkItem): Option<int>
  {
    if w.closedDate.Some? then w.closedDate else w.resolvedDate
  }

  function CreatedWeek(now: int): WorkItem -> int
  {
    (w: WorkItem) => WeekIndex(now, w.createdDate)
  }

  /** The bucket of the resolution, -1 (no bucket) for an item never resolved. */
  function ResolvedWeek(now: int): WorkItem -> int
  {
    (w: WorkItem) => if ResolvedDate(w).Some? then WeekIndex(now, ResolvedDate(w).value) else -1
  }

  datatype TrendWeek = TrendWeek(weekStart: int, created: nat, resolved: nat)

  function TrendCreated(t: TrendWeek): nat { t.created }
  function TrendResolved(t: TrendWeek): nat { t.resolved }

  /** The trend chart's data over the RAID items, `now` being the clock. */
  function TrendChart(items: seq<WorkItem>, now: int): (r: seq<TrendWeek>)
    ensures |r| == WEEKS
    ensures forall i :: 0 <= i < |r| ==> r[i].weekStart == WindowStart(now) + 7 * i && (r[i].weekStart + 3) % 7 == 0
    ensures r[WEEKS - 1].weekStart <= Day(now) < r[WEEKS - 1].weekStart + 7
    ensures forall i :: 0 <= i < |r| ==>
              r[i].created == Count(RaidItems(items), Hits(CreatedWeek(now), i)) &&
              r[i].resolved == Count(RaidItems(items), Hits(ResolvedWeek(now), i))
  {
    var raid := RaidItems(items);
    var c := Histogram(raid, CreatedWeek(now), WEEKS);
    var s := Histogram(raid, ResolvedWeek(now), WEEKS);
    HistogramCounts(raid, CreatedWeek(now), WEEKS);
    HistogramCounts(raid, ResolvedWeek(now), WEEKS);
    WindowMondays(now);
    WeekRows(WindowStart(now), c, s)
  }

  /** One row per bucket, the `i`-th week starting `7 * i` days after `start`. */
  function WeekRows(start: int, created: seq<nat>, resolved: seq<nat>): (r: seq<TrendWeek>)
    requires |created| == |resolved|
    ensures |r| == |created|
    ensures forall i :: 0 <= i < |r| ==>
      r[i].weekStart == start + 7 * i && r[i].created == created[i] && r[i].resolved == resolved[i]
  {
    seq(|created|, i requires 0 <= i < |created| => TrendWeek(start + 7 * i, created[i], resolved[i]))
  }

  /** Every week of the window starts on a Monday, and the last one holds today. */
  lemma WindowMondays(now: int)
    ensures forall i :: 0 <= i < WEEKS ==> (WindowStart(now) + 7 * i + 3) % 7 == 0
    ensures WindowStart(now) + 7 * (WEEKS - 1) <= Day(now) < WindowStart(now) + 7 * (WEEKS - 1) + 7
  {
    var w := WindowStart(now);
    var m := (w + 3) / 7;
    assert w + 3 == 7 * m;
    forall i | 0 <= i < WEEKS ensures (w + 7 * i + 3) % 7 == 0 {
      assert w + 7 * i + 3 == 7 * (m + i);
    }
  }

  /** Each RAID item adds at most one to "created" and at most one to "resolved". */
  lemma TrendChartTotals(items: seq<WorkItem>, now: int)
    ensures SumNat(TrendChart(items, now), TrendCreated) <= |RaidItems(items)|
    ensures SumNat(TrendChart(items, now), TrendResolved) <= |RaidItems(items)|
  {
    var raid := RaidItems(items);
    var r := TrendChart(items, now);
    HistogramCounts(raid, CreatedWeek(now), WEEKS);
    HistogramCounts(raid, ResolvedWeek(now), WEEKS);
    HistogramSum(raid, CreatedWeek(now), WEEKS);
    HistogramSum(raid, ResolvedWeek(now), WEEKS);
    assert Map(r, TrendCreated) == Histogram(raid, CreatedWeek(now), WEEKS);
    assert Map(r, TrendResolved) == Histogram(raid, ResolvedWeek(now), WEEKS);
    SumNatOfCounts(r, TrendCreated);
    SumNatOfCounts(r, TrendResolved);
  }

  // ---------------------------------------------------------------------
  // Per-assignee, per-project and per-state counts
  // ---------------------------------------------------------------------

  const MAX_BARS: nat := 8
  const OTHER: string := "Other"
  const UNASSIGNED: string := "Unassigned"

  /** `wi.assignedTo?.displayName ?? 'Unassigned'`. */
  function AssigneeKey(w: WorkItem): string
  {
    if w.assignedTo.Some? then w.assignedTo.value.displayName else UNASSIGNED
  }

  /**
   * The assignee chart over the open RAID items: the sorted tally when it
   * has at most eight names, otherwise the seven largest and an "Other"
   * bar holding the rest.
   */
  function AssigneeChart(items: seq<WorkItem>): (r: seq<Entry<string>>)
    ensures |r| <= MAX_BARS
    ensures var sorted := TallyDesc(OpenRaid(items), AssigneeKey);
      if |sorted| <= MAX_BARS then r == sorted
      else |r| == MAX_BARS && r[..MAX_BARS - 1] == sorted[..MAX_BARS - 1] && r[MAX_BARS - 1].key == OTHER
    ensures SumNat(r, EntryCount) == |OpenRaid(items)|
  {
    var open := OpenRaid(items);
    var sorted := TallyDesc(open, AssigneeKey);
    AssigneeTotal(open);
    FoldRest(sorted, MAX_BARS - 1, OTHER)
  }

  lemma AssigneeTotal(open: seq<WorkItem>)
    ensures SumNat(TallyDesc(open, AssigneeKey), EntryCount) == |open|
  {
    TallyDescCounts(open, AssigneeKey);
  }

  /** `wi.projectName`. */
  function ProjectKey(w: WorkItem): string { w.projectName }

  /** The project chart: one bar per project of a RAID item, counts adding up to the RAID count, largest first. */
  function ProjectChart(items: seq<WorkItem>): (r: seq<Entry<string>>)
    ensures forall i, j :: 0 <= i < j < |r| ==> r[i].key != r[j].key
    ensures forall x :: x in items && Raid.IsRaidItem(x) ==> x.projectName in Keys(r)
    ensures forall i :: 0 <= i < |r| ==> r[i].count == Count(RaidItems(items), KeyIs(ProjectKey, r[i].key)) >= 1
    ensures SumNat(r, EntryCount) == |RaidItems(items)|
    ensures forall i, j :: 0 <= i < j < |r| ==> r[i].count >= r[j].count
  {
    var raid := RaidItems(items);
    TallyDescFacts(raid, ProjectKey);
    TallyDesc(raid, ProjectKey)
  }

  /** `wi.state`, for every item given (RAID or not). */
  function StateKey(w: WorkItem): State { w.state }

  /** The state chart: one bar per state present among all the items, counts adding up to their number, largest first. */
  function StateChart(items: seq<WorkItem>): (r: seq<Entry<State>>)
    ensures forall i, j :: 0 <= i < j < |r| ==> r[i].key != r[j].key
    ensures forall x :: x in items ==> x.state in Keys(r)
    ensures forall i :: 0 <= i < |r| ==> r[i].count == Count(items, KeyIs(StateKey, r[i].key)) >= 1
    ensures SumNat(r, EntryCount) == |items|
    ensures forall i, j :: 0 <= i < j < |r| ==> r[i].count >= r[j].count
  {
    TallyDescFacts(items, StateKey);
    TallyDesc(items, StateKey)
  }
}

=== FILE: raidmetrics.dfy ===
/**
 * The watch-list KPIs and distributions (src/hooks/useRaidMetrics.ts):
 * open issue/risk counts, high-priority count, mean age of open items,
 * the category distribution and the priority distribution.
 */
module RaidMetrics {
  import opened Common
  import opened WorkItems
  import opened Raid
  import opened Tally
  import RaidTable

  /** `OPEN_STATES`: New or Active. */
  predicate IsOpen(w: WorkItem)
  {
    w.state == New || w.state == Active
  }

  function Open(): WorkItem -> bool { (w: WorkItem) => IsOpen(w) }
  function IsRaid(): WorkItem -> bool { (w: WorkItem) => IsRaidItem(w) }

  function RaidItems(items: seq<WorkItem>): (r: seq<WorkItem>)
    ensures forall x :: x in r <==> x in items && IsRaidItem(x)
  {
    Filter(items, IsRaid())
  }

  function OpenRaid(items: seq<WorkItem>): (r: seq<WorkItem>)
    ensures forall x :: x in r <==> x in items && IsRaidItem(x) && IsOpen(x)
  {
    Filter(RaidItems(items), Open())
  }

  datatype Summary = Summary(
    openIssues: nat,
    openRisks: nat,
    highPriority: nat,
    avgAgeDays: int,
    totalRaidItems: nat)

  function HasCategory(c: RaidCategory): WorkItem -> bool
  {
    (w: WorkItem) => GetRaidCategory(w) == Some(c)
  }

  /** `wi.priority != null && wi.priority <= 2`. */
  function IsHighPriority(): WorkItem -> bool
  {
    (w: WorkItem) => w.priority.Some? && w.priority.value <= 2
  }

  /** The age in whole days of each item, at time `now`. */
  function Ages(items: seq<WorkItem>, now: int): (r: seq<int>)
    ensures |r| == |items|
    ensures forall i :: 0 <= i < |r| ==> r[i] == RaidTable.DaysSince(now, items[i].createdDate) >= 0
  {
    Map(items, (w: WorkItem) => RaidTable.DaysSince(now, w.createdDate) as int)
  }

  /** `useRaidMetrics`; `now` is the clock. */
  function ComputeRaidMetrics(items: seq<WorkItem>, now: int): (m: Summary)
    ensures m.totalRaidItems == |RaidItems(items)| <= |items|
    ensures m.openIssues == Count(OpenRaid(items), HasCategory(IssueCat))
    ensures m.openRisks == Count(OpenRaid(items), HasCategory(RiskCat))
    ensures m.highPriority == Count(OpenRaid(items), IsHighPriority())
    ensures m.openIssues + m.openRisks <= |OpenRaid(items)|
    ensures m.highPriority <= |OpenRaid(items)|
    ensures |OpenRaid(items)| == 0 ==> m.avgAgeDays == 0
    ensures |OpenRaid(items)| > 0 ==>
      var ages := Ages(OpenRaid(items), now);
      MinOf(ages) <= m.avgAgeDays <= MaxOf(ages)
    ensures var ages := Ages(OpenRaid(items), now);
      |ages| > 0 ==> SumInt(ages) as real / |ages| as real - 0.5 < m.avgAgeDays as real <= SumInt(ages) as real / |ages| as real + 0.5
  {
    var open := OpenRaid(items);
    CountDisjoint(open, HasCategory(IssueCat), HasCategory(RiskCat));
    RoundedMeanBounds(Ages(open, now));
    Summary(
      Count(open, HasCategory(IssueCat)),
      Count(open, HasCategory(RiskCat)),
      Count(open, IsHighPriority()),
      RoundedMean(Ages(open, now)),
      |RaidItems(items)|)
  }

  /** A count of the summary is non-zero exactly when some open RAID item is of that kind. */
  lemma RaidMetricsCounts(items: seq<WorkItem>, now: int)
    ensures var m := ComputeRaidMetrics(items, now);
      (m.openIssues >= 1 <==> exists x :: x in OpenRaid(items) && GetRaidCategory(x) == Some(IssueCat)) &&
      (m.openRisks >= 1 <==> exists x :: x in OpenRaid(items) && GetRaidCategory(x) == Some(RiskCat)) &&
      (m.highPriority >= 1 <==> exists x :: x in OpenRaid(items) && x.priority.Some? && x.priority.value <= 2)
  {
    var open := OpenRaid(items);
    CountPositiveIff(open, HasCategory(IssueCat));
    CountPositiveIff(open, HasCategory(RiskCat));
    CountPositiveIff(open, IsHighPriority());
  }

  /** A count is positive exactly when some element satisfies the predicate. */
  lemma CountPositiveIff(s: seq<WorkItem>, p: WorkItem -> bool)
    ensures Count(s, p) >= 1 <==> exists x :: x in s && p(x)
  {
    if exists x :: x in s && p(x) {
      var x :| x in s && p(x);
      var i :| 0 <= i < |s| && s[i] == x;
      assert x in Filter(s, p);
    }
    if Count(s, p) >= 1 {
      assert Filter(s, p)[0] in s;
    }
  }

  /** The category of a RAID item; the default never applies to the items it is used on. */
  function CategoryKey(w: WorkItem): RaidCategory
  {
    GetRaidCategory(w).GetOr(IssueCat)
  }

  /**
   * `useRaidTypeDistribution`: one entry per category present among the
   * RAID items, counts adding up to the RAID count, largest first.
   */
  function TypeDistribution(items: seq<WorkItem>): (r: seq<Entry<RaidCategory>>)
    ensures forall i, j :: 0 <= i < j < |r| ==> r[i].key != r[j].key
    ensures forall x :: x in items && IsRaidItem(x) ==> CategoryOf(x) in Keys(r)
    ensures forall i :: 0 <= i < |r| ==> r[i].count == Count(RaidItems(items), KeyIs(CategoryKey, r[i].key)) >= 1
    ensures SumNat(r, EntryCount) == |RaidItems(items)|
    ensures forall i, j :: 0 <= i < j < |r| ==> r[i].count >= r[j].count
  {
    var raid := RaidItems(items);
    TallyDescFacts(raid, CategoryKey);
    TallyDesc(raid, CategoryKey)
  }

  /** The fixed order of the priority chart; `None` is "Unset". */
  const PRIORITY_ORDER: seq<Option<int>> := [Some(1), Some(2), Some(3), Some(4), None]

  /** `P<n>` for a priority, "Unset" for none. */
  function PriorityLabel(p: Option<int>): string
  {
    if p.Some? then "P" + IntToString(p.value) else "Unset"
  }

  function HasPriority(p: Option<int>): WorkItem -> bool
  {
    (w: WorkItem) => w.priority == p
  }

  datatype PriorityEntry = PriorityEntry(priority: string, count: nat)

  /** `useRaidPriorityDistribution` before the labels are attached: the present priorities, in the fixed order. */
  function PresentPriorities(raid: seq<WorkItem>): (r: seq<Option<int>>)
    ensures forall p :: p in r <==> p in PRIORITY_ORDER && exists x :: x in raid && x.priority == p
  {
    var r := Filter(PRIORITY_ORDER, PresentTest(raid));
    forall p ensures p in r <==> p in PRIORITY_ORDER && exists x :: x in raid && x.priority == p {
      if p in PRIORITY_ORDER && exists x :: x in raid && x.priority == p {
        var x :| x in raid && x.priority == p;
        var i :| 0 <= i < |raid| && raid[i] == x;
        assert x in Filter(raid, HasPriority(p));
        var k :| 0 <= k < |PRIORITY_ORDER| && PRIORITY_ORDER[k] == p;
      }
      if p in r {
        assert Count(raid, HasPriority(p)) > 0;
        assert Filter(raid, HasPriority(p))[0] in raid;
      }
    }
    r
  }

  /**
   * `useRaidPriorityDistribution`: one bar per present priority, labelled
   * `P<n>` or "Unset", holding the number of RAID items with it (at least 1).
   */
  function PriorityDistribution(items: seq<WorkItem>): (r: seq<PriorityEntry>)
    ensures var present := PresentPriorities(RaidItems(items));
      |r| == |present| <= |PRIORITY_ORDER| &&
      forall i :: 0 <= i < |r| ==>
        r[i].priority == PriorityLabel(present[i]) &&
        r[i].count == Count(RaidItems(items), HasPriority(present[i])) >= 1
  {
    var raid := RaidItems(items);
    var present := PresentPriorities(raid);
    var r := Map(present, (p: Option<int>) => PriorityEntry(PriorityLabel(p), Count(raid, HasPriority(p))));
    assert forall i :: 0 <= i < |present| ==> Count(raid, HasPriority(present[i])) > 0 by {
      forall i | 0 <= i < |present| ensures Count(raid, HasPriority(present[i])) > 0 {
        assert PresentTest(raid)(present[i]);
      }
    }
    r
  }

  /** The test that keeps a priority on the chart. */
  function PresentTest(raid: seq<WorkItem>): Option<int> -> bool
  {
    (p: Option<int>) => Count(raid, HasPriority(p)) > 0
  }

  /** The bars follow the fixed order P1, P2, P3, P4, Unset. */
  lemma PriorityOrderKept(items: seq<WorkItem>)
    ensures IsSubseq(PresentPriorities(RaidItems(items)), PRIORITY_ORDER)
  {
    FilterIsSubseq(PRIORITY_ORDER, PresentTest(RaidItems(items)));
  }

  /** A priority outside 1..4 has no bar, however many RAID items carry it. */
  lemma OutOfScaleDropped(items: seq<WorkItem>, p: int)
    requires !(1 <= p <= 4)
    ensures Some(p) !in PresentPriorities(RaidItems(items))
  {
    assert Some(p) !in PRIORITY_ORDER;
  }

  /** The labels of the fixed order are P1, P2, P3, P4 and Unset. */
  lemma PriorityLabels()
    ensures Map(PRIORITY_ORDER, PriorityLabel) == ["P1", "P2", "P3", "P4", "Unset"]
  {
    var m := Map(PRIORITY_ORDER, PriorityLabel);
    assert m[0] == "P" + IntToString(1) == "P1";
    assert m[1] == "P" + IntToString(2) == "P2";
    assert m[2] == "P" + IntToString(3) == "P3";
    assert m[3] == "P" + IntToString(4) == "P4";
    assert m[4] == "Unset";
  }
}

=== FILE: raidtable.dfy ===
/**
 * The RAID watch-list table (src/components/watchlist/RaidTable.tsx): which
 * items become rows in the normal and the "impacted" view, their age in
 * days, the eight sort columns, and the parent row under an expanded item.
 */
module RaidTable {
  import opened Common
  import opened WorkItems
  import opened Tree
  import opened Raid
  import opened Paging

  /** `daysSince(created)` at the instant `now`: whole days elapsed, never negative. */
  function DaysSince(now: int, created: int): (r: nat)
    ensures now >= created ==> r * MS_PER_DAY <= now - created < (r + 1) * MS_PER_DAY
    ensures now < created ==> r == 0
  {
    Max(0, (now - created) / MS_PER_DAY)
  }

  /** An item created no later than another is at least as old. */
  lemma DaysSinceAntitone(now: int, c1: int, c2: int)
    requires c1 <= c2
    ensures DaysSince(now, c1) >= DaysSince(now, c2)
  {
  }

  datatype RaidRow = RaidRow(item: WorkItem, category: RaidCategory, age: nat)

  /** The filter state of the table: selected categories and states, and the impacted toggle. */
  datatype RaidView = RaidView(types: set<RaidCategory>, states: set<State>, impacted: bool)

  /** Every category, every state, normal view. */
  const INITIAL_VIEW: RaidView := RaidView((set c | c in ALL_RAID_CATEGORIES), ALL_STATES, false)

  /** The table opens sorted by created date, newest first. */
  const INITIAL_SORT: SortState<RaidColumn> := SortState(ByCreated, Desc, 0)

  /** A work item that is not itself RAID but is linked to an Issue or a Risk. */
  predicate Impacted(wi: WorkItem)
  {
    !IsRaidItem(wi) && (wi.hasLinkedIssue || wi.hasLinkedRisk)
  }

  /** Whether `wi` becomes a row under `view`. */
  predicate Shown(view: RaidView, wi: WorkItem)
  {
    if view.impacted then Impacted(wi)
    else
      GetRaidCategory(wi).Some? && GetRaidCategory(wi).value in view.types && wi.state in view.states
  }

  /** The row of a shown item: an impacted item is labelled by its link, Issue first. */
  function RowOf(view: RaidView, wi: WorkItem, now: int): (row: RaidRow)
    requires Shown(view, wi)
  {
    var cat := if view.impacted then (if wi.hasLinkedIssue then IssueCat else RiskCat)
               else GetRaidCategory(wi).value;
    RaidRow(wi, cat, DaysSince(now, wi.createdDate))
  }

  /** The `raidRows` memo. */
  function RaidRows(view: RaidView, items: seq<WorkItem>, now: int): (r: seq<RaidRow>)
    ensures |r| <= |items|
    ensures forall i :: 0 <= i < |r| ==> r[i].item in items && Shown(view, r[i].item)
    ensures forall i :: 0 <= i < |r| ==> r[i] == RowOf(view, r[i].item, now)
    ensures forall i :: 0 <= i < |items| && Shown(view, items[i]) ==> exists j :: 0 <= j < |r| && r[j].item == items[i]
  {
    if |items| == 0 then []
    else
      var init := items[..|items| - 1];
      var x := items[|items| - 1];
      var rest := RaidRows(view, init, now);
      assert forall i :: 0 <= i < |init| ==> init[i] == items[i];
      var r := rest + (if Shown(view, x) then [RowOf(view, x, now)] else []);
      assert forall j :: 0 <= j < |rest| ==> r[j] == rest[j];
      assert Shown(view, x) ==> r[|rest|].item == x;
      r
  }

  /** The shown test of a view, as the filter callback. */
  function ShownBy(view: RaidView): WorkItem -> bool
  {
    (wi: WorkItem) => Shown(view, wi)
  }

  /** The item a row was built from. */
  function ItemOfRow(): RaidRow -> WorkItem
  {
    (row: RaidRow) => row.item
  }

  /** The rows are the shown items in input order, one each: `filter` then `map`. */
  lemma {:induction false} RaidRowsAreShownItems(view: RaidView, items: seq<WorkItem>, now: int)
    ensures Map(RaidRows(view, items, now), ItemOfRow()) == Filter(items, ShownBy(view))
    decreases |items|
  {
    if |items| > 0 {
      var init := items[..|items| - 1];
      var x := items[|items| - 1];
      RaidRowsAreShownItems(view, init, now);
      var last := if Shown(view, x) then [RowOf(view, x, now)] else [];
      assert RaidRows(view, items, now) == RaidRows(view, init, now) + last;
      MapAppend(RaidRows(view, init, now), last, ItemOfRow());
    }
  }

  /** In the normal view a row's category is its item's RAID category, and both filters admit it. */
  lemma NormalRowFacts(view: RaidView, items: seq<WorkItem>, now: int)
    requires !view.impacted
    ensures forall row :: row in RaidRows(view, items, now) ==>
              GetRaidCategory(row.item) == Some(row.category) &&
              row.category in view.types && row.item.state in view.states
  {
    var r := RaidRows(view, items, now);
    forall row | row in r
      ensures GetRaidCategory(row.item) == Some(row.category)
    {
      var i :| 0 <= i < |r| && r[i] == row;
    }
  }

  /** In the impacted view no row is RAID, each has a link, and an Issue link wins over a Risk link. */
  lemma ImpactedRowFacts(view: RaidView, items: seq<WorkItem>, now: int)
    requires view.impacted
    ensures forall row :: row in RaidRows(view, items, now) ==>
              !IsRaidItem(row.item) &&
              (row.category == IssueCat <==> row.item.hasLinkedIssue) &&
              (row.category == RiskCat <==> !row.item.hasLinkedIssue && row.item.hasLinkedRisk)
  {
    var r := RaidRows(view, items, now);
    forall row | row in r
      ensures !IsRaidItem(row.item)
      ensures row.category == IssueCat <==> row.item.hasLinkedIssue
      ensures row.category == RiskCat <==> !row.item.hasLinkedIssue && row.item.hasLinkedRisk
    {
      var i :| 0 <= i < |r| && r[i] == row;
    }
  }

  /** With the initial filters the table lists exactly the RAID items. */
  lemma InitialViewShowsAllRaid(items: seq<WorkItem>, now: int)
    ensures forall i :: 0 <= i < |items| ==>
              (IsRaidItem(items[i]) <==> exists j :: 0 <= j < |RaidRows(INITIAL_VIEW, items, now)| &&
                                                    RaidRows(INITIAL_VIEW, items, now)[j].item == items[i])
  {
    var r := RaidRows(INITIAL_VIEW, items, now);
    forall i | 0 <= i < |items| && IsRaidItem(items[i])
      ensures Shown(INITIAL_VIEW, items[i])
    {
      AllCategoriesListed(GetRaidCategory(items[i]).value);
      var s := items[i].state;
      assert s in ALL_STATES by { assert s == New || s == Active || s == Resolved || s == Closed || s == Removed; }
    }
  }

  /** The two views never share a row item: a RAID item is never impacted. */
  lemma ViewsDisjoint(view: RaidView, items: seq<WorkItem>, now: int)
    ensures forall i, j :: 0 <= i < |RaidRows(view.(impacted := false), items, now)| &&
                           0 <= j < |RaidRows(view.(impacted := true), items, now)| ==>
              RaidRows(view.(impacted := false), items, now)[i].item != RaidRows(view.(impacted := true), items, now)[j].item
  {
  }

  // ---------------------------------------------------------------------
  // Sorting
  // ---------------------------------------------------------------------

  datatype RaidColumn = ById | ByTitle | ByState | ByCategory | ByPriority | ByAssignee | ByAge | ByCreated

  /** A missing priority sorts as 99, after every real priority. */
  const MISSING_PRIORITY: int := 99

  function RowId(row: RaidRow): int { row.item.id }
  function RowTitle(row: RaidRow): string { row.item.title }
  function RowState(row: RaidRow): string { StateName(row.item.state) }
  function RowCategory(row: RaidRow): string { CategoryName(row.category) }
  function RowPriority(row: RaidRow): int { row.item.priority.GetOr(MISSING_PRIORITY) }
  function RowAssignee(row: RaidRow): string { AssigneeName(row.item) }
  function RowAge(row: RaidRow): int { row.age }
  function RowCreated(row: RaidRow): int { row.item.createdDate }

  /** The `switch` of the row comparator, before the direction is applied. */
  function ColumnCompare(col: RaidColumn): (RaidRow, RaidRow) -> int
  {
    match col
    case ById => Ascending(RowId)
    case ByTitle => ByString(RowTitle)
    case ByState => ByString(RowState)
    case ByCategory => ByString(RowCategory)
    case ByPriority => Ascending(RowPriority)
    case ByAssignee => ByString(RowAssignee)
    case ByAge => Ascending(RowAge)
    case ByCreated => Ascending(RowCreated)
  }

  lemma ColumnCompareIsPreorder(col: RaidColumn)
    ensures TotalPreorder(ColumnCompare(col)) && SignSymmetric(ColumnCompare(col))
  {
    match col
    case ById => AscendingIsPreorder(RowId);
    case ByTitle => ByStringIsPreorder(RowTitle);
    case ByState => ByStringIsPreorder(RowState);
    case ByCategory => ByStringIsPreorder(RowCategory);
    case ByPriority => AscendingIsPreorder(RowPriority);
    case ByAssignee => ByStringIsPreorder(RowAssignee);
    case ByAge => AscendingIsPreorder(RowAge);
    case ByCreated => AscendingIsPreorder(RowCreated);
  }

  /** The `sortedRows` memo: a stable sort of the rows by the column in the direction. */
  function SortRows(rows: seq<RaidRow>, col: RaidColumn, dir: SortDir): (r: seq<RaidRow>)
    ensures multiset(r) == multiset(rows)
    ensures SortedBy(r, Directed(ColumnCompare(col), dir))
  {
    ColumnCompareIsPreorder(col);
    DirectedIsPreorder(ColumnCompare(col), dir);
    SortBy(rows, Directed(ColumnCompare(col), dir))
  }

  /** Sorting again by the same column and direction changes nothing. */
  lemma SortRowsIdempotent(rows: seq<RaidRow>, col: RaidColumn, dir: SortDir)
    ensures SortRows(SortRows(rows, col, dir), col, dir) == SortRows(rows, col, dir)
  {
    SortBySorted(SortRows(rows, col, dir), Directed(ColumnCompare(col), dir));
  }

  /** Rows with a priority come before rows without one when sorting ascending by a priority below 99. */
  lemma MissingPrioritySortsLast(rows: seq<RaidRow>, i: int, j: int)
    requires 0 <= i < |SortRows(rows, ByPriority, Asc)| && 0 <= j < |SortRows(rows, ByPriority, Asc)|
    requires SortRows(rows, ByPriority, Asc)[i].item.priority.None?
    requires SortRows(rows, ByPriority, Asc)[j].item.priority.Some?
    requires SortRows(rows, ByPriority, Asc)[j].item.priority.value < MISSING_PRIORITY
    ensures j < i
  {
    var r := SortRows(rows, ByPriority, Asc);
    assert Directed(ColumnCompare(ByPriority), Asc) == Ascending(RowPriority);
    assert RowPriority(r[j]) < RowPriority(r[i]);
  }

  /** In the default order (created date, descending) a newer item is never listed after an older one. */
  lemma InitialOrderNewestFirst(rows: seq<RaidRow>, i: int, j: int)
    requires 0 <= i < j < |SortRows(rows, INITIAL_SORT.key, INITIAL_SORT.dir)|
    ensures SortRows(rows, INITIAL_SORT.key, INITIAL_SORT.dir)[i].item.createdDate >=
            SortRows(rows, INITIAL_SORT.key, INITIAL_SORT.dir)[j].item.createdDate
  {
    var r := SortRows(rows, ByCreated, Desc);
    assert r == SortRows(rows, INITIAL_SORT.key, INITIAL_SORT.dir);
    assert Directed(ColumnCompare(ByCreated), Desc) == Negate(Ascending(RowCreated));
    assert SortedBy(r, Negate(Ascending(RowCreated)));
    assert Negate(Ascending(RowCreated))(r[i], r[j]) <= 0;
    assert Ascending(RowCreated)(r[i], r[j]) == RowCreated(r[i]) - RowCreated(r[j]);
  }

  /** Rows made at one instant are in ascending age order exactly when in descending creation order. */
  lemma AgeFollowsCreation(view: RaidView, items: seq<WorkItem>, now: int, i: int, j: int)
    requires 0 <= i < |RaidRows(view, items, now)| && 0 <= j < |RaidRows(view, items, now)|
    ensures var r := RaidRows(view, items, now);
      r[i].item.createdDate >= r[j].item.createdDate ==> r[i].age <= r[j].age
  {
    var r := RaidRows(view, items, now);
    assert r[i] == RowOf(view, r[i].item, now) && r[j] == RowOf(view, r[j].item, now);
    if r[i].item.createdDate >= r[j].item.createdDate {
      DaysSinceAntitone(now, r[j].item.createdDate, r[i].item.createdDate);
    }
  }

  // ---------------------------------------------------------------------
  // The parent row
  // ---------------------------------------------------------------------

  /**
   * The parent shown under an item: looked up only for a truthy parent id
   * (so a parent id of 0 never shows one), and only when the lookup built
   * from all work items has it.
   */
  function ParentOf(wi: WorkItem, lookup: map<int, WorkItem>): (r: Option<WorkItem>)
    ensures r.Some? <==> wi.parentId.Some? && wi.parentId.value != 0 && wi.parentId.value in lookup
    ensures r.Some? ==> r.value == lookup[wi.parentId.value]
  {
    if wi.parentId.Some? && wi.parentId.value != 0 && wi.parentId.value in lookup
    then Some(lookup[wi.parentId.value])
    else None
  }

  function HasId(id: int): WorkItem -> bool { (x: WorkItem) => x.id == id }

  /** `parentLookup`: for each id, the last of all work items carrying it. */
  lemma {:induction false} ParentLookupLastWins(all: seq<WorkItem>, id: int)
    ensures id in NodeItems(all) <==> LastWhere(all, HasId(id)).Some?
    ensures id in NodeItems(all) ==> NodeItems(all)[id] == all[LastWhere(all, HasId(id)).value]
    decreases |all|
  {
    if |all| > 0 {
      var init := all[..|all| - 1];
      ParentLookupLastWins(init, id);
      if all[|all| - 1].id != id {
        assert forall i :: 0 <= i < |init| ==> init[i] == all[i];
        if LastWhere(init, HasId(id)).Some? {
          LastWhereUnique(all, HasId(id), LastWhere(init, HasId(id)).value);
        }
      }
    }
  }

  /** The parent detail row appears exactly for an expanded item whose parent was found. */
  predicate ParentRowShown(row: RaidRow, expanded: set<int>, lookup: map<int, WorkItem>)
  {
    row.item.id in expanded && ParentOf(row.item, lookup).Some?
  }

  /** Expanding an item then collapsing it hides its parent row again; nothing else's changes. */
  lemma ToggleParentRow(row: RaidRow, other: RaidRow, expanded: set<int>, lookup: map<int, WorkItem>)
    requires other.item.id != row.item.id
    ensures ParentRowShown(row, Toggle(expanded, row.item.id), lookup) <==>
              !(row.item.id in expanded) && ParentOf(row.item, lookup).Some?
    ensures ParentRowShown(other, Toggle(expanded, row.item.id), lookup) == ParentRowShown(other, expanded, lookup)
  {
  }
}

=== FILE: report.dfy ===
/**
 * The one-page project report (src/hooks/useProjectReport.ts): progress by
 * story points, a traffic-light status, the end date, the last change, the
 * active features as milestones, the open issues and risks as a watch
 * list, and the wiki page's managers and texts.
 *
 * Dates are timestamps in milliseconds; the report shows them as calendar
 * days (`format(…, 'yyyy-MM-dd')`), modelled as day numbers.
 */
module ProjectReport {
  import opened Common
  import opened WorkItems
  import Wiki

  datatype Status = Green | Yellow | Red

  datatype MilestoneRow = MilestoneRow(id: int, name: string, state: State, targetDay: Option<int>)

  datatype WatchRow = WatchRow(id: int, kind: ItemType, title: string, owner: string)

  datatype Report = Report(
    projectName: string,
    progressPercent: int,
    overallStatus: Status,
    endDay: Option<int>,
    lastModifiedDay: Option<int>,
    totalStoryPoints: real,
    milestones: seq<MilestoneRow>,
    watchList: seq<WatchRow>,
    programManager: Option<string>,
    projectManager: Option<string>,
    accomplishments: Option<string>,
    lookAhead: Option<string>,
    description: Option<string>,
    wikiFields: map<string, string>)

  const PROGRAM_MANAGER: string := "Program Manager"
  const PROJECT_MANAGER: string := "Project Manager"
  const UNASSIGNED: string := "Unassigned"

  /** `record[key] ?? null`. */
  function Lookup(m: map<string, string>, k: string): (r: Option<string>)
    ensures r.Some? <==> k in m
    ensures r.Some? ==> r.value == m[k]
  {
    if k in m then Some(m[k]) else None
  }

  function InProject(name: string): WorkItem -> bool
  {
    (w: WorkItem) => w.projectName == name
  }

  function ProjectItems(items: seq<WorkItem>, name: string): (r: seq<WorkItem>)
    ensures forall x :: x in r <==> x in items && x.projectName == name
  {
    Filter(items, InProject(name))
  }

  // ---------------------------------------------------------------------
  // Progress and status.

  function IsStory(): WorkItem -> bool { (w: WorkItem) => w.workItemType == UserStory }
  function IsDone(): WorkItem -> bool { (w: WorkItem) => IsCompleted(w) }

  /**
   * Completed user-story points over all user-story points, as a rounded
   * percentage; 0 when there are no points.
   */
  function Progress(items: seq<WorkItem>): (r: int)
    ensures SumReal(Filter(items, IsStory()), Points) <= 0.0 ==> r == 0
    ensures NonNegativePoints(items) ==> 0 <= r <= 100
    ensures var stories := Filter(items, IsStory());
      var total := SumReal(stories, Points);
      var done := SumReal(Filter(stories, IsDone()), Points);
      total > 0.0 ==> done / total * 100.0 - 0.5 < r as real <= done / total * 100.0 + 0.5
  {
    var stories := Filter(items, IsStory());
    var total := SumReal(stories, Points);
    var done := SumReal(Filter(stories, IsDone()), Points);
    if total > 0.0 then
      ProgressBounds(items, stories, total, done);
      Round(done / total * 100.0)
    else 0
  }

  lemma ProgressBounds(items: seq<WorkItem>, stories: seq<WorkItem>, total: real, done: real)
    requires stories == Filter(items, IsStory())
    requires total == SumReal(stories, Points) > 0.0
    requires done == SumReal(Filter(stories, IsDone()), Points)
    ensures NonNegativePoints(items) ==> 0 <= Round(done / total * 100.0) <= 100
  {
    if NonNegativePoints(items) {
      assert forall i :: 0 <= i < |stories| ==> Points(stories[i]) >= 0.0 by {
        forall i | 0 <= i < |stories| ensures Points(stories[i]) >= 0.0 {
          var j :| 0 <= j < |items| && items[j] == stories[i];
        }
      }
      SumRealFilterLe(stories, IsDone(), Points);
      RatioPercent(done, total);
      RoundMonotone(0.0, done / total * 100.0);
      RoundMonotone(done / total * 100.0, 100.0);
      RoundInt(0);
      RoundInt(100);
    }
  }

  /** A part of a positive whole is between 0 and 100 percent of it. */
  lemma RatioPercent(part: real, whole: real)
    requires 0.0 <= part <= whole && whole > 0.0
    ensures 0.0 <= part / whole * 100.0 <= 100.0
  {
    var q := part / whole;
    assert q * whole == part;
  }

  lemma WholeIsHundred(whole: real)
    requires whole > 0.0
    ensures whole / whole * 100.0 == 100.0
  {
  }

  /** When every user story with points is completed, progress is 100 %. */
  lemma AllDoneIsComplete(items: seq<WorkItem>)
    requires SumReal(Filter(items, IsStory()), Points) > 0.0
    requires forall x :: x in items && x.workItemType == UserStory ==> IsCompleted(x)
    ensures Progress(items) == 100
  {
    var stories := Filter(items, IsStory());
    assert forall i :: 0 <= i < |stories| ==> IsDone()(stories[i]) by {
      forall i | 0 <= i < |stories| ensures IsCompleted(stories[i]) {
        assert stories[i] in items && stories[i].workItemType == UserStory;
      }
    }
    FilterKeepsAll(stories, IsDone());
    var total := SumReal(stories, Points);
    WholeIsHundred(total);
    RoundInt(100);
  }

  /** Green from 75 %, yellow from 50 %, red below. */
  function StatusOf(progress: int): Status
  {
    if progress >= 75 then Green else if progress >= 50 then Yellow else Red
  }

  function StatusRank(s: Status): nat
  {
    match s
    case Red => 0
    case Yellow => 1
    case Green => 2
  }

  /** More progress never gives a worse status, and the thresholds are 50 and 75. */
  lemma StatusMonotone(p: int, q: int)
    requires p <= q
    ensures StatusRank(StatusOf(p)) <= StatusRank(StatusOf(q))
    ensures StatusOf(p) == Green <==> p >= 75
    ensures StatusOf(p) == Red <==> p < 50
  {
  }

  // ---------------------------------------------------------------------
  // Dates.

  function Id(t: int): int { t }

  /** The target dates that are set, in item order. */
  function Targets(items: seq<WorkItem>): (r: seq<int>)
    ensures forall t :: t in r <==> exists x :: x in items && x.targetDate == Some(t)
  {
    if |items| == 0 then []
    else
      var pre := items[..|items| - 1];
      var last := items[|items| - 1];
      assert items == pre + [last];
      Targets(pre) + (if last.targetDate.Some? then [last.targetDate.value] else [])
  }

  /** The last of the sorted target dates. */
  function LatestTarget(items: seq<WorkItem>): Option<int>
  {
    var ts := Targets(items);
    if |ts| > 0 then
      var sorted := SortBy(ts, Ascending(Id));
      Some(sorted[|sorted| - 1])
    else None
  }

  /** The latest target is the largest target date of an item, and there is one exactly when some item has a target. */
  lemma LatestTargetIsMax(items: seq<WorkItem>)
    ensures LatestTarget(items).Some? <==> exists x :: x in items && x.targetDate.Some?
    ensures LatestTarget(items).Some? ==>
      (exists x :: x in items && x.targetDate == LatestTarget(items)) &&
      forall x :: x in items && x.targetDate.Some? ==> x.targetDate.value <= LatestTarget(items).value
  {
    var ts := Targets(items);
    if exists x :: x in items && x.targetDate.Some? {
      var x :| x in items && x.targetDate.Some?;
      assert x.targetDate.value in ts;
    }
    if |ts| > 0 {
      SortedLastIsMax(ts, Id);
    }
  }

  function FinishOf(s: Sprint): int { s.finishDate.GetOr(0) }

  function FinishedIn(name: string): Sprint -> bool
  {
    (s: Sprint) => s.projectName == name && s.finishDate.Some?
  }

  /** The first of the project's sprints with a finish date, sorted latest finish first. */
  function LatestFinish(sprints: seq<Sprint>, name: string): Option<int>
  {
    var ps := SortBy(Filter(sprints, FinishedIn(name)), Descending(FinishOf));
    if |ps| > 0 then Some(FinishOf(ps[0])) else None
  }

  /** The fallback end is the latest finish date among the project's sprints. */
  lemma LatestFinishIsMax(sprints: seq<Sprint>, name: string)
    ensures LatestFinish(sprints, name).Some? <==>
      exists s :: s in sprints && s.projectName == name && s.finishDate.Some?
    ensures LatestFinish(sprints, name).Some? ==>
      (exists s :: s in sprints && s.projectName == name && s.finishDate == LatestFinish(sprints, name)) &&
      forall s :: s in sprints && s.projectName == name && s.finishDate.Some? ==>
        s.finishDate.value <= LatestFinish(sprints, name).value
  {
    var f := Filter(sprints, FinishedIn(name));
    if exists s :: s in sprints && s.projectName == name && s.finishDate.Some? {
      var s :| s in sprints && s.projectName == name && s.finishDate.Some?;
      var i :| 0 <= i < |sprints| && sprints[i] == s;
      assert s in f;
    }
    if |f| > 0 {
      SortedFirstIsMax(f, FinishOf);
      forall s | s in sprints && s.projectName == name && s.finishDate.Some?
        ensures s in f
      {
        var i :| 0 <= i < |sprints| && sprints[i] == s;
      }
    }
  }

  /** The end date: the latest target date; only without any, the latest sprint finish. */
  function EndDay(items: seq<WorkItem>, sprints: seq<Sprint>, name: string): Option<int>
  {
    match LatestTarget(items)
    case Some(t) => Some(Day(t))
    case None =>
      match LatestFinish(sprints, name)
      case Some(f) => Some(Day(f))
      case None => None
  }

  function Changed(w: WorkItem): int { w.changedDate }

  /** The first of the change dates sorted newest first. */
  function LastChanged(items: seq<WorkItem>): (r: Option<int>)
    ensures r.Some? <==> |items| > 0
    ensures r.Some? ==> r.value in Map(items, Changed) && forall x :: x in items ==> x.changedDate <= r.value
  {
    var changed := Map(items, Changed);
    if |changed| > 0 then
      var sorted := SortBy(changed, Descending(Id));
      SortedFirstIsMax(changed, Id);
      assert forall x :: x in items ==> x.changedDate in changed by {
        forall x | x in items ensures x.changedDate in changed {
          var i :| 0 <= i < |items| && items[i] == x;
          assert changed[i] == x.changedDate;
        }
      }
      Some(sorted[0])
    else None
  }

  // ---------------------------------------------------------------------
  // Milestones and watch list.

  predicate IsMilestone(w: WorkItem)
  {
    w.workItemType == Feature && w.state == Active
  }

  function Milestone(): WorkItem -> bool { (w: WorkItem) => IsMilestone(w) }

  function ToMilestone(w: WorkItem): MilestoneRow
  {
    MilestoneRow(w.id, w.title, w.state, if w.targetDate.Some? then Some(Day(w.targetDate.value)) else None)
  }

  /** Dated rows first, by date (`localeCompare` of ISO dates); undated rows tie. */
  function ByTargetDay(): (MilestoneRow, MilestoneRow) -> int
  {
    (a: MilestoneRow, b: MilestoneRow) =>
      if a.targetDay.Some? && b.targetDay.Some? then a.targetDay.value - b.targetDay.value
      else if a.targetDay.Some? then -1
      else if b.targetDay.Some? then 1
      else 0
  }

  lemma ByTargetDayIsPreorder()
    ensures TotalPreorder(ByTargetDay())
  {
    var c := ByTargetDay();
    forall a, b, d | c(a, b) <= 0 && c(b, d) <= 0 ensures c(a, d) <= 0 {
      if a.targetDay.None? {
        assert b.targetDay.None?;
      }
    }
  }

  /**
   * The active features, with every dated row before every undated one and
   * the dated rows in date order.
   */
  function Milestones(items: seq<WorkItem>): (r: seq<MilestoneRow>)
    ensures multiset(r) == multiset(Map(Filter(items, Milestone()), ToMilestone))
    ensures forall i, j :: 0 <= i < j < |r| && r[j].targetDay.Some? ==>
      r[i].targetDay.Some? && r[i].targetDay.value <= r[j].targetDay.value
  {
    ByTargetDayIsPreorder();
    var r := SortBy(Map(Filter(items, Milestone()), ToMilestone), ByTargetDay());
    forall i, j | 0 <= i < j < |r| && r[j].targetDay.Some?
      ensures r[i].targetDay.Some? && r[i].targetDay.value <= r[j].targetDay.value
    {
      assert ByTargetDay()(r[i], r[j]) <= 0;
    }
    r
  }

  /** A milestone row is listed for exactly the active features. */
  lemma MilestoneMembers(items: seq<WorkItem>)
    ensures forall x :: x in items && IsMilestone(x) ==> ToMilestone(x) in Milestones(items)
    ensures forall m :: m in Milestones(items) ==> exists x :: x in items && IsMilestone(x) && m == ToMilestone(x)
  {
    var f := Filter(items, Milestone());
    var t := Map(f, ToMilestone);
    var r := Milestones(items);
    forall x | x in items && IsMilestone(x) ensures ToMilestone(x) in r {
      var i :| 0 <= i < |items| && items[i] == x;
      var k :| 0 <= k < |f| && f[k] == x;
      assert t[k] in multiset(r);
    }
    forall m | m in r ensures exists x :: x in items && IsMilestone(x) && m == ToMilestone(x) {
      assert m in multiset(t);
      var k :| 0 <= k < |t| && t[k] == m;
      assert f[k] in items;
    }
  }

  /** An issue or risk that is neither closed nor removed. */
  predicate OnWatch(w: WorkItem)
  {
    (w.workItemType == Issue || w.workItemType == Risk) && w.state != Closed && w.state != Removed
  }

  function Watched(): WorkItem -> bool { (w: WorkItem) => OnWatch(w) }

  function ToWatchRow(w: WorkItem): WatchRow
  {
    WatchRow(w.id, w.workItemType, w.title,
      if w.assignedTo.Some? then w.assignedTo.value.displayName else UNASSIGNED)
  }

  /** The watch list, in item order: open issues and risks with their owner, "Unassigned" for none. */
  function WatchList(items: seq<WorkItem>): (r: seq<WatchRow>)
    ensures |r| <= |items|
    ensures forall i :: 0 <= i < |r| ==> r[i].kind == Issue || r[i].kind == Risk
  {
    var f := Filter(items, Watched());
    assert forall i :: 0 <= i < |f| ==> OnWatch(f[i]);
    Map(f, ToWatchRow)
  }

  /** Every open issue and risk has its row on the watch list. */
  lemma WatchListComplete(items: seq<WorkItem>)
    ensures forall x :: x in items && OnWatch(x) ==> ToWatchRow(x) in WatchList(items)
  {
    var f := Filter(items, Watched());
    var r := WatchList(items);
    assert r == Map(f, ToWatchRow);
    forall x | x in items && OnWatch(x) ensures ToWatchRow(x) in r {
      var i :| 0 <= i < |items| && items[i] == x;
      assert Watched()(items[i]);
      var k :| 0 <= k < |f| && f[k] == x;
      assert r[k] == ToWatchRow(x);
    }
  }

  /**
   * The watch list keeps item order: the list of a concatenation is the
   * lists of its parts in turn, and one item gives its own row exactly when
   * it is an open issue or risk.
   */
  lemma WatchListAppend(a: seq<WorkItem>, b: seq<WorkItem>)
    ensures WatchList(a + b) == WatchList(a) + WatchList(b)
  {
    FilterAppend(a, b, Watched());
    MapAppend(Filter(a, Watched()), Filter(b, Watched()), ToWatchRow);
  }

  lemma WatchListSingle(x: WorkItem)
    ensures WatchList([x]) == if OnWatch(x) then [ToWatchRow(x)] else []
  {
    assert [x][..0] == [];
  }

  /** The row is that of an open issue or risk among the items. */
  ghost predicate WatchRowOf(items: seq<WorkItem>, row: WatchRow)
  {
    exists x :: x in items && OnWatch(x) && row == ToWatchRow(x)
  }

  /** Every row of the watch list is that of an open issue or risk. */
  lemma WatchListSound(items: seq<WorkItem>)
    ensures forall i :: 0 <= i < |WatchList(items)| ==> WatchRowOf(items, WatchList(items)[i])
  {
    var f := Filter(items, Watched());
    var r := WatchList(items);
    assert r == Map(f, ToWatchRow);
    forall i | 0 <= i < |r| ensures WatchRowOf(items, r[i]) {
      var x := f[i];
      assert Watched()(x);
      assert x in items && OnWatch(x) && r[i] == ToWatchRow(x);
    }
  }

  // ---------------------------------------------------------------------
  // The report.

  /**
   * `useProjectReport`: nothing without a project name; for a project with
   * no items, the wiki parts over a zero, red, empty report; otherwise the
   * figures above over the project's items.
   */
  function ComputeReport(workItems: seq<WorkItem>, sprints: seq<Sprint>, projectName: Option<string>,
                         wiki: Option<Wiki.WikiData>): (r: Option<Report>)
    ensures r.None? <==> projectName.None? || projectName.value == ""
    ensures r.Some? ==>
      var name := projectName.value;
      var fields := if wiki.Some? then wiki.value.fields else map[];
      r.value.projectName == name &&
      r.value.wikiFields == fields &&
      r.value.programManager == Lookup(fields, PROGRAM_MANAGER) &&
      r.value.projectManager == Lookup(fields, PROJECT_MANAGER) &&
      (wiki.None? ==> r.value.accomplishments.None? && r.value.lookAhead.None? && r.value.description.None?) &&
      (wiki.Some? ==> r.value.accomplishments == wiki.value.accomplishments &&
                      r.value.lookAhead == wiki.value.lookAhead &&
                      r.value.description == wiki.value.description)
    ensures r.Some? && |ProjectItems(workItems, projectName.value)| == 0 ==>
      r.value.progressPercent == 0 && r.value.overallStatus == Red &&
      r.value.endDay.None? && r.value.lastModifiedDay.None? &&
      r.value.totalStoryPoints == 0.0 && r.value.milestones == [] && r.value.watchList == []
    ensures r.Some? && |ProjectItems(workItems, projectName.value)| > 0 ==>
      var items := ProjectItems(workItems, projectName.value);
      r.value.progressPercent == Progress(items) &&
      r.value.overallStatus == StatusOf(r.value.progressPercent) &&
      r.value.endDay == EndDay(items, sprints, projectName.value) &&
      r.value.lastModifiedDay.Some? && r.value.lastModifiedDay.value == Day(LastChanged(items).value) &&
      r.value.totalStoryPoints == SumReal(items, Points) &&
      r.value.milestones == Milestones(items) &&
      r.value.watchList == WatchList(items)
  {
    if projectName.None? || projectName.value == "" then None
    else
      var name := projectName.value;
      var fields := if wiki.Some? then wiki.value.fields else map[];
      var programManager := Lookup(fields, PROGRAM_MANAGER);
      var projectManager := Lookup(fields, PROJECT_MANAGER);
      var accomplishments := if wiki.Some? then wiki.value.accomplishments else None;
      var lookAhead := if wiki.Some? then wiki.value.lookAhead else None;
      var description := if wiki.Some? then wiki.value.description else None;
      var items := ProjectItems(workItems, name);
      if |items| == 0 then
        Some(Report(name, 0, Red, None, None, 0.0, [], [], programManager, projectManager,
                    accomplishments, lookAhead, description, fields))
      else
        var progress := Progress(items);
        var last := LastChanged(items);
        Some(Report(name, progress, StatusOf(progress), EndDay(items, sprints, name),
                    Some(Day(last.value)), SumReal(items, Points), Milestones(items), WatchList(items),
                    programManager, projectManager, accomplishments, lookAhead, description, fields))
  }

  /**
   * The sprint fallback for the end date applies only when no item has a
   * target date, and a project without items shows no end date whatever its
   * sprints say.
   */
  lemma EndDayFallback(items: seq<WorkItem>, sprints: seq<Sprint>, name: string)
    ensures (exists x :: x in items && x.targetDate.Some?) ==>
      EndDay(items, sprints, name).Some? &&
      forall x :: x in items && x.targetDate.Some? ==> Day(x.targetDate.value) <= EndDay(items, sprints, name).value
    ensures (forall x :: x in items ==> x.targetDate.None?) ==>
      (EndDay(items, sprints, name).Some? <==> exists s :: s in sprints && s.projectName == name && s.finishDate.Some?)
  {
    LatestTargetIsMax(items);
    LatestFinishIsMax(sprints, name);
    if LatestTarget(items).Some? {
      var t := LatestTarget(items).value;
      forall x | x in items && x.targetDate.Some? ensures Day(x.targetDate.value) <= Day(t) {
        DayMonotone(x.targetDate.value, t);
      }
    }
  }
}

=== FILE: selection.dfy ===
/**
 * Project/area selections (src/lib/selectionHelpers.ts). A selection
 * entry is either a whole project name ("Project") or an area-specific
 * entry ("Project\Area"), split at the first backslash.
 */
module Selection {
  import opened Common
  import opened WorkItems

  const SEP: char := '\\'

  /** `getProjectNameFromSelection`: the text before the first '\', or the whole entry. */
  function ProjectOf(entry: string): (r: string)
    ensures SEP !in r
    ensures SEP !in entry ==> r == entry
  {
    match IndexOfChar(entry, SEP)
    case None => entry
    case Some(i) => entry[..i]
  }

  /** `getAreaNameFromSelection`: the text after the first '\', or null for a whole-project entry. */
  function AreaNameOf(entry: string): (r: Option<string>)
    ensures r.None? <==> SEP !in entry
  {
    match IndexOfChar(entry, SEP)
    case None => None
    case Some(i) => Some(entry[i + 1..])
  }

  predicate IsAreaEntry(entry: string)
  {
    SEP in entry
  }

  /** Project name, separator and area name rebuild an area entry. */
  lemma SelectionRoundTrip(entry: string)
    ensures AreaNameOf(entry).Some? ==> ProjectOf(entry) + [SEP] + AreaNameOf(entry).value == entry
  {
    match IndexOfChar(entry, SEP)
    case None =>
    case Some(i) => assert entry == entry[..i] + [SEP] + entry[i + 1..];
  }

  /** Conversely an entry built from a project name without '\' splits back into its parts. */
  lemma SelectionSplitsBack(project: string, area: string)
    requires SEP !in project
    ensures ProjectOf(project + [SEP] + area) == project
    ensures AreaNameOf(project + [SEP] + area) == Some(area)
  {
    var e := project + [SEP] + area;
    assert e[|project|] == SEP;
    assert e[..|project|] == project;
    assert e[|project| + 1..] == area;
  }

  /** The result of `parseSelections`: fetch targets and per-project area filters (insertion ordered). */
  datatype Parsed = Parsed(projectNames: seq<string>, areaFilters: seq<Group<string, string>>)

  /** The state of the loop in `parseSelections`. */
  datatype ParseState = ParseState(projects: seq<string>, whole: set<string>, areas: seq<Group<string, string>>)

  function AddUnique(s: seq<string>, x: string): seq<string>
  {
    if x in s then s else s + [x]
  }

  function ParseLoop(sel: seq<string>): (st: ParseState)
    ensures NoDup(GroupKeys(st.areas))
  {
    if |sel| == 0 then ParseState([], {}, [])
    else
      var st := ParseLoop(sel[..|sel| - 1]);
      var e := sel[|sel| - 1];
      if !IsAreaEntry(e) then
        ParseState(AddUnique(st.projects, e), st.whole + {e}, st.areas)
      else
        var p := ProjectOf(e);
        ParseState(AddUnique(st.projects, p), st.whole, AddToGroup(st.areas, p, e))
  }

  function NotIn(whole: set<string>): Group<string, string> -> bool
  {
    (g: Group<string, string>) => g.key !in whole
  }

  /** `parseSelections`: area filters of projects that are also selected whole are dropped. */
  function ParseSelections(sel: seq<string>): Parsed
  {
    var st := ParseLoop(sel);
    Parsed(st.projects, Filter(st.areas, NotIn(st.whole)))
  }

  /** `getProjectsToFetch`: distinct project names in first-occurrence order. */
  function GetProjectsToFetch(sel: seq<string>): (r: seq<string>)
    ensures NoDup(r)
    ensures forall i :: 0 <= i < |sel| ==> ProjectOf(sel[i]) in r
    ensures forall i :: 0 <= i < |r| ==> exists k :: 0 <= k < |sel| && ProjectOf(sel[k]) == r[i]
  {
    var r := Dedup(Map(sel, ProjectOf));
    forall i | 0 <= i < |r|
      ensures exists k :: 0 <= k < |sel| && ProjectOf(sel[k]) == r[i]
    {
      var k :| 0 <= k < |sel| && Map(sel, ProjectOf)[k] == r[i];
    }
    r
  }

  function AreaEntriesOf(p: string): string -> bool
  {
    e => IsAreaEntry(e) && ProjectOf(e) == p
  }

  lemma {:induction false} ParseLoopProjects(sel: seq<string>)
    ensures ParseLoop(sel).projects == Dedup(Map(sel, ProjectOf))
    decreases |sel|
  {
    if |sel| > 0 {
      var s' := sel[..|sel| - 1];
      ParseLoopProjects(s');
      assert Map(sel, ProjectOf)[..|sel| - 1] == Map(s', ProjectOf);
    }
  }

  lemma {:induction false} ParseLoopAreas(sel: seq<string>)
    ensures ParseLoop(sel).areas == GroupBy(Filter(sel, IsAreaEntry), ProjectOf)
    decreases |sel|
  {
    if |sel| > 0 {
      var s' := sel[..|sel| - 1];
      var e := sel[|sel| - 1];
      ParseLoopAreas(s');
      var f' := Filter(s', IsAreaEntry);
      var f := Filter(sel, IsAreaEntry);
      if IsAreaEntry(e) {
        assert f == f' + [e];
        assert f[..|f| - 1] == f' && f[|f| - 1] == e;
        assert GroupBy(f, ProjectOf) == AddToGroup(GroupBy(f', ProjectOf), ProjectOf(e), e);
      } else {
        assert f == f';
      }
    }
  }

  lemma {:induction false} ParseLoopWhole(sel: seq<string>)
    ensures forall w :: w in ParseLoop(sel).whole <==> w in sel && !IsAreaEntry(w)
    decreases |sel|
  {
    if |sel| > 0 {
      var s' := sel[..|sel| - 1];
      ParseLoopWhole(s');
      assert sel == s' + [sel[|sel| - 1]];
    }
  }

  /** Both functions compute the same project list. */
  lemma ProjectsToFetchAgree(sel: seq<string>)
    ensures GetProjectsToFetch(sel) == ParseSelections(sel).projectNames
  {
    ParseLoopProjects(sel);
  }

  /**
   * The area filters: keys are distinct projects that are listed among the
   * project names and have no whole-project entry; each value is the full
   * list of that project's area entries in input order.
   */
  lemma AreaFiltersCharacterized(sel: seq<string>)
    ensures var r := ParseSelections(sel);
      NoDup(GroupKeys(r.areaFilters)) &&
      (forall i :: 0 <= i < |r.areaFilters| ==> r.areaFilters[i].key !in sel) &&
      (forall i :: 0 <= i < |r.areaFilters| ==> r.areaFilters[i].key in r.projectNames) &&
      (forall i :: 0 <= i < |r.areaFilters| ==>
         r.areaFilters[i].members == Filter(sel, AreaEntriesOf(r.areaFilters[i].key)))
  {
    ParseLoopProjects(sel);
    ParseLoopAreas(sel);
    ParseLoopWhole(sel);
    var st := ParseLoop(sel);
    var g := st.areas;
    var r := ParseSelections(sel);
    var area := Filter(sel, IsAreaEntry);
    GroupByCharacterized(area, ProjectOf);
    FilterSubseqKeys(g, NotIn(st.whole));
    forall i | 0 <= i < |r.areaFilters|
      ensures r.areaFilters[i].key !in sel
      ensures r.areaFilters[i].key in r.projectNames
      ensures r.areaFilters[i].members == Filter(sel, AreaEntriesOf(r.areaFilters[i].key))
    {
      var gi := r.areaFilters[i];
      assert gi in g;
      var p :| 0 <= p < |g| && g[p] == gi;
      assert GroupKeys(g)[p] == gi.key;
      var k :| 0 <= k < |area| && ProjectOf(area[k]) == gi.key by {
        assert gi.key in Dedup(Map(area, ProjectOf));
        var k :| 0 <= k < |area| && Map(area, ProjectOf)[k] == gi.key;
      }
      assert area[k] in sel;
      var k2 :| 0 <= k2 < |sel| && sel[k2] == area[k];
      assert Map(sel, ProjectOf)[k2] == gi.key;
      FilterFilter(sel, IsAreaEntry, KeyIs(ProjectOf, gi.key), AreaEntriesOf(gi.key));
    }
  }

  /**
   * Conversely, every area entry whose project is not also selected whole
   * is filed: its project has an area filter, and the entry is in it.
   */
  lemma AreaFiltersComplete(sel: seq<string>)
    ensures var r := ParseSelections(sel);
      forall e :: e in sel && IsAreaEntry(e) && ProjectOf(e) !in sel ==>
        ProjectOf(e) in GroupKeys(r.areaFilters) && e in Lookup(r.areaFilters, ProjectOf(e)).value
  {
    var r := ParseSelections(sel);
    forall e | e in sel && IsAreaEntry(e) && ProjectOf(e) !in sel
      ensures ProjectOf(e) in GroupKeys(r.areaFilters) && e in Lookup(r.areaFilters, ProjectOf(e)).value
    {
      AreaEntryFiled(sel, e);
      AreaFiltersCharacterized(sel);
      var i :| 0 <= i < |r.areaFilters| && r.areaFilters[i].key == ProjectOf(e) &&
               r.areaFilters[i].members == Lookup(r.areaFilters, ProjectOf(e)).value;
      var k :| 0 <= k < |sel| && sel[k] == e;
      assert AreaEntriesOf(ProjectOf(e))(sel[k]);
    }
  }

  /** An area entry whose project is not selected whole has a group among the area filters. */
  lemma AreaEntryFiled(sel: seq<string>, e: string)
    requires e in sel && IsAreaEntry(e) && ProjectOf(e) !in sel
    ensures ProjectOf(e) in GroupKeys(ParseSelections(sel).areaFilters)
  {
    ParseLoopAreas(sel);
    ParseLoopWhole(sel);
    var st := ParseLoop(sel);
    var g := st.areas;
    var area := Filter(sel, IsAreaEntry);
    GroupByCharacterized(area, ProjectOf);
    var k :| 0 <= k < |sel| && sel[k] == e;
    assert e in area;
    var j :| 0 <= j < |area| && area[j] == e;
    assert Map(area, ProjectOf)[j] == ProjectOf(e);
    assert ProjectOf(e) in GroupKeys(g);
    var p :| 0 <= p < |g| && GroupKeys(g)[p] == ProjectOf(e);
    assert ProjectOf(e) !in st.whole;
    assert NotIn(st.whole)(g[p]);
    var f := Filter(g, NotIn(st.whole));
    assert g[p] in f;
    var q :| 0 <= q < |f| && f[q] == g[p];
    assert GroupKeys(f)[q] == ProjectOf(e);
  }

  /** Filtering a list with distinct keys keeps them distinct. */
  lemma {:induction false} FilterSubseqKeys<K, T>(g: seq<Group<K, T>>, p: Group<K, T> -> bool)
    requires NoDup(GroupKeys(g))
    ensures NoDup(GroupKeys(Filter(g, p)))
    decreases |g|
  {
    if |g| > 0 {
      var g' := g[..|g| - 1];
      assert GroupKeys(g') == GroupKeys(g)[..|g| - 1];
      FilterSubseqKeys(g', p);
      var f := Filter(g', p);
      if p(g[|g| - 1]) {
        forall i | 0 <= i < |f| ensures f[i].key != g[|g| - 1].key {
          assert f[i] in g';
          var k :| 0 <= k < |g'| && g'[k] == f[i];
          assert GroupKeys(g)[k] != GroupKeys(g)[|g| - 1];
        }
      }
    }
  }

  /** `areaFilters.get(project)`. */
  function Lookup(filters: seq<Group<string, string>>, project: string): (r: Option<seq<string>>)
    ensures r.Some? <==> project in GroupKeys(filters)
    ensures r.Some? ==> exists i :: 0 <= i < |filters| && filters[i].key == project && filters[i].members == r.value
  {
    if |filters| == 0 then None
    else if filters[0].key == project then Some(filters[0].members)
    else
      assert GroupKeys(filters[1..]) == GroupKeys(filters)[1..];
      var r := Lookup(filters[1..], project);
      if r.Some? then
        var i :| 0 <= i < |filters[1..]| && filters[1..][i].key == project && filters[1..][i].members == r.value;
        assert filters[i + 1] == filters[1..][i];
        r
      else r
  }

  /** Keep an item whose project has no filter, or whose area path is one of the filter entries. */
  predicate PassesAreaFilter(filters: seq<Group<string, string>>, x: WorkItem)
  {
    match Lookup(filters, x.projectName)
    case None => true
    case Some(fs) => x.areaPath in fs
  }

  /** `filterByAreaSelections`. */
  function FilterByAreaSelections(items: seq<WorkItem>, filters: seq<Group<string, string>>): (r: seq<WorkItem>)
    ensures |filters| == 0 ==> r == items
    ensures forall i :: 0 <= i < |r| ==> PassesAreaFilter(filters, r[i])
    ensures forall i :: 0 <= i < |items| && PassesAreaFilter(filters, items[i]) ==> items[i] in r
    ensures forall i :: 0 <= i < |r| ==> r[i] in items
  {
    if |filters| == 0 then items
    else Filter(items, (x: WorkItem) => PassesAreaFilter(filters, x))
  }

  lemma FilterByAreaSelectionsKeepsOrder(items: seq<WorkItem>, filters: seq<Group<string, string>>)
    ensures IsSubseq(FilterByAreaSelections(items, filters), items)
  {
    if |filters| == 0 {
      SubseqRefl(items);
    } else {
      FilterIsSubseq(items, (x: WorkItem) => PassesAreaFilter(filters, x));
    }
  }
}

=== FILE: sprints.dfy ===
/**
 * The sprint order shared by the velocity chart, the sprint trends and the
 * sprint selector: past and current sprints, most recent start first, a
 * missing start date counting as 0 (src/hooks/useVelocity.ts,
 * src/hooks/useSprintTrends.ts).
 */
module Sprints {
  import opened Common
  import opened WorkItems

  predicate PastOrCurrent(s: Sprint)
  {
    s.timeFrame == Past || s.timeFrame == Current
  }

  function IsPastOrCurrent(): Sprint -> bool
  {
    (s: Sprint) => PastOrCurrent(s)
  }

  /** `s.startDate ? new Date(s.startDate).getTime() : 0`. */
  function SprintStart(s: Sprint): int
  {
    s.startDate.GetOr(0)
  }

  /** `(a, b) => start(b) - start(a)`. */
  function NewestFirst(): (Sprint, Sprint) -> int
  {
    Descending(SprintStart)
  }

  /** Sorting by start, newest first, keeps the sprints and orders their starts. */
  function SortNewestFirst(sprints: seq<Sprint>): (r: seq<Sprint>)
    ensures multiset(r) == multiset(sprints)
    ensures forall i, j :: 0 <= i < j < |r| ==> SprintStart(r[i]) >= SprintStart(r[j])
  {
    DescendingIsPreorder(SprintStart);
    var r := SortBy(sprints, NewestFirst());
    NewestFirstOrdered(r);
    r
  }

  lemma NewestFirstOrdered(r: seq<Sprint>)
    requires SortedBy(r, NewestFirst())
    ensures forall i, j :: 0 <= i < j < |r| ==> SprintStart(r[i]) >= SprintStart(r[j])
  {
    forall i, j | 0 <= i < j < |r| ensures SprintStart(r[i]) >= SprintStart(r[j]) {
      assert NewestFirst()(r[i], r[j]) <= 0;
    }
  }

  /** The past and current sprints, newest first. */
  function RecentFirst(sprints: seq<Sprint>): (r: seq<Sprint>)
    ensures multiset(r) == multiset(Filter(sprints, IsPastOrCurrent()))
    ensures forall i, j :: 0 <= i < j < |r| ==> SprintStart(r[i]) >= SprintStart(r[j])
  {
    SortNewestFirst(Filter(sprints, IsPastOrCurrent()))
  }

  /** A sprint is listed exactly when it is past or current. */
  lemma RecentFirstMembers(sprints: seq<Sprint>)
    ensures forall s :: s in RecentFirst(sprints) <==> s in sprints && PastOrCurrent(s)
  {
    var f := Filter(sprints, IsPastOrCurrent());
    var r := RecentFirst(sprints);
    forall s ensures s in r <==> s in sprints && PastOrCurrent(s) {
      assert s in r <==> s in multiset(r);
      assert s in f <==> s in multiset(f);
      if s in sprints && PastOrCurrent(s) {
        var i :| 0 <= i < |sprints| && sprints[i] == s;
      }
      if s in f {
        var i :| 0 <= i < |f| && f[i] == s;
      }
    }
  }
}

=== FILE: tally.dfy ===
/**
 * The counting idiom shared by the distribution hooks and the watch-list
 * charts: `counts[k] = (counts[k] ?? 0) + 1` over the items, read back with
 * `Object.entries` (first-occurrence order) and sorted by count,
 * descending (src/hooks/useMetrics.ts, src/hooks/useRaidMetrics.ts,
 * src/components/watchlist/RaidProjectChart.tsx, RaidStateChart.tsx,
 * RaidAssigneeChart.tsx).
 */
module Tally {
  import opened Common

  /** One bar of a count chart: a key and how many inputs carry it. */
  datatype Entry<K> = Entry(key: K, count: nat)

  function EntryCount<K>(e: Entry<K>): nat { e.count }
  function EntryCountInt<K>(e: Entry<K>): int { e.count }
  function EntryKey<K>(e: Entry<K>): K { e.key }
  function ToEntry<K, T>(g: Group<K, T>): Entry<K> { Entry(g.key, |g.members|) }

  /** The keys of a list of entries, in order. */
  function Keys<K>(r: seq<Entry<K>>): seq<K>
  {
    Map(r, EntryKey)
  }

  /** The counting loop, read back in first-occurrence order. */
  function Tally<T(==), K(==)>(s: seq<T>, key: T -> K): seq<Entry<K>>
  {
    Map(GroupBy(s, key), ToEntry)
  }

  /** The count order of the charts: `(a, b) => b.count - a.count`. */
  function ByCountDesc<K>(): (Entry<K>, Entry<K>) -> int
  {
    (a: Entry<K>, b: Entry<K>) => b.count - a.count
  }

  lemma ByCountDescIsPreorder<K(!new)>()
    ensures TotalPreorder(ByCountDesc<K>())
  {
  }

  /** The counting loop followed by the sort by count, largest first. */
  function TallyDesc<T(==), K(==, !new)>(s: seq<T>, key: T -> K): (r: seq<Entry<K>>)
    ensures multiset(r) == multiset(Tally(s, key))
    ensures forall i, j :: 0 <= i < j < |r| ==> r[i].count >= r[j].count
  {
    ByCountDescIsPreorder<K>();
    var r := SortBy(Tally(s, key), ByCountDesc());
    CountsDescending(r);
    r
  }

  lemma CountsDescending<K>(r: seq<Entry<K>>)
    requires SortedBy(r, ByCountDesc())
    ensures forall i, j :: 0 <= i < j < |r| ==> r[i].count >= r[j].count
  {
    forall i, j | 0 <= i < j < |r| ensures r[i].count >= r[j].count {
      assert ByCountDesc()(r[i], r[j]) <= 0;
    }
  }

  /** What the counting loop computes, before sorting. */
  lemma TallyFacts<T, K>(s: seq<T>, key: T -> K)
    ensures Keys(Tally(s, key)) == Dedup(Map(s, key))
    ensures forall i :: 0 <= i < |Tally(s, key)| ==>
              Tally(s, key)[i].count == Count(s, KeyIs(key, Tally(s, key)[i].key)) >= 1
    ensures SumNat(Tally(s, key), EntryCount) == |s|
  {
    TallyKeys(s, key);
    TallyCounts(s, key);
    TallySum(s, key);
  }

  lemma TallyKeys<T, K>(s: seq<T>, key: T -> K)
    ensures Keys(Tally(s, key)) == Dedup(Map(s, key))
  {
    var g := GroupBy(s, key);
    GroupByKeys(s, key);
    assert Keys(Tally(s, key)) == GroupKeys(g);
  }

  lemma TallyCounts<T, K>(s: seq<T>, key: T -> K)
    ensures forall i :: 0 <= i < |Tally(s, key)| ==>
              Tally(s, key)[i].count == Count(s, KeyIs(key, Tally(s, key)[i].key)) >= 1
  {
    var g := GroupBy(s, key);
    var t := Tally(s, key);
    GroupByMembers(s, key);
    GroupBySizes(s, key);
    forall i | 0 <= i < |t| ensures t[i].count == Count(s, KeyIs(key, t[i].key)) >= 1 {
      assert t[i] == ToEntry(g[i]);
    }
  }

  lemma TallySum<T, K>(s: seq<T>, key: T -> K)
    ensures SumNat(Tally(s, key), EntryCount) == |s|
  {
    GroupBySizes(s, key);
    SumNatMap(GroupBy(s, key), ToEntry, MemberCount, EntryCount);
  }

  lemma TallyDescDistinct<T, K(!new)>(s: seq<T>, key: T -> K)
    ensures var r := TallyDesc(s, key);
      forall i, j :: 0 <= i < j < |r| ==> r[i].key != r[j].key
  {
    var t := Tally(s, key);
    var r := TallyDesc(s, key);
    TallyKeys(s, key);
    forall i, j | 0 <= i < j < |t| ensures EntryKey(t[i]) != EntryKey(t[j]) {
      assert Keys(t)[i] == t[i].key && Keys(t)[j] == t[j].key;
    }
    PermutationKeepsDistinctKeys(t, r, EntryKey);
    forall i, j | 0 <= i < j < |r| ensures r[i].key != r[j].key {
      assert EntryKey(r[i]) != EntryKey(r[j]);
    }
  }

  lemma TallyDescCovers<T, K(!new)>(s: seq<T>, key: T -> K)
    ensures var r := TallyDesc(s, key);
      forall x :: x in s ==> key(x) in Keys(r)
  {
    var t := Tally(s, key);
    var r := TallyDesc(s, key);
    TallyKeys(s, key);
    forall x | x in s ensures key(x) in Keys(r) {
      var i :| 0 <= i < |s| && s[i] == x;
      assert Map(s, key)[i] == key(x);
      assert key(x) in Keys(t);
      PermutationKeepsKeys(t, r, EntryKey, key(x));
    }
  }

  lemma TallyDescCounts<T, K(!new)>(s: seq<T>, key: T -> K)
    ensures var r := TallyDesc(s, key);
      forall i :: 0 <= i < |r| ==> r[i].count == Count(s, KeyIs(key, r[i].key)) >= 1
    ensures SumNat(TallyDesc(s, key), EntryCount) == |s|
  {
    var t := Tally(s, key);
    var r := TallyDesc(s, key);
    TallyCounts(s, key);
    TallySum(s, key);
    forall i | 0 <= i < |r| ensures r[i].count == Count(s, KeyIs(key, r[i].key)) >= 1 {
      assert r[i] in multiset(t);
      var j :| 0 <= j < |t| && t[j] == r[i];
    }
    SumNatPermutation(t, r, EntryCount);
  }

  /**
   * The sorted tally is a chart: one entry per distinct key, each count is
   * the number of inputs with that key and at least 1, the counts add up
   * to the input length, and they never increase along the list.
   */
  lemma TallyDescFacts<T, K(!new)>(s: seq<T>, key: T -> K)
    ensures var r := TallyDesc(s, key);
      forall i, j :: 0 <= i < j < |r| ==> r[i].key != r[j].key
    ensures var r := TallyDesc(s, key);
      forall x :: x in s ==> key(x) in Keys(r)
    ensures var r := TallyDesc(s, key);
      forall i :: 0 <= i < |r| ==> r[i].count == Count(s, KeyIs(key, r[i].key)) >= 1
    ensures SumNat(TallyDesc(s, key), EntryCount) == |s|
  {
    TallyDescDistinct(s, key);
    TallyDescCovers(s, key);
    TallyDescCounts(s, key);
  }

  /**
   * Folding the tail of a chart: a list of at most `keep + 1` entries is
   * kept; a longer one keeps its first `keep` entries and ends with one
   * `other` entry holding the rest's total.
   */
  function FoldRest<K>(sorted: seq<Entry<K>>, keep: nat, other: K): (r: seq<Entry<K>>)
    ensures |sorted| <= keep + 1 ==> r == sorted
    ensures |sorted| > keep + 1 ==>
      |r| == keep + 1 && r[..keep] == sorted[..keep] &&
      r[keep] == Entry(other, SumNat(sorted[keep..], EntryCount))
    ensures SumNat(r, EntryCount) == SumNat(sorted, EntryCount)
  {
    if |sorted| <= keep + 1 then sorted
    else
      var top := sorted[..keep];
      var rest := sorted[keep..];
      var last := Entry(other, SumNat(rest, EntryCount));
      assert sorted == top + rest;
      SumNatAppend(top, rest, EntryCount);
      SumNatAppend(top, [last], EntryCount);
      assert SumNat([last], EntryCount) == last.count by { assert [last][..0] == []; }
      assert (top + [last])[..keep] == top;
      top + [last]
  }
}

=== FILE: tree.dfy ===
/**
 * The work-item hierarchy (src/lib/workItemTree.ts): the hierarchy rank,
 * the top-level filter, the forest built from weak `parentId` links, the
 * grouping of roots by area path, flattening into depth-annotated rows
 * under a set of expanded ids, and the "expand all" id set.
 */
module Tree {
  import opened Common
  import opened WorkItems

  // ---------------------------------------------------------------------
  // Hierarchy rank and top-level filter
  // ---------------------------------------------------------------------

  /** `HIERARCHY_ORDER[name] ?? 99` for a raw type name. */
  function RankOfName(name: string): int
  {
    if name == "Epic" then 0
    else if name == "Feature" then 1
    else if name == "User Story" then 2
    else if name == "Bug" then 3
    else if name == "Task" then 4
    else if name == "Issue" then 5
    else if name == "Risk" then 6
    else 99
  }

  /** `hierarchyRank`. */
  function Rank(t: ItemType): int
  {
    RankOfName(TypeName(t))
  }

  /** Epic..Risk are ranked 0..6 in that order; every other name is ranked 99. */
  lemma RankTable(name: string)
    ensures Rank(Epic) == 0 && Rank(Feature) == 1 && Rank(UserStory) == 2 && Rank(Bug) == 3
    ensures Rank(Task) == 4 && Rank(Issue) == 5 && Rank(Risk) == 6
    ensures RankOfName(name) == 99 <==> forall t: ItemType :: TypeName(t) != name
  {
    if RankOfName(name) != 99 {
      var t :| t in {Epic, Feature, UserStory, Bug, Task, Issue, Risk} && TypeName(t) == name;
    }
  }

  /** The top-level choice of the work-items table and Gantt chart (`TOP_LEVEL_OPTIONS`). */
  datatype TopLevel = AreaPathLevel | TypeLevel(t: ItemType)

  /** `filterByTopLevel`. */
  function FilterByTopLevel(items: seq<WorkItem>, top: TopLevel): (r: seq<WorkItem>)
    ensures top.AreaPathLevel? ==> r == items
    ensures top.TypeLevel? ==> forall i :: 0 <= i < |r| ==> Rank(r[i].workItemType) >= Rank(top.t)
    ensures top.TypeLevel? ==>
              forall i :: 0 <= i < |items| && Rank(items[i].workItemType) >= Rank(top.t) ==> items[i] in r
  {
    match top
    case AreaPathLevel => items
    case TypeLevel(t) => Filter(items, (w: WorkItem) => Rank(w.workItemType) >= Rank(t))
  }

  lemma FilterByTopLevelKeepsOrder(items: seq<WorkItem>, top: TopLevel)
    ensures IsSubseq(FilterByTopLevel(items, top), items)
  {
    match top
    case AreaPathLevel => SubseqRefl(items);
    case TypeLevel(t) => FilterIsSubseq(items, (w: WorkItem) => Rank(w.workItemType) >= Rank(t));
  }

  // ---------------------------------------------------------------------
  // buildTree
  // ---------------------------------------------------------------------

  function IdSet(items: seq<WorkItem>): set<int>
  {
    set i | 0 <= i < |items| :: items[i].id
  }

  /** `item.parentId && idMap.has(item.parentId)`: a parent id of 0 counts as none. */
  predicate AttachesIn(x: WorkItem, ids: set<int>)
  {
    x.parentId.Some? && x.parentId.value != 0 && x.parentId.value in ids
  }

  function ParentKey(x: WorkItem): int
  {
    x.parentId.GetOr(0)
  }

  function IsRootIn(ids: set<int>): WorkItem -> bool
  {
    x => !AttachesIn(x, ids)
  }

  function IsAttachedIn(ids: set<int>): WorkItem -> bool
  {
    x => AttachesIn(x, ids)
  }

  function IsChildOf(ids: set<int>, p: int): WorkItem -> bool
  {
    x => AttachesIn(x, ids) && ParentKey(x) == p
  }

  /** The roots list and the per-parent children lists, keyed by parent id in order of first push. */
  datatype Arena = Arena(roots: seq<WorkItem>, kids: seq<Group<int, WorkItem>>)

  /** The second loop of `buildTree`: each item is pushed to its parent's children or to the roots. */
  function Attach(items: seq<WorkItem>, ids: set<int>): (a: Arena)
    ensures NoDup(GroupKeys(a.kids))
    ensures |a.roots| + SumNat(a.kids, MemberCount) == |items|
  {
    if |items| == 0 then Arena([], [])
    else
      var a := Attach(items[..|items| - 1], ids);
      var x := items[|items| - 1];
      if AttachesIn(x, ids) then
        AddToGroupSize(a.kids, ParentKey(x), x);
        Arena(a.roots, AddToGroup(a.kids, ParentKey(x), x))
      else
        Arena(a.roots + [x], a.kids)
  }

  /**
   * Roots are exactly the items without a usable parent, in input order;
   * the children lists are the attached items grouped by parent.
   */
  lemma AttachCharacterized(items: seq<WorkItem>, ids: set<int>)
    ensures Attach(items, ids).roots == Filter(items, IsRootIn(ids))
    ensures Attach(items, ids).kids == GroupBy(Filter(items, IsAttachedIn(ids)), ParentKey)
  {
    AttachRoots(items, ids);
    AttachKids(items, ids);
  }

  lemma {:induction false} AttachRoots(items: seq<WorkItem>, ids: set<int>)
    ensures Attach(items, ids).roots == Filter(items, IsRootIn(ids))
    decreases |items|
  {
    if |items| > 0 {
      AttachRoots(items[..|items| - 1], ids);
    }
  }

  lemma {:induction false} AttachKids(items: seq<WorkItem>, ids: set<int>)
    ensures Attach(items, ids).kids == GroupBy(Filter(items, IsAttachedIn(ids)), ParentKey)
    decreases |items|
  {
    if |items| > 0 {
      var p := items[..|items| - 1];
      var x := items[|items| - 1];
      AttachKids(p, ids);
      var att := Filter(items, IsAttachedIn(ids));
      var att' := Filter(p, IsAttachedIn(ids));
      if AttachesIn(x, ids) {
        assert att == att' + [x];
        assert att[..|att| - 1] == att';
      } else {
        assert att == att';
      }
    }
  }

  /** The children list of parent id `p` (`idMap.get(p).children`). */
  function KidsOf(kids: seq<Group<int, WorkItem>>, p: int): seq<WorkItem>
  {
    if |kids| == 0 then []
    else if kids[0].key == p then kids[0].members
    else KidsOf(kids[1..], p)
  }

  lemma {:induction false} KidsOfAt(kids: seq<Group<int, WorkItem>>, i: int)
    requires NoDup(GroupKeys(kids))
    requires 0 <= i < |kids|
    ensures KidsOf(kids, kids[i].key) == kids[i].members
    decreases |kids|
  {
    if i > 0 {
      assert GroupKeys(kids)[0] != GroupKeys(kids)[i];
      assert GroupKeys(kids[1..]) == GroupKeys(kids)[1..];
      KidsOfAt(kids[1..], i - 1);
    }
  }

  lemma {:induction false} KidsOfMissing(kids: seq<Group<int, WorkItem>>, p: int)
    requires p !in GroupKeys(kids)
    ensures KidsOf(kids, p) == []
    decreases |kids|
  {
    if |kids| > 0 {
      assert GroupKeys(kids[1..]) == GroupKeys(kids)[1..];
      KidsOfMissing(kids[1..], p);
    }
  }

  /** Every item with a usable parent `p` is in `p`'s children, in input order, and no other item is. */
  lemma ChildrenCharacterized(items: seq<WorkItem>, ids: set<int>, p: int)
    ensures KidsOf(Attach(items, ids).kids, p) == Filter(items, IsChildOf(ids, p))
  {
    AttachCharacterized(items, ids);
    var att := Filter(items, IsAttachedIn(ids));
    FilterFilter(items, IsAttachedIn(ids), KeyIs(ParentKey, p), IsChildOf(ids, p));
    KidsOfGroupBy(att, ParentKey, p);
  }

  /** Looking a key up in a grouping gives the elements with that key. */
  lemma KidsOfGroupBy(s: seq<WorkItem>, key: WorkItem -> int, p: int)
    ensures KidsOf(GroupBy(s, key), p) == Filter(s, KeyIs(key, p))
  {
    if p in GroupKeys(GroupBy(s, key)) {
      KidsOfGroupByPresent(s, key, p);
    } else {
      KidsOfGroupByMissing(s, key, p);
    }
  }

  lemma KidsOfGroupByPresent(s: seq<WorkItem>, key: WorkItem -> int, p: int)
    requires p in GroupKeys(GroupBy(s, key))
    ensures KidsOf(GroupBy(s, key), p) == Filter(s, KeyIs(key, p))
  {
    var g := GroupBy(s, key);
    GroupByMembers(s, key);
    var i :| 0 <= i < |g| && GroupKeys(g)[i] == p;
    KidsOfAt(g, i);
  }

  lemma KidsOfGroupByMissing(s: seq<WorkItem>, key: WorkItem -> int, p: int)
    requires p !in GroupKeys(GroupBy(s, key))
    ensures KidsOf(GroupBy(s, key), p) == Filter(s, KeyIs(key, p))
  {
    var g := GroupBy(s, key);
    GroupByKeys(s, key);
    KidsOfMissing(g, p);
    assert p !in Map(s, key);
    forall i | 0 <= i < |s| ensures !KeyIs(key, p)(s[i]) {
      assert Map(s, key)[i] == key(s[i]);
    }
    FilterNone(s, KeyIs(key, p));
  }

  /** A two-item parent cycle: neither item becomes a root. */
  lemma TwoCycleHasNoRoot(items: seq<WorkItem>, i: int, j: int)
    requires 0 <= i < |items| && 0 <= j < |items|
    requires items[i].id != 0 && items[j].id != 0
    requires items[i].parentId == Some(items[j].id) && items[j].parentId == Some(items[i].id)
    ensures items[i] !in Attach(items, IdSet(items)).roots
    ensures items[j] !in Attach(items, IdSet(items)).roots
  {
    AttachCharacterized(items, IdSet(items));
  }

  /** A tree node: the item of an id and the nodes pushed under it. */
  datatype TreeNode = TreeNode(item: WorkItem, children: seq<TreeNode>)

  /** The first loop of `buildTree`: id to node item, later items replacing earlier ones. */
  function NodeItems(items: seq<WorkItem>): (m: map<int, WorkItem>)
    ensures m.Keys == IdSet(items)
    ensures forall id :: id in m ==> m[id].id == id
  {
    if |items| == 0 then map[]
    else
      var x := items[|items| - 1];
      assert IdSet(items) == IdSet(items[..|items| - 1]) + {x.id};
      NodeItems(items[..|items| - 1])[x.id := x]
  }

  predicate UniqueIds(items: seq<WorkItem>)
  {
    forall i, j :: 0 <= i < j < |items| ==> items[i].id != items[j].id
  }

  lemma {:induction false} NodeItemsUnique(items: seq<WorkItem>)
    requires UniqueIds(items)
    ensures forall i :: 0 <= i < |items| ==> NodeItems(items)[items[i].id] == items[i]
    decreases |items|
  {
    if |items| > 0 {
      NodeItemsUnique(items[..|items| - 1]);
    }
  }

  /** Everything the materialisation needs: the arena and the node items. */
  datatype Forest = Forest(arena: Arena, nodes: map<int, WorkItem>)

  ghost predicate WellFormed(f: Forest)
  {
    (forall i :: 0 <= i < |f.arena.roots| ==> f.arena.roots[i].id in f.nodes) &&
    (forall p, c :: c in KidsOf(f.arena.kids, p) ==> c.id in f.nodes)
  }

  function MakeForest(items: seq<WorkItem>): (f: Forest)
    ensures WellFormed(f)
  {
    var ids := IdSet(items);
    var f := Forest(Attach(items, ids), NodeItems(items));
    AttachCharacterized(items, ids);
    forall p, c | c in KidsOf(f.arena.kids, p)
      ensures c.id in f.nodes
    {
      ChildrenCharacterized(items, ids, p);
      var k :| 0 <= k < |items| && items[k] == c;
    }
    f
  }

  /** The node of `id`, with its children; an id already on the path is not entered again. */
  function BuildNode(f: Forest, id: int, path: set<int>): TreeNode
    requires WellFormed(f)
    requires id in f.nodes && id !in path
    decreases f.nodes.Keys - path, 0
  {
    TreeNode(f.nodes[id], BuildNodes(f, KidsOf(f.arena.kids, id), path + {id}))
  }

  function BuildNodes(f: Forest, cs: seq<WorkItem>, path: set<int>): seq<TreeNode>
    requires WellFormed(f)
    requires forall i :: 0 <= i < |cs| ==> cs[i].id in f.nodes
    decreases f.nodes.Keys - path, |cs|
  {
    if |cs| == 0 then []
    else
      (if cs[0].id in path then [] else [BuildNode(f, cs[0].id, path)]) +
      BuildNodes(f, cs[1..], path)
  }

  /** `buildTree`: the root nodes, in input order. */
  function BuildTree(items: seq<WorkItem>): seq<TreeNode>
  {
    var f := MakeForest(items);
    BuildNodes(f, f.arena.roots, {})
  }

  lemma {:induction false} BuildNodesTop(f: Forest, cs: seq<WorkItem>)
    requires WellFormed(f)
    requires forall i :: 0 <= i < |cs| ==> cs[i].id in f.nodes
    ensures |BuildNodes(f, cs, {})| == |cs|
    ensures forall i :: 0 <= i < |cs| ==> BuildNodes(f, cs, {})[i].item == f.nodes[cs[i].id]
    decreases |cs|
  {
    if |cs| > 0 {
      BuildNodesTop(f, cs[1..]);
    }
  }

  /** With unique ids the forest's top level is exactly the root items, in input order. */
  lemma BuildTreeRoots(items: seq<WorkItem>)
    requires UniqueIds(items)
    ensures |BuildTree(items)| == |Filter(items, IsRootIn(IdSet(items)))|
    ensures forall i :: 0 <= i < |BuildTree(items)| ==>
              BuildTree(items)[i].item == Filter(items, IsRootIn(IdSet(items)))[i]
  {
    var f := MakeForest(items);
    AttachCharacterized(items, IdSet(items));
    BuildNodesTop(f, f.arena.roots);
    NodeItemsUnique(items);
    var roots := f.arena.roots;
    forall i | 0 <= i < |roots|
      ensures f.nodes[roots[i].id] == roots[i]
    {
      var k :| 0 <= k < |items| && items[k] == roots[i];
    }
  }

  // ---------------------------------------------------------------------
  // Area-path grouping
  // ---------------------------------------------------------------------

  const SEPARATOR: string := "\\"

  /** `getDisplayArea`: the area path after "Project\", or "" for the project root or a foreign path. */
  function DisplayArea(x: WorkItem): (r: string)
    ensures r != "" ==> x.areaPath == x.projectName + SEPARATOR + r
    ensures StartsWith(x.areaPath, x.projectName + SEPARATOR) ==>
              x.areaPath == x.projectName + SEPARATOR + r
  {
    var prefix := x.projectName + SEPARATOR;
    if StartsWith(x.areaPath, prefix) then
      assert x.areaPath == prefix + x.areaPath[|prefix|..];
      x.areaPath[|prefix|..]
    else ""
  }

  function RootArea(n: TreeNode): string
  {
    DisplayArea(n.item)
  }

  datatype AreaGroup = AreaGroup(groupId: string, caption: string, roots: seq<TreeNode>)

  /** The sort of `groupByAreaPath`: labelled groups by caption, the unlabelled group last. */
  function AreaOrder(a: Group<string, TreeNode>, b: Group<string, TreeNode>): int
  {
    if a.key == "" && b.key == "" then 0
    else if a.key == "" then 1
    else if b.key == "" then -1
    else StrCompare(a.key, b.key)
  }

  lemma AreaOrderIsPreorder()
    ensures TotalPreorder(AreaOrder)
  {
    StrCompareIsPreorder();
  }

  function GroupIdOf(caption: string): string
  {
    if caption == "" then "" else "area:" + caption
  }

  function ToAreaGroup(g: Group<string, TreeNode>): AreaGroup
  {
    AreaGroup(GroupIdOf(g.key), g.key, g.members)
  }

  /** `groupByAreaPath`. */
  function GroupByAreaPath(roots: seq<TreeNode>): (r: seq<AreaGroup>)
    ensures forall i :: 0 <= i < |r| ==> r[i].groupId == GroupIdOf(r[i].caption)
  {
    Map(SortBy(GroupBy(roots, RootArea), AreaOrder), ToAreaGroup)
  }

  function Labels(gs: seq<AreaGroup>): seq<string>
  {
    Map(gs, (g: AreaGroup) => g.caption)
  }

  function GroupSize(g: AreaGroup): nat { |g.roots| }

  /** Each sorted group is one of the groups built by the accumulator. */
  lemma SortedGroupOrigin(roots: seq<TreeNode>, i: int) returns (p: int)
    requires 0 <= i < |GroupByAreaPath(roots)|
    ensures 0 <= p < |GroupBy(roots, RootArea)|
    ensures SortBy(GroupBy(roots, RootArea), AreaOrder)[i] == GroupBy(roots, RootArea)[p]
  {
    var g := GroupBy(roots, RootArea);
    var s := SortBy(g, AreaOrder);
    assert s[i] in multiset(g);
    p :| 0 <= p < |g| && g[p] == s[i];
  }

  /** The groups partition the roots: each group holds exactly the roots with its display area, in input order. */
  lemma GroupByAreaPathContents(roots: seq<TreeNode>)
    ensures forall i :: 0 <= i < |GroupByAreaPath(roots)| ==>
              GroupByAreaPath(roots)[i].roots == Filter(roots, KeyIs(RootArea, GroupByAreaPath(roots)[i].caption)) &&
              |GroupByAreaPath(roots)[i].roots| >= 1
  {
    var r := GroupByAreaPath(roots);
    var g := GroupBy(roots, RootArea);
    forall i | 0 <= i < |r|
      ensures r[i].roots == Filter(roots, KeyIs(RootArea, r[i].caption)) && |r[i].roots| >= 1
    {
      var p := SortedGroupOrigin(roots, i);
      assert r[i] == ToAreaGroup(g[p]);
      assert g[p].members == Filter(roots, KeyIs(RootArea, g[p].key)) by { GroupByMembers(roots, RootArea); }
      assert |g[p].members| >= 1 by { GroupByNonEmpty(roots, RootArea); }
    }
  }

  /** One group per display area: captions are distinct. */
  lemma GroupByAreaPathDistinct(roots: seq<TreeNode>)
    ensures forall i, j :: 0 <= i < j < |GroupByAreaPath(roots)| ==>
              GroupByAreaPath(roots)[i].caption != GroupByAreaPath(roots)[j].caption
  {
    var g := GroupBy(roots, RootArea);
    var s := SortBy(g, AreaOrder);
    assert forall i, j :: 0 <= i < j < |g| ==> GroupKeys(g)[i] != GroupKeys(g)[j];
    PermutationKeepsDistinctKeys(g, s, (e: Group<string, TreeNode>) => e.key);
  }

  /** Every root's display area has a group. */
  lemma GroupByAreaPathCovers(roots: seq<TreeNode>, k: int) returns (q: int)
    requires 0 <= k < |roots|
    ensures 0 <= q < |GroupByAreaPath(roots)| && GroupByAreaPath(roots)[q].caption == RootArea(roots[k])
  {
    var g := GroupBy(roots, RootArea);
    var s := SortBy(g, AreaOrder);
    var p := AreaKeyPosition(roots, k);
    assert g[p] in multiset(s);
    q :| 0 <= q < |s| && s[q] == g[p];
  }

  lemma AreaKeyPosition(roots: seq<TreeNode>, k: int) returns (p: int)
    requires 0 <= k < |roots|
    ensures 0 <= p < |GroupBy(roots, RootArea)| && GroupBy(roots, RootArea)[p].key == RootArea(roots[k])
  {
    var g := GroupBy(roots, RootArea);
    GroupByKeys(roots, RootArea);
    var a := RootArea(roots[k]);
    assert Map(roots, RootArea)[k] == a;
    assert a in GroupKeys(g);
    p :| 0 <= p < |g| && GroupKeys(g)[p] == a;
  }

  /** No element is lost: group sizes add up to the number of roots. */
  lemma GroupByAreaPathSizes(roots: seq<TreeNode>)
    ensures SumNat(GroupByAreaPath(roots), GroupSize) == |roots|
  {
    var g := GroupBy(roots, RootArea);
    var s := SortBy(g, AreaOrder);
    GroupBySizes(roots, RootArea);
    SumNatPermutation(g, s, MemberCount);
    SumNatMap(s, ToAreaGroup, MemberCount, GroupSize);
  }

  lemma AreaGroupsSorted(roots: seq<TreeNode>)
    ensures SortedBy(SortBy(GroupBy(roots, RootArea), AreaOrder), AreaOrder)
  {
    AreaOrderIsPreorder();
  }

  /** `a` may precede `b`: labelled before unlabelled, labelled in ascending order. */
  predicate CaptionsInOrder(a: string, b: string)
  {
    a != "" && (b == "" || StrLe(a, b))
  }

  /** Labelled groups come in ascending caption order and the unlabelled group, if any, is last. */
  lemma GroupByAreaPathOrder(roots: seq<TreeNode>)
    ensures forall i, j :: 0 <= i < j < |GroupByAreaPath(roots)| ==>
              CaptionsInOrder(GroupByAreaPath(roots)[i].caption, GroupByAreaPath(roots)[j].caption)
  {
    forall i, j | 0 <= i < j < |GroupByAreaPath(roots)|
      ensures CaptionsInOrder(GroupByAreaPath(roots)[i].caption, GroupByAreaPath(roots)[j].caption)
    {
      AreaPairOrder(roots, i, j);
    }
  }

  lemma AreaPairOrder(roots: seq<TreeNode>, i: int, j: int)
    requires 0 <= i < j < |GroupByAreaPath(roots)|
    ensures GroupByAreaPath(roots)[i].caption != ""
    ensures GroupByAreaPath(roots)[j].caption == "" ||
            StrLe(GroupByAreaPath(roots)[i].caption, GroupByAreaPath(roots)[j].caption)
  {
    var s := SortBy(GroupBy(roots, RootArea), AreaOrder);
    AreaGroupsSorted(roots);
    GroupByAreaPathDistinct(roots);
    var r := GroupByAreaPath(roots);
    assert AreaOrder(s[i], s[j]) <= 0;
    assert r[i].caption == s[i].key && r[j].caption == s[j].key;
    if s[j].key != "" {
      assert StrCompare(s[i].key, s[j].key) <= 0;
    }
  }

  // ---------------------------------------------------------------------
  // Flattening
  // ---------------------------------------------------------------------

  datatype FlatRow =
    | ItemRow(item: WorkItem, depth: nat, hasChildren: bool)
    | GroupRow(groupId: string, caption: string, depth: nat)

  /** The expand key of a work-item node (`wi:${id}`). */
  function ItemKey(id: int): string
  {
    "wi:" + IntToString(id)
  }

  /** `flattenNodes`: a node's children follow it, one level deeper, only when it is expanded. */
  function FlattenNodes(nodes: seq<TreeNode>, expanded: set<string>, depth: nat): seq<FlatRow>
    decreases nodes
  {
    if |nodes| == 0 then []
    else
      var n := nodes[0];
      var has := |n.children| > 0;
      [ItemRow(n.item, depth, has)] +
      (if has && ItemKey(n.item.id) in expanded then FlattenNodes(n.children, expanded, depth + 1) else []) +
      FlattenNodes(nodes[1..], expanded, depth)
  }

  /** Reference order: every reachable node in pre-order, whatever is expanded. */
  function Preorder(nodes: seq<TreeNode>, depth: nat): seq<FlatRow>
    decreases nodes
  {
    if |nodes| == 0 then []
    else
      var n := nodes[0];
      [ItemRow(n.item, depth, |n.children| > 0)] + Preorder(n.children, depth + 1) + Preorder(nodes[1..], depth)
  }

  /** `collectNodeParentIds`: the keys of every reachable node that has children. */
  function CollectNodeParentIds(nodes: seq<TreeNode>): seq<string>
    decreases nodes
  {
    if |nodes| == 0 then []
    else
      var n := nodes[0];
      (if |n.children| > 0 then [ItemKey(n.item.id)] + CollectNodeParentIds(n.children) else []) +
      CollectNodeParentIds(nodes[1..])
  }

  /** With every parent key expanded, flattening emits every reachable node in pre-order. */
  lemma {:induction false} FlattenAllExpanded(nodes: seq<TreeNode>, expanded: set<string>, depth: nat)
    requires forall k :: k in CollectNodeParentIds(nodes) ==> k in expanded
    ensures FlattenNodes(nodes, expanded, depth) == Preorder(nodes, depth)
    decreases nodes
  {
    if |nodes| > 0 {
      var n := nodes[0];
      if |n.children| > 0 {
        FlattenAllExpanded(n.children, expanded, depth + 1);
      }
      FlattenAllExpanded(nodes[1..], expanded, depth);
    }
  }

  function TopRow(depth: nat): TreeNode -> FlatRow
  {
    (n: TreeNode) => ItemRow(n.item, depth, |n.children| > 0)
  }

  /** With nothing expanded, flattening emits only the given level. */
  lemma {:induction false} FlattenNoneExpanded(nodes: seq<TreeNode>, depth: nat)
    ensures FlattenNodes(nodes, {}, depth) == Map(nodes, TopRow(depth))
    decreases |nodes|
  {
    if |nodes| > 0 {
      FlattenNoneExpanded(nodes[1..], depth);
    }
  }

  /** `flattenGroupedTree`: a labelled group shows a header and, when expanded, its roots one level down. */
  function FlattenGroupedTree(groups: seq<AreaGroup>, expanded: set<string>): seq<FlatRow>
  {
    if |groups| == 0 then []
    else
      var g := groups[0];
      (if g.caption != "" then
         [GroupRow(g.groupId, g.caption, 0)] +
         (if g.groupId in expanded then FlattenNodes(g.roots, expanded, 1) else [])
       else FlattenNodes(g.roots, expanded, 0)) +
      FlattenGroupedTree(groups[1..], expanded)
  }

  /** `collectAllExpandableIds`. */
  function CollectAllExpandableIds(groups: seq<AreaGroup>): seq<string>
  {
    if |groups| == 0 then []
    else
      var g := groups[0];
      (if g.caption != "" then [g.groupId] else []) + CollectNodeParentIds(g.roots) +
      CollectAllExpandableIds(groups[1..])
  }

  /** Reference rows of a fully expanded grouped tree. */
  function FullRows(groups: seq<AreaGroup>): seq<FlatRow>
  {
    if |groups| == 0 then []
    else
      var g := groups[0];
      (if g.caption != "" then [GroupRow(g.groupId, g.caption, 0)] + Preorder(g.roots, 1)
       else Preorder(g.roots, 0)) +
      FullRows(groups[1..])
  }

  /** Reference rows of a fully collapsed grouped tree: headers and the unlabelled roots. */
  function CollapsedRows(groups: seq<AreaGroup>): seq<FlatRow>
  {
    if |groups| == 0 then []
    else
      var g := groups[0];
      (if g.caption != "" then [GroupRow(g.groupId, g.caption, 0)] else Map(g.roots, TopRow(0))) +
      CollapsedRows(groups[1..])
  }

  /** "Expand all" followed by flattening shows every reachable node. */
  lemma {:induction false} ExpandAllShowsEverything(groups: seq<AreaGroup>, expanded: set<string>)
    requires expanded == set k | k in CollectAllExpandableIds(groups)
    ensures FlattenGroupedTree(groups, expanded) == FullRows(groups)
  {
    ExpandedCovering(groups, expanded);
  }

  lemma {:induction false} ExpandedCovering(groups: seq<AreaGroup>, expanded: set<string>)
    requires forall k :: k in CollectAllExpandableIds(groups) ==> k in expanded
    ensures FlattenGroupedTree(groups, expanded) == FullRows(groups)
    decreases |groups|
  {
    if |groups| > 0 {
      var g := groups[0];
      FlattenAllExpanded(g.roots, expanded, if g.caption != "" then 1 else 0);
      ExpandedCovering(groups[1..], expanded);
    }
  }

  /** "Collapse all" followed by flattening shows only group headers and unlabelled roots. */
  lemma {:induction false} CollapseAllShowsTopOnly(groups: seq<AreaGroup>)
    ensures FlattenGroupedTree(groups, {}) == CollapsedRows(groups)
    decreases |groups|
  {
    if |groups| > 0 {
      var g := groups[0];
      if g.caption == "" {
        FlattenNoneExpanded(g.roots, 0);
      }
      CollapseAllShowsTopOnly(groups[1..]);
    }
  }
}

=== FILE: trends.dfy ===
/**
 * Sprint-over-sprint KPI trends (src/hooks/useSprintTrends.ts): the
 * percentage change of active items, active story points, velocity and
 * cycle time between the current sprints and the previous sprint.
 */
module SprintTrends {
  import opened Common
  import opened WorkItems
  import opened Sprints
  import Metrics

  datatype Trend = Trend(value: int, caption: string)

  datatype Trends = Trends(
    activeItems: Option<Trend>,
    storyPoints: Option<Trend>,
    velocity: Option<Trend>,
    cycleTime: Option<Trend>)

  const NO_TRENDS: Trends := Trends(None, None, None, None)

  const TREND_LABEL: string := "vs prev sprint"

  /** `pctChange`: undefined only when both the base is 0 and nothing was gained. */
  function PctChange(current: real, previous: real): (r: Option<int>)
    ensures previous == 0.0 ==> (r.Some? <==> current > 0.0)
    ensures previous == 0.0 && current > 0.0 ==> r == Some(100)
    ensures previous != 0.0 ==> r.Some?
    ensures previous != 0.0 && r.Some? ==>
      (current - previous) / previous * 100.0 - 0.5 < r.value as real <= (current - previous) / previous * 100.0 + 0.5
  {
    if previous == 0.0 then (if current > 0.0 then Some(100) else None)
    else Some(Round((current - previous) / previous * 100.0))
  }

  /** Against a positive base the change has the sign of the difference, and no change is 0 %. */
  lemma PctChangeSign(current: real, previous: real)
    requires previous > 0.0
    ensures current >= previous ==> PctChange(current, previous).value >= 0
    ensures current <= previous ==> PctChange(current, previous).value <= 0
    ensures current == previous ==> PctChange(current, previous) == Some(0)
  {
    var x := (current - previous) / previous * 100.0;
    if current >= previous {
      assert x >= 0.0;
      RoundMonotone(0.0, x);
      RoundInt(0);
    }
    if current <= previous {
      assert x <= 0.0;
      RoundMonotone(x, 0.0);
      RoundInt(0);
    }
  }

  /** An unchanged figure shows no trend at a zero base and 0 % otherwise. */
  lemma PctChangeSame(x: real)
    ensures x == 0.0 ==> PctChange(x, x) == None
    ensures x != 0.0 ==> PctChange(x, x) == Some(0)
  {
    if x != 0.0 {
      assert (x - x) / x * 100.0 == 0.0;
      RoundInt(0);
    }
  }

  /** The mean cycle time of a set of items, unrounded, 0 when none is measured. */
  function AvgCycle(items: seq<WorkItem>): (r: real)
    ensures |Metrics.CycleTimes(items)| == 0 ==> r == 0.0
    ensures |Metrics.CycleTimes(items)| > 0 ==>
      MinOf(Metrics.CycleTimes(items)) as real <= r <= MaxOf(Metrics.CycleTimes(items)) as real
    ensures r >= 0.0
  {
    var t := Metrics.CycleTimes(items);
    if |t| > 0 then
      SumIntBounds(t, MinOf(t), MaxOf(t));
      MeanBounds(SumInt(t), |t|, MinOf(t), MaxOf(t));
      assert MinOf(t) in t;
      SumInt(t) as real / |t| as real
    else 0.0
  }

  function IsActive(): WorkItem -> bool { (w: WorkItem) => w.state == Active }
  function IsDone(): WorkItem -> bool { (w: WorkItem) => IsCompleted(w) }

  /** The iteration paths of the sprints whose time frame is 'current', among all sprints given. */
  function CurrentPaths(sprints: seq<Sprint>): set<string>
  {
    set s | s in sprints && s.timeFrame == Current :: s.path
  }

  function InPaths(paths: set<string>): WorkItem -> bool
  {
    (w: WorkItem) => w.iterationPath in paths
  }

  /** The four deltas between two item sets (cycle time not yet inverted). */
  datatype Deltas = Deltas(active: Option<int>, points: Option<int>, velocity: Option<int>, cycle: Option<int>)

  function DeltasOf(cur: seq<WorkItem>, prev: seq<WorkItem>): Deltas
  {
    Deltas(
      PctChange(|Filter(cur, IsActive())| as real, |Filter(prev, IsActive())| as real),
      PctChange(SumReal(Filter(cur, IsActive()), Points), SumReal(Filter(prev, IsActive()), Points)),
      PctChange(SumReal(Filter(cur, IsDone()), Points), SumReal(Filter(prev, IsDone()), Points)),
      PctChange(AvgCycle(cur), AvgCycle(prev)))
  }

  function AsTrend(d: Option<int>): (t: Option<Trend>)
    ensures t.Some? <==> d.Some?
    ensures t.Some? ==> t.value == Trend(d.value, TREND_LABEL)
  {
    if d.Some? then Some(Trend(d.value, TREND_LABEL)) else None
  }

  /** The items of the current sprints and of the previous sprint (the second most recent). */
  function CurrentItems(items: seq<WorkItem>, sprints: seq<Sprint>): seq<WorkItem>
  {
    Filter(items, InPaths(CurrentPaths(sprints)))
  }

  function PreviousItems(items: seq<WorkItem>, sprints: seq<Sprint>): seq<WorkItem>
    requires |RecentFirst(sprints)| >= 2
  {
    Filter(items, InPaths({RecentFirst(sprints)[1].path}))
  }

  /**
   * `useSprintTrends`: nothing with fewer than two past/current sprints;
   * otherwise each trend is present exactly when its delta is defined,
   * carries the fixed caption, and the cycle-time trend is the negated
   * delta (shorter cycles read as improvement).
   */
  function ComputeTrends(items: seq<WorkItem>, sprints: seq<Sprint>): (r: Trends)
    ensures |RecentFirst(sprints)| < 2 ==> r == NO_TRENDS
    ensures |RecentFirst(sprints)| >= 2 ==>
      var d := DeltasOf(CurrentItems(items, sprints), PreviousItems(items, sprints));
      (r.activeItems.Some? <==> d.active.Some?) &&
      (r.storyPoints.Some? <==> d.points.Some?) &&
      (r.velocity.Some? <==> d.velocity.Some?) &&
      (r.cycleTime.Some? <==> d.cycle.Some?) &&
      (r.activeItems.Some? ==> r.activeItems.value == Trend(d.active.value, TREND_LABEL)) &&
      (r.storyPoints.Some? ==> r.storyPoints.value == Trend(d.points.value, TREND_LABEL)) &&
      (r.velocity.Some? ==> r.velocity.value == Trend(d.velocity.value, TREND_LABEL)) &&
      (r.cycleTime.Some? ==> r.cycleTime.value == Trend(-d.cycle.value, TREND_LABEL))
  {
    var sorted := RecentFirst(sprints);
    if |sorted| < 2 then NO_TRENDS
    else
      var d := DeltasOf(CurrentItems(items, sprints), PreviousItems(items, sprints));
      var cycle := if d.cycle.Some? then Some(-d.cycle.value) else None;
      Trends(AsTrend(d.active), AsTrend(d.points), AsTrend(d.velocity), AsTrend(cycle))
  }

  /** When the current and previous sprints hold the same items, every trend shown is 0. */
  lemma NoChangeNoTrend(items: seq<WorkItem>, sprints: seq<Sprint>)
    requires |RecentFirst(sprints)| >= 2
    requires CurrentItems(items, sprints) == PreviousItems(items, sprints)
    ensures var r := ComputeTrends(items, sprints);
      (r.activeItems.Some? ==> r.activeItems.value.value == 0) &&
      (r.storyPoints.Some? ==> r.storyPoints.value.value == 0) &&
      (r.velocity.Some? ==> r.velocity.value.value == 0) &&
      (r.cycleTime.Some? ==> r.cycleTime.value.value == 0)
  {
    var c := CurrentItems(items, sprints);
    PctChangeSame(|Filter(c, IsActive())| as real);
    PctChangeSame(SumReal(Filter(c, IsActive()), Points));
    PctChangeSame(SumReal(Filter(c, IsDone()), Points));
    PctChangeSame(AvgCycle(c));
  }

  /** The previous sprint is the second most recent past/current sprint; the current items are those of any 'current' sprint. */
  lemma TrendInputs(items: seq<WorkItem>, sprints: seq<Sprint>)
    requires |RecentFirst(sprints)| >= 2
    ensures forall x :: x in PreviousItems(items, sprints) <==> x in items && x.iterationPath == RecentFirst(sprints)[1].path
    ensures forall x :: x in CurrentItems(items, sprints) <==>
              x in items && exists s :: s in sprints && s.timeFrame == Current && s.path == x.iterationPath
    ensures forall s :: s in RecentFirst(sprints) ==> SprintStart(s) <= SprintStart(RecentFirst(sprints)[0])
  {
    var r := RecentFirst(sprints);
    forall s | s in r ensures SprintStart(s) <= SprintStart(r[0]) {
      var i :| 0 <= i < |r| && r[i] == s;
    }
  }
}

=== FILE: uistore.dfy ===
/**
 * The UI store (src/store/uiStore.ts): navigation, filter and appearance
 * settings plus the non-persisted sync status, with one reducer per
 * action. The store's `persist` middleware keeps only a projection of
 * the state; the browser storage itself is not modelled.
 */
module UIStore {
  import opened Common

  datatype Page = Dashboard | Reports | WatchList

  /** The page names used in the store and in the URL hash. */
  function PageName(p: Page): string
  {
    match p
    case Dashboard => "dashboard"
    case Reports => "reports"
    case WatchList => "watchlist"
  }

  /** `VALID_PAGES.has(name)`, giving the page a valid name stands for. */
  function PageOf(name: string): (r: Option<Page>)
    ensures r.Some? ==> PageName(r.value) == name
    ensures forall p: Page :: PageName(p) == name ==> r == Some(p)
  {
    if name == "dashboard" then Some(Dashboard)
    else if name == "reports" then Some(Reports)
    else if name == "watchlist" then Some(WatchList)
    else None
  }

  /** A date range as the two `yyyy-MM-dd` strings the date selector produces. */
  datatype DateRange = DateRange(from: string, to: string)

  /**
   * The store state. The refetch callback of the sync fields is reduced to
   * whether one has been registered.
   */
  datatype UIState = UIState(
    activePage: Page,
    selectedProjects: seq<string>,
    selectedSprint: Option<string>,
    selectedResource: Option<string>,
    showArchived: bool,
    dateRange: Option<DateRange>,
    darkMode: bool,
    syncLastUpdated: Option<int>,
    syncIsFetching: bool,
    hasRefetch: bool)

  /** The fields of the state, to say which of them an action may change. */
  datatype Field =
    | PageField | ProjectsField | SprintField | ResourceField | ArchivedField
    | DateRangeField | DarkModeField | LastUpdatedField | FetchingField | RefetchField

  /** The fields on which two states differ. */
  function Differ(a: UIState, b: UIState): set<Field>
  {
    (if a.activePage != b.activePage then {PageField} else {}) +
    (if a.selectedProjects != b.selectedProjects then {ProjectsField} else {}) +
    (if a.selectedSprint != b.selectedSprint then {SprintField} else {}) +
    (if a.selectedResource != b.selectedResource then {ResourceField} else {}) +
    (if a.showArchived != b.showArchived then {ArchivedField} else {}) +
    (if a.dateRange != b.dateRange then {DateRangeField} else {}) +
    (if a.darkMode != b.darkMode then {DarkModeField} else {}) +
    (if a.syncLastUpdated != b.syncLastUpdated then {LastUpdatedField} else {}) +
    (if a.syncIsFetching != b.syncIsFetching then {FetchingField} else {}) +
    (if a.hasRefetch != b.hasRefetch then {RefetchField} else {})
  }

  /** Two states that differ on no field are the same state. */
  lemma DifferEmpty(a: UIState, b: UIState)
    ensures Differ(a, b) == {} <==> a == b
  {
    if Differ(a, b) == {} {
      assert PageField !in Differ(a, b) && ProjectsField !in Differ(a, b) && SprintField !in Differ(a, b);
      assert ResourceField !in Differ(a, b) && ArchivedField !in Differ(a, b) && DateRangeField !in Differ(a, b);
      assert DarkModeField !in Differ(a, b) && LastUpdatedField !in Differ(a, b);
      assert FetchingField !in Differ(a, b) && RefetchField !in Differ(a, b);
    }
  }

  /** A field two steps change is changed by one of them. */
  lemma DifferTrans(a: UIState, b: UIState, c: UIState)
    ensures Differ(a, c) <= Differ(a, b) + Differ(b, c)
  {
  }

  /** Writing the four navigation fields changes nothing else. */
  lemma DifferNavigation(s: UIState, page: Page, projects: seq<string>, sprint: Option<string>, resource: Option<string>)
    ensures Differ(s, s.(activePage := page, selectedProjects := projects, selectedSprint := sprint, selectedResource := resource))
      <= {PageField, ProjectsField, SprintField, ResourceField}
  {
  }

  /** Writing the archived flag and the date range changes nothing else. */
  lemma DifferExtras(s: UIState, archived: bool, range: Option<DateRange>)
    ensures Differ(s, s.(showArchived := archived, dateRange := range)) <= {ArchivedField, DateRangeField}
  {
  }

  /**
   * The initial state. The dark-mode default comes from the
   * `prefers-color-scheme` media query, a parameter here.
   */
  function Initial(prefersDark: bool): (s: UIState)
    ensures s.activePage == Dashboard && s.selectedProjects == []
    ensures s.selectedSprint.None? && s.selectedResource.None? && !s.showArchived
    ensures s.dateRange.None? && s.darkMode == prefersDark
    ensures s.syncLastUpdated.None? && !s.syncIsFetching && !s.hasRefetch
  {
    UIState(Dashboard, [], None, None, false, None, prefersDark, None, false, false)
  }

  function SetActivePage(s: UIState, page: Page): (r: UIState)
    ensures r.activePage == page
    ensures Differ(s, r) <= {PageField}
  {
    s.(activePage := page)
  }

  function SetSelectedProjects(s: UIState, projects: seq<string>): (r: UIState)
    ensures r.selectedProjects == projects
    ensures Differ(s, r) <= {ProjectsField}
  {
    s.(selectedProjects := projects)
  }

  function SetSelectedSprint(s: UIState, sprint: Option<string>): (r: UIState)
    ensures r.selectedSprint == sprint
    ensures Differ(s, r) <= {SprintField}
  {
    s.(selectedSprint := sprint)
  }

  function SetSelectedResource(s: UIState, resource: Option<string>): (r: UIState)
    ensures r.selectedResource == resource
    ensures Differ(s, r) <= {ResourceField}
  {
    s.(selectedResource := resource)
  }

  /** The date-range setter the pages and the hash sync call. */
  function SetDateRange(s: UIState, range: Option<DateRange>): (r: UIState)
    ensures r.dateRange == range
    ensures Differ(s, r) <= {DateRangeField}
  {
    s.(dateRange := range)
  }

  function ToggleArchived(s: UIState): (r: UIState)
    ensures r.showArchived != s.showArchived
    ensures Differ(s, r) == {ArchivedField}
  {
    s.(showArchived := !s.showArchived)
  }

  function ToggleDarkMode(s: UIState): (r: UIState)
    ensures r.darkMode != s.darkMode
    ensures Differ(s, r) == {DarkModeField}
  {
    s.(darkMode := !s.darkMode)
  }

  /** `setSyncState`: the three sync fields together; a callback is always registered. */
  function SetSyncState(s: UIState, lastUpdated: Option<int>, isFetching: bool): (r: UIState)
    ensures r.syncLastUpdated == lastUpdated && r.syncIsFetching == isFetching && r.hasRefetch
    ensures Differ(s, r) <= {LastUpdatedField, FetchingField, RefetchField}
  {
    s.(syncLastUpdated := lastUpdated, syncIsFetching := isFetching, hasRefetch := true)
  }

  /** Each toggle undoes itself. */
  lemma TogglesInvolutive(s: UIState)
    ensures ToggleArchived(ToggleArchived(s)) == s
    ensures ToggleDarkMode(ToggleDarkMode(s)) == s
  {
  }

  /** What `partialize` writes to storage. */
  datatype Persisted = Persisted(
    activePage: Page,
    selectedProjects: seq<string>,
    selectedSprint: Option<string>,
    selectedResource: Option<string>,
    showArchived: bool,
    darkMode: bool)

  const PERSISTED_FIELDS: set<Field> :=
    {PageField, ProjectsField, SprintField, ResourceField, ArchivedField, DarkModeField}

  function Persist(s: UIState): Persisted
  {
    Persisted(s.activePage, s.selectedProjects, s.selectedSprint, s.selectedResource, s.showArchived, s.darkMode)
  }

  /** Two states persist alike exactly when they agree on the six persisted fields. */
  lemma PersistExactlySix(a: UIState, b: UIState)
    ensures Persist(a) == Persist(b) <==> Differ(a, b) * PERSISTED_FIELDS == {}
  {
    if Differ(a, b) * PERSISTED_FIELDS == {} {
      assert PageField !in Differ(a, b) && ProjectsField !in Differ(a, b) && SprintField !in Differ(a, b);
      assert ResourceField !in Differ(a, b) && ArchivedField !in Differ(a, b) && DarkModeField !in Differ(a, b);
    }
  }

  /** Rehydration: the stored projection merged over a freshly created state. */
  function Rehydrate(s: UIState, p: Persisted): (r: UIState)
    ensures Persist(r) == p
    ensures Differ(s, r) <= PERSISTED_FIELDS
  {
    s.(activePage := p.activePage, selectedProjects := p.selectedProjects, selectedSprint := p.selectedSprint,
       selectedResource := p.selectedResource, showArchived := p.showArchived, darkMode := p.darkMode)
  }

  /**
   * Saving and restoring brings back the navigation, filter and appearance
   * fields of the saved state and never the sync fields or the date range.
   */
  lemma PersistRoundTrip(saved: UIState, start: UIState)
    ensures var r := Rehydrate(start, Persist(saved));
      Differ(saved, r) * PERSISTED_FIELDS == {} &&
      r.dateRange == start.dateRange && r.syncLastUpdated == start.syncLastUpdated &&
      r.syncIsFetching == start.syncIsFetching && r.hasRefetch == start.hasRefetch
  {
    var r := Rehydrate(start, Persist(saved));
    PersistExactlySix(saved, r);
  }

  /** The sync status is never persisted: recording a sync leaves the stored projection as it was. */
  lemma SyncNotPersisted(s: UIState, lastUpdated: Option<int>, isFetching: bool)
    ensures Persist(SetSyncState(s, lastUpdated, isFetching)) == Persist(s)
  {
    PersistExactlySix(s, SetSyncState(s, lastUpdated, isFetching));
  }
}

=== FILE: velocity.dfy ===
/**
 * The velocity chart data (src/hooks/useVelocity.ts): the most recent past
 * and current sprints in chronological order, the completed points and
 * items of each, split by project, and their one-decimal average.
 */
module Velocity {
  import opened Common
  import opened WorkItems
  import opened Sprints

  const DEFAULT_LAST_N: nat := 6

  /** The sprints on the chart: the `lastN` most recent past/current ones, oldest first. */
  function ChartSprints(sprints: seq<Sprint>, lastN: nat): (r: seq<Sprint>)
    ensures |r| == Min(lastN, |Filter(sprints, IsPastOrCurrent())|)
    ensures forall i, j :: 0 <= i < j < |r| ==> SprintStart(r[i]) <= SprintStart(r[j])
    ensures forall i :: 0 <= i < |r| ==> r[i] in sprints && PastOrCurrent(r[i])
    ensures multiset(r) <= multiset(Filter(sprints, IsPastOrCurrent()))
  {
    var recent := RecentFirst(sprints);
    RecentFirstMembers(sprints);
    assert |recent| == |Filter(sprints, IsPastOrCurrent())| by {
      assert |multiset(recent)| == |multiset(Filter(sprints, IsPastOrCurrent()))|;
    }
    var r := Reverse(Take(recent, lastN));
    assert forall i :: 0 <= i < |r| ==> r[i] in recent;
    ReversePermutes(Take(recent, lastN));
    TakeSubMultiset(recent, lastN);
    r
  }

  /** A past or current sprint left off the chart started no later than any sprint on it. */
  lemma ChartSprintsAreMostRecent(sprints: seq<Sprint>, lastN: nat, s: Sprint)
    requires s in sprints && PastOrCurrent(s) && s !in ChartSprints(sprints, lastN)
    ensures forall i :: 0 <= i < |ChartSprints(sprints, lastN)| ==>
              SprintStart(ChartSprints(sprints, lastN)[i]) >= SprintStart(s)
  {
    var recent := RecentFirst(sprints);
    assert s in recent by {
      RecentFirstMembers(sprints);
    }
    var k :| 0 <= k < |recent| && recent[k] == s;
    var t := Take(recent, lastN);
    var r := ChartSprints(sprints, lastN);
    assert r == Reverse(t);
    TakenAppears(recent, lastN, k);
    assert k >= lastN;
    forall i | 0 <= i < |r| ensures SprintStart(r[i]) >= SprintStart(s) {
      var idx := |t| - 1 - i;
      assert r[i] == recent[idx];
      assert idx < k;
    }
  }

  lemma TakenAppears<T>(s: seq<T>, n: nat, k: nat)
    requires k < |s|
    ensures k < n ==> s[k] in Reverse(Take(s, n))
  {
    if k < n {
      assert Reverse(Take(s, n))[Min(n, |s|) - 1 - k] == s[k];
    }
  }

  /** One project's share of a sprint's completed points. */
  datatype Share = Share(project: string, points: real)

  datatype VelocityPoint = VelocityPoint(
    sprintName: string,
    sprintPath: string,
    completedPoints: real,
    completedItems: nat,
    projectBreakdown: seq<Share>)

  function OnPath(path: string): WorkItem -> bool
  {
    (w: WorkItem) => w.iterationPath == path
  }

  function CompletedItems(): WorkItem -> bool
  {
    (w: WorkItem) => IsCompleted(w)
  }

  /** The completed items of a sprint: Closed or Resolved, with the sprint's iteration path. */
  function SprintItems(items: seq<WorkItem>, path: string): (r: seq<WorkItem>)
    ensures forall i :: 0 <= i < |r| ==> r[i] in items && IsCompleted(r[i]) && r[i].iterationPath == path
    ensures forall x :: x in items && IsCompleted(x) && x.iterationPath == path ==> x in r
  {
    Filter(Filter(items, CompletedItems()), OnPath(path))
  }

  function ProjectOf(w: WorkItem): string { w.projectName }

  function ToShare(g: Group<string, WorkItem>): Share
  {
    Share(g.key, SumReal(g.members, Points))
  }

  function SharePoints(s: Share): real { s.points }

  /**
   * The data point of one sprint: its completed items and the sum of their
   * story points (a missing estimate counting 0).
   */
  function PointFor(items: seq<WorkItem>, sprint: Sprint): (p: VelocityPoint)
    ensures p.sprintName == sprint.name && p.sprintPath == sprint.path
    ensures p.completedItems == |SprintItems(items, sprint.path)|
    ensures p.completedPoints == SumReal(SprintItems(items, sprint.path), Points)
  {
    var mine := SprintItems(items, sprint.path);
    VelocityPoint(sprint.name, sprint.path, SumReal(mine, Points), |mine|, Map(GroupBy(mine, ProjectOf), ToShare))
  }

  /** The project breakdown has one entry per project and its shares add up to the sprint's points. */
  lemma BreakdownSums(items: seq<WorkItem>, sprint: Sprint)
    ensures SumReal(PointFor(items, sprint).projectBreakdown, SharePoints) == PointFor(items, sprint).completedPoints
    ensures NoDup(Map(PointFor(items, sprint).projectBreakdown, (s: Share) => s.project))
  {
    var mine := SprintItems(items, sprint.path);
    var g := GroupBy(mine, ProjectOf);
    SumRealMap(g, ToShare, MemberSum(Points), SharePoints);
    GroupBySumReal(mine, ProjectOf, Points);
    assert Map(PointFor(items, sprint).projectBreakdown, (s: Share) => s.project) == GroupKeys(g);
  }

  function PointPoints(p: VelocityPoint): real { p.completedPoints }

  /** `Math.round((total / n) * 10) / 10`, or 0 with no sprints. */
  function AverageVelocity(data: seq<VelocityPoint>): (r: real)
    ensures |data| == 0 ==> r == 0.0
    ensures |data| > 0 ==>
      var mean := SumReal(data, PointPoints) / |data| as real;
      mean - 0.05 < r <= mean + 0.05
    ensures (r * 10.0).Floor as real == r * 10.0
  {
    if |data| > 0 then Round1(SumReal(data, PointPoints) / |data| as real) else 0.0
  }

  /** Non-negative points give a non-negative average. */
  lemma AverageVelocityNonNegative(data: seq<VelocityPoint>)
    requires forall i :: 0 <= i < |data| ==> data[i].completedPoints >= 0.0
    ensures AverageVelocity(data) >= 0.0
  {
    if |data| > 0 {
      Round1Monotone(0.0, SumReal(data, PointPoints) / |data| as real);
      RoundInt(0);
    }
  }

  /** `useVelocity`. */
  function ComputeVelocity(items: seq<WorkItem>, sprints: seq<Sprint>, lastN: nat): (r: (seq<VelocityPoint>, real))
    ensures |r.0| == |ChartSprints(sprints, lastN)| <= lastN
    ensures forall i :: 0 <= i < |r.0| ==> r.0[i] == PointFor(items, ChartSprints(sprints, lastN)[i])
    ensures r.1 == AverageVelocity(r.0)
  {
    var data := Map(ChartSprints(sprints, lastN), (s: Sprint) => PointFor(items, s));
    (data, AverageVelocity(data))
  }

  /** With non-negative points every sprint's points and the average are non-negative. */
  lemma VelocityNonNegative(items: seq<WorkItem>, sprints: seq<Sprint>, lastN: nat)
    requires NonNegativePoints(items)
    ensures ComputeVelocity(items, sprints, lastN).1 >= 0.0
  {
    var chart := ChartSprints(sprints, lastN);
    var data := ComputeVelocity(items, sprints, lastN).0;
    forall i | 0 <= i < |data| ensures data[i].completedPoints >= 0.0 {
      PointForNonNegative(items, chart[i]);
    }
    AverageVelocityNonNegative(data);
  }

  lemma PointForNonNegative(items: seq<WorkItem>, s: Sprint)
    requires NonNegativePoints(items)
    ensures PointFor(items, s).completedPoints >= 0.0
  {
    var mine := SprintItems(items, s.path);
    forall k | 0 <= k < |mine| ensures Points(mine[k]) >= 0.0 {
      var j :| 0 <= j < |items| && items[j] == mine[k];
    }
  }
}

=== FILE: wiki.dfy ===
/**
 * The project wiki page parser (src/lib/wikiParser.ts): a markdown page is
 * cut into sections at its `# Heading` lines, keyed by the trimmed,
 * lower-cased heading text; the "Project Data" section holds a two-column
 * table of fields, and the "Accomplishments", "Look Ahead …" and
 * "Description" sections are passed through as raw text.
 *
 * The page is taken as a sequence of lines separated by '\n'.
 */
module Wiki {
  import opened Common

  /** One `# Heading` and the text under it, both normalised. */
  datatype Section = Section(key: string, body: string)

  datatype WikiData = WikiData(
    fields: map<string, string>,
    accomplishments: Option<string>,
    lookAhead: Option<string>,
    description: Option<string>)

  function Lines(markdown: string): seq<string>
  {
    Split(markdown, '\n')
  }

  /**
   * A line matched by `^#\s+(.+)$`: a '#', a blank, and at least one more
   * character. The captured text may itself be blanks ("#  " matches, with
   * `\s+` giving back one blank to `(.+)`), and then the key is empty.
   */
  predicate IsHeading(line: string)
  {
    |line| >= 3 && line[0] == '#' && IsSpace(line[1])
  }

  /** The characters 1 up to `k` of `line` are all blanks. */
  ghost predicate BlankRun(line: string, k: nat)
    requires k <= |line|
  {
    forall j :: 1 <= j < k ==> IsSpace(line[j])
  }

  /** The regex read literally: '#', then a non-empty run of blanks, then a non-empty rest. */
  ghost predicate MatchesHeadingRegex(line: string)
  {
    |line| >= 1 && line[0] == '#' && exists k :: 2 <= k < |line| && BlankRun(line, k)
  }

  /** The key of a heading line: its text, trimmed and lower-cased. */
  function HeadingKey(line: string): (k: string)
    requires IsHeading(line)
    ensures |k| < |line|
    ensures |k| == 0 <==> forall i :: 1 <= i < |line| ==> IsSpace(line[i])
  {
    var t := line[1..];
    assert forall i :: 1 <= i < |line| ==> line[i] == t[i - 1];
    ToLower(Trim(t))
  }

  /** A key or body as the parser stores it. */
  predicate Normalised(s: string)
  {
    Trim(s) == s && ToLower(s) == s
  }

  lemma TrimIdempotent(s: string)
    ensures Trim(Trim(s)) == Trim(s)
  {
    var t := Trim(s);
    if |t| > 0 {
      TrimOfTrimmed(t);
    }
  }

  lemma LowerCharIdempotent(c: char)
    ensures LowerChar(LowerChar(c)) == LowerChar(c)
    ensures IsSpace(LowerChar(c)) <==> IsSpace(c)
  {
  }

  /**
   * A heading line is exactly one the regex matches on a line of its own:
   * '#', one or more blanks, then at least one character; so "##" opens no
   * section and "#  " does.
   */
  lemma HeadingShape(line: string)
    ensures IsHeading(line) <==> MatchesHeadingRegex(line)
    ensures IsHeading(line) ==> line[1] != '#'
  {
    if IsHeading(line) {
      assert BlankRun(line, 2);
    }
    if MatchesHeadingRegex(line) {
      var k :| 2 <= k < |line| && BlankRun(line, k);
      assert IsSpace(line[1]);
    }
  }

  /** A section key has no surrounding blanks and no upper-case letter. */
  lemma HeadingKeyNormal(line: string)
    requires IsHeading(line)
    ensures Normalised(HeadingKey(line))
  {
    TrimIdempotent(line[1..]);
    LowerOfTrimmed(Trim(line[1..]));
  }

  /**
   * The key of `# <blanks><name>`, for a name without surrounding blanks,
   * is the name lower-cased.
   */
  lemma HeadingKeyOf(pad: string, name: string)
    requires forall i :: 0 <= i < |pad| ==> IsSpace(pad[i])
    requires |name| > 0 && !IsSpace(name[0]) && !IsSpace(name[|name| - 1])
    ensures IsHeading("# " + pad + name) && HeadingKey("# " + pad + name) == ToLower(name)
  {
    var line := "# " + pad + name;
    var p := " " + pad;
    assert line[1..] == p + name;
    assert forall i :: 0 <= i < |p| ==> IsSpace(p[i]);
    TrimStartBlanks(p, name);
    assert TrimEnd(name) == name;
  }

  /** Leading blanks in front of a text that starts with a non-blank are all trimmed away. */
  lemma {:induction false} TrimStartBlanks(pad: string, name: string)
    requires forall i :: 0 <= i < |pad| ==> IsSpace(pad[i])
    requires |name| > 0 && !IsSpace(name[0])
    ensures TrimStart(pad + name) == name
    decreases |pad|
  {
    if |pad| > 0 {
      assert (pad + name)[1..] == pad[1..] + name;
      TrimStartBlanks(pad[1..], name);
    } else {
      assert pad + name == name;
    }
  }

  /** Lower-casing a trimmed text gives a normalised one. */
  lemma LowerOfTrimmed(t: string)
    requires Trim(t) == t
    ensures Normalised(ToLower(t))
  {
    var k := ToLower(t);
    if |t| > 0 {
      LowerCharIdempotent(t[0]);
      LowerCharIdempotent(t[|t| - 1]);
      assert k[0] == LowerChar(t[0]) && k[|k| - 1] == LowerChar(t[|t| - 1]);
      TrimOfTrimmed(k);
      forall i | 0 <= i < |k| ensures ToLower(k)[i] == k[i] {
        LowerCharIdempotent(t[i]);
      }
      assert ToLower(k) == k;
    } else {
      assert k == [];
      assert |Trim(k)| <= 0;
    }
  }

  /** The lines of a section's body: those up to the next heading. */
  function BodyLines(lines: seq<string>): (r: seq<string>)
    ensures |r| <= |lines|
    ensures forall i :: 0 <= i < |r| ==> r[i] == lines[i] && !IsHeading(r[i])
    ensures |r| < |lines| ==> IsHeading(lines[|r|])
  {
    if |lines| == 0 || IsHeading(lines[0]) then []
    else [lines[0]] + BodyLines(lines[1..])
  }

  /** The body of the section opened at heading `h`, trimmed. */
  function SectionAt(lines: seq<string>, h: nat): (s: Section)
    requires h < |lines| && IsHeading(lines[h])
    ensures Trim(s.body) == s.body
  {
    TrimIdempotent(Join(BodyLines(lines[h + 1..]), "\n"));
    Section(HeadingKey(lines[h]), Trim(Join(BodyLines(lines[h + 1..]), "\n")))
  }

  /**
   * The section a heading opens: its key comes from the heading line, and its
   * body is the trimmed text of the lines after it, up to the next heading or
   * the end of the page.
   */
  lemma SectionAtValue(lines: seq<string>, h: nat, e: nat)
    requires h < e <= |lines| && IsHeading(lines[h])
    requires e == |lines| || IsHeading(lines[e])
    requires forall i :: h < i < e ==> !IsHeading(lines[i])
    ensures SectionAt(lines, h) == Section(HeadingKey(lines[h]), Trim(Join(lines[h + 1..e], "\n")))
  {
    var rest := lines[h + 1..];
    BodyLinesUpTo(rest, e - h - 1);
    assert rest[..e - h - 1] == lines[h + 1..e];
  }

  /** The body runs exactly up to the first heading, or to the end. */
  lemma {:induction false} BodyLinesUpTo(lines: seq<string>, n: nat)
    requires n <= |lines| && (n == |lines| || IsHeading(lines[n]))
    requires forall i :: 0 <= i < n ==> !IsHeading(lines[i])
    ensures BodyLines(lines) == lines[..n]
    decreases n
  {
    if n > 0 {
      BodyLinesUpTo(lines[1..], n - 1);
      assert lines[..n] == [lines[0]] + lines[1..][..n - 1];
    }
  }

  /** The positions of the heading lines, in page order; lines before the first one open no section. */
  function Headings(lines: seq<string>): (r: seq<nat>)
    ensures forall j :: 0 <= j < |r| ==> r[j] < |lines| && IsHeading(lines[r[j]])
    ensures forall j, k :: 0 <= j < k < |r| ==> r[j] < r[k]
    ensures forall h :: 0 <= h < |lines| && IsHeading(lines[h]) ==> h in r
    decreases |lines|
  {
    if |lines| == 0 then []
    else
      var n := |lines| - 1;
      var pre := Headings(lines[..n]);
      assert forall h :: 0 <= h < n ==> lines[..n][h] == lines[h];
      pre + (if IsHeading(lines[n]) then [n] else [])
  }

  /**
   * The regex matches of `splitSections`, in page order: one section per
   * heading line; text before the first heading belongs to none.
   */
  function Scan(lines: seq<string>): (r: seq<Section>)
  {
    var hs := Headings(lines);
    seq(|hs|, j requires 0 <= j < |hs| => SectionAt(lines, hs[j]))
  }

  /** `s` is the section some heading line of `lines` opens. */
  ghost predicate FromHeading(lines: seq<string>, s: Section)
  {
    exists h :: 0 <= h < |lines| && IsHeading(lines[h]) && s == SectionAt(lines, h)
  }

  lemma FromHeadingIntro(lines: seq<string>, h: nat)
    requires h < |lines| && IsHeading(lines[h])
    ensures FromHeading(lines, SectionAt(lines, h))
  {
  }

  /** Every section comes from a heading line (and every heading line gives one: `ScanCoversHeadings`). */
  lemma ScanFromHeadings(lines: seq<string>)
    ensures forall j :: 0 <= j < |Scan(lines)| ==> FromHeading(lines, Scan(lines)[j])
  {
    var hs := Headings(lines);
    var sc := Scan(lines);
    forall j | 0 <= j < |sc| ensures FromHeading(lines, sc[j]) {
      assert sc[j] == SectionAt(lines, hs[j]);
      FromHeadingIntro(lines, hs[j]);
    }
  }

  lemma ScanCoversHeadings(lines: seq<string>)
    ensures forall h :: 0 <= h < |lines| && IsHeading(lines[h]) ==> SectionAt(lines, h) in Scan(lines)
  {
    var hs := Headings(lines);
    var sc := Scan(lines);
    forall h | 0 <= h < |lines| && IsHeading(lines[h]) ensures SectionAt(lines, h) in sc {
      var j :| 0 <= j < |hs| && hs[j] == h;
      assert sc[j] == SectionAt(lines, h);
    }
  }

  function SectionKey(s: Section): string { s.key }

  /** The position of the section keyed `k`, if any (keys are kept distinct). */
  function IndexOfKey(secs: seq<Section>, k: string): (r: Option<nat>)
    ensures r.None? <==> forall i :: 0 <= i < |secs| ==> secs[i].key != k
    ensures r.Some? ==>
      r.value < |secs| && secs[r.value].key == k && forall i :: 0 <= i < r.value ==> secs[i].key != k
  {
    if |secs| == 0 then None
    else if secs[0].key == k then Some(0)
    else match IndexOfKey(secs[1..], k)
      case None => None
      case Some(i) => Some(i + 1)
  }

  /** `Map.prototype.get`. */
  function Get(secs: seq<Section>, k: string): (r: Option<string>)
    ensures r.Some? <==> k in Map(secs, SectionKey)
  {
    match IndexOfKey(secs, k)
    case Some(i) =>
      assert Map(secs, SectionKey)[i] == k;
      Some(secs[i].body)
    case None => None
  }

  /**
   * `Map.prototype.set`: an existing key keeps its place and takes the new
   * body; a new key goes last.
   */
  function Put(secs: seq<Section>, s: Section): (r: seq<Section>)
  {
    match IndexOfKey(secs, s.key)
    case Some(i) => secs[i := s]
    case None => secs + [s]
  }

  /** `splitSections`: the scanned sections, set one after the other into a map. */
  function Collect(raw: seq<Section>): (r: seq<Section>)
    ensures |r| <= |raw|
  {
    if |raw| == 0 then []
    else Put(Collect(raw[..|raw| - 1]), raw[|raw| - 1])
  }

  /** The body of the last section keyed `k`: the value a map ends up with. */
  function LastBody(raw: seq<Section>, k: string): (r: Option<string>)
    ensures r.Some? <==> exists i :: 0 <= i < |raw| && raw[i].key == k
    ensures r.Some? ==>
      exists i :: 0 <= i < |raw| && raw[i] == Section(k, r.value) && forall j :: i < j < |raw| ==> raw[j].key != k
  {
    if |raw| == 0 then None
    else if raw[|raw| - 1].key == k then Some(raw[|raw| - 1].body)
    else
      var r := LastBody(raw[..|raw| - 1], k);
      LastBodyDrop(raw, k, r);
      r
  }

  /** A last section whose key is not `k` changes nothing about the sections keyed `k`. */
  lemma LastBodyDrop(raw: seq<Section>, k: string, r: Option<string>)
    requires |raw| > 0 && raw[|raw| - 1].key != k
    requires var pre := raw[..|raw| - 1];
      (r.Some? <==> exists i :: 0 <= i < |pre| && pre[i].key == k) &&
      (r.Some? ==> exists i :: 0 <= i < |pre| && pre[i] == Section(k, r.value) && forall j :: i < j < |pre| ==> pre[j].key != k)
    ensures r.Some? <==> exists i :: 0 <= i < |raw| && raw[i].key == k
    ensures r.Some? ==>
      exists i :: 0 <= i < |raw| && raw[i] == Section(k, r.value) && forall j :: i < j < |raw| ==> raw[j].key != k
  {
    var pre := raw[..|raw| - 1];
    assert forall i :: 0 <= i < |pre| ==> pre[i] == raw[i];
    if r.Some? {
      var i :| 0 <= i < |pre| && pre[i] == Section(k, r.value) && forall j :: i < j < |pre| ==> pre[j].key != k;
      assert raw[i] == Section(k, r.value);
    }
  }

  lemma GetPut(secs: seq<Section>, s: Section, k: string)
    ensures Get(Put(secs, s), k) == if s.key == k then Some(s.body) else Get(secs, k)
  {
    var r := Put(secs, s);
    match IndexOfKey(secs, s.key)
    case Some(i) =>
      assert forall j :: 0 <= j < |r| ==> r[j].key == secs[j].key;
      SameKeysSameIndex(secs, r, k);
    case None =>
      assert forall j :: 0 <= j < |secs| ==> r[j] == secs[j];
      if s.key == k {
        assert r[|secs|] == s;
      } else {
        assert IndexOfKey(r, k) == IndexOfKey(secs, k);
      }
  }

  lemma SameKeysSameIndex(a: seq<Section>, b: seq<Section>, k: string)
    requires |a| == |b|
    requires forall j :: 0 <= j < |a| ==> a[j].key == b[j].key
    ensures IndexOfKey(a, k) == IndexOfKey(b, k)
  {
  }

  /** A later section with the same heading overwrites the earlier one. */
  lemma {:induction false} GetCollect(raw: seq<Section>, k: string)
    ensures Get(Collect(raw), k) == LastBody(raw, k)
    decreases |raw|
  {
    if |raw| > 0 {
      GetCollect(raw[..|raw| - 1], k);
      GetPut(Collect(raw[..|raw| - 1]), raw[|raw| - 1], k);
    }
  }

  /** Setting keys never duplicates one. */
  lemma {:induction false} CollectDistinct(raw: seq<Section>)
    ensures NoDup(Map(Collect(raw), SectionKey))
    decreases |raw|
  {
    if |raw| > 0 {
      var c := Collect(raw[..|raw| - 1]);
      var s := raw[|raw| - 1];
      CollectDistinct(raw[..|raw| - 1]);
      var r := Put(c, s);
      assert r == Collect(raw);
      match IndexOfKey(c, s.key)
      case Some(i) =>
        assert forall j :: 0 <= j < |r| ==> r[j].key == c[j].key;
        assert forall j :: 0 <= j < |r| ==> Map(r, SectionKey)[j] == Map(c, SectionKey)[j];
      case None =>
        assert forall j :: 0 <= j < |c| ==> Map(r, SectionKey)[j] == Map(c, SectionKey)[j];
        assert Map(r, SectionKey)[|c|] == s.key;
    }
  }

  /** Where a key is first set among `raw`; `|raw|` when never. */
  function FirstSet(raw: seq<Section>, k: string): nat
  {
    match IndexOfKey(raw, k)
    case Some(i) => i
    case None => |raw|
  }

  predicate InsertionOrdered(c: seq<Section>, raw: seq<Section>)
  {
    forall i, j :: 0 <= i < j < |c| ==> FirstSet(raw, c[i].key) < FirstSet(raw, c[j].key)
  }

  /**
   * Map keys keep insertion order: the sections stand in the order in which
   * their headings first appear.
   */
  lemma {:induction false} CollectOrder(raw: seq<Section>)
    ensures InsertionOrdered(Collect(raw), raw)
    decreases |raw|
  {
    if |raw| > 0 {
      var pre := raw[..|raw| - 1];
      var c := Collect(pre);
      var s := raw[|raw| - 1];
      CollectOrder(pre);
      CollectKeysFrom(pre);
      assert raw == pre + [s];
      forall i | 0 <= i < |c| ensures FirstSet(raw, c[i].key) == FirstSet(pre, c[i].key) < |pre| {
        assert Map(c, SectionKey)[i] == c[i].key;
        PrefixIndex(pre, s, c[i].key);
      }
      match IndexOfKey(c, s.key)
      case Some(m) =>
        OrderedOverwrite(c, raw, m, s);
      case None =>
        GetCollect(pre, s.key);
        assert forall l :: 0 <= l < |pre| ==> raw[l] == pre[l];
        assert FirstSet(raw, s.key) == |pre|;
        OrderedAppend(c, raw, s);
    }
  }

  /** Overwriting a section under its own key keeps the order. */
  lemma OrderedOverwrite(c: seq<Section>, raw: seq<Section>, m: nat, s: Section)
    requires m < |c| && c[m].key == s.key
    requires forall i, j :: 0 <= i < j < |c| ==> FirstSet(raw, c[i].key) < FirstSet(raw, c[j].key)
    ensures InsertionOrdered(c[m := s], raw)
  {
    var r := c[m := s];
    forall i, j | 0 <= i < j < |r| ensures FirstSet(raw, r[i].key) < FirstSet(raw, r[j].key) {
      assert r[i].key == c[i].key && r[j].key == c[j].key;
    }
  }

  /** A key first seen after every existing one goes last. */
  lemma OrderedAppend(c: seq<Section>, raw: seq<Section>, s: Section)
    requires forall i :: 0 <= i < |c| ==> FirstSet(raw, c[i].key) < FirstSet(raw, s.key)
    requires forall i, j :: 0 <= i < j < |c| ==> FirstSet(raw, c[i].key) < FirstSet(raw, c[j].key)
    ensures InsertionOrdered(c + [s], raw)
  {
    var r := c + [s];
    forall i, j | 0 <= i < j < |r| ensures FirstSet(raw, r[i].key) < FirstSet(raw, r[j].key) {
      assert r[i] == c[i];
    }
  }

  lemma PrefixIndex(pre: seq<Section>, s: Section, k: string)
    requires IndexOfKey(pre, k).Some?
    ensures IndexOfKey(pre + [s], k) == IndexOfKey(pre, k)
  {
    var p := pre + [s];
    assert forall l :: 0 <= l < |pre| ==> p[l] == pre[l];
  }

  /** Every key in the map was some section's key, so it has a first heading. */
  lemma CollectKeysFrom(raw: seq<Section>)
    ensures forall k :: k in Map(Collect(raw), SectionKey) ==> IndexOfKey(raw, k).Some?
  {
    forall k | k in Map(Collect(raw), SectionKey) ensures IndexOfKey(raw, k).Some? {
      GetCollect(raw, k);
    }
  }

  /** The sections of a page, in map order. */
  function Sections(markdown: string): seq<Section>
  {
    Collect(Scan(Lines(markdown)))
  }

  function IsLookAhead(k: string): bool
  {
    StartsWith(k, "look ahead")
  }

  /** `[...sections.keys()].find(k => k.startsWith('look ahead'))`, then its body. */
  function LookAhead(secs: seq<Section>): (r: Option<string>)
    ensures r.None? <==> forall i :: 0 <= i < |secs| ==> !IsLookAhead(secs[i].key)
    ensures r.Some? ==>
      exists i :: 0 <= i < |secs| && IsLookAhead(secs[i].key) && r.value == secs[i].body &&
                  forall j :: 0 <= j < i ==> !IsLookAhead(secs[j].key)
  {
    if |secs| == 0 then None
    else if IsLookAhead(secs[0].key) then Some(secs[0].body)
    else
      var r := LookAhead(secs[1..]);
      if r.Some? then
        var i :| 0 <= i < |secs| - 1 && IsLookAhead(secs[1..][i].key) &&
          r.value == secs[1..][i].body && forall j :: 0 <= j < i ==> !IsLookAhead(secs[1..][j].key);
        assert forall j :: 0 <= j < i + 1 ==> !IsLookAhead(secs[j].key) by {
          forall j | 0 <= j < i + 1 ensures !IsLookAhead(secs[j].key) {
            if j > 0 {
              assert secs[j] == secs[1..][j - 1];
            }
          }
        }
        r
      else
        assert forall i :: 1 <= i < |secs| ==> secs[i] == secs[1..][i - 1];
        r
  }

  // ---------------------------------------------------------------------
  // The "Project Data" table.

  /** Non-empty text without surrounding blanks: what trimming leaves of a non-blank string. */
  predicate Clean(s: string)
  {
    |s| > 0 && !IsSpace(s[0]) && !IsSpace(s[|s| - 1])
  }

  /** The pieces of a row trimmed, the blank ones dropped (`.map(trim).filter(Boolean)`). */
  function NonBlank(pieces: seq<string>): seq<string>
    decreases |pieces|
  {
    if |pieces| == 0 then []
    else
      var t := Trim(pieces[0]);
      (if |t| > 0 then [t] else []) + NonBlank(pieces[1..])
  }

  /** Every kept piece is non-empty and has no surrounding blanks. */
  lemma {:induction false} NonBlankClean(pieces: seq<string>)
    ensures forall i :: 0 <= i < |NonBlank(pieces)| ==> Clean(NonBlank(pieces)[i])
    decreases |pieces|
  {
    if |pieces| > 0 {
      var t := Trim(pieces[0]);
      NonBlankClean(pieces[1..]);
      var head := if |t| > 0 then [t] else [];
      assert NonBlank(pieces) == head + NonBlank(pieces[1..]);
    }
  }

  /** Trimming adds no pipe. */
  lemma {:induction false} NonBlankNoPipe(pieces: seq<string>)
    requires forall j :: 0 <= j < |pieces| ==> '|' !in pieces[j]
    ensures forall i :: 0 <= i < |NonBlank(pieces)| ==> '|' !in NonBlank(pieces)[i]
    decreases |pieces|
  {
    if |pieces| > 0 {
      var t := Trim(pieces[0]);
      var rest := pieces[1..];
      assert '|' !in t by {
        TrimInside(pieces[0]);
      }
      assert forall j :: 0 <= j < |rest| ==> '|' !in rest[j] by {
        assert forall j :: 0 <= j < |rest| ==> rest[j] == pieces[j + 1];
      }
      NonBlankNoPipe(rest);
      var head := if |t| > 0 then [t] else [];
      assert NonBlank(pieces) == head + NonBlank(rest);
    }
  }

  /** The cells of a table row: pieces between pipes, trimmed, blanks dropped. */
  function Cells(line: string): (r: seq<string>)
    ensures forall i :: 0 <= i < |r| ==> Clean(r[i]) && '|' !in r[i]
  {
    NonBlankNoPipe(Split(line, '|'));
    NonBlankClean(Split(line, '|'));
    NonBlank(Split(line, '|'))
  }

  /** A line that starts with a pipe once trimmed. */
  predicate IsPipeLine(line: string)
  {
    StartsWith(Trim(line), "|")
  }

  /** The pipe lines among `lines`, in order. */
  function PipeLines(lines: seq<string>): seq<string>
  {
    if |lines| == 0 then []
    else (if IsPipeLine(lines[0]) then [lines[0]] else []) + PipeLines(lines[1..])
  }

  /** The cells of the table rows: every pipe line but the first two (header and rule). */
  function TableCells(body: string): (r: seq<seq<string>>)
    ensures var lines := PipeLines(Split(body, '\n'));
      |r| == if |lines| <= 2 then 0 else |lines| - 2
    ensures var lines := PipeLines(Split(body, '\n'));
      forall i :: 0 <= i < |r| ==> r[i] == Cells(lines[i + 2])
  {
    RowsAfterRule(PipeLines(Split(body, '\n')))
  }

  /** The cells of the pipe lines after the header and the rule. */
  function RowsAfterRule(lines: seq<string>): (r: seq<seq<string>>)
    ensures |r| == if |lines| <= 2 then 0 else |lines| - 2
    ensures forall i :: 0 <= i < |r| ==> r[i] == Cells(lines[i + 2])
  {
    if |lines| <= 2 then []
    else
      var rows := lines[2..];
      assert forall i :: 0 <= i < |rows| ==> rows[i] == lines[i + 2];
      RowCellsOf(rows)
  }

  /** The cells of each of the given rows. */
  function RowCellsOf(rows: seq<string>): (r: seq<seq<string>>)
    ensures |r| == |rows|
    ensures forall i :: 0 <= i < |r| ==> r[i] == Cells(rows[i])
  {
    if |rows| == 0 then [] else [Cells(rows[0])] + RowCellsOf(rows[1..])
  }

  /**
   * The fields of a list of rows: the first cell names the field, the
   * second is its value; rows of fewer than two cells are skipped.
   */
  function Fields(rows: seq<seq<string>>): (r: map<string, string>)
    ensures forall k :: k in r <==> exists i :: 0 <= i < |rows| && |rows[i]| >= 2 && rows[i][0] == k
    decreases |rows|
  {
    if |rows| == 0 then map[]
    else
      var pre := rows[..|rows| - 1];
      var m := Fields(pre);
      var c := rows[|rows| - 1];
      assert forall i :: 0 <= i < |pre| ==> pre[i] == rows[i];
      if |c| >= 2 then m[c[0] := c[1]] else m
  }

  /** A later row naming the same field overwrites: the value is the second cell of the last row naming it. */
  lemma {:induction false} FieldsLastWins(rows: seq<seq<string>>, i: nat)
    requires i < |rows| && |rows[i]| >= 2
    requires forall j :: i < j < |rows| && |rows[j]| >= 2 ==> rows[j][0] != rows[i][0]
    ensures rows[i][0] in Fields(rows) && Fields(rows)[rows[i][0]] == rows[i][1]
    decreases |rows|
  {
    var n := |rows| - 1;
    var pre := rows[..n];
    if i < n {
      assert forall j :: i < j < |pre| ==> pre[j] == rows[j];
      FieldsLastWins(pre, i);
      assert pre[i] == rows[i];
    }
  }

  /** Every value is the second cell of some row. */
  lemma {:induction false} FieldsValues(rows: seq<seq<string>>, k: string)
    requires k in Fields(rows)
    ensures exists i :: 0 <= i < |rows| && |rows[i]| >= 2 && Fields(rows)[k] == rows[i][1]
    decreases |rows|
  {
    var n := |rows| - 1;
    var pre := rows[..n];
    var c := rows[n];
    if !(|c| >= 2 && c[0] == k) {
      FieldsValues(pre, k);
      var i :| 0 <= i < |pre| && |pre[i]| >= 2 && Fields(pre)[k] == pre[i][1];
      assert pre[i] == rows[i];
    }
  }

  /**
   * `parseTable`: the fields of the table rows; names and values are
   * non-empty, trimmed and free of pipes.
   */
  function ParseTable(body: string): (r: map<string, string>)
    ensures var rows := TableCells(body);
      forall k :: k in r <==> exists i :: 0 <= i < |rows| && |rows[i]| >= 2 && rows[i][0] == k
    ensures forall k :: k in r ==> Clean(k) && '|' !in k
    ensures forall k :: k in r ==> Clean(r[k]) && '|' !in r[k]
  {
    var rows := TableCells(body);
    var r := Fields(rows);
    forall k | k in r ensures Clean(k) && '|' !in k && Clean(r[k]) && '|' !in r[k] {
      var i :| 0 <= i < |rows| && |rows[i]| >= 2 && rows[i][0] == k;
      assert rows[i] == Cells(PipeLines(Split(body, '\n'))[i + 2]);
      FieldsValues(rows, k);
      var j :| 0 <= j < |rows| && |rows[j]| >= 2 && r[k] == rows[j][1];
      assert rows[j] == Cells(PipeLines(Split(body, '\n'))[j + 2]);
    }
    r
  }

  // ---------------------------------------------------------------------
  // Writing a table and reading it back.

  /** Text that can stand in a table cell: non-empty, no surrounding blanks, no pipe, no line break. */
  predicate CellText(s: string)
  {
    Clean(s) && '|' !in s && '\n' !in s
  }

  const TABLE_HEADER: string := "| Field | Value |"
  const TABLE_RULE: string := "|---|---|"

  /** The markdown row of one field. */
  function RowText(f: (string, string)): string
  {
    "| " + f.0 + " | " + f.1 + " |"
  }

  /** A "Project Data" table: header, rule, then one row per field. */
  function RenderTable(fields: seq<(string, string)>): string
  {
    Join([TABLE_HEADER, TABLE_RULE] + Map(fields, RowText), "\n")
  }

  lemma TrimPadded(a: string)
    requires Clean(a)
    ensures Trim(" " + a + " ") == a
  {
    var s := " " + a + " ";
    assert s[1..] == a + " ";
    assert TrimStart(s) == TrimStart(a + " ") == a + " ";
    assert (a + " ")[..|a|] == a;
    assert TrimEnd(a + " ") == TrimEnd(a) == a;
  }

  lemma RowSplit(a: string, b: string)
    requires CellText(a) && CellText(b)
    ensures Split(RowText((a, b)), '|') == ["", " " + a + " ", " " + b + " ", ""]
  {
    var pa := " " + a + " ";
    var pb := " " + b + " ";
    var parts := ["", pa, pb, ""];
    assert parts[3..] == [""];
    assert parts[2..] == [pb] + parts[3..];
    assert parts[1..] == [pa] + parts[2..];
    assert Join(parts[2..], "|") == pb + "|";
    assert Join(parts[1..], "|") == pa + "|" + pb + "|";
    assert Join(parts, "|") == RowText((a, b));
    assert forall i :: 0 <= i < |parts| ==> '|' !in parts[i];
    SplitJoin(parts, '|');
  }

  lemma RowCells(a: string, b: string)
    requires CellText(a) && CellText(b)
    ensures Cells(RowText((a, b))) == [a, b]
  {
    var pieces := ["", " " + a + " ", " " + b + " ", ""];
    RowSplit(a, b);
    NonBlankRow(a, b);
    assert Cells(RowText((a, b))) == NonBlank(pieces);
  }

  lemma NonBlankRow(a: string, b: string)
    requires Clean(a) && Clean(b)
    ensures NonBlank(["", " " + a + " ", " " + b + " ", ""]) == [a, b]
  {
    TrimPadded(a);
    TrimPadded(b);
    assert |Trim("")| <= 0;
    NonBlankFour("", " " + a + " ", " " + b + " ", "", a, b);
  }

  /** Four pieces, blank at both ends and trimming to `a` and `b` in between, give `a` and `b`. */
  lemma NonBlankFour(w: string, x: string, y: string, z: string, a: string, b: string)
    requires |Trim(w)| == 0 && Trim(x) == a && |a| > 0 && Trim(y) == b && |b| > 0 && |Trim(z)| == 0
    ensures NonBlank([w, x, y, z]) == [a, b]
  {
    NonBlankThree(x, y, z, a, b);
    NonBlankDrop(w, [x, y, z]);
    assert [w] + [x, y, z] == [w, x, y, z];
  }

  lemma NonBlankThree(x: string, y: string, z: string, a: string, b: string)
    requires Trim(x) == a && |a| > 0 && Trim(y) == b && |b| > 0 && |Trim(z)| == 0
    ensures NonBlank([x, y, z]) == [a, b]
  {
    NonBlankTwo(y, z, b);
    NonBlankKeep(x, [y, z], a);
    assert [x] + [y, z] == [x, y, z];
  }

  lemma NonBlankTwo(y: string, z: string, b: string)
    requires Trim(y) == b && |b| > 0 && |Trim(z)| == 0
    ensures NonBlank([y, z]) == [b]
  {
    var e: seq<string> := [];
    NonBlankDrop(z, e);
    assert [z] + e == [z];
    NonBlankKeep(y, [z], b);
    assert [y] + [z] == [y, z];
  }

  /** A blank piece in front is dropped. */
  lemma NonBlankDrop(p: string, rest: seq<string>)
    requires |Trim(p)| == 0
    ensures NonBlank([p] + rest) == NonBlank(rest)
  {
    assert ([p] + rest)[1..] == rest;
  }

  /** A piece in front that trims to the non-empty `t` contributes `t`. */
  lemma NonBlankKeep(p: string, rest: seq<string>, t: string)
    requires Trim(p) == t && |t| > 0
    ensures NonBlank([p] + rest) == [t] + NonBlank(rest)
  {
    assert ([p] + rest)[1..] == rest;
  }

  lemma RulerLinesArePipeLines(fields: seq<(string, string)>)
    requires forall i :: 0 <= i < |fields| ==> CellText(fields[i].0) && CellText(fields[i].1)
    ensures var lines := [TABLE_HEADER, TABLE_RULE] + Map(fields, RowText);
      forall i :: 0 <= i < |lines| ==> IsPipeLine(lines[i]) && '\n' !in lines[i]
  {
    var lines := [TABLE_HEADER, TABLE_RULE] + Map(fields, RowText);
    forall i | 0 <= i < |lines| ensures IsPipeLine(lines[i]) && '\n' !in lines[i] {
      var l := lines[i];
      assert |l| > 0 && l[0] == '|' && l[|l| - 1] == '|';
      TrimOfTrimmed(l);
    }
  }

  lemma {:induction false} PipeLinesAll(lines: seq<string>)
    requires forall i :: 0 <= i < |lines| ==> IsPipeLine(lines[i])
    ensures PipeLines(lines) == lines
    decreases |lines|
  {
    if |lines| > 0 {
      PipeLinesAll(lines[1..]);
    }
  }

  lemma RenderedPipeLines(fields: seq<(string, string)>)
    requires forall i :: 0 <= i < |fields| ==> CellText(fields[i].0) && CellText(fields[i].1)
    ensures PipeLines(Split(RenderTable(fields), '\n')) == [TABLE_HEADER, TABLE_RULE] + Map(fields, RowText)
  {
    var lines := [TABLE_HEADER, TABLE_RULE] + Map(fields, RowText);
    RulerLinesArePipeLines(fields);
    SplitJoin(lines, '\n');
    PipeLinesAll(lines);
  }

  lemma RenderedRows(fields: seq<(string, string)>)
    requires forall i :: 0 <= i < |fields| ==> CellText(fields[i].0) && CellText(fields[i].1)
    ensures var rows := TableCells(RenderTable(fields));
      |rows| == |fields| && forall i :: 0 <= i < |fields| ==> rows[i] == [fields[i].0, fields[i].1]
  {
    var lines := [TABLE_HEADER, TABLE_RULE] + Map(fields, RowText);
    RenderedPipeLines(fields);
    var rows := TableCells(RenderTable(fields));
    forall i | 0 <= i < |fields| ensures rows[i] == [fields[i].0, fields[i].1] {
      assert lines[i + 2] == RowText(fields[i]);
      RowCells(fields[i].0, fields[i].1);
    }
  }

  /**
   * A rendered table reads back: each field, under distinct names, comes out
   * with its value, and nothing else does.
   */
  lemma TableRoundTrip(fields: seq<(string, string)>)
    requires forall i :: 0 <= i < |fields| ==> CellText(fields[i].0) && CellText(fields[i].1)
    requires forall i, j :: 0 <= i < j < |fields| ==> fields[i].0 != fields[j].0
    ensures var r := ParseTable(RenderTable(fields));
      (forall k :: k in r <==> exists i :: 0 <= i < |fields| && fields[i].0 == k) &&
      forall i :: 0 <= i < |fields| ==> fields[i].0 in r && r[fields[i].0] == fields[i].1
  {
    var rows := TableCells(RenderTable(fields));
    RenderedRows(fields);
    var r := ParseTable(RenderTable(fields));
    assert r == Fields(rows);
    forall i | 0 <= i < |fields| ensures fields[i].0 in r && r[fields[i].0] == fields[i].1 {
      FieldsLastWins(rows, i);
    }
  }

  // ---------------------------------------------------------------------
  // The page.

  /**
   * `parseWikiPage`: nothing for a blank page; otherwise the fields of the
   * "project data" section (none without one), the bodies of the
   * "accomplishments" and "description" sections, and the body of the
   * first section, in page order, whose key starts with "look ahead".
   */
  function ParseWikiPage(markdown: string): (r: Option<WikiData>)
    ensures r.None? <==> forall i :: 0 <= i < |markdown| ==> IsSpace(markdown[i])
    ensures r.Some? ==>
      var raw := Scan(Lines(markdown));
      r.value.accomplishments == LastBody(raw, "accomplishments") &&
      r.value.description == LastBody(raw, "description") &&
      (LastBody(raw, "project data").None? ==> r.value.fields == map[]) &&
      (LastBody(raw, "project data").Some? ==> r.value.fields == ParseTable(LastBody(raw, "project data").value)) &&
      r.value.lookAhead == LookAhead(Sections(markdown))
  {
    if |Trim(markdown)| == 0 then None
    else
      var raw := Scan(Lines(markdown));
      var secs := Sections(markdown);
      GetCollect(raw, "accomplishments");
      GetCollect(raw, "description");
      GetCollect(raw, "project data");
      var data := Get(secs, "project data");
      Some(WikiData(
        if data.Some? then ParseTable(data.value) else map[],
        Get(secs, "accomplishments"),
        LookAhead(secs),
        Get(secs, "description")))
  }
}

=== FILE: workitem.dfy ===
/**
 * The records the dashboard works on: work items, sprints and projects,
 * as fetched from Azure DevOps. Timestamps are milliseconds since the
 * epoch; "today"/"now" is always passed in by the caller.
 */
module WorkItems {
  import opened Common

  datatype State = New | Active | Resolved | Closed | Removed

  datatype ItemType = UserStory | Bug | Task | Epic | Feature | Issue | Risk

  datatype TimeFrame = Past | Current | Future

  datatype Assignee = Assignee(displayName: string, uniqueName: string, imageUrl: Option<string>)

  datatype WorkItem = WorkItem(
    id: int,
    projectName: string,
    title: string,
    state: State,
    workItemType: ItemType,
    assignedTo: Option<Assignee>,
    storyPoints: Option<real>,
    priority: Option<int>,
    iterationPath: string,
    areaPath: string,
    createdDate: int,
    changedDate: int,
    stateChangeDate: Option<int>,
    closedDate: Option<int>,
    resolvedDate: Option<int>,
    targetDate: Option<int>,
    activatedDate: Option<int>,
    tags: Option<string>,
    description: Option<string>,
    reason: Option<string>,
    parentId: Option<int>,
    hasLinkedIssue: bool,
    hasLinkedRisk: bool)

  datatype Sprint = Sprint(
    id: string,
    name: string,
    path: string,
    projectName: string,
    startDate: Option<int>,
    finishDate: Option<int>,
    timeFrame: TimeFrame)

  datatype Project = Project(name: string, isArchived: bool)

  const MS_PER_DAY: int := 86_400_000
  const MS_PER_MINUTE: int := 60_000

  /** Calendar day number of a timestamp (`startOfDay`, time zone UTC). */
  function Day(ms: int): int
  {
    ms / MS_PER_DAY
  }

  /** A later time never falls on an earlier day. */
  lemma DayMonotone(a: int, b: int)
    requires a <= b
    ensures Day(a) <= Day(b)
  {
  }

  /** `startOfDay(ms)` as a timestamp. */
  function StartOfDay(ms: int): (r: int)
    ensures r <= ms < r + MS_PER_DAY
    ensures r % MS_PER_DAY == 0
  {
    Day(ms) * MS_PER_DAY
  }

  /** date-fns `differenceInDays(later, earlier)`: whole days, truncated toward zero. */
  function DifferenceInDays(later: int, earlier: int): (r: int)
    ensures later >= earlier ==> r >= 0 && r * MS_PER_DAY <= later - earlier < (r + 1) * MS_PER_DAY
    ensures later <= earlier ==> r <= 0
  {
    DivTrunc(later - earlier, MS_PER_DAY)
  }

  /** The wire name of a state (`WorkItemState` string). */
  function StateName(s: State): string
  {
    match s
    case New => "New"
    case Active => "Active"
    case Resolved => "Resolved"
    case Closed => "Closed"
    case Removed => "Removed"
  }

  /** The wire name of a type (`WorkItemType` string). */
  function TypeName(t: ItemType): string
  {
    match t
    case UserStory => "User Story"
    case Bug => "Bug"
    case Task => "Task"
    case Epic => "Epic"
    case Feature => "Feature"
    case Issue => "Issue"
    case Risk => "Risk"
  }

  lemma StateNameInjective(a: State, b: State)
    ensures StateName(a) == StateName(b) ==> a == b
  {
  }

  lemma TypeNameInjective(a: ItemType, b: ItemType)
    ensures TypeName(a) == TypeName(b) ==> a == b
  {
  }

  /** `storyPoints ?? 0`. */
  function Points(w: WorkItem): real
  {
    w.storyPoints.GetOr(0.0)
  }

  /** `assignedTo?.displayName ?? ''`. */
  function AssigneeName(x: WorkItem): string
  {
    if x.assignedTo.Some? then x.assignedTo.value.displayName else ""
  }

  predicate IsCompleted(w: WorkItem)
  {
    w.state == Closed || w.state == Resolved
  }

  predicate NonNegativePoints(items: seq<WorkItem>)
  {
    forall i :: 0 <= i < |items| ==> Points(items[i]) >= 0.0
  }

  /** `ALL_STATES`: every state a decoded item can have. */
  const ALL_STATES: set<State> := {New, Active, Resolved, Closed, Removed}

  /** A set of states with as many members as `ALL_STATES` is `ALL_STATES`. */
  lemma FullStateSet(states: set<State>)
    requires |states| == |ALL_STATES|
    ensures forall s :: s in states
  {
    forall s ensures s in states {
      if s !in states {
        var rest := ALL_STATES - {s};
        assert |rest| == 4 by {
          match s
          case New => assert rest == {Active, Resolved, Closed, Removed};
          case Active => assert rest == {New, Resolved, Closed, Removed};
          case Resolved => assert rest == {New, Active, Closed, Removed};
          case Closed => assert rest == {New, Active, Resolved, Removed};
          case Removed => assert rest == {New, Active, Resolved, Closed};
        }
        assert states <= rest by {
          forall x | x in states ensures x in rest {
            assert x == New || x == Active || x == Resolved || x == Closed || x == Removed;
          }
        }
        SubsetCard(states, rest);
      }
    }
  }

  function InStates(states: set<State>): WorkItem -> bool
  {
    (x: WorkItem) => x.state in states
  }

  /**
   * The state filter of the Gantt chart and the tables: with every state
   * selected the list is returned as it is, otherwise the items whose
   * state is selected. The shortcut never changes the outcome.
   */
  function StateFilter(items: seq<WorkItem>, states: set<State>): (r: seq<WorkItem>)
    ensures r == Filter(items, InStates(states))
  {
    if |states| == |ALL_STATES| then
      FullStateSet(states);
      FilterKeepsAll(items, InStates(states));
      items
    else Filter(items, InStates(states))
  }
}

=== FILE: workload.dfy ===
/**
 * Team workload (src/hooks/useTeamWorkload.ts): per assignee, the number
 * of assigned user stories, how many of them are completed, their story
 * points and the completed points ("velocity" within the visible items),
 * largest load first.
 */
module Workload {
  import opened Common
  import opened WorkItems

  datatype Member = Member(
    name: string,
    imageUrl: Option<string>,
    stories: nat,
    completedStories: nat,
    storyPoints: real,
    velocity: real)

  /** The items that count: user stories with an assignee. */
  predicate IsStory(w: WorkItem)
  {
    w.workItemType == UserStory && w.assignedTo.Some?
  }

  function Stories(items: seq<WorkItem>): (r: seq<WorkItem>)
    ensures forall x :: x in r <==> x in items && IsStory(x)
  {
    Filter(items, (w: WorkItem) => IsStory(w))
  }

  /** The member a story is counted for: its assignee's display name. */
  function Owner(w: WorkItem): string
  {
    if w.assignedTo.Some? then w.assignedTo.value.displayName else ""
  }

  function IsDone(): WorkItem -> bool { (w: WorkItem) => IsCompleted(w) }

  /** The entry accumulated for one name; the picture is the first story's. */
  function ToMember(g: Group<string, WorkItem>): Member
  {
    var done := Filter(g.members, IsDone());
    Member(
      g.key,
      if |g.members| > 0 && g.members[0].assignedTo.Some? then g.members[0].assignedTo.value.imageUrl else None,
      |g.members|, |done|, SumReal(g.members, Points), SumReal(done, Points))
  }

  function MemberPoints(m: Member): real { m.storyPoints }
  function MemberStories(m: Member): nat { m.stories }
  function MemberName(m: Member): string { m.name }

  /** `useTeamWorkload`; the sprints argument is unused by the source and absent here. */
  function TeamWorkload(items: seq<WorkItem>): (r: seq<Member>)
    ensures multiset(r) == multiset(Map(GroupBy(Stories(items), Owner), ToMember))
    ensures forall i, j :: 0 <= i < j < |r| ==> r[i].storyPoints >= r[j].storyPoints
  {
    DescendingRealIsPreorder(MemberPoints);
    var r := SortBy(Map(GroupBy(Stories(items), Owner), ToMember), DescendingReal(MemberPoints));
    PointsDescending(r);
    r
  }

  lemma PointsDescending(r: seq<Member>)
    requires SortedBy(r, DescendingReal(MemberPoints))
    ensures forall i, j :: 0 <= i < j < |r| ==> r[i].storyPoints >= r[j].storyPoints
  {
    forall i, j | 0 <= i < j < |r| ensures r[i].storyPoints >= r[j].storyPoints {
      assert DescendingReal(MemberPoints)(r[i], r[j]) == RealSign(MemberPoints(r[j]) - MemberPoints(r[i]));
      assert DescendingReal(MemberPoints)(r[i], r[j]) <= 0;
    }
  }

  /** The stories of one member. */
  function StoriesOf(items: seq<WorkItem>, name: string): seq<WorkItem>
  {
    Filter(Stories(items), KeyIs(Owner, name))
  }

  /** An entry is the aggregate of the stories of its member among `s`. */
  predicate Aggregates(s: seq<WorkItem>, m: Member)
  {
    var mine := Filter(s, KeyIs(Owner, m.name));
    m.stories == |mine| >= 1 &&
    m.completedStories == |Filter(mine, IsDone())| &&
    m.storyPoints == SumReal(mine, Points) &&
    m.velocity == SumReal(Filter(mine, IsDone()), Points)
  }

  lemma GroupedAggregates(s: seq<WorkItem>)
    ensures forall j :: 0 <= j < |GroupBy(s, Owner)| ==> Aggregates(s, ToMember(GroupBy(s, Owner)[j]))
  {
    var g := GroupBy(s, Owner);
    forall j | 0 <= j < |g| ensures Aggregates(s, ToMember(g[j])) {
      assert g[j].members == Filter(s, KeyIs(Owner, g[j].key)) by { GroupByMembers(s, Owner); }
      assert |g[j].members| >= 1 by { GroupByNonEmpty(s, Owner); }
      assert ToMember(g[j]).name == g[j].key;
    }
  }

  /** Every entry is exactly the aggregate of its member's stories. */
  lemma WorkloadEntries(items: seq<WorkItem>)
    ensures var r := TeamWorkload(items);
      forall i :: 0 <= i < |r| ==> Aggregates(Stories(items), r[i])
  {
    var s := Stories(items);
    var g := GroupBy(s, Owner);
    var t := Map(g, ToMember);
    var r := TeamWorkload(items);
    forall i | 0 <= i < |r| ensures Aggregates(s, r[i]) {
      assert r[i] in multiset(t);
      var j :| 0 <= j < |t| && t[j] == r[i];
      assert t[j] == ToMember(g[j]);
      assert Aggregates(s, ToMember(g[j])) by { GroupedAggregates(s); }
    }
  }

  /** No assignee has two entries. */
  lemma WorkloadNamesDistinct(items: seq<WorkItem>)
    ensures NoDup(Map(TeamWorkload(items), MemberName))
  {
    var s := Stories(items);
    var g := GroupBy(s, Owner);
    var t := Map(g, ToMember);
    var r := TeamWorkload(items);
    assert Map(t, MemberName) == GroupKeys(g);
    forall i, j | 0 <= i < j < |t| ensures MemberName(t[i]) != MemberName(t[j]) {
      assert Map(t, MemberName)[i] == t[i].name && Map(t, MemberName)[j] == t[j].name;
    }
    PermutationKeepsDistinctKeys(t, r, MemberName);
    forall i, j | 0 <= i < j < |r| ensures Map(r, MemberName)[i] != Map(r, MemberName)[j] {
      assert MemberName(r[i]) != MemberName(r[j]);
    }
  }

  lemma GroupedNamesCover(s: seq<WorkItem>, x: WorkItem)
    requires x in s
    ensures Owner(x) in Map(Map(GroupBy(s, Owner), ToMember), MemberName)
  {
    var g := GroupBy(s, Owner);
    GroupByKeys(s, Owner);
    var i :| 0 <= i < |s| && s[i] == x;
    assert Map(s, Owner)[i] == Owner(x);
    assert Owner(x) in GroupKeys(g);
    assert Map(Map(g, ToMember), MemberName) == GroupKeys(g);
  }

  /** Every assignee of a qualifying story has an entry. */
  lemma WorkloadNamesCover(items: seq<WorkItem>)
    ensures forall x :: x in Stories(items) ==> Owner(x) in Map(TeamWorkload(items), MemberName)
  {
    var s := Stories(items);
    var t := Map(GroupBy(s, Owner), ToMember);
    forall x | x in s ensures Owner(x) in Map(TeamWorkload(items), MemberName) {
      GroupedNamesCover(s, x);
      PermutationKeepsKeys(t, TeamWorkload(items), MemberName, Owner(x));
    }
  }

  /** The entries' story counts add up to the number of qualifying stories. */
  lemma WorkloadStoriesSum(items: seq<WorkItem>)
    ensures SumNat(TeamWorkload(items), MemberStories) == |Stories(items)|
  {
    var s := Stories(items);
    var g := GroupBy(s, Owner);
    var t := Map(g, ToMember);
    GroupBySizes(s, Owner);
    SumNatMap(g, ToMember, MemberCount, MemberStories);
    SumNatPermutation(t, TeamWorkload(items), MemberStories);
  }

  /** Completed stories never exceed stories, and with non-negative points velocity never exceeds the load. */
  lemma WorkloadBounds(items: seq<WorkItem>)
    requires NonNegativePoints(items)
    ensures var r := TeamWorkload(items);
      forall i :: 0 <= i < |r| ==>
        r[i].completedStories <= r[i].stories && 0.0 <= r[i].velocity <= r[i].storyPoints
  {
    var s := Stories(items);
    var r := TeamWorkload(items);
    forall x | x in s ensures Points(x) >= 0.0 {
      var j :| 0 <= j < |items| && items[j] == x;
    }
    forall i | 0 <= i < |r| ensures r[i].completedStories <= r[i].stories && 0.0 <= r[i].velocity <= r[i].storyPoints {
      assert Aggregates(s, r[i]) by { WorkloadEntries(items); }
      MemberBounds(s, r[i]);
    }
  }

  /** The bounds for one aggregate over stories with non-negative points. */
  lemma MemberBounds(s: seq<WorkItem>, m: Member)
    requires Aggregates(s, m)
    requires forall x :: x in s ==> Points(x) >= 0.0
    ensures m.completedStories <= m.stories && 0.0 <= m.velocity <= m.storyPoints
  {
    var mine := Filter(s, KeyIs(Owner, m.name));
    var done := Filter(mine, IsDone());
    forall k | 0 <= k < |mine| ensures Points(mine[k]) >= 0.0 {
      assert mine[k] in s;
    }
    SumRealFilterLe(mine, IsDone(), Points);
    forall k | 0 <= k < |done| ensures Points(done[k]) >= 0.0 {
      assert done[k] in mine;
      assert done[k] in s;
    }
  }
}
